=== FILE: README.md ===
# Qwerty-Lafayette: the layout compiler, the keyboard emulator and the installer filters

This project models the core of the Qwerty-Lafayette keyboard layout
repository in Dafny and proves properties of the model. It has three parts.

**The layout compiler.** A layout is drawn as ASCII-art templates, one per
geometry. It is read into six layers that map key names to characters:

- layers 0 and 1: base and shift;
- layers 2 and 3: the "1dk" dead key (the Lafayette key) and the same with shift;
- layers 4 and 5: AltGr and AltGr with shift.

The layers are then written out as an XKB symbols section (Linux), a KLC
layout (Windows) and macOS key maps. Three generations of the compiler are
modelled:

- `script/make.py`: the `Layout` class. Its template reader and writer
  (`_parse_template`, `_fill_template`) are the modules `Template` and
  `Layouts`. The registration of dead keys and the 1dk table are in
  `Layouts`. Its exporters `xkb`, `klc`, `klc_deadkeys`, `klc_dkIndex`,
  `klc_dkLafayette`, `get_osx_keyMap` and `osx_terminators` are the module
  `ScriptExport`.
- `make.py`: global layers reset by `import_layout`, `upper_key`,
  `template_to_text` and the exporters `export_xkb`, `export_klc_layout`
  and `export_klc_deadkey`. These are the modules `ClassicViews`,
  `ClassicExport` and `Combining`.
- `build/make.py`: the `│`-split scanner `import_layout` (module
  `BuildImport`), its exporters (`ClassicExport`, parameterised by
  generation), `get_template` (`ClassicViews`), the `GEOMETRY_*` tables
  (`BuildGeometry`) and the `supportedSymbols` literal of `export_xkb`
  (`BuildKeysyms`).

**The keyboard emulator** of `js/x-keyboard.js` is the module `Keyboard`:

- key hints: `getKeyList`, `getDeadKeyDict` and `getKeySequence`;
- the modifier levels;
- `keyDown`/`keyUp` with a pending dead key;
- `altUpperChar`.

The heatmap's `supportedChars` and its URL-hash state (`js/heatmap.js`) are
the module `Heatmap`.

**The marker-block filters** of the Linux installers:

- `XkbManager` models `releases/lafayette_linux_v0.8.py`: the layout index
  (`add`, `remove`), the `KALAMINE::`/`LAFAYETTE::` markers, the line filter
  and append loop of `update_symbols_locale`, the locale loop of
  `update_symbols` and the mask of `list_rules`.
- `Uninstall` models the `LAFAYETTE::BEGIN`/`END` filter of
  `bin/xkb_uninstall.py`.

**Conventions.**

- Python dicts and JavaScript objects whose order matters are sequences of
  `(name, value)` entries in insertion order (module `Entries`). Layers,
  whose order does not matter, are Dafny maps.
- Python exceptions are a `Result` with the exception's class
  (`IndexError`, `KeyError`, `TypeError`, `ValueError`, `SystemExit`), and
  a loop stops at the first one.
- The Unicode database (`str.upper`, `str.lower`, `unicodedata.combining`,
  `str.isspace`) is a parameter, `CharDb`.
- The YAML tables (geometries, dead keys, key codes, keysyms) are
  parameters too, and so is the keysym table the exporters receive. The
  tables written inline in `make.py` and `build/make.py` are constants.
  `build/make.py`'s `supportedSymbols` literal (lines 94-293) is the entry
  list `BuildKeysyms.SupportedSymbols`, in the order written, and the dict
  Python builds from it is `BuildKeysyms.SupportedKeysyms`.
- File contents are strings, read line by line as Python reads a file
  (module `FileLines`). The string is the text after Python's
  universal-newline translation, so its lines end in `\n` and it holds no
  `\r`.
- The exporters of `make.py` (`export_xkb`, `export_klc_layout`,
  `export_klc_deadkey`) and of `build/make.py` (lines 339, 450 and 478)
  return `'\n'.join(output)`. Their models return the list `output`, the
  lines before that final join. The `script/make.py` properties return the
  list itself, as modelled.

## Model

| member | source | states |
|---|---|---|
| Casing.UpperKey | script/make.py:44-61 | an override partner wins; otherwise the upper case when upper and lower case differ; otherwise a blank |
| Casing.UpperKeyOfBlank | script/make.py:58-61 | a blank cell derives a blank partner |
| Combining.AddSpaces | script/make.py:15-22 | each combining mark gets one space before it; every other character is copied in order |
| Combining.RemoveSpaces | script/make.py:25-32 | a leading combining mark is an IndexError (`out[-1]` on an empty list); otherwise the text loses exactly one character per combining mark |
| Combining.RemoveAfterAdd | script/make.py:15-32 | reading back a text written with spaces before its marks gives the text, for every text |
| Combining.AddAfterRemove | script/make.py:15-32 | a text whose marks all follow a space reads and re-writes to itself |
| Combining.TemplateToText | make.py:74-78 | each template line, indented and spaced, becomes one line of the text, and splitting at newlines gives them back |
| Combining.LinesToText | script/make.py:35-41 | like template_to_text, but an empty line stays empty and the last newline is dropped |
| Text.HexOrd | script/make.py:64-65 | the hex digits of the code point, zero-padded to at least four, read back as the code point |
| Text.HexOrdPadding | script/make.py:64-65 | `zfill(4)` pads only up to four digits: a longer result has no leading zero |
| Escapes.HexOrdExact | script/make.py:64-65 | `hex_ord` is the only digit string of at least four digits, padded no further than four, that denotes the code point |
| Escapes.HexOrdOf | script/make.py:64-65 | ord accepts exactly one character; any other value is a TypeError |
| Escapes.HexOrdWidth | script/make.py:64-65 | every code point takes four to six digits |
| Escapes.XmlProof | script/make.py:68-72 | a single character is itself unless it is one of the five specials, which become a hexadecimal reference; a longer value that is a substring of the specials is a TypeError from `ord` |
| Escapes.XmlRoundTrip | script/make.py:68-72 | an XML reader resolves the escaped form of any single character back to that character |
| Escapes.XmlSafe | script/make.py:68-72 | an escaped character holds no raw `<`, `>`, `"` or no-break space, and `&` only to open a reference |
| Text.Utf16Length | js/x-keyboard.js:21-23 | JavaScript's length counts two units for a character above U+FFFF and one for any other |
| Text.Utf16LengthAppend | js/x-keyboard.js:21-23 | the length of a concatenation is the sum of the lengths of its parts |
| Template.Cells | script/make.py:166-196 | every key of every row is visited, once, with its own row and column |
| Template.Derive | script/make.py:178-181 | on the base layer an empty base is the lower-cased shift; elsewhere an empty shift is the upper_key of the base |
| Template.Parse | script/make.py:158-196 | reading fails (IndexError) exactly on a missing line or a column past a line's end; the layers read hold only the geometry's keys and never a blank |
| Template.ParseValues | script/make.py:174-186 | with distinct keys, each key holds exactly what its own cell derives |
| Template.FillKeys | script/make.py:216-234 | one row's writes fail exactly when a column is past its line; otherwise each column holds what the layer pair puts there |
| Template.FillRows | script/make.py:208-238 | each row rewrites its own two lines; no other line changes |
| Template.Fill | script/make.py:198-240 | a missing line is an IndexError; the template keeps its length and every line outside the rows |
| Template.FillFits | script/make.py:198-240 | filling a template whose key cells are all readable cannot fail |
| Template.FilledCell | script/make.py:216-232 | the characters a filled blank template holds at each key's cell |
| Template.FillThenParse | script/make.py:158-240 | filling one-character layers into a fresh template and reading it back gives the layers, up to what the fill leaves implied |
| Template.FillThenParseAltLayer | script/make.py:178-232 | off the base layer, a pair whose missing shifts are exactly those upper_key cannot derive comes back unchanged |
| Template.FillThenParseBaseLayer | script/make.py:178-232 | on the base layer, a pair whose implied bases are the lower case of their shift comes back unchanged |
| Layouts.LastIndex | script/make.py:188-192 | the last registry entry for a character, or -1 when there is none |
| Layouts.RegisterValue | script/make.py:188-192 | a dead-key character is stored with its last registry entry; any other value changes nothing |
| Layouts.RegisterAll | script/make.py:188-192 | the dead keys registered are exactly the dead-key characters seen, each with its last registry entry |
| Layouts.DkIndex | script/make.py:127-129 | dk_index lists exactly the registered dead keys that are in the registry |
| Layouts.DkIndexDistinct | script/make.py:127-129 | with distinct registry characters, every used dead key is listed once |
| Layouts.DkIndexOrder | script/make.py:127-129 | with distinct registry characters, dk_index follows registry order |
| Layouts.ExtKeys | script/make.py:142-152 | the non-separator keys that have a dead-key entry, in key-list order |
| Layouts.LafayettePairs | script/make.py:142-152 | a key with a dead-key entry but no base is a KeyError; otherwise the base and dead-key characters of exactly those keys, in order |
| Layouts.LafayetteTable | script/make.py:137-156 | the 1dk table is built exactly when both layer pairs are covered; otherwise a KeyError |
| Layouts.WithLafayette | script/make.py:131-156 | without the 1dk nothing changes; with it only its base and alt are replaced by the table |
| Layouts.LafayetteAligned | script/make.py:142-156 | with one-character layers the 1dk's base and alt have equal length and pair each key's base with its dead-key character |
| Layouts.ReadLayers | script/make.py:119-124 | the three template reads succeed exactly when every cell they visit is readable, and the six layers are the pairs read from the base template at layers 0 and 2 and from the AltGr template at layer 4 |
| Layouts.Finish | script/make.py:125-156 | keeps the layers, registers every dead key seen, and lists the used ones; the 1dk entry's `base` and `alt` are the table built from layers 0-3; it fails (KeyError) exactly when the 1dk is used and some dead-key layer key is missing from its base layer |
| Layouts.NewLayout | script/make.py:111-156 | a template starting with a combining mark is an IndexError; the layers of a layout built are what the three reads of the cleaned templates give, with only geometry keys and no blanks; every dead key its layers use is registered, and the 1dk entry holds the table built from layers 0-3 |
| Layouts.FillPair | script/make.py:208-240 | a pair number without a layer behind it is an IndexError exactly when a row line is missing or some row has a key (the layers are read only for a key), and otherwise gives the template back; a valid pair is `_fill_template`; only row lines change |
| Layouts.GetGeometry | script/make.py:242-249 | the pairs are filled in turn: a pair without layers fails as soon as some row has a key, and a template whose rows have no keys comes back unchanged; a missing row line is an IndexError; only row lines change |
| Layouts.GeometryReadsBack | script/make.py:158-249 | the view of one pair, drawn on a blank geometry, reads back as that pair, up to what the fill leaves implied |
| ClassicViews.GlobalImport | make.py:379-422 | the layers are reset to six; a leading combining mark is an IndexError; the layers read hold only geometry keys and no blanks |
| ClassicViews.GlobalImportAgrees | make.py:379-422 | make.py reads the same layers as script/make.py's Layout, and fails when it fails |
| ClassicViews.GlobalFill | make.py:303-345 | a pair number without both layers, or a missing template line, is an IndexError; only the row lines change |
| ClassicViews.GlobalFillThenRead | make.py:303-409 | filling one-character global layers and reading them back gives the layers, up to what the fill leaves implied |
| ClassicViews.GetTemplate | build/make.py:598-644 | a pair number without both layers, or a missing template line, is an IndexError; only the row lines change |
| ClassicViews.GetTemplateShowsGlyphs | build/make.py:598-644 | in the view of a fresh template, no key cell shows a dead-key character |
| ClassicTables.GlyphOf | build/make.py:5-17 | a dead key's glyph is one character, not a dead key and not blank |
| ClassicTables.XkbNameOf | build/make.py:5-17 | every dead key's X11 name fits the 16-character column |
| ClassicTables.KlcCodesPlain | make.py:169-226 | no scan-code entry holds a stray tab |
| ClassicTables.NotLiteralN | build/make.py:346-354 | `N` and `n` are missing from the literal list, so they are written as code points |
| BuildGeometry.AnsiFramed | build/make.py:484-525 | sixteen lines of equal width; every key fits on each layer pair |
| BuildGeometry.IsoFramed | build/make.py:527-569 | sixteen lines of equal width; every key fits on each layer pair |
| BuildGeometry.ErgoFramed | build/make.py:571-596 | sixteen lines of equal width; every key fits on each layer pair |
| BuildGeometry.ErgoReusesIso | build/make.py:571-596 | the ergonomic rows are the ISO keys with their own offsets |
| BuildImport.Levels | build/make.py:61-69 | fewer than 48 pieces is an IndexError; otherwise six levels |
| BuildImport.LevelsOfDrawing | build/make.py:61-69 | each level glues its four row pieces in row order |
| BuildImport.ReadLevel | build/make.py:71-84 | a level no longer than the key list is an IndexError; otherwise only listed keys get scanned values |
| BuildImport.ReadPlain | build/make.py:71-84 | without dead keys, each key reads its own position |
| BuildImport.StaleAfterDeadKey | build/make.py:75-83 | a key name that meets a dead key stores it and skips two positions, keeping the dead key as `keyValue`; the next real key name then stores the dead key again unless it meets a dead key itself, and the character right after the dead key is never read |
| BuildImport.ReadLevels | build/make.py:62-84 | the six levels are read in order; the first failure stops the import |
| BuildImport.Import | build/make.py:40-84 | six layers are appended after the ones already there; fewer than 48 pieces is an IndexError |
| BuildImport.ImportTwice | build/make.py:40-84 | a second import keeps the first file's six layers in front |
| ClassicExport.ClassicXkbSlot | make.py:130-146 | absent is VoidSymbol; a dead key is its X11 name; a fitting keysym is used; otherwise a `U` code, or a TypeError |
| ClassicExport.GlobalXkbKey | make.py:128-158 | fails with the slot's TypeError or, with fewer than six layers, an IndexError; each slot reads back from its column |
| ClassicExport.GlobalDescription | make.py:156-157 | showing descriptions only appends the comment |
| ClassicExport.OldestXkbKey | build/make.py:298-339 | fails as the global line does; each slot reads back from its column |
| ClassicExport.OldestExtraLayers | build/make.py:298-339 | layers after the sixth change only the comment |
| ClassicExport.GlobalXkb | make.py:110-160 | fails exactly when some key's line fails; otherwise a header per section and a line per key, in order |
| ClassicExport.OldestXkb | build/make.py:93-339 | like make.py's export on build's key list; fewer than six layers always fails |
| ClassicExport.OldestRepeatedKeysyms | build/make.py:94-326 | with build's own `supportedSymbols`, the six characters the literal writes twice get the name written second: `'` is `quoteright`, `` ` `` is `quoteleft`, U+00D0 `Eth`, U+00D8 `Ooblique`, U+00DE `Thorn`, U+00F8 `ooblique` |
| BuildKeysyms.LastWins | build/make.py:94-293 | a dict literal maps a key to its last entry: an entry with no later entry for its key is the value kept |
| BuildKeysyms.DictOfAppend | build/make.py:94-293 | the dict of two entry lists written one after the other is the first's dict overridden by the second's |
| BuildKeysyms.RepeatedKeysLastWins | build/make.py:94-293 | U+0027, U+0060, U+00D0, U+00D8, U+00DE and U+00F8 are each written twice in `supportedSymbols` (lines 102-103, 160-161, 241-242, 250-251, 257-258, 284-285), and the dict keeps the second name |
| ClassicExport.ClassicKlcSlot | make.py:241-256 | absent is `-1`; a dead key is its glyph's code with `@`; a literal is itself; anything else is a code point or a TypeError |
| ClassicExport.ClassicKlcKey | make.py:228-262 | a key missing from the scan codes is a KeyError; the fields split at tabs give the entry, then the slots |
| ClassicExport.ClassicKlc | make.py:168-264 | fails exactly when some key's line fails; otherwise a header per section and a line per key, in order |
| ClassicExport.DkLine | make.py:281-293 | no line without a dead-key entry; a missing base is a KeyError; the fields read back as the two code points |
| ClassicExport.DkPass | make.py:271-293 | missing layers are an IndexError; otherwise the pass appends its chunks |
| ClassicExport.ClassicKlcDeadKey | make.py:267-295 | written exactly when four layers exist and both passes can be written |
| ClassicExport.ClassicKlcDeadKeyShape | make.py:271-293 | the second pass's first header follows a blank line |
| ScriptExport.XkbSlot | script/make.py:268-288 | absent is VoidSymbol; the 1dk is the level-3 latch; other dead keys are `dead_` names; a fitting keysym is used; otherwise a `U` code, or a TypeError |
| ScriptExport.XkbKey | script/make.py:266-300 | fails exactly when a slot does; each slot reads back from its fixed column |
| ScriptExport.Xkb | script/make.py:252-302 | fails exactly when some key's line fails; otherwise a header per section and a line per key, in order |
| ScriptExport.KlcSlot | script/make.py:323-340 | absent is `-1`; a dead key is its alt_space code with `@`; a supported symbol is itself; otherwise a code point; never a tab |
| ScriptExport.KlcKey | script/make.py:319-349 | a key missing from the scan codes is a KeyError; split at tabs the line gives the entry, the CapsLock flag and the slots |
| ScriptExport.Klc | script/make.py:305-351 | fails exactly when some key's line fails; otherwise a header per section and a line per key |
| ScriptExport.LafayetteLine | script/make.py:410-423 | no line without a dead-key entry; a missing base is a KeyError; otherwise the pair line of the shown characters |
| ScriptExport.LafayettePass | script/make.py:400-423 | one pass appends its chunks after the output so far |
| ScriptExport.KlcDkLafayette | script/make.py:396-425 | written exactly when both passes can be written |
| ScriptExport.KlcDkLafayetteShape | script/make.py:400-425 | the second pass continues the first after a blank line |
| ScriptExport.PairLines | script/make.py:373-374 | an alt shorter than the base is an IndexError; otherwise one line per base character pairs it with its alt |
| ScriptExport.DeadKeyBlock | script/make.py:363-380 | a missing dead key is a KeyError; a block is head, pairs and tail, ending with a blank line |
| ScriptExport.KlcDeadKeys | script/make.py:354-382 | written exactly when every used dead key's block is; the blocks in order without the final blank |
| ScriptExport.KlcDeadKeysShape | script/make.py:354-382 | with the dropped blank put back, the blocks follow one another |
| ScriptExport.KlcDkIndex | script/make.py:385-393 | one line per used dead key, in order; its first field reads back as the alt_space code point and the rest is the dead key's upper-cased name in quotes |
| ScriptExport.OsxOutput | script/make.py:447-464 | absent is `&#x0010;`; a dead key is its `dead_` action; a character with dead keys is an action; a shown character reads back from its escape |
| ScriptExport.OsxKeyLine | script/make.py:447-465 | a key missing from the key codes is a KeyError; otherwise one element, its `code="…"` attribute padded with spaces to 10 columns |
| ScriptExport.OsxState | script/make.py:430-431 | indices -5 to 4 are valid (Python indexing from the end included); 0 to 4 pick layers 0, 1, 0, 4 and 5, and only index 2 upper-cases for CapsLock |
| ScriptExport.OsxKeyMap | script/make.py:427-467 | an index outside the list is an IndexError; otherwise the key map of the chosen layer |
| ScriptExport.TerminatorLine | script/make.py:560-564 | a dead key missing from the table is a KeyError; otherwise the `state="…"` attribute padded with spaces to 18 columns, then the escaped `alt_self` |
| ScriptExport.OsxTerminators | script/make.py:557-567 | written exactly when every used dead key's terminator is; one per dead key, in dk_index order |
| Listing.Export | script/make.py:259-264 | a separator adds a blank line then its header, except at the very start; keys add their lines in order; the first failing key's error stops it |
| Keyboard.CharNotDeadKey | js/x-keyboard.js:21-23 | a single character is never a dead-key identifier |
| Keyboard.IndexOf | js/x-keyboard.js:34 | the first position holding the character, or -1 exactly when none does |
| Keyboard.GetKeyList | js/x-keyboard.js:31-40 | every hint names a key that types the character at that level; every such key is hinted, and once when key names are unique |
| Keyboard.HitValue | js/x-keyboard.js:31-40 | the key a hint names holds the character at the hinted level |
| Keyboard.KeyListDirect | js/x-keyboard.js:31-40 | the list is empty exactly when no key types the character |
| Keyboard.GetDeadKeyDict | js/x-keyboard.js:43-54 | a character lists exactly the dead keys and bases that give it |
| Keyboard.DictEntry | js/x-keyboard.js:43-54 | a listed dead key and base lead back to the character |
| Keyboard.CharHints | js/x-keyboard.js:60-70 | a character some key types gets the first such key in key-map order; otherwise, when the dead-key dictionary lists it, the keys of the first listed dead key and of its base; otherwise `{}`, which appears exactly when the character cannot be typed |
| Keyboard.GetKeySequence | js/x-keyboard.js:57-73 | one or two hints per character: exactly one each when no character needs a dead key, two each when all do, and `{}` exactly when some character cannot be typed |
| Keyboard.SequenceSnoc | js/x-keyboard.js:57-73 | one more character adds its own hints at the end of the sequence |
| Keyboard.SequenceInOrder | js/x-keyboard.js:57-73 | the sequence is the hints of each character, front to back, as `forEach` walks the text |
| Keyboard.SequenceAppend | js/x-keyboard.js:57-73 | the hints of a concatenation are the hints of its parts, in order |
| Keyboard.ModifierLevel | js/x-keyboard.js:90-107 | the level is below 4, odd exactly when Shift is held, and 2 or more exactly when AltGr is |
| Keyboard.NewKeyboardLayout | js/x-keyboard.js:113-140 | every modifier is released and no dead key is pending |
| Keyboard.KeyUp | js/x-keyboard.js:141-145 | releases one modifier; nothing else changes |
| Keyboard.KeyDown | js/x-keyboard.js:146-165 | a modifier sets its flag and the others keep theirs; an unknown key types nothing and keeps the pending dead key; with a dead key pending, the key types that table's entry for the value at the current level (or nothing) and the dead key is spent; otherwise a dead-key value arms `deadKeys[value]` and types nothing, and any other value types itself (or nothing when the level has none) |
| Keyboard.KeyValue | js/x-keyboard.js:146-165 | the key's value at the modifier level, undefined past its end |
| Keyboard.PressRelease | js/x-keyboard.js:141-165 | pressing and releasing a modifier restores the modifiers |
| Keyboard.HintTypes | js/x-keyboard.js:31-40 | pressing a hinted key at its level types the character |
| Keyboard.DeadHintTypes | js/x-keyboard.js:43-73 | the dead key's hint arms its table and types nothing, and the base's hint then types the character |
| Keyboard.AltUpperChar | js/x-keyboard.js:325-326 | the shift is shown exactly when it is not simply the upper case of the base |
| Heatmap.FirstKey | js/heatmap.js:16-26 | the first key, in key-map order, with the character on a level; none exactly when no key has it |
| Heatmap.FirstPass | js/heatmap.js:16-26 | a one-unit character maps to its first key; a longer value records its first key as a dead key |
| Heatmap.AddDeadTable | js/heatmap.js:30-34 | the table only grows; each new entry comes from a typeable base; each typeable base's result is present |
| Heatmap.SecondPass | js/heatmap.js:29-35 | every dead key's table is added in order, growing the table |
| Heatmap.SupportedChars | js/heatmap.js:11-38 | direct characters map to their first key alone; every other entry comes through a dead key from a typeable base |
| Heatmap.UpdateHashState | js/heatmap.js:155-160 | the state takes the new value and the hash is written for the new state |
| Heatmap.ApplyHashState | js/heatmap.js:161-167 | each identifier gets its hash piece after the first slash, or `''` |
| Heatmap.HashRoundTrip | js/heatmap.js:155-167 | the hash written for a state reads back as the state when no value holds a slash |
| Heatmap.UpdateThenApply | js/heatmap.js:155-167 | changing one select and reloading from the hash restores the same state |
| XkbManager.Remove | releases/lafayette_linux_v0.8.py:44-48 | an identifier that does not split into exactly two parts is a ValueError |
| XkbManager.AddLookup | releases/lafayette_linux_v0.8.py:37-42 | after add, the layout's locale and variant find it; every other pair finds what it found before |
| XkbManager.RemoveLookup | releases/lafayette_linux_v0.8.py:44-48 | after remove, the pair is marked for removal; every other pair is unchanged |
| XkbManager.RemoveAfterAdd | releases/lafayette_linux_v0.8.py:37-48 | removing a just-added layout leaves it marked for removal |
| XkbManager.MarkedName | releases/lafayette_linux_v0.8.py:131-138 | the name between the Kalamine prefix and `::BEGIN`, `LAFAYETTE` for a legacy line, none for other lines |
| XkbManager.MarkRoundTrip | releases/lafayette_linux_v0.8.py:111-148 | a begin marker reads back its upper-case name, and the end the filter waits for is the layout's own end marker |
| XkbManager.FilterFacts | releases/lafayette_linux_v0.8.py:143-161 | a block is deleted exactly when a marked begin line appears; when none appears, every line is kept in order |
| XkbManager.FilterBlock | releases/lafayette_linux_v0.8.py:143-161 | a block deleted anywhere in the file leaves the text before it right-stripped (line 151) followed directly by the text after it, so the line before the block runs into the line after it unless that line is blank |
| XkbManager.FilterSkips | releases/lafayette_linux_v0.8.py:160-161 | inside a block ordinary lines are dropped |
| XkbManager.KeptInsideBlock | releases/lafayette_linux_v0.8.py:146-159 | inside a block, an unmarked begin line and a non-closing end line are still kept |
| XkbManager.UpdateLocale | releases/lafayette_linux_v0.8.py:124-181 | the file is rewritten, right-stripped, exactly when a marked block was found; the new blocks follow |
| XkbManager.Reinstall | releases/lafayette_linux_v0.8.py:143-179 | reinstalling a layout replaces its block and keeps the rest; removing it leaves only the rest |
| XkbManager.UpdateSymbols | releases/lafayette_linux_v0.8.py:184-202 | locales are rewritten in index order; the first missing locale exits (SystemExit) after the earlier ones were rewritten, and the later ones are untouched |
| XkbManager.ParseMask | releases/lafayette_linux_v0.8.py:270-277 | `''` and `*` match all; otherwise exactly `locale/variant`, or SystemExit; the two parts rejoin to the mask |
| XkbManager.Collect | releases/lafayette_linux_v0.8.py:283-296 | one entry per identifier, present exactly when some selected variant has it, holding the description of the first selected variant with that identifier; it agrees with `FirstDescription` for every identifier |
| XkbManager.FirstDescriptionOf | releases/lafayette_linux_v0.8.py:289-294 | the first selected variant with an identifier gives that identifier its description |
| XkbManager.FirstDescriptionFrom | releases/lafayette_linux_v0.8.py:289-294 | any description found for an identifier comes from the first selected variant with it |
| XkbManager.ListRules | releases/lafayette_linux_v0.8.py:264-296 | fails exactly when the mask does; otherwise lists the selected variants |
| XkbManager.EmptyMaskListsAll | releases/lafayette_linux_v0.8.py:270-272 | the empty mask lists every typed variant |
| Uninstall.MarksExclusive | bin/xkb_uninstall.py:19-20 | no line ends with both markers |
| Uninstall.FilterFacts | bin/xkb_uninstall.py:29-36 | only non-marker lines are kept, in order, and a rewrite is recorded exactly when a begin marker appears |
| Uninstall.FilterOutside | bin/xkb_uninstall.py:29-36 | the filter keeps exactly the lines outside all blocks |
| Uninstall.Reset | bin/xkb_uninstall.py:24-41 | a file without a begin marker is untouched; otherwise it becomes the lines outside the blocks |
| Uninstall.ResetIdempotent | bin/xkb_uninstall.py:24-41 | running the uninstaller a second time changes nothing |
| Uninstall.UnclosedDropsRest | bin/xkb_uninstall.py:29-36 | a begin marker with no end marker after it drops the rest of the file |

## Left out

- `osx_actions` (script/make.py:470-555) is not modelled: it builds the
  macOS action table from each dead key's strings and adds no layer logic
  beyond `get_osx_keyMap`.
- File and YAML I/O, `print`, `open`, `shutil.copy` and the `.orig` backups
  are not modelled. File contents are strings, and YAML tables and the
  Unicode database are parameters.
- Keyboard.GetKeyList: the final `sort` with a boolean comparator
  (js/x-keyboard.js:39) is not modelled, because its result depends on the
  engine's sort. The list is kept in key-map order. Its own contract states
  only order-independent facts.
- Keyboard.CharHints: the hint for a directly typed character, and the two
  hints through a dead key, are the first key in key-map order. The source
  takes the first key after the sort at js/x-keyboard.js:39; an engine that
  reads the boolean `a.level > b.level` as "swap" can put a later key of a
  lower level first, and then the source hints a different key.
- Keyboard.GetKeySequence: built from `CharHints`, so its hints are also the
  first keys in key-map order, not after the engine's sort.
- Prototype-chain quirks of JavaScript `in` on plain objects are not
  modelled.
- `Object.entries` putting integer-like keys first is not modelled: entries
  keep insertion order.
- Heatmap.ApplyHashState: percent-encoding of `location.hash` is not
  modelled. The hash is the string written.
- The heatmap's metrics, drawing and DOM handlers are not modelled. They are
  display code.
- `update_rules` and the XML edits of the installer (`get_rules_locale`,
  `add_rules_variant`, `remove_rules_variant`) are not modelled; they rely
  on lxml/XPath. For the same reason, `list_rules` takes the `<variant>`
  elements as a parameter.
- XkbManager.UpdateSymbols: `XKBManager.update` also calls `update_rules`
  and then resets the index. Only the symbols part is modelled, with
  `exit_FileNotWritable` left out.
- The `list` and `list_all` wrappers are not modelled: they only forward
  to `list_rules`.
- The glob over `symbols/??` in `bin/xkb_uninstall.py` is not modelled;
  the filter is stated for one file. The uninstaller's rules part is left
  out, like `update_rules`.
- Later and earlier copies of the installers (v0.8.1, v0.6, `xkb_install`)
  are not part of this model.
- The geometry compositions of `make.py` and of `build/make.py`
  (`export_geometry_base`, `export_geometry_altgr`, `export_geometry_dead`
  and `export_geometry`, build/make.py:646-661) are not modelled. They only
  prefix and join the lines of fills (`template_to_text`, `get_template`),
  which are modelled.
- Universal newlines: `open(path, 'r+')` (releases/lafayette_linux_v0.8.py:140,
  bin/xkb_uninstall.py:28) reads `\r\n` and a lone `\r` as `\n`. The
  filters take the text after that translation, so a file with CRLF or CR
  line endings is not modelled as stored on disk.
- Geometry row offsets are natural numbers; Python's negative indexing
  into a template line is not modelled.

=== FILE: build_geometry.dfy ===
/** The `GEOMETRY_ANSI`, `GEOMETRY_ISO` and `GEOMETRY_ERGO` tables of
    build/make.py: the key rows and the box-drawing templates of its
    geometry views. */
module BuildGeometry {
  import opened Geometry
  import opened Template

  /** The key lists of the ISO rows, which the ergonomic geometry reuses. */
  const IsoDigitRow: seq<string> :=
    ["tlde", "ae01", "ae02", "ae03", "ae04", "ae05", "ae06", "ae07", "ae08", "ae09", "ae10", "ae11", "ae12"]
  const IsoFirstRow: seq<string> :=
    ["ad01", "ad02", "ad03", "ad04", "ad05", "ad06", "ad07", "ad08", "ad09", "ad10", "ad11", "ad12"]
  const IsoSecondRow: seq<string> :=
    ["ac01", "ac02", "ac03", "ac04", "ac05", "ac06", "ac07", "ac08", "ac09", "ac10", "ac11", "bksl"]
  const IsoThirdRow: seq<string> :=
    ["lsgt", "ab01", "ab02", "ab03", "ab04", "ab05", "ab06", "ab07", "ab08", "ab09", "ab10"]

  /** `GEOMETRY_ANSI['rows']`: `bksl` ends the first letter row and there is
      no `lsgt`. */
  const AnsiRows: seq<Row> := [
    Row(2, IsoDigitRow),
    Row(11, IsoFirstRow + ["bksl"]),
    Row(12, IsoSecondRow[..11]),
    Row(15, IsoThirdRow[1..])
  ]

  /** `GEOMETRY_ISO['rows']`. */
  const IsoRows: seq<Row> := [Row(2, IsoDigitRow), Row(11, IsoFirstRow), Row(12, IsoSecondRow), Row(9, IsoThirdRow)]

  /** `GEOMETRY_ERGO['rows']`: the ISO key lists at offsets 2, 8, 8 and 2. */
  const ErgoRows: seq<Row> := [
    Row(2, IsoRows[0].keys),
    Row(8, IsoRows[1].keys),
    Row(8, IsoRows[2].keys),
    Row(2, IsoRows[3].keys)
  ]

  const AnsiTemplate: seq<string> := [
      "┌─────┬─────┬─────┬─────┬─────┬─────┬─────┬─────┬─────┬─────┬─────┬─────┬─────┲━━━━━━━━━━┓",
      "│     │     │     │     │     │     │     │     │     │     │     │     │     ┃          ┃",
      "│     │     │     │     │     │     │     │     │     │     │     │     │     ┃ ⌫        ┃",
      "┢━━━━━┷━━┱──┴──┬──┴──┬──┴──┬──┴──┬──┴──┬──┴──┬──┴──┬──┴──┬──┴──┬──┴──┬──┴──┬──┺━━┯━━━━━━━┩",
      "┃        ┃     │     │     │     │     │     │     │     │     │     │     │     │       │",
      "┃ ↹      ┃     │     │     │     │     │     │     │     │     │     │     │     │       │",
      "┣━━━━━━━━┻┱────┴┬────┴┬────┴┬────┴┬────┴┬────┴┬────┴┬────┴┬────┴┬────┴┬────┴┲━━━━┷━━━━━━━┪",
      "┃         ┃     │     │     │     │     │     │     │     │     │     │     ┃            ┃",
      "┃ ⇬       ┃     │     │     │     │     │     │     │     │     │     │     ┃ ⏎          ┃",
      "┣━━━━━━━━━┻━━┱──┴──┬──┴──┬──┴──┬──┴──┬──┴──┬──┴──┬──┴──┬──┴──┬──┴──┬──┴──┲━━┻━━━━━━━━━━━━┫",
      "┃            ┃     │     │     │     │     │     │     │     │     │     ┃               ┃",
      "┃ ⇧          ┃     │     │     │     │     │     │     │     │     │     ┃ ⇧             ┃",
      "┣━━━━━━━┳━━━━┻━━┳━━┷━━━━┱┴─────┴─────┴─────┴─────┴─────┴─┲━━━┷━━━┳━┷━━━━━╋━━━━━━━┳━━━━━━━┫",
      "┃       ┃       ┃       ┃ ⍽ nbsp                         ┃       ┃       ┃       ┃       ┃",
      "┃ Ctrl  ┃ super ┃ Alt   ┃ ␣                            ’ ┃ AltGr ┃ super ┃ menu  ┃ Ctrl  ┃",
      "┗━━━━━━━┻━━━━━━━┻━━━━━━━┹────────────────────────────────┺━━━━━━━┻━━━━━━━┻━━━━━━━┻━━━━━━━┛"
  ]

  const IsoTemplate: seq<string> := [
      "┌─────┬─────┬─────┬─────┬─────┬─────┬─────┬─────┬─────┬─────┬─────┬─────┬─────┲━━━━━━━━━━┓",
      "│     │     │     │     │     │     │     │     │     │     │     │     │     ┃          ┃",
      "│     │     │     │     │     │     │     │     │     │     │     │     │     ┃ ⌫        ┃",
      "┢━━━━━┷━━┱──┴──┬──┴──┬──┴──┬──┴──┬──┴──┬──┴──┬──┴──┬──┴──┬──┴──┬──┴──┬──┴──┬──┺━━┳━━━━━━━┫",
      "┃        ┃     │     │     │     │     │     │     │     │     │     │     │     ┃       ┃",
      "┃ ↹      ┃     │     │     │     │     │     │     │     │     │     │     │     ┃       ┃",
      "┣━━━━━━━━┻┱────┴┬────┴┬────┴┬────┴┬────┴┬────┴┬────┴┬────┴┬────┴┬────┴┬────┴┬────┺┓  ⏎   ┃",
      "┃         ┃     │     │     │     │     │     │     │     │     │     │     │     ┃      ┃",
      "┃ ⇬       ┃     │     │     │     │     │     │     │     │     │     │     │     ┃      ┃",
      "┣━━━━━━┳━━┹──┬──┴──┬──┴──┬──┴──┬──┴──┬──┴──┬──┴──┬──┴──┬──┴──┬──┴──┬──┴──┲━━┷━━━━━┻━━━━━━┫",
      "┃      ┃     │     │     │     │     │     │     │     │     │     │     ┃               ┃",
      "┃ ⇧    ┃     │     │     │     │     │     │     │     │     │     │     ┃ ⇧             ┃",
      "┣━━━━━━┻┳━━━━┷━━┳━━┷━━━━┱┴─────┴─────┴─────┴─────┴─────┴─┲━━━┷━━━┳━┷━━━━━╋━━━━━━━┳━━━━━━━┫",
      "┃       ┃       ┃       ┃ ⍽ nbsp                         ┃       ┃       ┃       ┃       ┃",
      "┃ Ctrl  ┃ super ┃ Alt   ┃ ␣                            ’ ┃ AltGr ┃ super ┃ menu  ┃ Ctrl  ┃",
      "┗━━━━━━━┻━━━━━━━┻━━━━━━━┹────────────────────────────────┺━━━━━━━┻━━━━━━━┻━━━━━━━┻━━━━━━━┛"
  ]

  const ErgoTemplate: seq<string> := [
      "╭╌╌╌╌╌┰─────┬─────┬─────┬─────┬─────┰─────┬─────┬─────┬─────┬─────┰╌╌╌╌╌┬╌╌╌╌╌╮",
      "┆     ┃     │     │     │     │     ┃     │     │     │     │     ┃     ┆     ┆",
      "┆     ┃     │     │     │     │     ┃     │     │     │     │     ┃     ┆     ┆",
      "╰╌╌╌╌╌╂─────┼─────┼─────┼─────┼─────╂─────┼─────┼─────┼─────┼─────╂╌╌╌╌╌┼╌╌╌╌╌┤",
      "      ┃     │     │     │     │     ┃     │     │     │     │     ┃     ┆     ┆",
      "      ┃     │     │     │     │     ┃     │     │     │     │     ┃     ┆     ┆",
      "      ┠─────┼─────┼─────┼─────┼─────╂─────┼─────┼─────┼─────┼─────╂╌╌╌╌╌┼╌╌╌╌╌┤",
      "      ┃     │     │     │     │     ┃     │     │     │     │     ┃     ┆     ┆",
      "      ┃     │     │     │     │     ┃     │     │     │     │     ┃     ┆     ┆",
      "╭╌╌╌╌╌╂─────┼─────┼─────┼─────┼─────╂─────┼─────┼─────┼─────┼─────╂╌╌╌╌╌┴╌╌╌╌╌╯",
      "┆     ┃     │     │     │     │     ┃     │     │     │     │     ┃            ",
      "┆     ┃     │     │     │     │     ┃     │     │     │     │     ┃            ",
      "╰╌╌╌╌╌┸─────┴─────┴─────┴─────┴─────┸─────┴─────┴─────┴─────┴─────┚            ",
      "                ╭───────┬───────────────────────┬───────╮                      ",
      "                │  Alt  │                       │ AltGr │                      ",
      "                ╰───────┴───────────────────────┴───────╯                      "
  ]

  /** Whether every line of the template has `width` characters, there are
      lines for every row, and every key column of every row lies inside
      that width for layer pair `n`. */
  predicate Framed(template: seq<string>, rows: seq<Row>, n: nat, width: nat)
  {
    && (forall l | 0 <= l < |template| :: |template[l]| == width)
    && 3 * |rows| <= |template|
    && (forall j | 0 <= j < |rows| :: |rows[j].keys| == 0 || Column(rows[j], n, |rows[j].keys| - 1) < width)
  }

  /** In a framed template every key cell can be read and written. */
  lemma FramedInBounds(template: seq<string>, rows: seq<Row>, n: nat, width: nat)
    requires Framed(template, rows, n, width)
    ensures LinesPresent(template, rows) && AllInBounds(template, Cells(rows, n))
  {
    var cs := Cells(rows, n);
    forall i | 0 <= i < |cs| ensures InBounds(template, cs[i]) {
      assert CellOf(rows, n, cs[i]);
    }
  }

  /** The three geometries' templates have sixteen lines of equal width,
      and every key of every row fits inside them on each layer pair, so
      reading or filling them never indexes past a line. */
  lemma AnsiFramed(n: nat)
    requires n == 0 || n == 2 || n == 4
    ensures Framed(AnsiTemplate, AnsiRows, n, 90) && |AnsiTemplate| == 16
  {
  }

  lemma IsoFramed(n: nat)
    requires n == 0 || n == 2 || n == 4
    ensures Framed(IsoTemplate, IsoRows, n, 90) && |IsoTemplate| == 16
  {
  }

  lemma ErgoFramed(n: nat)
    requires n == 0 || n == 2 || n == 4
    ensures Framed(ErgoTemplate, ErgoRows, n, 79) && |ErgoTemplate| == 16
  {
  }

  /** The ergonomic geometry places exactly the ISO keys, row by row. */
  lemma ErgoReusesIso()
    ensures |ErgoRows| == |IsoRows| == 4
    ensures forall j | 0 <= j < 4 :: ErgoRows[j].keys == IsoRows[j].keys
    ensures [ErgoRows[0].offset, ErgoRows[1].offset, ErgoRows[2].offset, ErgoRows[3].offset] == [2, 8, 8, 2]
  {
  }
}

=== FILE: build_import.dfy ===
/** The layout reader of build/make.py. The layout drawing is cut at every
    `│`; four of the pieces, one per keyboard row, are glued into one line
    per level, and each line is scanned one character per position against
    a fixed list of key names. Unlike make.py's reader, this one appends the
    six layers it reads to the ones already there. */
module BuildImport {
  import opened Results
  import opened Text
  import opened Template
  import opened ClassicTables

  /** The box-drawing bar that separates the cells of the drawing. */
  const Bar: char := '\U{2502}'

  /** The two characters that mean "no symbol here": a space and a no-break
      space. */
  predicate Blank(c: char)
  {
    c == ' ' || c == '\U{00a0}'
  }

  /** The key names the scanner walks, one per character position of a
      level; `""` marks a position that holds no key. */
  const ScanKeys: seq<string> :=
    [ "", "tlde",
      "", "ae01", "ae02", "ae03", "ae04", "ae05",
      "", "ae06", "ae07", "ae08", "ae09", "ae10",
      "", "ae11", "ae12", "", "",
      "", "" ] +
    [ "", "ad01", "ad02", "ad03", "ad04", "ad05",
      "", "ad06", "ad07", "ad08", "ad09", "ad10",
      "", "ad11", "ad12", "bksl", "",
      "", "" ] +
    [ "", "ac01", "ac02", "ac03", "ac04", "ac05",
      "", "ac06", "ac07", "ac08", "ac09", "ac10",
      "", "ac11", "", "", "" ] +
    [ "", "lsgt",
      "", "ab01", "ab02", "ab03", "ab04", "ab05",
      "", "ab06", "ab07", "ab08", "ab09", "ab10" ]

  /** For each of the six levels (base, shift, 1dk, shift 1dk, AltGr, shift
      AltGr), the piece of the drawing holding its first row; the other
      three rows follow four pieces apart. */
  const LevelStarts: seq<nat> := [9, 33, 10, 34, 11, 35]

  function Level(pieces: seq<string>, s: nat): string
    requires s + 12 < |pieces|
  {
    pieces[s] + pieces[s + 4] + pieces[s + 8] + pieces[s + 12]
  }

  /** `levels` of `import_layout`: the drawing needs at least 48 pieces,
      else indexing them is an IndexError. */
  function Levels(text: string): (r: Result<seq<string>>)
    ensures r.Ok? <==> |Split(text, Bar)| >= 48
    ensures r.Fail? ==> r.error == IndexError
    ensures r.Ok? ==> |r.value| == 6
  {
    var pieces := Split(text, Bar);
    if |pieces| < 48 then Fail(IndexError)
    else Ok(seq(6, l requires 0 <= l < 6 => Level(pieces, LevelStarts[l])))
  }

  /** A drawing made of bar-free pieces gives back, for each level, its
      four row pieces glued in row order. */
  lemma LevelsOfDrawing(pieces: seq<string>, l: nat)
    requires |pieces| >= 48 && l < 6
    requires forall i | 0 <= i < |pieces| :: Bar !in pieces[i]
    ensures Levels(Join(pieces, [Bar])).Ok?
    ensures var s := LevelStarts[l];
      Levels(Join(pieces, [Bar])).value[l] == pieces[s] + pieces[s + 4] + pieces[s + 8] + pieces[s + 12]
  {
    SplitJoin(pieces, Bar);
  }

  /** The scanner's state: the layer read so far, the position `i` in the
      level, and `keyValue`, the character the next key may store. */
  datatype Scan = Scan(layer: Layer, i: nat, keyValue: char)

  /** One turn of the scan loop for key name `name`. It looks one position
      ahead: a dead key there is stored under `name` and skipped over;
      otherwise `keyValue` is stored under a real key name unless blank.
      Either way the character looked at becomes the next `keyValue`. */
  function ScanStep(level: string, st: Scan, name: string): Result<Scan>
  {
    if st.i + 1 >= |level| then Fail(IndexError)
    else
      var next := level[st.i + 1];
      if IsDeadKey([next]) then Ok(Scan(st.layer[name := [next]], st.i + 2, next))
      else if name != "" && !Blank(st.keyValue) then Ok(Scan(st.layer[name := [st.keyValue]], st.i + 1, next))
      else Ok(Scan(st.layer, st.i + 1, next))
  }

  /** A value the scanner may store: one character, a dead key or not
      blank. */
  predicate Scanned(v: string)
  {
    |v| == 1 && (IsDeadKey(v) || !Blank(v[0]))
  }

  /** The loop from key `k` on. It fails when the level runs out before
      the names do; otherwise it only adds names of the list, each with a
      scanned value, and moves at least one position per name. */
  function ScanFrom(level: string, names: seq<string>, k: nat, st: Scan): (r: Result<Scan>)
    requires k <= |names|
    ensures |level| <= st.i + (|names| - k) && k < |names| ==> r == Fail(IndexError)
    ensures r.Fail? ==> r.error == IndexError
    ensures r.Ok? ==> r.value.i >= st.i + (|names| - k)
    ensures r.Ok? ==> forall name | name in r.value.layer ::
              (name in st.layer && r.value.layer[name] == st.layer[name])
              || ((exists j | k <= j < |names| :: names[j] == name) && Scanned(r.value.layer[name]))
    decreases |names| - k
  {
    if k == |names| then Ok(st)
    else
      match ScanStep(level, st, names[k])
      case Fail(e) => Fail(e)
      case Ok(st') =>
        var r := ScanFrom(level, names, k + 1, st');
        assert r.Ok? ==> forall name | name in st'.layer ::
          (name in st.layer && st'.layer[name] == st.layer[name])
          || (names[k] == name && Scanned(st'.layer[name]));
        r
  }

  /** One level scanned into a layer, `keyValue` starting at its first
      character (an IndexError on an empty level). */
  function ReadLevel(level: string, names: seq<string>): (r: Result<Layer>)
    ensures |level| <= |names| ==> r == Fail(IndexError)
    ensures r.Fail? ==> r.error == IndexError
    ensures r.Ok? ==> forall name | name in r.value ::
              (exists j | 0 <= j < |names| :: names[j] == name) && Scanned(r.value[name])
  {
    if |level| == 0 then Fail(IndexError)
    else
      match ScanFrom(level, names, 0, Scan(map[], 0, level[0]))
      case Fail(e) => Fail(e)
      case Ok(st) => Ok(st.layer)
  }

  // ------------------------------------------------- reference reading

  /** The layer the first `n` names give when each simply takes the
      character at its own position, blanks left out and a later name
      overriding an earlier one. */
  function PlainLayer(level: string, names: seq<string>, n: nat): Layer
    requires n <= |names| && n <= |level|
  {
    if n == 0 then map[]
    else
      var layer := PlainLayer(level, names, n - 1);
      if names[n - 1] != "" && !Blank(level[n - 1]) then layer[names[n - 1] := [level[n - 1]]] else layer
  }

  /** No dead key among the positions the scanner looks ahead at. */
  predicate NoDeadKeys(level: string, from: nat, to: nat)
    requires from <= to <= |level|
  {
    forall p | from <= p < to :: !IsDeadKey([level[p]])
  }

  /** Without dead keys the scanner moves one position per name, each
      name reading its own position: the scan is the plain reading. */
  lemma {:induction false} ScanPlain(level: string, names: seq<string>, k: nat, st: Scan)
    requires k <= |names| < |level|
    requires NoDeadKeys(level, k + 1, |names| + 1)
    requires st == Scan(PlainLayer(level, names, k), k, level[k])
    ensures ScanFrom(level, names, k, st) == Ok(Scan(PlainLayer(level, names, |names|), |names|, level[|names|]))
    decreases |names| - k
  {
    if k < |names| {
      assert !IsDeadKey([level[k + 1]]);
      var st' := Scan(PlainLayer(level, names, k + 1), k + 1, level[k + 1]);
      assert ScanStep(level, st, names[k]) == Ok(st');
      ScanPlain(level, names, k + 1, st');
    }
  }

  /** A level without dead keys reads as the plain reading. */
  lemma ReadPlain(level: string, names: seq<string>)
    requires |names| < |level|
    requires NoDeadKeys(level, 1, |names| + 1)
    ensures ReadLevel(level, names) == Ok(PlainLayer(level, names, |names|))
  {
    ScanPlain(level, names, 0, Scan(map[], 0, level[0]));
  }

  /** No dead key is a blank. */
  lemma DeadKeyNotBlank(c: char)
    requires IsDeadKey([c])
    ensures !Blank(c)
  {
    assert [c][0] == c;
  }

  /** After a dead key the scanner moves two positions on but keeps the
      dead key as `keyValue`: the name that meets it stores it, the next
      real name stores it again unless it meets a dead key of its own, and
      the character just after the dead key is never read, whatever it
      is. */
  lemma StaleAfterDeadKey(level: string, st: Scan, name: string, name2: string, c: char)
    requires st.i + 3 < |level| && IsDeadKey([level[st.i + 1]])
    requires name2 != "" && !IsDeadKey([level[st.i + 3]])
    ensures var d := level[st.i + 1];
      var st1 := Scan(st.layer[name := [d]], st.i + 2, d);
      && ScanStep(level, st, name) == Ok(st1)
      && ScanStep(level, st1, name2) == Ok(Scan(st1.layer[name2 := [d]], st.i + 3, level[st.i + 3]))
    ensures var other := level[st.i + 2 := c];
      && ScanStep(other, st, name) == ScanStep(level, st, name)
      && ScanStep(other, ScanStep(level, st, name).value, name2)
         == ScanStep(level, ScanStep(level, st, name).value, name2)
  {
    DeadKeyNotBlank(level[st.i + 1]);
  }

  /** The smallest drawing that shows it: a dead key first, then `x` and
      `y`; both keys store the dead key and neither `x` nor `y` is read. */
  lemma StaleExample()
    ensures ReadLevel([' ', '\U{0301}', 'x', 'y'], ["k1", "k2"]) == Ok(map["k1" := "\U{0301}", "k2" := "\U{0301}"])
  {
    var level := [' ', '\U{0301}', 'x', 'y'];
    assert IsDeadKey([level[1]]);
    assert !IsDeadKey([level[3]]);
    var st1 := Scan(map["k1" := "\U{0301}"], 2, '\U{0301}');
    assert ScanStep(level, Scan(map[], 0, ' '), "k1") == Ok(st1);
  }

  // ---------------------------------------------------- import_layout

  /** The six levels scanned, in order; the first that fails stops the
      import. */
  function ReadLevels(levels: seq<string>): (r: Result<seq<Layer>>)
    ensures r.Ok? <==> forall l | 0 <= l < |levels| :: ReadLevel(levels[l], ScanKeys).Ok?
    ensures r.Ok? ==> |r.value| == |levels|
    ensures r.Ok? ==> forall l | 0 <= l < |levels| :: r.value[l] == ReadLevel(levels[l], ScanKeys).value
    ensures r.Fail? ==> r.error == IndexError
  {
    match MapAll(levels, (level: string) => ReadLevel(level, ScanKeys))
    case Fail(e) =>
      assert exists l | 0 <= l < |levels| :: ReadLevel(levels[l], ScanKeys) == Fail(e);
      Fail(e)
    case Ok(layers) => Ok(layers)
  }

  /** `import_layout(filePath)` on the file's text: six layers appended to
      the global list, which keeps whatever an earlier import put there. */
  function Import(layers: seq<Layer>, text: string): (r: Result<seq<Layer>>)
    ensures |Split(text, Bar)| < 48 ==> r == Fail(IndexError)
    ensures r.Fail? ==> r.error == IndexError
    ensures r.Ok? ==> |r.value| == |layers| + 6 && r.value[..|layers|] == layers
    ensures r.Ok? ==> forall l, name | |layers| <= l < |r.value| && name in r.value[l] ::
              name in ScanKeys && Scanned(r.value[l][name])
  {
    match Levels(text)
    case Fail(e) => Fail(e)
    case Ok(levels) =>
      match ReadLevels(levels)
      case Fail(e) => Fail(e)
      case Ok(read) =>
        assert forall l, name | 0 <= l < 6 && name in read[l] :: name in ScanKeys && Scanned(read[l][name]);
        Ok(layers + read)
  }

  /** Importing twice keeps the first import's six layers in front: the
      exporters, which read layers 0 to 5, see only the first file. */
  lemma ImportTwice(text1: string, text2: string)
    requires Import([], text1).Ok?
    ensures Import(Import([], text1).value, text2).Ok? ==>
      && |Import(Import([], text1).value, text2).value| == 12
      && Import(Import([], text1).value, text2).value[..6] == Import([], text1).value
  {
  }
}

=== FILE: casing.dfy ===
/** `upper_key`: the shifted partner the layout compiler derives for a
    character (script/make.py and make.py define it identically). */
module Casing {
  import opened Unicode

  /** Symbol pairs whose shifted partner is fixed by the layout rather than
      by Unicode case mapping. */
  const Overrides: map<string, string> := map[
    "\U{00df}" := "\U{1e9e}",  // sharp s, capital sharp s
    "\U{007c}" := "\U{00a6}",  // vertical bar, broken bar
    "\U{003c}" := "\U{2264}",  // less-than, less-than or equal
    "\U{003e}" := "\U{2265}",  // greater-than, greater-than or equal
    "\U{2020}" := "\U{2021}",  // dagger, double dagger
    "\U{2190}" := "\U{21d0}",  // arrows, double arrows
    "\U{2191}" := "\U{21d1}",
    "\U{2192}" := "\U{21d2}",
    "\U{2193}" := "\U{21d3}"
  ]

  /** The shifted partner of `letter`, or a blank `" "` when none can be
      derived: an override partner, else the upper case of a cased
      character. */
  function UpperKey(db: CharDb, letter: string): (r: string)
    ensures letter in Overrides ==> r == Overrides[letter] && r != " "
    ensures letter !in Overrides && r != " " ==> r == db.upper(letter) && db.upper(letter) != db.lower(letter)
    ensures letter !in Overrides && db.upper(letter) != db.lower(letter) && db.upper(letter) != " " ==> r == db.upper(letter)
    ensures letter !in Overrides && db.upper(letter) == db.lower(letter) ==> r == " "
  {
    if letter in Overrides then Overrides[letter]
    else if db.upper(letter) != db.lower(letter) then db.upper(letter)
    else " "
  }

  /** A blank cell derives a blank partner: the space is not cased. */
  lemma UpperKeyOfBlank(db: CharDb)
    requires SpaceIsPlain(db)
    ensures UpperKey(db, " ") == " "
  {
  }

  /** The override partners are themselves never overridden again, so
      shifting twice through the table does not cycle. */
  lemma OverridesAcyclic(letter: string)
    requires letter in Overrides
    ensures Overrides[letter] !in Overrides
  {
  }
}

=== FILE: classic_export.dfy ===
/** The exporters of the two older generations: `export_xkb`,
    `export_klc_layout` and `export_klc_deadkey` of make.py, which work on
    the global `layout_layers`, and of build/make.py, which work on the
    global `layers` list that every import appends to. Both name dead keys
    through the hard-coded `DEAD_KEYS` table; the keysym names and, for
    make.py, the literal KLC symbols come from tables passed in. Each
    exporter returns `'\n'.join(output)`; the functions here give `output`,
    the lines before that join. */
module ClassicExport {
  import opened Results
  import opened Unicode
  import opened Text
  import opened Geometry
  import opened Template
  import opened Listing
  import opened Escapes
  import opened Formats
  import opened ClassicTables
  import opened BuildKeysyms

  /** Which of the two programs: make.py with its fixed six global layers,
      or build/make.py with its appended layer list. */
  datatype Generation = Global | Oldest

  /** The key list each generation walks. */
  function KeysOf(gen: Generation): (r: seq<string>)
    ensures |r| > 0 && IsSeparator(r[0])
  {
    LayerKeysOpen();
    BuildLayerKeysOpen();
    if gen == Global then LayerKeys else BuildLayerKeys
  }

  /** A layer value as a KLC file shows it: a dead key by its glyph. */
  function Glyph(v: string): (r: string)
    ensures IsDeadKey(v) ==> |r| == 1 && !IsDeadKey(r)
    ensures !IsDeadKey(v) ==> r == v
  {
    if IsDeadKey(v) then GlyphOf(v) else v
  }

  // ---------------------------------------------------------------- xkb

  /** Whether the keysym table gives `v` a name short enough to use:
      make.py accepts names of up to 16 characters, build/make.py only
      names shorter than 16. */
  predicate NameFits(gen: Generation, keysyms: map<string, string>, v: string)
  {
    v in keysyms && (if gen == Global then |keysyms[v]| <= Width else |keysyms[v]| < Width)
  }

  /** One column of an XKB key line: `VoidSymbol` for an absent key, the
      X11 name of a dead key (shown by its glyph), a keysym name that fits,
      else the `U`+hex name of the code point, which `ord` only gives for a
      single character. Every symbol but a keysym name sits in its column. */
  function ClassicXkbSlot(gen: Generation, keysyms: map<string, string>, layer: Layer, key: string): (r: Result<Slot>)
    ensures key !in layer ==> r == Ok(Slot("VoidSymbol", " "))
    ensures key in layer && IsDeadKey(layer[key]) ==>
      r == Ok(Slot(XkbNameOf(layer[key]), GlyphOf(layer[key])))
    ensures key in layer && !IsDeadKey(layer[key]) && NameFits(gen, keysyms, layer[key]) ==>
      r == Ok(Slot(keysyms[layer[key]], layer[key]))
    ensures key in layer && !IsDeadKey(layer[key]) && !NameFits(gen, keysyms, layer[key]) ==>
      && (r.Ok? <==> |layer[key]| == 1)
      && (r.Ok? ==> CodePointName(r.value.symbol, layer[key][0]) && r.value.desc == layer[key])
    ensures r.Fail? ==> r.error == TypeError
    ensures r.Ok? ==> |r.value.symbol| <= Width
    ensures r.Ok? && (key !in layer || !NameFits(gen, keysyms, layer[key])) ==> Fits(r.value.symbol)
  {
    if key !in layer then VoidFits(); Ok(Slot("VoidSymbol", " "))
    else
      var v := layer[key];
      if IsDeadKey(v) then Ok(Slot(XkbNameOf(v), GlyphOf(v)))
      else if NameFits(gen, keysyms, v) then Ok(Slot(keysyms[v], v))
      else if |v| == 1 then
        var h := HexOrdUpper(v[0]);
        HexOrdWidth(v[0]);
        assert |h| == |HexOrd(v[0])|;
        assert ("U" + h)[1..] == h;
        CodeNameFits(h);
        Ok(Slot("U" + h, v))
      else Fail(TypeError)
  }

  lemma VoidFits()
    ensures Fits("VoidSymbol")
  {
    assert "VoidSymbol"[9] == 'l';
  }

  /** A `U`+hex name of up to six digits sits in its column. */
  lemma CodeNameFits(h: string)
    requires 0 < |h| <= 6 && forall i | 0 <= i < |h| :: h[i] in HexDigitsUpper
    ensures Fits("U" + h)
  {
    var d := h[|h| - 1];
    assert ("U" + h)[|h|] == d;
    var k :| 0 <= k < |HexDigitsUpper| && HexDigitsUpper[k] == d;
  }

  /** The slots of `key` in every layer, in order; the first value that
      cannot be named stops the line. */
  function ClassicXkbSlots(gen: Generation, keysyms: map<string, string>, layers: seq<Layer>, key: string)
    : (r: Result<seq<Slot>>)
    ensures r.Ok? <==> forall i | 0 <= i < |layers| :: ClassicXkbSlot(gen, keysyms, layers[i], key).Ok?
    ensures r.Fail? ==> r.error == TypeError
    ensures r.Ok? ==> (|r.value| == |layers|
      && forall i | 0 <= i < |layers| :: r.value[i] == ClassicXkbSlot(gen, keysyms, layers[i], key).value)
  {
    MapAll(layers, (l: Layer) => ClassicXkbSlot(gen, keysyms, l, key))
  }

  /** Whether the first six slots of `key` all sit in their columns. */
  predicate SlotsFit(gen: Generation, keysyms: map<string, string>, layers: seq<Layer>, key: string)
    requires |layers| >= 6
  {
    forall i | 0 <= i < 6 :: ClassicXkbSlot(gen, keysyms, layers[i], key).Ok?
      && Fits(ClassicXkbSlot(gen, keysyms, layers[i], key).value.symbol)
  }

  /** The indented text before a key line's columns. */
  function ClassicPrefix(db: CharDb, key: string): string
  {
    "    key <" + db.upper(key) + "> "
  }

  /** A key line up to the end of its columns. */
  function XkbHead(db: CharDb, key: string, slots: seq<Slot>): string
    requires |slots| >= 6
  {
    ClassicPrefix(db, key) + XkbColumns(Symbols(slots))
  }

  /** make.py's key line: the first six slots in their 16-character
      columns, closed by `]};`, then, when descriptions are shown, the
      comment ` //` followed by every slot's character. A value that cannot
      be named fails first; fewer than six layers is an IndexError. */
  function GlobalXkbKey(db: CharDb, keysyms: map<string, string>, layers: seq<Layer>, show: bool, key: string)
    : (r: Result<seq<string>>)
    ensures r.Ok? <==> ClassicXkbSlots(Global, keysyms, layers, key).Ok? && |layers| >= 6
    ensures r.Fail? ==>
      || (r.error == TypeError && ClassicXkbSlots(Global, keysyms, layers, key).Fail?)
      || (r.error == IndexError && |layers| < 6)
    ensures r.Ok? ==> |r.value| == 1 && StartsWith(r.value[0], ClassicPrefix(db, key))
    ensures r.Ok? && SlotsFit(Global, keysyms, layers, key) ==>
      forall i | 0 <= i < 6 :: XkbColumn(r.value[0][|ClassicPrefix(db, key)|..], i)
                               == ClassicXkbSlot(Global, keysyms, layers[i], key).value.symbol
  {
    match ClassicXkbSlots(Global, keysyms, layers, key)
    case Fail(e) => Fail(e)
    case Ok(slots) =>
      if |slots| < 6 then Fail(IndexError)
      else
        var tail := "]};" + (if show then Describe(" //", slots) else "");
        XkbKeyColumns(ClassicPrefix(db, key), Symbols(slots), tail);
        Ok([XkbHead(db, key, slots) + tail])
  }

  /** Showing descriptions only appends the comment: the line without them
      is a prefix of the line with them, and the rest is ` //` and one
      character per layer. */
  lemma GlobalDescription(db: CharDb, keysyms: map<string, string>, layers: seq<Layer>, key: string)
    requires GlobalXkbKey(db, keysyms, layers, false, key).Ok?
    ensures GlobalXkbKey(db, keysyms, layers, true, key).Ok?
    ensures GlobalXkbKey(db, keysyms, layers, true, key).value[0]
         == GlobalXkbKey(db, keysyms, layers, false, key).value[0]
            + Describe(" //", ClassicXkbSlots(Global, keysyms, layers, key).value)
  {
    var slots := ClassicXkbSlots(Global, keysyms, layers, key).value;
    var head := XkbHead(db, key, slots);
    GlobalLine(db, keysyms, layers, false, key);
    GlobalLine(db, keysyms, layers, true, key);
    AppendComment(head, "]};", Describe(" //", slots));
  }

  lemma AppendComment(head: string, close: string, comment: string)
    ensures head + (close + "") + comment == head + (close + comment)
  {
  }

  lemma GlobalLine(db: CharDb, keysyms: map<string, string>, layers: seq<Layer>, show: bool, key: string)
    requires GlobalXkbKey(db, keysyms, layers, false, key).Ok?
    ensures GlobalXkbKey(db, keysyms, layers, show, key).Ok?
    ensures var slots := ClassicXkbSlots(Global, keysyms, layers, key).value;
      GlobalXkbKey(db, keysyms, layers, show, key).value
      == [XkbHead(db, key, slots) + ("]};" + if show then Describe(" //", slots) else "")]
  {
  }

  /** build/make.py's key line: the slots of all layers are computed, the
      first six fill the columns, closed by ` ]}; `, and the comment `//`
      with every slot's character follows, stripped of surrounding white
      space. Fewer than six layers is an IndexError. */
  function OldestXkbKey(db: CharDb, keysyms: map<string, string>, layers: seq<Layer>, key: string)
    : (r: Result<seq<string>>)
    ensures r.Ok? <==> ClassicXkbSlots(Oldest, keysyms, layers, key).Ok? && |layers| >= 6
    ensures r.Fail? ==>
      || (r.error == TypeError && ClassicXkbSlots(Oldest, keysyms, layers, key).Fail?)
      || (r.error == IndexError && |layers| < 6)
    ensures r.Ok? ==> |r.value| == 1 && StartsWith(r.value[0], ClassicPrefix(db, key))
    ensures r.Ok? && SlotsFit(Oldest, keysyms, layers, key) ==>
      forall i | 0 <= i < 6 :: XkbColumn(r.value[0][|ClassicPrefix(db, key)|..], i)
                               == ClassicXkbSlot(Oldest, keysyms, layers[i], key).value.symbol
  {
    match ClassicXkbSlots(Oldest, keysyms, layers, key)
    case Fail(e) => Fail(e)
    case Ok(slots) =>
      if |slots| < 6 then Fail(IndexError)
      else
        var tail := " ]}; " + Strip(db.isSpace, Describe("//", slots));
        XkbKeyColumns(ClassicPrefix(db, key), Symbols(slots), tail);
        Ok([XkbHead(db, key, slots) + tail])
  }

  /** build/make.py's `export_xkb` over its own `supportedSymbols`: a
      character the literal writes twice gets the name written second. */
  lemma OldestRepeatedKeysyms(layer: Layer, key: string)
    requires key in layer
    ensures layer[key] == "'" ==> ClassicXkbSlot(Oldest, SupportedKeysyms(), layer, key) == Ok(Slot("quoteright", "'"))
    ensures layer[key] == "`" ==> ClassicXkbSlot(Oldest, SupportedKeysyms(), layer, key) == Ok(Slot("quoteleft", "`"))
    ensures layer[key] == "\U{00d0}" ==> ClassicXkbSlot(Oldest, SupportedKeysyms(), layer, key) == Ok(Slot("Eth", "\U{00d0}"))
    ensures layer[key] == "\U{00d8}" ==> ClassicXkbSlot(Oldest, SupportedKeysyms(), layer, key) == Ok(Slot("Ooblique", "\U{00d8}"))
    ensures layer[key] == "\U{00de}" ==> ClassicXkbSlot(Oldest, SupportedKeysyms(), layer, key) == Ok(Slot("Thorn", "\U{00de}"))
    ensures layer[key] == "\U{00f8}" ==> ClassicXkbSlot(Oldest, SupportedKeysyms(), layer, key) == Ok(Slot("ooblique", "\U{00f8}"))
  {
    RepeatedKeysyms();
    RepeatedNamed(SupportedKeysyms(), layer, key);
  }

  /** The slots of the six repeated characters under any table that names
      them as `supportedSymbols` does. */
  lemma RepeatedNamed(keysyms: map<string, string>, layer: Layer, key: string)
    requires key in layer
    requires "'" in keysyms && keysyms["'"] == "quoteright"
    requires "`" in keysyms && keysyms["`"] == "quoteleft"
    requires "\U{00d0}" in keysyms && keysyms["\U{00d0}"] == "Eth"
    requires "\U{00d8}" in keysyms && keysyms["\U{00d8}"] == "Ooblique"
    requires "\U{00de}" in keysyms && keysyms["\U{00de}"] == "Thorn"
    requires "\U{00f8}" in keysyms && keysyms["\U{00f8}"] == "ooblique"
    ensures layer[key] == "'" ==> ClassicXkbSlot(Oldest, keysyms, layer, key) == Ok(Slot("quoteright", "'"))
    ensures layer[key] == "`" ==> ClassicXkbSlot(Oldest, keysyms, layer, key) == Ok(Slot("quoteleft", "`"))
    ensures layer[key] == "\U{00d0}" ==> ClassicXkbSlot(Oldest, keysyms, layer, key) == Ok(Slot("Eth", "\U{00d0}"))
    ensures layer[key] == "\U{00d8}" ==> ClassicXkbSlot(Oldest, keysyms, layer, key) == Ok(Slot("Ooblique", "\U{00d8}"))
    ensures layer[key] == "\U{00de}" ==> ClassicXkbSlot(Oldest, keysyms, layer, key) == Ok(Slot("Thorn", "\U{00de}"))
    ensures layer[key] == "\U{00f8}" ==> ClassicXkbSlot(Oldest, keysyms, layer, key) == Ok(Slot("ooblique", "\U{00f8}"))
  {
    if layer[key] in ["'", "`", "\U{00d0}", "\U{00d8}", "\U{00de}", "\U{00f8}"] {
      OldestNamed(keysyms, layer, key);
    }
  }

  /** A single non-dead-key character the table names in fewer than 16
      characters is written by that name. */
  lemma OldestNamed(keysyms: map<string, string>, layer: Layer, key: string)
    requires key in layer && |layer[key]| == 1 && layer[key][0] !in DeadKeyNames
    requires layer[key] in keysyms && |keysyms[layer[key]]| < Width
    ensures ClassicXkbSlot(Oldest, keysyms, layer, key) == Ok(Slot(keysyms[layer[key]], layer[key]))
  {
  }

  /** Layers beyond the sixth (a second import appends six more) change
      only the comment: the line for all layers and the line for the first
      six agree up to the comment. */
  lemma OldestExtraLayers(db: CharDb, keysyms: map<string, string>, layers: seq<Layer>, key: string)
    requires OldestXkbKey(db, keysyms, layers, key).Ok?
    ensures OldestXkbKey(db, keysyms, layers[..6], key).Ok?
    ensures var head := XkbHead(db, key, ClassicXkbSlots(Oldest, keysyms, layers[..6], key).value) + " ]}; ";
      && StartsWith(OldestXkbKey(db, keysyms, layers, key).value[0], head)
      && StartsWith(OldestXkbKey(db, keysyms, layers[..6], key).value[0], head)
  {
    var all := ClassicXkbSlots(Oldest, keysyms, layers, key).value;
    SlotsFirstSix(keysyms, layers, key);
    var six := ClassicXkbSlots(Oldest, keysyms, layers[..6], key).value;
    HeadFirstSix(db, key, all, six);
    OldestLine(db, keysyms, layers, key);
    OldestLine(db, keysyms, layers[..6], key);
    var h := XkbHead(db, key, six);
    HeadAndTail(h, " ]}; ", Strip(db.isSpace, Describe("//", all)));
    HeadAndTail(h, " ]}; ", Strip(db.isSpace, Describe("//", six)));
  }

  lemma HeadAndTail(h: string, m: string, t: string)
    ensures StartsWith(h + (m + t), h + m)
  {
    assert (h + (m + t))[..|h + m|] == h + m;
  }

  lemma HeadFirstSix(db: CharDb, key: string, all: seq<Slot>, six: seq<Slot>)
    requires |all| >= 6 && six == all[..6]
    ensures XkbHead(db, key, all) == XkbHead(db, key, six)
  {
    assert Symbols(all)[..6] == Symbols(six)[..6];
    ColumnsFromFirstSix(Symbols(all), Symbols(six), 0);
  }

  lemma OldestLine(db: CharDb, keysyms: map<string, string>, layers: seq<Layer>, key: string)
    requires OldestXkbKey(db, keysyms, layers, key).Ok?
    ensures var slots := ClassicXkbSlots(Oldest, keysyms, layers, key).value;
      OldestXkbKey(db, keysyms, layers, key).value
      == [XkbHead(db, key, slots) + (" ]}; " + Strip(db.isSpace, Describe("//", slots)))]
  {
  }

  /** The slots of the first six layers are the first six slots. */
  lemma SlotsFirstSix(keysyms: map<string, string>, layers: seq<Layer>, key: string)
    requires |layers| >= 6 && ClassicXkbSlots(Oldest, keysyms, layers, key).Ok?
    ensures ClassicXkbSlots(Oldest, keysyms, layers[..6], key).Ok?
    ensures ClassicXkbSlots(Oldest, keysyms, layers[..6], key).value == ClassicXkbSlots(Oldest, keysyms, layers, key).value[..6]
  {
    forall i | 0 <= i < 6 ensures layers[..6][i] == layers[i] {
    }
  }

  /** The line each key contributes to make.py's `export_xkb`. */
  function GlobalXkbLines(db: CharDb, keysyms: map<string, string>, layers: seq<Layer>, show: bool)
    : (f: string -> Result<seq<string>>)
    ensures forall k :: f(k) == GlobalXkbKey(db, keysyms, layers, show, k)
  {
    k => GlobalXkbKey(db, keysyms, layers, show, k)
  }

  /** make.py's `export_xkb`: an indented `//` header per section and one
      key line per key of `LAYER_KEYS`, in order; the first key whose line
      cannot be written stops it. */
  function GlobalXkb(db: CharDb, keysyms: map<string, string>, layers: seq<Layer>, show: bool)
    : (r: Result<seq<string>>)
    ensures r.Fail? ==> r.error == TypeError || r.error == IndexError
    ensures r.Ok? <==> forall j | 0 <= j < |LayerKeys| && !IsSeparator(LayerKeys[j]) ::
                         GlobalXkbKey(db, keysyms, layers, show, LayerKeys[j]).Ok?
    ensures r.Ok? ==> r.value == Concat(Chunks(LayerKeys, KeyLines(LayerKeys, GlobalXkbLines(db, keysyms, layers, show)),
                                               false, "    //", ""))
  {
    LayerKeysOpen();
    Export([], LayerKeys, GlobalXkbLines(db, keysyms, layers, show), "    //", "")
  }

  /** The line each key contributes to build/make.py's `export_xkb`. */
  function OldestXkbLines(db: CharDb, keysyms: map<string, string>, layers: seq<Layer>)
    : (f: string -> Result<seq<string>>)
    ensures forall k :: f(k) == OldestXkbKey(db, keysyms, layers, k)
  {
    k => OldestXkbKey(db, keysyms, layers, k)
  }

  /** build/make.py's `export_xkb` over its own key list. It cannot succeed
      before a layout has been imported: with fewer than six layers the
      first key already fails. */
  function OldestXkb(db: CharDb, keysyms: map<string, string>, layers: seq<Layer>) : (r: Result<seq<string>>)
    ensures r.Fail? ==> r.error == TypeError || r.error == IndexError
    ensures r.Ok? <==> forall j | 0 <= j < |BuildLayerKeys| && !IsSeparator(BuildLayerKeys[j]) ::
                         OldestXkbKey(db, keysyms, layers, BuildLayerKeys[j]).Ok?
    ensures r.Ok? ==> r.value == Concat(Chunks(BuildLayerKeys, KeyLines(BuildLayerKeys, OldestXkbLines(db, keysyms, layers)),
                                               false, "    //", ""))
    ensures |layers| < 6 ==> r.Fail?
  {
    BuildLayerKeysOpen();
    assert !IsSeparator(BuildLayerKeys[1]);
    Export([], BuildLayerKeys, OldestXkbLines(db, keysyms, layers), "    //", "")
  }

  // ---------------------------------------------------------------- klc

  /** Whether no literal symbol holds a tab. */
  ghost predicate LiteralsPlain(literal: string -> bool)
  {
    forall v :: literal(v) ==> '\t' !in v
  }

  /** One slot of a KLC key line: `-1` for an absent key, the code point of
      a dead key's glyph marked with `@`, a literal symbol as itself and any
      other value as its code point, which `ord` only gives for a single
      character. */
  function ClassicKlcSlot(literal: string -> bool, layer: Layer, key: string): (r: Result<Slot>)
    ensures key !in layer ==> r == Ok(Slot("-1", " "))
    ensures key in layer && IsDeadKey(layer[key]) ==>
      && r.Ok? && r.value.desc == GlyphOf(layer[key]) && EndsWith(r.value.symbol, "@")
      && HexValue(r.value.symbol[..|r.value.symbol| - 1]) == GlyphOf(layer[key])[0] as int
    ensures key in layer && !IsDeadKey(layer[key]) && literal(layer[key]) ==>
      r == Ok(Slot(layer[key], layer[key]))
    ensures key in layer && !IsDeadKey(layer[key]) && !literal(layer[key]) ==>
      && (r.Ok? <==> |layer[key]| == 1)
      && (r.Ok? ==> HexValue(r.value.symbol) == layer[key][0] as int && r.value.desc == layer[key])
    ensures r.Fail? ==> r.error == TypeError
    ensures r.Ok? && LiteralsPlain(literal) ==> '\t' !in r.value.symbol
  {
    if key !in layer then Ok(Slot("-1", " "))
    else
      var v := layer[key];
      if IsDeadKey(v) then
        var g := GlyphOf(v);
        var h := HexOrdOf(g).value;
        HexTabFree(h);
        assert (h + "@")[..|h|] == h;
        Ok(Slot(h + "@", g))
      else if !literal(v) then
        match HexOrdOf(v)
        case Fail(e) => Fail(e)
        case Ok(h) => HexTabFree(h); Ok(Slot(h, v))
      else Ok(Slot(v, v))
  }

  /** The slot of `key` in layer `i`; a layer the list lacks is an
      IndexError. */
  function KlcSlotAt(literal: string -> bool, layers: seq<Layer>, key: string, i: nat): Result<Slot>
  {
    if i < |layers| then ClassicKlcSlot(literal, layers[i], key) else Fail(IndexError)
  }

  /** The slots of `key` in the base, shift, AltGr and AltGr-shift layers,
      in that order; the first failure stops the line. */
  function ClassicKlcSlots(literal: string -> bool, layers: seq<Layer>, key: string): (r: Result<seq<Slot>>)
    ensures r.Ok? <==> forall j | 0 <= j < 4 :: KlcSlotAt(literal, layers, key, KlcLayers[j]).Ok?
    ensures |layers| >= 6 ==> (r.Ok? <==> forall j | 0 <= j < 4 :: ClassicKlcSlot(literal, layers[KlcLayers[j]], key).Ok?)
    ensures |layers| < 2 ==> r.Fail?
    ensures r.Fail? ==> r.error == TypeError || r.error == IndexError
    ensures r.Ok? ==> |r.value| == 4 && forall j | 0 <= j < 4 ::
      r.value[j] == ClassicKlcSlot(literal, layers[KlcLayers[j]], key).value
    ensures r.Ok? && LiteralsPlain(literal) ==> forall j | 0 <= j < 4 :: '\t' !in r.value[j].symbol
  {
    MapAll(KlcLayers, (i: nat) => KlcSlotAt(literal, layers, key, i))
  }

  /** The KLC line of one key: its `klcKeys` entry (scan code, virtual key,
      CapsLock flag), the base and shift slots, the unused `-1` column, the
      AltGr slots and the stripped comment, separated by tabs. A slot that
      cannot be written fails first, then a key missing from `codes`. */
  function ClassicKlcKey(db: CharDb, literal: string -> bool, codes: map<string, KeyCode>, layers: seq<Layer>, key: string)
    : (r: Result<seq<string>>)
    ensures r.Ok? <==> ClassicKlcSlots(literal, layers, key).Ok? && key in codes
    ensures r.Fail? ==>
      || ((r.error == TypeError || r.error == IndexError) && ClassicKlcSlots(literal, layers, key).Fail?)
      || (r.error == KeyError && key !in codes)
    ensures r.Ok? ==> |r.value| == 1
    ensures r.Ok? && LiteralsPlain(literal) && PlainCode(codes[key]) ==>
      var code := codes[key];
      var s := ClassicKlcSlots(literal, layers, key).value;
      var f := Split(r.value[0], '\t');
      && |f| > 8
      && f[..3] == [code.scan, code.vk, code.caps]
      && f[3..8] == [s[0].symbol, s[1].symbol, "-1", s[2].symbol, s[3].symbol]
  {
    match ClassicKlcSlots(literal, layers, key)
    case Fail(e) => Fail(e)
    case Ok(slots) =>
      if key !in codes then Fail(KeyError)
      else
        var code := codes[key];
        var desc := Strip(db.isSpace, Describe("//", slots));
        var fields := [slots[0].symbol, slots[1].symbol, "-1", slots[2].symbol, slots[3].symbol, desc];
        SlotFieldsPlain(slots, desc, fields);
        KlcLineFields(code, fields);
        Ok([CodeText(code) + TabJoin(fields)])
  }

  lemma SlotFieldsPlain(slots: seq<Slot>, desc: string, fields: seq<string>)
    requires |slots| == 4
    requires fields == [slots[0].symbol, slots[1].symbol, "-1", slots[2].symbol, slots[3].symbol, desc]
    ensures fields[..5] == [slots[0].symbol, slots[1].symbol, "-1", slots[2].symbol, slots[3].symbol]
    ensures (forall j | 0 <= j < 4 :: '\t' !in slots[j].symbol) ==> TabFree(fields[..5])
  {
  }

  /** The fields of a KLC line read back: the scan-code entry's three
      fields, then the five slot fields. */
  lemma KlcLineFields(code: KeyCode, fields: seq<string>)
    requires |fields| == 6
    ensures PlainCode(code) && TabFree(fields[..5]) ==>
      var f := Split(CodeText(code) + TabJoin(fields), '\t');
      |f| > 8 && f[..3] == [code.scan, code.vk, code.caps] && f[3..8] == fields[..5]
  {
    if PlainCode(code) && TabFree(fields[..5]) {
      KlcLineRead(code, fields);
    }
  }

  lemma KlcLineRead(code: KeyCode, fields: seq<string>)
    requires PlainCode(code) && |fields| == 6 && TabFree(fields[..5])
    ensures var f := Split(CodeText(code) + TabJoin(fields), '\t');
      |f| > 8 && f[..3] == [code.scan, code.vk, code.caps] && f[3..8] == fields[..5]
  {
    var head := [code.scan, code.vk, code.caps];
    assert TabJoin(head) == code.scan + "\t" + code.vk + "\t" + code.caps by {
      assert TabJoin(head[2..]) == code.caps;
      assert TabJoin(head[1..]) == code.vk + "\t" + code.caps;
    }
    assert CodeText(code) + TabJoin(fields) == TabJoin(head) + "\t" + TabJoin(fields);
    TabFieldsAfter(TabJoin(head), fields);
    TabFieldsRead(head);
    Pieces(head, fields[..5], Split(fields[5], '\t'));
  }

  /** The line each key contributes to `export_klc_layout`. */
  function KlcLines(db: CharDb, literal: string -> bool, layers: seq<Layer>): (f: string -> Result<seq<string>>)
    ensures forall k :: f(k) == ClassicKlcKey(db, literal, KlcCodes, layers, k)
  {
    k => ClassicKlcKey(db, literal, KlcCodes, layers, k)
  }

  /** `export_klc_layout` of either generation: a `//` header per section
      and one line per key of the generation's key list, in order; the
      first key that cannot be written stops it. make.py takes its literal
      symbols from a table, build/make.py from its own list. */
  function ClassicKlc(gen: Generation, db: CharDb, literal: string -> bool, layers: seq<Layer>): (r: Result<seq<string>>)
    ensures r.Fail? ==> r.error == TypeError || r.error == IndexError || r.error == KeyError
    ensures r.Ok? <==> forall j | 0 <= j < |KeysOf(gen)| && !IsSeparator(KeysOf(gen)[j]) ::
                         ClassicKlcKey(db, literal, KlcCodes, layers, KeysOf(gen)[j]).Ok?
    ensures r.Ok? ==> r.value == Concat(Chunks(KeysOf(gen), KeyLines(KeysOf(gen), KlcLines(db, literal, layers)),
                                               false, "//", ""))
    ensures |layers| < 2 ==> r.Fail?
  {
    var keys := KeysOf(gen);
    assert !IsSeparator(keys[1]);
    Export([], keys, KlcLines(db, literal, layers), "//", "")
  }

  // ---------------------------------------------------- klc dead keys

  /** One key of a pass of `export_klc_deadkey` over the layer pair
      `base`/`ext`: nothing when the dead-key layer lacks the key, a
      KeyError when the base layer lacks it, else the pair line of both
      characters as a KLC file shows them, marked `@` when the dead-key
      layer holds a dead key there. */
  function DkLine(base: Layer, ext: Layer, key: string): (r: Result<seq<string>>)
    ensures key !in ext ==> r == Ok([])
    ensures key in ext && key !in base ==> r == Fail(KeyError)
    ensures r.Fail? ==> r.error == KeyError || r.error == TypeError
    ensures key in ext && key in base ==>
      var b := Glyph(base[key]);
      var e := Glyph(ext[key]);
      && (r.Ok? <==> |b| == 1 && |e| == 1)
      && (r.Ok? ==> |r.value| == 1)
      && (r.Ok? ==> DeadKeyFields(r.value[0], b[0], e[0], IsDeadKey(ext[key])))
  {
    if key !in ext then Ok([])
    else if key !in base then Fail(KeyError)
    else
      match DeadKeyLine(Glyph(base[key]), Glyph(ext[key]), IsDeadKey(ext[key]))
      case Fail(e) => Fail(e)
      case Ok(line) => Ok([line])
  }

  /** The line each key contributes to the pass over `base`/`ext`. */
  function DkLines(base: Layer, ext: Layer): (f: string -> Result<seq<string>>)
    ensures forall k :: f(k) == DkLine(base, ext, k)
  {
    k => DkLine(base, ext, k)
  }

  /** Whether every key of the generation's list gives its line in the pass
      over `base`/`ext`. */
  predicate DkPassWritable(gen: Generation, base: Layer, ext: Layer)
  {
    forall j | 0 <= j < |KeysOf(gen)| && !IsSeparator(KeysOf(gen)[j]) :: DkLine(base, ext, KeysOf(gen)[j]).Ok?
  }

  /** Pass `i` (0: base, 1: shift) of `export_klc_deadkey`, continuing
      `out`: layers `i` and `i + 2` are looked up first, so a list too short
      for them is an IndexError before any line is written. */
  function DkPass(gen: Generation, layers: seq<Layer>, out: seq<string>, i: nat): (r: Result<seq<string>>)
    ensures r.Ok? <==> i + 2 < |layers| && DkPassWritable(gen, layers[i], layers[i + 2])
    ensures r.Fail? ==> r.error == IndexError || r.error == KeyError || r.error == TypeError
    ensures i + 2 >= |layers| ==> r == Fail(IndexError)
    ensures r.Ok? ==> |r.value| > 0 && r.value == out + Concat(Chunks(KeysOf(gen),
      KeyLines(KeysOf(gen), DkLines(layers[i], layers[i + 2])), |out| > 0, "//", ""))
  {
    if i + 2 >= |layers| then Fail(IndexError)
    else Export(out, KeysOf(gen), DkLines(layers[i], layers[i + 2]), "//", "")
  }

  /** `export_klc_deadkey`: the pass over layers 0 and 2, then the pass over
      layers 1 and 3. It is written exactly when there are at least four
      layers and every key of both passes gives its line. */
  function ClassicKlcDeadKey(gen: Generation, layers: seq<Layer>): (r: Result<seq<string>>)
    ensures r.Ok? <==> |layers| >= 4 && DkPassWritable(gen, layers[0], layers[2]) && DkPassWritable(gen, layers[1], layers[3])
    ensures r.Fail? ==> r.error == IndexError || r.error == KeyError || r.error == TypeError
  {
    match DkPass(gen, layers, [], 0)
    case Fail(e) => Fail(e)
    case Ok(first) => DkPass(gen, layers, first, 1)
  }

  /** The second pass continues the first, so its first header follows a
      blank line. */
  lemma ClassicKlcDeadKeyShape(gen: Generation, layers: seq<Layer>)
    requires ClassicKlcDeadKey(gen, layers).Ok?
    ensures |layers| >= 4
    ensures
      var first := Concat(Chunks(KeysOf(gen), KeyLines(KeysOf(gen), DkLines(layers[0], layers[2])), false, "//", ""));
      && |first| > 0
      && ClassicKlcDeadKey(gen, layers).value
         == first + Concat(Chunks(KeysOf(gen), KeyLines(KeysOf(gen), DkLines(layers[1], layers[3])), true, "//", ""))
  {
    var first := DkPass(gen, layers, [], 0).value;
    assert first == Concat(Chunks(KeysOf(gen), KeyLines(KeysOf(gen), DkLines(layers[0], layers[2])), false, "//", ""));
  }
}

=== FILE: classic_tables.dfy ===
/** The tables make.py and build/make.py hard-code: the combining dead keys
    with their KLC glyph and X11 name, the KLC scan codes, the key order
    and the literal KLC symbols of build/make.py. */
module ClassicTables {
  import opened Text
  import opened Geometry

  /** A combining dead key as both older generations name it: the
      character a KLC file and a geometry view show for it, and its X11
      keysym. */
  datatype DeadKeyName = DeadKeyName(glyph: char, xkb: string)

  /** `DEAD_KEYS` of make.py and build/make.py (the two are identical),
      keyed by the combining character. */
  const DeadKeyNames: map<char, DeadKeyName> := map[
    '\U{20e1}' := DeadKeyName('\U{00a4}', "ISO_Level3_Latch"),
    '\U{0300}' := DeadKeyName('`', "dead_grave"),
    '\U{0301}' := DeadKeyName('\U{00b4}', "dead_acute"),
    '\U{0302}' := DeadKeyName('^', "dead_circumflex"),
    '\U{0303}' := DeadKeyName('~', "dead_tilde"),
    '\U{0307}' := DeadKeyName('\U{02d9}', "dead_abovedot"),
    '\U{0308}' := DeadKeyName('\U{00a8}', "dead_diaeresis"),
    '\U{030a}' := DeadKeyName('\U{02da}', "dead_abovering"),
    '\U{0326}' := DeadKeyName(',', "dead_commabelow"),
    '\U{0327}' := DeadKeyName('\U{00b8}', "dead_cedilla"),
    '\U{0328}' := DeadKeyName('\U{02db}', "dead_ogonek")
  ]

  /** `v in DEAD_KEYS`: every key of the table is a single character. */
  predicate IsDeadKey(v: string)
  {
    |v| == 1 && v[0] in DeadKeyNames
  }

  /** `DEAD_KEYS[v]['klc']`, as a string. */
  function GlyphOf(v: string): (r: string)
    requires IsDeadKey(v)
    ensures |r| == 1 && !IsDeadKey(r) && r != " "
  {
    DeadKeyGlyphs(v[0]);
    [DeadKeyNames[v[0]].glyph]
  }

  /** `DEAD_KEYS[v]['xkb']`. */
  function XkbNameOf(v: string): (r: string)
    requires IsDeadKey(v)
    ensures 0 < |r| <= 16 && r[|r| - 1] != ' '
  {
    DeadKeyXkbNames(v[0]);
    DeadKeyNames[v[0]].xkb
  }

  /** No glyph is itself a dead key or a blank. */
  lemma DeadKeyGlyphs(c: char)
    requires c in DeadKeyNames
    ensures DeadKeyNames[c].glyph !in DeadKeyNames && DeadKeyNames[c].glyph != ' '
  {
  }

  /** Every X11 name fits an XKB column: `ISO_Level3_Latch` is the longest,
      at exactly 16. */
  lemma DeadKeyXkbNames(c: char)
    requires c in DeadKeyNames
    ensures 0 < |DeadKeyNames[c].xkb| <= 16 && DeadKeyNames[c].xkb[|DeadKeyNames[c].xkb| - 1] != ' '
  {
  }

  /** `LAYER_KEYS` of build/make.py: lower-case section names, and the pinky
      keys in another order than the newer generations'. */
  const BuildLayerKeys: seq<string> :=
    [ "- digits",
      "ae01", "ae02", "ae03", "ae04", "ae05",
      "ae06", "ae07", "ae08", "ae09", "ae10" ] +
    [ "- letters, first row",
      "ad01", "ad02", "ad03", "ad04", "ad05",
      "ad06", "ad07", "ad08", "ad09", "ad10" ] +
    [ "- letters, second row",
      "ac01", "ac02", "ac03", "ac04", "ac05",
      "ac06", "ac07", "ac08", "ac09", "ac10" ] +
    [ "- letters, third row",
      "ab01", "ab02", "ab03", "ab04", "ab05",
      "ab06", "ab07", "ab08", "ab09", "ab10" ] +
    [ "- pinky keys",
      "tlde", "ae11", "ae12", "ad11", "ad12", "bksl", "ac11", "lsgt" ]

  lemma BuildLayerKeysOpen()
    ensures |BuildLayerKeys| > 0 && IsSeparator(BuildLayerKeys[0])
  {
  }

  /** A `klcKeys` entry: scan code, virtual key and CapsLock flag, written
      as three tab-terminated fields in front of a key's slots. */
  datatype KeyCode = KeyCode(scan: string, vk: string, caps: string)

  function CodeText(code: KeyCode): string
  {
    code.scan + "\t" + code.vk + "\t" + code.caps + "\t"
  }

  /** Whether no field of a scan-code entry holds a tab. */
  predicate PlainCode(code: KeyCode)
  {
    '\t' !in code.scan && '\t' !in code.vk && '\t' !in code.caps
  }

  /** `klcKeys` of make.py and build/make.py (the two are identical). */
  const KlcCodes: map<string, KeyCode> :=
    DigitCodes + FirstRowCodes + SecondRowCodes + ThirdRowCodes + PinkyCodes

  const DigitCodes: map<string, KeyCode> := map[
    "ae01" := KeyCode("02", "1", "0"), "ae02" := KeyCode("03", "2", "0"),
    "ae03" := KeyCode("04", "3", "0"), "ae04" := KeyCode("05", "4", "0"),
    "ae05" := KeyCode("06", "5", "0"), "ae06" := KeyCode("07", "6", "0"),
    "ae07" := KeyCode("08", "7", "0"), "ae08" := KeyCode("09", "8", "0"),
    "ae09" := KeyCode("0a", "9", "0"), "ae10" := KeyCode("0b", "0", "0")
  ]

  const FirstRowCodes: map<string, KeyCode> := map[
    "ad01" := KeyCode("10", "Q", "1"), "ad02" := KeyCode("11", "W", "1"),
    "ad03" := KeyCode("12", "E", "1"), "ad04" := KeyCode("13", "R", "1"),
    "ad05" := KeyCode("14", "T", "1"), "ad06" := KeyCode("15", "Y", "1"),
    "ad07" := KeyCode("16", "U", "1"), "ad08" := KeyCode("17", "I", "1"),
    "ad09" := KeyCode("18", "O", "1"), "ad10" := KeyCode("19", "P", "1")
  ]

  const SecondRowCodes: map<string, KeyCode> := map[
    "ac01" := KeyCode("1e", "A", "1"), "ac02" := KeyCode("1f", "S", "1"),
    "ac03" := KeyCode("20", "D", "1"), "ac04" := KeyCode("21", "F", "1"),
    "ac05" := KeyCode("22", "G", "1"), "ac06" := KeyCode("23", "H", "1"),
    "ac07" := KeyCode("24", "J", "1"), "ac08" := KeyCode("25", "K", "1"),
    "ac09" := KeyCode("26", "L", "1"), "ac10" := KeyCode("27", "OEM_1", "0")
  ]

  const ThirdRowCodes: map<string, KeyCode> := map[
    "ab01" := KeyCode("2c", "Z", "1"), "ab02" := KeyCode("2d", "X", "1"),
    "ab03" := KeyCode("2e", "C", "1"), "ab04" := KeyCode("2f", "V", "1"),
    "ab05" := KeyCode("30", "B", "1"), "ab06" := KeyCode("31", "N", "1"),
    "ab07" := KeyCode("32", "M", "1"), "ab08" := KeyCode("33", "OEM_COMMA", "0"),
    "ab09" := KeyCode("34", "OEM_PERIOD", "0"), "ab10" := KeyCode("35", "OEM_2", "0")
  ]

  const PinkyCodes: map<string, KeyCode> := map[
    "ae11" := KeyCode("0c", "OEM_MINUS", "0"), "ae12" := KeyCode("0d", "OEM_PLUS", "0"),
    "ad11" := KeyCode("1a", "OEM_4", "0"), "ad12" := KeyCode("1b", "OEM_6", "0"),
    "ac11" := KeyCode("28", "OEM_7", "0"), "tlde" := KeyCode("29", "OEM_3", "0"),
    "bksl" := KeyCode("2b", "OEM_5", "0"), "lsgt" := KeyCode("56", "OEM_102", "0")
  ]

  /** No field of a scan-code entry holds a tab. */
  lemma KlcCodesPlain(key: string)
    requires key in KlcCodes
    ensures PlainCode(KlcCodes[key])
  {
    if key in PinkyCodes { PinkyPlain(key); }
    else if key in ThirdRowCodes { ThirdRowPlain(key); }
    else if key in SecondRowCodes { SecondRowPlain(key); }
    else if key in FirstRowCodes { FirstRowPlain(key); }
    else { DigitPlain(key); }
  }

  lemma DigitPlain(key: string)
    requires key in DigitCodes
    ensures PlainCode(DigitCodes[key])
  {
  }

  lemma FirstRowPlain(key: string)
    requires key in FirstRowCodes
    ensures PlainCode(FirstRowCodes[key])
  {
  }

  lemma SecondRowPlain(key: string)
    requires key in SecondRowCodes
    ensures PlainCode(SecondRowCodes[key])
  {
  }

  lemma ThirdRowPlain(key: string)
    requires key in ThirdRowCodes
    ensures PlainCode(ThirdRowCodes[key])
  {
  }

  lemma PinkyPlain(key: string)
    requires key in PinkyCodes
    ensures PlainCode(PinkyCodes[key])
  {
  }

  /** The literal symbols of build/make.py's `export_klc_layout`, row by
      row as the list gives them: digits and letters, except that `N` and
      `n` are missing. */
  predicate LiteralChar(c: char)
  {
    || c in "1234567890"
    || c in "QWERTYUIOP" || c in "qwertyuiop"
    || c in "ASDFGHJKL" || c in "asdfghjkl"
    || c in "ZXCVBM" || c in "zxcvbm"
  }

  /** `symbol in supportedSymbols`: list membership, so only a single
      character can match. */
  predicate BuildLiteral(v: string)
  {
    |v| == 1 && LiteralChar(v[0])
  }

  /** `N` and `n` are not literals, so they are written as code points. */
  lemma NotLiteralN()
    ensures !BuildLiteral("N") && !BuildLiteral("n")
    ensures BuildLiteral("M") && BuildLiteral("m")
  {
    assert !LiteralChar('N') && !LiteralChar('n');
    assert LiteralChar('M') && LiteralChar('m') by {
      assert "ZXCVBM"[5] == 'M' && "zxcvbm"[5] == 'm';
    }
  }

  /** No literal holds a tab. */
  lemma BuildLiteralPlain(v: string)
    requires BuildLiteral(v)
    ensures '\t' !in v
  {
  }
}

=== FILE: classic_views.dfy ===
/** The layout reader and the geometry fill of the two older generations.
    make.py reads its layers from the two templates the way script/make.py
    does, into six fresh layers, and fills a template from the global
    layers with `upper_key`. build/make.py fills with plain `str.upper`,
    and shows a dead key by its KLC glyph. */
module ClassicViews {
  import opened Results
  import opened Unicode
  import opened Text
  import opened Geometry
  import opened Template
  import opened Combining
  import opened Layouts
  import opened ClassicTables
  import opened ClassicExport

  // ----------------------------------------------- make.py import_layout

  /** `import_layout(filePath)` of make.py on the two templates of the
      file: the global layers are reset to six empty ones, the spaces put
      before combining marks are removed, the base template gives layers
      0-3 and the AltGr template layers 4-5. A combining mark opening a
      template is the IndexError of `out[-1]`. */
  function GlobalImport(db: CharDb, rows: seq<Row>, baseText: string, altgrText: string): (r: Result<seq<Layer>>)
    ensures (|baseText| > 0 && db.combining(baseText[0])) || (|altgrText| > 0 && db.combining(altgrText[0]))
            ==> r == Fail(IndexError)
    ensures r.Fail? ==> r.error == IndexError
    ensures r.Ok? ==> |r.value| == 6
    ensures r.Ok? ==> r.value[0].Keys + r.value[1].Keys <= Template.KeysOf(Cells(rows, 0))
    ensures r.Ok? ==> r.value[2].Keys + r.value[3].Keys <= Template.KeysOf(Cells(rows, 2))
    ensures r.Ok? ==> r.value[4].Keys + r.value[5].Keys <= Template.KeysOf(Cells(rows, 4))
    ensures r.Ok? ==> forall i, k | 0 <= i < 6 && k in r.value[i] :: r.value[i][k] != " "
  {
    match RemoveSpaces(db, baseText)
    case None => Fail(IndexError)
    case Some(baseClean) =>
      match RemoveSpaces(db, altgrText)
      case None => Fail(IndexError)
      case Some(altgrClean) =>
        match ReadLayers(db, rows, Split(baseClean, '\n'), Split(altgrClean, '\n'))
        case Fail(e) => Fail(e)
        case Ok(rd) => Ok(rd.layers)
  }

  /** make.py reads the layers exactly as script/make.py's `Layout` does:
      whenever the newer reader builds a layout, its layers are the ones
      make.py reads, and whenever make.py fails to read, so does the newer
      reader, with the same error. */
  lemma GlobalImportAgrees(db: CharDb, registry: seq<DeadKey>, rows: seq<Row>, baseText: string, altgrText: string)
    ensures NewLayout(db, registry, rows, baseText, altgrText).Ok? ==>
              GlobalImport(db, rows, baseText, altgrText) == Ok(NewLayout(db, registry, rows, baseText, altgrText).value.layers)
    ensures GlobalImport(db, rows, baseText, altgrText).Fail? ==>
              NewLayout(db, registry, rows, baseText, altgrText) == Fail(GlobalImport(db, rows, baseText, altgrText).error)
  {
    var b := RemoveSpaces(db, baseText);
    var a := RemoveSpaces(db, altgrText);
    if b.Some? && a.Some? {
      var rd := ReadLayers(db, rows, Split(b.value, '\n'), Split(a.value, '\n'));
      if rd.Ok? {
        assert GlobalImport(db, rows, baseText, altgrText) == Ok(rd.value.layers);
        assert NewLayout(db, registry, rows, baseText, altgrText) == Finish(registry, rd.value);
      }
    }
  }

  // ------------------------------------------------------- fill_template

  /** Whether some row of the geometry places a key. */
  predicate HasKeys(rows: seq<Row>)
  {
    exists j | 0 <= j < |rows| :: |rows[j].keys| > 0
  }

  /** The template rows rewritten without any key: every row's two lines
      are read and written back unchanged. */
  function Untouched(template: seq<string>, rows: seq<Row>): Result<seq<string>>
  {
    if LinesPresent(template, rows) then Ok(template) else Fail(IndexError)
  }

  /** `fill_template(template, rows, layerNumber)` of make.py: the global
      layers `layerNumber` and `layerNumber + 1` written into the template
      with `upper_key` deciding which shifted characters are implied. A
      layer number without a second layer behind it is an IndexError as
      soon as a key is filled. */
  function GlobalFill(db: CharDb, layers: seq<Layer>, template: seq<string>, rows: seq<Row>, n: nat)
    : (r: Result<seq<string>>)
    ensures n + 1 >= |layers| && HasKeys(rows) ==> r == Fail(IndexError)
    ensures !LinesPresent(template, rows) ==> r == Fail(IndexError)
    ensures r.Fail? ==> r.error == IndexError
    ensures r.Ok? ==> |r.value| == |template|
    ensures r.Ok? ==> forall l | 0 <= l < |template| && !IsRowLine(l, |rows|) :: r.value[l] == template[l]
  {
    if n + 1 < |layers| then Fill(UpperKeyOf(db), Pair(layers[n], layers[n + 1]), n, template, rows)
    else if HasKeys(rows) then Fail(IndexError)
    else Untouched(template, rows)
  }

  /** Filling a pair of one-character layers into a fresh template and
      reading the template back gives the pair, up to what the fill leaves
      implied (see `Expected`). */
  lemma GlobalFillThenRead(db: CharDb, layers: seq<Layer>, template: seq<string>, rows: seq<Row>, n: nat)
    requires n + 1 < |layers|
    requires LinesPresent(template, rows) && AllBlank(template, Cells(rows, n)) && DistinctKeys(Cells(rows, n))
    requires SingleChars(Pair(layers[n], layers[n + 1]))
    ensures GlobalFill(db, layers, template, rows, n).Ok?
    ensures Parse(db, GlobalFill(db, layers, template, rows, n).value, rows, n).Ok?
    ensures Parse(db, GlobalFill(db, layers, template, rows, n).value, rows, n).value.pair
            == Expected(db, Pair(layers[n], layers[n + 1]), n, Template.KeysOf(Cells(rows, n)))
  {
    FillThenParse(db, Pair(layers[n], layers[n + 1]), n, template, rows);
  }

  // ------------------------------------------- build/make.py get_template

  /** A layer as the geometry view of build/make.py shows it: each dead key
      by its KLC glyph. */
  function Rendered(layer: Layer): (r: Layer)
    ensures r.Keys == layer.Keys
    ensures forall k | k in layer :: r[k] == Glyph(layer[k])
  {
    map k | k in layer :: Glyph(layer[k])
  }

  /** `get_template(template, rows, layerNumber)` of build/make.py: like
      make.py's fill, but on the glyph-rendered layers and with
      `str.upper` deciding which shifted characters are implied. */
  function GetTemplate(db: CharDb, layers: seq<Layer>, template: seq<string>, rows: seq<Row>, n: nat)
    : (r: Result<seq<string>>)
    ensures n + 1 >= |layers| && HasKeys(rows) ==> r == Fail(IndexError)
    ensures !LinesPresent(template, rows) ==> r == Fail(IndexError)
    ensures r.Fail? ==> r.error == IndexError
    ensures r.Ok? ==> |r.value| == |template|
    ensures r.Ok? ==> forall l | 0 <= l < |template| && !IsRowLine(l, |rows|) :: r.value[l] == template[l]
  {
    if n + 1 < |layers| then Fill(UpperOf(db), Pair(Rendered(layers[n]), Rendered(layers[n + 1])), n, template, rows)
    else if HasKeys(rows) then Fail(IndexError)
    else Untouched(template, rows)
  }

  /** One-character layers stay one-character once rendered. */
  lemma RenderedSingles(p: Pair)
    requires SingleChars(p)
    ensures SingleChars(Pair(Rendered(p.base), Rendered(p.shift)))
  {
  }

  /** In the view of a fresh template, no key cell shows a dead key's
      combining character: a dead key appears as its glyph, and every
      other cell holds the layer's own character or a blank. */
  lemma GetTemplateShowsGlyphs(db: CharDb, layers: seq<Layer>, template: seq<string>, rows: seq<Row>, n: nat, c: Cell)
    requires n + 1 < |layers|
    requires LinesPresent(template, rows) && CellOf(rows, n, c) && BlankCell(template, c)
    requires AllInBounds(template, Cells(rows, n))
    requires SingleChars(Pair(layers[n], layers[n + 1]))
    ensures GetTemplate(db, layers, template, rows, n).Ok?
    ensures InBounds(GetTemplate(db, layers, template, rows, n).value, c)
    ensures !IsDeadKey([GetTemplate(db, layers, template, rows, n).value[BaseLine(c.row)][c.col]])
    ensures !IsDeadKey([GetTemplate(db, layers, template, rows, n).value[ShiftLine(c.row)][c.col]])
  {
    var p := Pair(Rendered(layers[n]), Rendered(layers[n + 1]));
    RenderedSingles(Pair(layers[n], layers[n + 1]));
    FillFits(UpperOf(db), p, n, template, rows);
    FilledCell(UpperOf(db), p, n, template, rows, c);
    var t := GetTemplate(db, layers, template, rows, n).value;
    assert t == Fill(UpperOf(db), p, n, template, rows).value;
    RenderedPlain(layers[n], c.key);
    RenderedPlain(layers[n + 1], c.key);
  }

  /** A rendered layer's value, or the blank, is never a dead key. */
  lemma RenderedPlain(layer: Layer, key: string)
    requires key in layer ==> |layer[key]| == 1
    ensures key in layer ==> !IsDeadKey([Rendered(layer)[key][0]])
    ensures !IsDeadKey(" ")
  {
    if key in layer && !IsDeadKey(layer[key]) {
      assert [layer[key][0]] == layer[key];
    }
  }
}

=== FILE: combining.dfy ===
/** Combining-mark normalisation of ASCII-art layout text.

    Layout templates keep a combining mark in the cell that holds it. When
    they are written out, a space is put before every combining mark so that
    the mark has a base to sit on; when they are read back, that space is
    replaced by the mark again. */
module Combining {
  import opened Results
  import opened Unicode
  import opened Text

  /** What `add_spaces_before_combining_chars` emits for one character. */
  function Piece(db: CharDb, c: char): string
  {
    if db.combining(c) then [' ', c] else [c]
  }

  function CountCombining(db: CharDb, text: string): nat
    decreases |text|
  {
    if |text| == 0 then 0
    else CountCombining(db, text[..|text| - 1]) + (if db.combining(text[|text| - 1]) then 1 else 0)
  }

  /** `add_spaces_before_combining_chars(text)`: every combining mark gets a
      space in front of it, every other character is copied. */
  function AddSpaces(db: CharDb, text: string): (r: string)
    ensures |r| == |text| + CountCombining(db, text)
    decreases |text|
  {
    if |text| == 0 then ""
    else AddSpaces(db, text[..|text| - 1]) + Piece(db, text[|text| - 1])
  }

  /** One step of the `remove_spaces_before_combining_chars` loop: a
      combining mark overwrites the last character kept so far (`out[-1]`),
      which fails on an empty list. */
  function RemoveStep(db: CharDb, out: Option<string>, c: char): Option<string>
  {
    match out
    case None => None
    case Some(o) =>
      if db.combining(c) then (if |o| == 0 then None else Some(o[..|o| - 1] + [c]))
      else Some(o + [c])
  }

  /** `remove_spaces_before_combining_chars(text)`; `None` is the IndexError
      raised on a text whose first character is a combining mark. */
  function RemoveSpaces(db: CharDb, text: string): (r: Option<string>)
    ensures r.None? <==> |text| > 0 && db.combining(text[0])
    ensures r.Some? ==> |r.value| + CountCombining(db, text) == |text|
    decreases |text|
  {
    if |text| == 0 then Some("")
    else
      var prefix := text[..|text| - 1];
      var r := RemoveStep(db, RemoveSpaces(db, prefix), text[|text| - 1]);
      if |prefix| > 0 && !db.combining(prefix[0]) then
        CountBound(db, prefix);
        r
      else r
  }

  lemma {:induction false} CountBound(db: CharDb, text: string)
    requires |text| > 0 && !db.combining(text[0])
    ensures CountCombining(db, text) < |text|
    decreases |text|
  {
    if |text| > 1 {
      assert text[..|text| - 1][0] == text[0];
      CountBound(db, text[..|text| - 1]);
    }
  }

  lemma RemoveSnoc(db: CharDb, text: string, c: char)
    ensures RemoveSpaces(db, text + [c]) == RemoveStep(db, RemoveSpaces(db, text), c)
  {
    assert (text + [c])[..|text|] == text;
  }

  lemma AddSnoc(db: CharDb, text: string, c: char)
    ensures AddSpaces(db, text + [c]) == AddSpaces(db, text) + Piece(db, c)
  {
    assert (text + [c])[..|text|] == text;
  }

  /** Writing a template out and reading it back gives the same text, for
      every text. */
  lemma {:induction false} RemoveAfterAdd(db: CharDb, text: string)
    requires !db.combining(' ')
    ensures RemoveSpaces(db, AddSpaces(db, text)) == Some(text)
    decreases |text|
  {
    if |text| > 0 {
      var p := text[..|text| - 1];
      var c := text[|text| - 1];
      RemoveAfterAdd(db, p);
      RemovePiece(db, AddSpaces(db, p), p, c);
      assert p + [c] == text;
    }
  }

  lemma RemovePiece(db: CharDb, a: string, p: string, c: char)
    requires !db.combining(' ')
    requires RemoveSpaces(db, a) == Some(p)
    ensures RemoveSpaces(db, a + Piece(db, c)) == Some(p + [c])
  {
    if db.combining(c) {
      assert a + Piece(db, c) == (a + [' ']) + [c];
      RemoveSnoc(db, a, ' ');
      RemoveSnoc(db, a + [' '], c);
      assert (p + [' '])[..|p|] == p;
    } else {
      RemoveSnoc(db, a, c);
    }
  }

  /** Text in which every combining mark follows a space: the form
      `add_spaces_before_combining_chars` produces. */
  ghost predicate WellSpaced(db: CharDb, text: string)
  {
    forall i | 0 <= i < |text| && db.combining(text[i]) :: i > 0 && text[i - 1] == ' '
  }

  /** The other direction: reading well-spaced text and writing it out again
      gives the same text. */
  lemma {:induction false} AddAfterRemove(db: CharDb, text: string)
    requires !db.combining(' ')
    requires WellSpaced(db, text)
    ensures RemoveSpaces(db, text).Some?
    ensures AddSpaces(db, RemoveSpaces(db, text).value) == text
    decreases |text|
  {
    if |text| > 0 {
      var n := |text|;
      var c := text[n - 1];
      if db.combining(c) {
        assert n >= 2 && text[n - 2] == ' ';
        var q := text[..n - 2];
        WellSpacedPrefix(db, text, n - 2);
        AddAfterRemove(db, q);
        assert text == (q + [' ']) + [c];
        RestoreMark(db, q, c);
      } else {
        var p := text[..n - 1];
        WellSpacedPrefix(db, text, n - 1);
        AddAfterRemove(db, p);
        assert text == p + [c];
        RestorePlain(db, p, c);
      }
    }
  }

  lemma WellSpacedPrefix(db: CharDb, text: string, k: nat)
    requires WellSpaced(db, text) && k <= |text|
    ensures WellSpaced(db, text[..k])
  {
    var q := text[..k];
    forall i | 0 <= i < |q| && db.combining(q[i]) ensures i > 0 && q[i - 1] == ' ' {
      assert q[i] == text[i];
    }
  }

  /** A space and a combining mark after a text that reads back are read
      as the mark and written as the space and the mark again. */
  lemma RestoreMark(db: CharDb, q: string, c: char)
    requires !db.combining(' ') && db.combining(c)
    requires RemoveSpaces(db, q).Some? && AddSpaces(db, RemoveSpaces(db, q).value) == q
    ensures RemoveSpaces(db, (q + [' ']) + [c]).Some?
    ensures AddSpaces(db, RemoveSpaces(db, (q + [' ']) + [c]).value) == (q + [' ']) + [c]
  {
    var s := RemoveSpaces(db, q).value;
    RemoveSpaceMark(db, q, c);
    AddSnoc(db, s, c);
    assert q + [' ', c] == (q + [' ']) + [c];
  }

  /** Reading a space and a combining mark: the mark takes the space's place. */
  lemma RemoveSpaceMark(db: CharDb, q: string, c: char)
    requires !db.combining(' ') && db.combining(c) && RemoveSpaces(db, q).Some?
    ensures RemoveSpaces(db, (q + [' ']) + [c]) == Some(RemoveSpaces(db, q).value + [c])
  {
    var s := RemoveSpaces(db, q).value;
    RemoveSnoc(db, q, ' ');
    RemoveSnoc(db, q + [' '], c);
    assert (s + [' '])[..|s|] == s;
  }

  /** Likewise for a character that is not a combining mark. */
  lemma RestorePlain(db: CharDb, p: string, c: char)
    requires !db.combining(c)
    requires RemoveSpaces(db, p).Some? && AddSpaces(db, RemoveSpaces(db, p).value) == p
    ensures RemoveSpaces(db, p + [c]).Some?
    ensures AddSpaces(db, RemoveSpaces(db, p + [c]).value) == p + [c]
  {
    RemoveSnoc(db, p, c);
    AddSnoc(db, RemoveSpaces(db, p).value, c);
  }

  /** The `out = out + piece + '\n'` accumulation shared by
      `template_to_text` and `lines_to_text`, before the final `[:-1]`. */
  function Accumulate(pieces: seq<string>): string
    decreases |pieces|
  {
    if |pieces| == 0 then "" else Accumulate(pieces[..|pieces| - 1]) + pieces[|pieces| - 1] + "\n"
  }

  /** `out[:-1]` */
  function DropLast(s: string): string
  {
    if |s| == 0 then s else s[..|s| - 1]
  }

  lemma {:induction false} AccumulateJoin(pieces: seq<string>)
    ensures DropLast(Accumulate(pieces)) == Join(pieces, "\n")
    decreases |pieces|
  {
    if |pieces| > 1 {
      var p := pieces[..|pieces| - 1];
      AccumulateJoin(p);
      JoinSnoc(p, pieces[|pieces| - 1], "\n");
      assert p + [pieces[|pieces| - 1]] == pieces;
    }
  }

  lemma {:induction false} JoinSnoc(parts: seq<string>, last: string, sep: string)
    requires |parts| > 0
    ensures Join(parts + [last], sep) == Join(parts, sep) + sep + last
    decreases |parts|
  {
    if |parts| > 1 {
      JoinSnoc(parts[1..], last, sep);
      assert (parts + [last])[1..] == parts[1..] + [last];
    }
  }

  lemma AddSpacesNoNewline(db: CharDb, text: string)
    requires '\n' !in text
    requires !db.combining('\n')
    ensures '\n' !in AddSpaces(db, text)
    decreases |text|
  {
    if |text| > 0 {
      assert '\n' !in text[..|text| - 1];
      AddSpacesNoNewline(db, text[..|text| - 1]);
    }
  }

  /** The lines `template_to_text` writes: every line, empty or not, is
      indented. */
  function IndentedLines(db: CharDb, template: seq<string>, indent: string): seq<string>
  {
    seq(|template|, i requires 0 <= i < |template| => indent + AddSpaces(db, template[i]))
  }

  /** `template_to_text(template, indent)` of make.py. Read back line by line,
      the text is the template with each line indented and spaced. */
  function TemplateToText(db: CharDb, template: seq<string>, indent: string): (r: string)
    ensures |template| == 0 ==> r == ""
    ensures |template| > 0 && '\n' !in indent && !db.combining('\n')
            && (forall i | 0 <= i < |template| :: '\n' !in template[i])
            ==> Split(r, '\n') == IndentedLines(db, template, indent)
  {
    LinesRoundTrip(db, template, indent, IndentedLines(db, template, indent));
    DropLast(Accumulate(IndentedLines(db, template, indent)))
  }

  /** Splitting the accumulated text of newline-free pieces gives the pieces. */
  lemma LinesRoundTrip(db: CharDb, lines: seq<string>, indent: string, pieces: seq<string>)
    requires |pieces| == |lines|
    requires forall i | 0 <= i < |lines| :: pieces[i] == indent + AddSpaces(db, lines[i]) || pieces[i] == ""
    ensures |lines| == 0 ==> DropLast(Accumulate(pieces)) == ""
    ensures |lines| > 0 && '\n' !in indent && !db.combining('\n')
            && (forall i | 0 <= i < |lines| :: '\n' !in lines[i])
            ==> Split(DropLast(Accumulate(pieces)), '\n') == pieces
  {
    AccumulateJoin(pieces);
    if |lines| > 0 && '\n' !in indent && !db.combining('\n')
       && (forall i | 0 <= i < |lines| :: '\n' !in lines[i]) {
      forall i | 0 <= i < |pieces| ensures '\n' !in pieces[i] {
        AddSpacesNoNewline(db, lines[i]);
      }
      SplitJoin(pieces, '\n');
    }
  }

  /** The lines `lines_to_text` writes: only non-empty lines are indented. */
  function IndentedNonEmptyLines(db: CharDb, lines: seq<string>, indent: string): seq<string>
  {
    seq(|lines|, i requires 0 <= i < |lines| =>
      if |lines[i]| > 0 then indent + AddSpaces(db, lines[i]) else "")
  }

  /** `lines_to_text(lines, indent)` of script/make.py: like
      `TemplateToText`, but an empty line stays empty. */
  function LinesToText(db: CharDb, lines: seq<string>, indent: string): (r: string)
    ensures |lines| == 0 ==> r == ""
    ensures |lines| > 0 && '\n' !in indent && !db.combining('\n')
            && (forall i | 0 <= i < |lines| :: '\n' !in lines[i])
            ==> Split(r, '\n') == IndentedNonEmptyLines(db, lines, indent)
  {
    LinesRoundTrip(db, lines, indent, IndentedNonEmptyLines(db, lines, indent));
    DropLast(Accumulate(IndentedNonEmptyLines(db, lines, indent)))
  }
}

=== FILE: entries.dfy ===
/** Python dictionaries and JavaScript objects, as sequences of entries in
    insertion order: the order `dict.items()` and `Object.entries` walk
    them. */
module Entries {
  import opened Results

  /** What a dictionary or an object can be: no two entries share a name. */
  predicate UniqueNames<V>(entries: seq<(string, V)>)
  {
    forall i, j | 0 <= i < j < |entries| :: entries[i].0 != entries[j].0
  }

  /** `obj[name]` and `d.get(name)`: the value of the entry with that name, if any. */
  function Lookup<V>(entries: seq<(string, V)>, name: string): (r: Option<V>)
    ensures r.None? <==> forall i | 0 <= i < |entries| :: entries[i].0 != name
    ensures r.Some? ==> exists i | 0 <= i < |entries| :: entries[i] == (name, r.value)
    decreases |entries|
  {
    if |entries| == 0 then None
    else if entries[0].0 == name then Some(entries[0].1)
    else
      var r := Lookup(entries[1..], name);
      assert forall i | 1 <= i < |entries| :: entries[i] == entries[1..][i - 1];
      r
  }

  /** In a dictionary, the entry named `name` is the one a lookup finds. */
  lemma {:induction false} LookupUnique<V>(entries: seq<(string, V)>, i: nat)
    requires UniqueNames(entries) && i < |entries|
    ensures Lookup(entries, entries[i].0) == Some(entries[i].1)
    decreases i
  {
    if i > 0 {
      assert entries[0].0 != entries[i].0;
      assert UniqueNames(entries[1..]) by {
        forall a, b | 0 <= a < b < |entries[1..]| ensures entries[1..][a].0 != entries[1..][b].0 {
          assert entries[1..][a] == entries[a + 1] && entries[1..][b] == entries[b + 1];
        }
      }
      LookupUnique(entries[1..], i - 1);
    }
  }

  /** `d[name] = v`: an existing entry keeps its place and takes the new
      value; a new name is added at the end. */
  function Put<V>(entries: seq<(string, V)>, name: string, v: V): (r: seq<(string, V)>)
    ensures Lookup(entries, name).None? ==> r == entries + [(name, v)]
    ensures Lookup(entries, name).Some? ==> |r| == |entries| && forall i | 0 <= i < |r| :: r[i].0 == entries[i].0
    decreases |entries|
  {
    if |entries| == 0 then [(name, v)]
    else if entries[0].0 == name then [(name, v)] + entries[1..]
    else [entries[0]] + Put(entries[1..], name, v)
  }

  /** After `d[name] = v`, `name` finds `v` and every other name what it
      found before. */
  lemma {:induction false} PutLookup<V>(entries: seq<(string, V)>, name: string, v: V, other: string)
    ensures Lookup(Put(entries, name, v), other) == if other == name then Some(v) else Lookup(entries, other)
    decreases |entries|
  {
    if |entries| > 0 && entries[0].0 != name {
      PutLookup(entries[1..], name, v, other);
      var r := Put(entries, name, v);
      assert r[1..] == Put(entries[1..], name, v);
    } else if |entries| > 0 {
      var r := Put(entries, name, v);
      assert r[1..] == entries[1..];
    }
  }

  /** Setting a name keeps a dictionary a dictionary. */
  lemma PutUnique<V>(entries: seq<(string, V)>, name: string, v: V)
    requires UniqueNames(entries)
    ensures UniqueNames(Put(entries, name, v))
  {
    var r := Put(entries, name, v);
    if Lookup(entries, name).None? {
      forall i, j | 0 <= i < j < |r| ensures r[i].0 != r[j].0 {
        if j == |entries| { assert r[i] == entries[i]; }
      }
    }
  }
}

=== FILE: escapes.dfy ===
/** Code-point escapes of the exporters: `hex_ord` on a layer value, and the
    XML character references of the macOS keylayout output. */
module Escapes {
  import opened Results
  import opened Text

  /** `hex_ord(s)` on a layer value: `ord` accepts exactly one character and
      raises `TypeError` otherwise. */
  function HexOrdOf(s: string): (r: Result<string>)
    ensures r.Ok? <==> |s| == 1
    ensures r.Fail? ==> r.error == TypeError
    ensures r.Ok? ==> HexValue(r.value) == s[0] as int && 4 <= |r.value| <= 6
    ensures r.Ok? ==> forall i | 0 <= i < |r.value| :: r.value[i] in HexDigits
  {
    if |s| == 1 then
      HexOrdWidth(s[0]);
      Ok(HexOrd(s[0]))
    else Fail(TypeError)
  }

  function Pow16(k: nat): nat
  {
    if k == 0 then 1 else 16 * Pow16(k - 1)
  }

  /** A number below `16^k` has at most `k` hexadecimal digits. */
  lemma {:induction false} HexLength(n: nat, k: nat)
    requires k >= 1 && n < Pow16(k)
    ensures |Hex(n)| <= k
    decreases k
  {
    if n >= 16 {
      assert Pow16(1) == 16;
      assert n / 16 < Pow16(k - 1);
      HexLength(n / 16, k - 1);
    }
  }

  /** Every code point takes four to six digits: `U+10FFFF` is the largest. */
  lemma HexOrdWidth(c: char)
    ensures 4 <= |HexOrd(c)| <= 6
  {
    assert Pow16(6) == 0x100_0000 by {
      assert Pow16(3) == 0x1000;
    }
    HexLength(c as int, 6);
  }

  /** `hex_ord(c)` is the only string of at least four digits, padded no
      further than four, that denotes `c`: `zfill(4)` fixes the digits. */
  lemma HexOrdExact(c: char, h: string)
    requires |h| >= 4 && PaddedOnlyToFour(h)
    requires forall i | 0 <= i < |h| :: h[i] in HexDigits
    requires HexValue(h) == c as int
    ensures h == HexOrd(c)
  {
    var o := HexOrd(c);
    HexOrdPadding(c);
    DigitsLength(h, o);
    DigitsLength(o, h);
    HexValueInjective(h, o);
  }

  /** Of two digit strings padded no further than four that denote the same
      number, the first is no longer than the second. */
  lemma DigitsLength(s: string, t: string)
    requires |s| >= 4 && PaddedOnlyToFour(s) && |t| >= 4
    requires forall i | 0 <= i < |s| :: s[i] in HexDigits
    requires forall i | 0 <= i < |t| :: t[i] in HexDigits
    requires HexValue(s) == HexValue(t)
    ensures |s| <= |t|
  {
    if |s| > 4 {
      HexValueAtLeast(s);
      HexValueBelow(t);
      Pow16Order(|s| - 1, |t|);
    }
  }

  lemma {:induction false} Pow16Mono(a: nat, b: nat)
    requires a <= b
    ensures Pow16(a) <= Pow16(b)
    decreases b
  {
    if a < b {
      Pow16Mono(a, b - 1);
    }
  }

  lemma Pow16Order(a: nat, b: nat)
    ensures Pow16(a) < Pow16(b) ==> a < b
  {
    if b <= a {
      Pow16Mono(b, a);
    }
  }

  lemma DigitBelow(c: char)
    requires c in HexDigits
    ensures DigitValue(c) < 16
    ensures c != '0' ==> DigitValue(c) >= 1
  {
    var k :| 0 <= k < 16 && HexDigits[k] == c;
    DigitOf(k);
  }

  /** `k` digits denote less than `16^k`. */
  lemma {:induction false} HexValueBelow(s: string)
    requires forall i | 0 <= i < |s| :: s[i] in HexDigits
    ensures HexValue(s) < Pow16(|s|)
    decreases |s|
  {
    if |s| > 0 {
      HexValueBelow(s[..|s| - 1]);
      DigitBelow(s[|s| - 1]);
    }
  }

  /** `k` digits with a non-zero first denote at least `16^(k-1)`. */
  lemma {:induction false} HexValueAtLeast(s: string)
    requires |s| >= 1 && s[0] != '0'
    requires forall i | 0 <= i < |s| :: s[i] in HexDigits
    ensures HexValue(s) >= Pow16(|s| - 1)
    decreases |s|
  {
    if |s| == 1 {
      assert s[..0] == [];
      DigitBelow(s[0]);
    } else {
      var front := s[..|s| - 1];
      assert front[0] == s[0];
      HexValueAtLeast(front);
    }
  }

  /** Two digit strings of one length that denote the same number are the
      same string. */
  lemma {:induction false} HexValueInjective(s: string, t: string)
    requires |s| == |t|
    requires forall i | 0 <= i < |s| :: s[i] in HexDigits
    requires forall i | 0 <= i < |t| :: t[i] in HexDigits
    requires HexValue(s) == HexValue(t)
    ensures s == t
    decreases |s|
  {
    if |s| > 0 {
      var n := |s| - 1;
      var s', t' := s[..n], t[..n];
      var d, e := DigitValue(s[n]), DigitValue(t[n]);
      assert HexValue(s') == HexValue(t') && d == e by {
        assert HexValue(s) == 16 * HexValue(s') + d;
        assert HexValue(t) == 16 * HexValue(t') + e;
        DigitBelow(s[n]);
        DigitBelow(t[n]);
        PlaceValue(HexValue(s'), d, HexValue(t'), e);
      }
      assert s' == t' by {
        assert forall i | 0 <= i < n :: s'[i] == s[i] && t'[i] == t[i];
        HexValueInjective(s', t');
      }
      assert s[n] == t[n] by {
        SameDigit(s[n], t[n]);
      }
      SnocEqual(s, t);
    }
  }

  lemma SnocEqual(s: string, t: string)
    requires |s| == |t| > 0
    requires s[..|s| - 1] == t[..|t| - 1] && s[|s| - 1] == t[|t| - 1]
    ensures s == t
  {
    assert s == s[..|s| - 1] + [s[|s| - 1]];
    assert t == t[..|t| - 1] + [t[|t| - 1]];
  }

  lemma PlaceValue(a: nat, x: nat, b: nat, y: nat)
    requires x < 16 && y < 16 && 16 * a + x == 16 * b + y
    ensures a == b && x == y
  {
  }

  lemma SameDigit(c: char, d: char)
    requires c in HexDigits && d in HexDigits && DigitValue(c) == DigitValue(d)
    ensures c == d
  {
    var k :| 0 <= k < 16 && HexDigits[k] == c;
    var j :| 0 <= j < 16 && HexDigits[j] == d;
    DigitOf(k);
    DigitOf(j);
  }

  /** The characters `xml_proof` replaces by a character reference. */
  const XmlSpecials: string := "<&\"\U{00a0}>"

  predicate IsXmlSpecial(c: char)
  {
    c == '<' || c == '&' || c == '"' || c == '\U{00a0}' || c == '>'
  }

  /** `xml_proof(s)`: `s` itself unless it occurs in the five special
      characters (a substring test, so the empty string and runs such as
      `"<&"` count as occurring), else its `&#x…;` reference, which only a
      single character has. */
  function XmlProof(s: string): (r: Result<string>)
    ensures |s| == 1 ==> r.Ok?
    ensures |s| == 1 && IsXmlSpecial(s[0]) ==> r.value == "&#x" + HexOrd(s[0]) + ";"
    ensures |s| == 1 && !IsXmlSpecial(s[0]) ==> r.value == s
    ensures |s| != 1 ==> (r.Ok? <==> !Contains(XmlSpecials, s))
    ensures |s| != 1 && r.Ok? ==> r.value == s
    ensures r.Fail? ==> r.error == TypeError
  {
    SpecialSubstring(s);
    if !Contains(XmlSpecials, s) then Ok(s)
    else
      match HexOrdOf(s)
      case Fail(e) => Fail(e)
      case Ok(h) => Ok("&#x" + h + ";")
  }

  /** For a single character the substring test is membership in the five. */
  lemma SpecialSubstring(s: string)
    ensures |s| == 1 ==> (Contains(XmlSpecials, s) <==> IsXmlSpecial(s[0]))
  {
    if |s| == 1 {
      ContainsChar(XmlSpecials, s[0]);
      assert [s[0]] == s;
    }
  }

  /** Whether every character of `s` is a hexadecimal digit. */
  predicate AllHex(s: string)
  {
    forall i | 0 <= i < |s| :: s[i] in HexDigits
  }

  /** Whether `n` is the code point of a Unicode scalar value. */
  predicate IsScalar(n: nat)
  {
    n < 0xD800 || 0xE000 <= n < 0x11_0000
  }

  /** How an XML reader resolves one output token: a hexadecimal character
      reference `&#xNNNN;` denotes its character, any other text itself. */
  function XmlUnescape(t: string): (r: string)
    ensures |r| == 1 || r == t
  {
    if |t| >= 4 && t[..3] == "&#x" && t[|t| - 1] == ';' && AllHex(t[3..|t| - 1])
       && IsScalar(HexValue(t[3..|t| - 1]))
    then [HexValue(t[3..|t| - 1]) as char]
    else t
  }

  /** Reading the escaped form of a single character gives the character back. */
  lemma XmlRoundTrip(s: string)
    requires |s| == 1
    ensures XmlUnescape(XmlProof(s).value) == s
  {
    var c := s[0];
    assert [c] == s;
    if IsXmlSpecial(c) {
      var h := HexOrd(c);
      var t := "&#x" + h + ";";
      assert XmlProof(s).value == t;
      assert t[..3] == "&#x";
      assert t[3..|t| - 1] == h;
      assert AllHex(h);
      assert IsScalar(HexValue(h));
    }
  }

  lemma HexDigitPlain(d: char)
    requires d in HexDigits
    ensures !IsXmlSpecial(d) && d != ';'
  {
    var k :| 0 <= k < |HexDigits| && HexDigits[k] == d;
  }

  /** The escaped form of a single character never contains a raw `<`, `>`,
      `"` or no-break space, and a raw `&` only as the reference's first
      character. */
  lemma XmlSafe(s: string)
    requires |s| == 1
    ensures forall i | 0 <= i < |XmlProof(s).value| ::
      IsXmlSpecial(XmlProof(s).value[i]) ==> i == 0 && XmlProof(s).value[i] == '&'
  {
    var c := s[0];
    if IsXmlSpecial(c) {
      var h := HexOrd(c);
      var t := "&#x" + h + ";";
      assert XmlProof(s).value == t;
      ReferenceSafe(h);
    }
  }

  lemma ReferenceSafe(h: string)
    requires AllHex(h)
    ensures var t := "&#x" + h + ";";
      forall i | 0 <= i < |t| :: IsXmlSpecial(t[i]) ==> i == 0 && t[i] == '&'
  {
    var t := "&#x" + h + ";";
    forall i | 1 <= i < |t| ensures !IsXmlSpecial(t[i]) {
      if 3 <= i < |t| - 1 {
        assert t[i] == h[i - 3];
        HexDigitPlain(h[i - 3]);
      }
    }
  }
}

=== FILE: formats.dfy ===
/** Line formats the exporters of all three generations share: the six
    16-character symbol columns of an XKB `key` line, the tab-separated
    fields of a KLC line, and the hexadecimal pair line of a KLC dead-key
    table. */
module Formats {
  import opened Results
  import opened Text
  import opened Escapes

  /** `maxLength`: the width every XKB symbol column is padded to. */
  const Width: nat := 16

  /** The symbol columns of an XKB `key` line, from the opening `{[ ` up to
      the closing bracket each generation writes its own way. Symbols 0-3 form
      the first group, 4-5 the second. */
  function XkbColumns(symbols: seq<string>): string
    requires |symbols| >= 6
  {
    "{[ " + ColumnsFrom(symbols, 0)
  }

  /** The columns from symbol `k` on, each padded and followed by its
      separator. */
  function ColumnsFrom(symbols: seq<string>, k: nat): string
    requires |symbols| >= 6 && k <= 5
    decreases 5 - k
  {
    if k == 5 then LJust(symbols[5], Width)
    else LJust(symbols[k], Width) + (if k == 3 then "],[ " else ", ") + ColumnsFrom(symbols, k + 1)
  }

  /** Where column `k` starts within `XkbColumns`. */
  function ColumnStart(k: nat): nat
    requires k < 6
  {
    [3, 21, 39, 57, 77, 95][k]
  }

  /** Only the first six symbols reach the columns. */
  lemma {:induction false} ColumnsFromFirstSix(a: seq<string>, b: seq<string>, k: nat)
    requires |a| >= 6 && |b| >= 6 && a[..6] == b[..6] && k <= 5
    ensures ColumnsFrom(a, k) == ColumnsFrom(b, k)
    decreases 5 - k
  {
    assert a[k] == a[..6][k] && b[k] == b[..6][k];
    if k < 5 {
      ColumnsFromFirstSix(a, b, k + 1);
    }
  }

  /** Trailing padding removed: what a reader of the column sees. */
  function Unpad(s: string): (r: string)
    ensures r <= s
    decreases |s|
  {
    if |s| > 0 && s[|s| - 1] == ' ' then Unpad(s[..|s| - 1]) else s
  }

  /** Padding a symbol that does not itself end in a space and unpadding it
      again gives the symbol back. */
  lemma {:induction false} UnpadLJust(s: string, width: nat)
    requires |s| == 0 || s[|s| - 1] != ' '
    ensures Unpad(LJust(s, width)) == s
    decreases width
  {
    var p := LJust(s, width);
    if |p| > |s| {
      assert p[|p| - 1] == ' ';
      assert p[..|p| - 1] == LJust(s, width - 1);
      UnpadLJust(s, width - 1);
    } else {
      assert p == s;
    }
  }

  /** Column `k` of the line, read back. */
  function XkbColumn(columns: string, k: nat): string
    requires k < 6
  {
    if ColumnStart(k) + Width <= |columns| then Unpad(columns[ColumnStart(k)..ColumnStart(k) + Width]) else ""
  }

  /** The columns line up: each symbol that fits the width occupies the
      same 16 characters of every line, and reading those characters back
      gives the symbol. */
  lemma XkbColumnsRead(symbols: seq<string>)
    requires |symbols| >= 6
    requires forall k | 0 <= k < 6 :: |symbols[k]| <= Width
    requires forall k | 0 <= k < 6 :: |symbols[k]| == 0 || symbols[k][|symbols[k]| - 1] != ' '
    ensures |XkbColumns(symbols)| == 111
    ensures forall k | 0 <= k < 6 :: XkbColumn(XkbColumns(symbols), k) == symbols[k]
  {
    forall k | 0 <= k < 6 ensures XkbColumn(XkbColumns(symbols), k) == symbols[k] {
      ColumnRead(symbols, k);
    }
    ColumnsFromShape(symbols, 0);
  }

  lemma ColumnRead(symbols: seq<string>, k: nat)
    requires |symbols| >= 6 && k < 6
    requires forall j | 0 <= j < 6 :: |symbols[j]| <= Width
    requires |symbols[k]| == 0 || symbols[k][|symbols[k]| - 1] != ' '
    ensures XkbColumn(XkbColumns(symbols), k) == symbols[k]
  {
    var c := XkbColumns(symbols);
    ColumnsFromAt(symbols, k);
    ColumnsFromShape(symbols, k);
    var rest := ColumnsFrom(symbols, k);
    assert c[ColumnStart(k)..ColumnStart(k) + Width] == rest[..Width];
    UnpadLJust(symbols[k], Width);
  }

  /** The columns from `k` on start with symbol `k`, padded, and run to the
      end of the line. */
  lemma {:induction false} ColumnsFromShape(symbols: seq<string>, k: nat)
    requires |symbols| >= 6 && k <= 5
    requires forall j | 0 <= j < 6 :: |symbols[j]| <= Width
    ensures |ColumnsFrom(symbols, k)| == 111 - ColumnStart(k)
    ensures ColumnsFrom(symbols, k)[..Width] == LJust(symbols[k], Width)
    decreases 5 - k
  {
    if k < 5 {
      ColumnsFromShape(symbols, k + 1);
      assert ColumnsFrom(symbols, k)[..Width] == LJust(symbols[k], Width);
    }
  }

  /** The line holds the columns from `k` on from `ColumnStart(k)` to its end. */
  lemma {:induction false} ColumnsFromAt(symbols: seq<string>, k: nat)
    requires |symbols| >= 6 && k <= 5
    requires forall j | 0 <= j < 6 :: |symbols[j]| <= Width
    ensures XkbColumns(symbols)[ColumnStart(k)..] == ColumnsFrom(symbols, k)
    decreases k
  {
    var rest := ColumnsFrom(symbols, k);
    if k > 0 {
      ColumnsFromAt(symbols, k - 1);
      var prev := ColumnsFrom(symbols, k - 1);
      var sep := if k - 1 == 3 then "],[ " else ", ";
      assert prev == LJust(symbols[k - 1], Width) + sep + rest;
      assert prev[Width + |sep|..] == rest;
    } else {
      assert XkbColumns(symbols)[3..] == rest;
    }
  }

  /** The layers whose slots a KLC key line writes: base, shift, AltGr,
      AltGr-shift. */
  const KlcLayers: seq<nat> := [0, 1, 4, 5]

  /** A KLC line: its fields joined by tabs. */
  function TabJoin(fields: seq<string>): string
  {
    Join(fields, "\t")
  }

  /** Whether no field holds a tab of its own. */
  predicate TabFree(fields: seq<string>)
  {
    forall i | 0 <= i < |fields| :: '\t' !in fields[i]
  }

  /** The fields of a KLC line are read back by splitting it at the tabs. */
  lemma TabFieldsRead(fields: seq<string>)
    requires |fields| >= 1 && TabFree(fields)
    ensures Split(TabJoin(fields), '\t') == fields
  {
    SplitJoin(fields, '\t');
  }

  /** Splitting a line at its tabs: the pieces of the text before a tab,
      then the given fields, of which all but the last are free of tabs. */
  lemma TabFieldsAfter(head: string, fields: seq<string>)
    requires |fields| >= 1 && TabFree(fields[..|fields| - 1])
    ensures Split(head + "\t" + TabJoin(fields), '\t')
         == Split(head, '\t') + fields[..|fields| - 1] + Split(fields[|fields| - 1], '\t')
    decreases |fields|
  {
    SplitAppend(head, TabJoin(fields), '\t');
    if |fields| == 1 {
      assert fields[..0] == [];
    } else {
      assert TabJoin(fields) == fields[0] + "\t" + TabJoin(fields[1..]);
      assert fields[1..][..|fields[1..]| - 1] == fields[1..|fields| - 1];
      var mid := fields[1..][..|fields[1..]| - 1];
      assert TabFree(mid) by {
        forall i | 0 <= i < |mid| ensures '\t' !in mid[i] {
          assert mid[i] == fields[..|fields| - 1][i + 1];
        }
      }
      TabFieldsAfter(fields[0], fields[1..]);
      assert '\t' !in fields[..|fields| - 1][0];
      SplitNoSep(fields[0], '\t');
      assert Split(fields[0], '\t') + fields[1..][..|fields[1..]| - 1] == fields[..|fields| - 1];
    }
  }

  lemma HexTabFree(h: string)
    requires forall i | 0 <= i < |h| :: h[i] in HexDigits
    ensures '\t' !in h && '@' !in h
  {
    forall i | 0 <= i < |h| ensures h[i] != '\t' && h[i] != '@' {
      var k :| 0 <= k < |HexDigits| && HexDigits[k] == h[i];
    }
  }

  /** The fields of a KLC dead-key line read back: the code point of
      `base`, then that of `ext`, marked `@` exactly when `dead`. */
  predicate DeadKeyFields(line: string, base: char, ext: char, dead: bool)
  {
    var f := Split(line, '\t');
    && |f| >= 3
    && HexValue(f[0]) == base as int
    && (EndsWith(f[1], "@") <==> dead)
    && HexValue(if dead && |f[1]| > 0 then f[1][..|f[1]| - 1] else f[1]) == ext as int
  }

  /** One line of a KLC dead-key table: the code points of `base` and of its
      result `ext`, the latter marked with `@` when it is itself a dead key,
      then a comment showing both. `hex_ord` accepts single characters only. */
  function DeadKeyLine(base: string, ext: string, dead: bool): (r: Result<string>)
    ensures r.Ok? <==> |base| == 1 && |ext| == 1
    ensures r.Fail? ==> r.error == TypeError
    ensures r.Ok? ==>
      var f := Split(r.value, '\t');
      && |f| >= 3
      && HexValue(f[0]) == base[0] as int
      && (EndsWith(f[1], "@") <==> dead)
      && HexValue(if dead then f[1][..|f[1]| - 1] else f[1]) == ext[0] as int
  {
    match HexOrdOf(ext)
    case Fail(e) => Fail(e)
    case Ok(he) =>
      match HexOrdOf(base)
      case Fail(e) => Fail(e)
      case Ok(hb) =>
        var mark := if dead then "@" else "";
        var comment := "// " + base + " -> " + ext;
        var line := hb + "\t" + (he + mark) + "\t" + comment;
        DeadKeyLineFields(hb, he, mark, comment);
        Ok(line)
  }

  lemma DeadKeyLineFields(hb: string, he: string, mark: string, comment: string)
    requires forall i | 0 <= i < |hb| :: hb[i] in HexDigits
    requires forall i | 0 <= i < |he| :: he[i] in HexDigits
    requires mark == "" || mark == "@"
    ensures var f := Split(hb + "\t" + (he + mark) + "\t" + comment, '\t');
      && |f| >= 3 && f[0] == hb && f[1] == he + mark
      && (EndsWith(f[1], "@") <==> mark == "@")
      && (if mark == "@" then f[1][..|f[1]| - 1] else f[1]) == he
  {
    HexTabFree(hb);
    HexTabFree(he);
    assert '\t' !in he + mark;
    var rest := (he + mark) + "\t" + comment;
    assert hb + "\t" + (he + mark) + "\t" + comment == hb + ['\t'] + rest;
    SplitAppend(hb, rest, '\t');
    SplitAppend(he + mark, comment, '\t');
    SplitNoSep(hb, '\t');
    SplitNoSep(he + mark, '\t');
    if mark == "" && |he| > 0 {
      assert he[|he| - 1..] != "@" by { assert he[|he| - 1..][0] == he[|he| - 1]; }
    }
    if mark == "@" {
      assert (he + mark)[..|he|] == he;
    }
  }

  // ------------------------------------------------------- key lines

  /** A resolved column of a key line and the character its comment shows. */
  datatype Slot = Slot(symbol: string, desc: string)

  /** Whether `name` is the `U`+hex name of character `c`: four to six
      upper-case digits giving its code point. */
  predicate CodePointName(name: string, c: char)
  {
    && 5 <= |name| <= 7 && name[0] == 'U'
    && (forall i | 1 <= i < |name| :: name[i] in HexDigitsUpper)
    && HexValue(name[1..]) == c as int
  }

  /** The comment of a key line: the characters of its slots, each after a
      space. */
  function Describe(start: string, slots: seq<Slot>): string
  {
    start + Concat(seq(|slots|, i requires 0 <= i < |slots| => " " + slots[i].desc))
  }

  /** Whether a symbol sits in its column: no wider than it and not ending
      in a space. */
  predicate Fits(symbol: string)
  {
    |symbol| <= Width && (|symbol| == 0 || symbol[|symbol| - 1] != ' ')
  }

  /** The symbols of a list of slots. */
  function Symbols(slots: seq<Slot>): (r: seq<string>)
    ensures |r| == |slots| && forall i | 0 <= i < |slots| :: r[i] == slots[i].symbol
  {
    seq(|slots|, i requires 0 <= i < |slots| => slots[i].symbol)
  }

  lemma XkbKeyColumns(p: string, symbols: seq<string>, tail: string)
    requires |symbols| >= 6
    ensures StartsWith(p + XkbColumns(symbols) + tail, p)
    ensures (forall i | 0 <= i < 6 :: Fits(symbols[i])) ==>
      forall i | 0 <= i < 6 :: XkbColumn((p + XkbColumns(symbols) + tail)[|p|..], i) == symbols[i]
  {
    if forall i | 0 <= i < 6 :: Fits(symbols[i]) {
      XkbColumnsRead(symbols);
      LineColumns(p, XkbColumns(symbols), tail);
    } else {
      PrefixOfLine(p, XkbColumns(symbols), tail);
    }
  }

  lemma PrefixOfLine(p: string, c: string, tail: string)
    ensures StartsWith(p + c + tail, p)
  {
    assert (p + c + tail)[..|p|] == p;
  }

  /** The columns keep their places in a line that puts text before and
      after them. */
  lemma LineColumns(p: string, c: string, tail: string)
    requires |c| == 111
    ensures StartsWith(p + c + tail, p)
    ensures forall i | 0 <= i < 6 :: XkbColumn((p + c + tail)[|p|..], i) == XkbColumn(c, i)
  {
    var line := p + c + tail;
    PrefixOfLine(p, c, tail);
    assert line[|p|..] == c + tail;
    forall i | 0 <= i < 6 ensures XkbColumn(c + tail, i) == XkbColumn(c, i) {
      assert (c + tail)[ColumnStart(i)..ColumnStart(i) + Width] == c[ColumnStart(i)..ColumnStart(i) + Width];
    }
  }

  lemma Pieces(c: seq<string>, mid: seq<string>, d: seq<string>)
    requires |d| >= 1
    ensures var f := c + mid + d; |f| > |c| + |mid| && f[..|c|] == c && f[|c|..|c| + |mid|] == mid
  {
    var f := c + mid + d;
    assert f[..|c|] == c;
    assert f[|c|..|c| + |mid|] == mid;
  }
}

=== FILE: geometry.dfy ===
/** Key identifiers, geometry rows and the column arithmetic of the
    ASCII-art layout templates. */
module Geometry {

  /** One row of a geometry: the column of its first key cell and the keys
      read left to right, one every six columns. */
  datatype Row = Row(offset: nat, keys: seq<string>)

  /** `LAYER_KEYS` of script/make.py and make.py: the canonical key order of
      every exporter, with `-`-prefixed section separators. */
  const LayerKeys: seq<string> :=
    [ "- Digits",
      "ae01", "ae02", "ae03", "ae04", "ae05",
      "ae06", "ae07", "ae08", "ae09", "ae10" ] +
    [ "- Letters, first row",
      "ad01", "ad02", "ad03", "ad04", "ad05",
      "ad06", "ad07", "ad08", "ad09", "ad10" ] +
    [ "- Letters, second row",
      "ac01", "ac02", "ac03", "ac04", "ac05",
      "ac06", "ac07", "ac08", "ac09", "ac10" ] +
    [ "- Letters, third row",
      "ab01", "ab02", "ab03", "ab04", "ab05",
      "ab06", "ab07", "ab08", "ab09", "ab10" ] +
    [ "- Pinky keys",
      "tlde", "ae11", "ae12", "ad11", "ad12", "ac11", "bksl", "lsgt" ]

  /** `keyName.startswith('-')` */
  predicate IsSeparator(entry: string)
  {
    |entry| > 0 && entry[0] == '-'
  }

  /** The key list opens with a section header. */
  lemma LayerKeysOpen()
    ensures |LayerKeys| > 0 && IsSeparator(LayerKeys[0])
  {
  }

  /** The base layer pair is read at the key's own column, the dead-key and
      AltGr pairs two columns to the right. */
  function ColOffset(layerNumber: nat): nat
  {
    if layerNumber == 0 then 0 else 2
  }

  /** Column of the `k`-th key of a row for a layer pair. */
  function Column(row: Row, layerNumber: nat, k: nat): nat
  {
    row.offset + ColOffset(layerNumber) + 6 * k
  }

  /** Template line holding the unshifted characters of row `j`. */
  function BaseLine(j: nat): nat { 2 + 3 * j }

  /** Template line holding the shifted characters of row `j`. */
  function ShiftLine(j: nat): nat { 1 + 3 * j }

  /** Whether `q` is the column of one of the first `m` keys of `row`. */
  predicate IsKeyColumn(row: Row, layerNumber: nat, m: nat, q: nat)
  {
    var first := row.offset + ColOffset(layerNumber);
    q >= first && (q - first) % 6 == 0 && (q - first) / 6 < m
  }

  /** Index of the key whose column is `q`. */
  function KeyIndex(row: Row, layerNumber: nat, q: nat): nat
    requires q >= row.offset + ColOffset(layerNumber)
  {
    (q - row.offset - ColOffset(layerNumber)) / 6
  }

  lemma ColumnIsKeyColumn(row: Row, layerNumber: nat, m: nat, k: nat)
    ensures IsKeyColumn(row, layerNumber, m, Column(row, layerNumber, k)) <==> k < m
    ensures KeyIndex(row, layerNumber, Column(row, layerNumber, k)) == k
  {
  }

  /** Whether template line `l` is one of the two lines of the first `m` rows. */
  predicate IsRowLine(l: nat, m: nat)
  {
    (l % 3 == 1 || l % 3 == 2) && l / 3 < m
  }

  lemma RowLines(j: nat, m: nat)
    ensures IsRowLine(BaseLine(j), m) <==> j < m
    ensures IsRowLine(ShiftLine(j), m) <==> j < m
    ensures BaseLine(j) != ShiftLine(j)
  {
  }
}

=== FILE: heatmap.dfy ===
/** The heat-map page (js/heatmap.js): the table of every character a
    layout can type with the keys that type it, and the page state kept in
    the URL hash. */
module Heatmap {
  import opened Results
  import opened Text
  import opened Keyboard

  // ----------------------------------------------------- supportedChars

  /** `charTable`: each typeable character with the keys to press; the
      first key of a dead-key sequence is `undefined` (None) when no key
      carries that dead key. */
  type CharTable = map<string, seq<Option<string>>>

  /** Key `i` is the first one, in the key map's order, with `c` on one of
      its levels. */
  predicate FirstHolder(keyMap: KeyMap, c: string, i: int)
  {
    0 <= i < |keyMap| && c in keyMap[i].1 && forall j | 0 <= j < i :: c !in keyMap[j].1
  }

  /** The first key, in the key map's order, that has `c` on a level. */
  function FirstKey(keyMap: KeyMap, c: string): (r: Option<string>)
    ensures r.None? <==> forall i | 0 <= i < |keyMap| :: c !in keyMap[i].1
    ensures r.Some? ==> exists i :: FirstHolder(keyMap, c, i) && keyMap[i].0 == r.value
    decreases |keyMap|
  {
    if |keyMap| == 0 then None
    else
      var front := keyMap[..|keyMap| - 1];
      var before := FirstKey(front, c);
      if before.Some? then
        assert forall i | FirstHolder(front, c, i) :: FirstHolder(keyMap, c, i);
        before
      else if c in keyMap[|keyMap| - 1].1 then
        assert FirstHolder(keyMap, c, |keyMap| - 1);
        Some(keyMap[|keyMap| - 1].0)
      else None
  }

  /** `c` is one UTF-16 unit that some key types directly. */
  predicate OnAKey(keyMap: KeyMap, c: string)
  {
    Utf16Length(c) == 1 && FirstKey(keyMap, c).Some?
  }

  /** The two tables of the first pass: `chars` for single characters and
      `dead` for longer values (the dead keys), each to its first key. */
  datatype Tables = Tables(chars: CharTable, dead: map<string, string>)

  /** Only single characters in the character table. */
  predicate SingleUnits(t: CharTable)
  {
    forall c | c in t :: Utf16Length(c) == 1
  }

  /** The values of one key, in order, through the first pass: a value not
      yet in either table goes into the one its length picks, with this
      key; a value already there keeps its first key. */
  function AddValues(t: Tables, key: string, values: seq<string>): (r: Tables)
    requires SingleUnits(t.chars)
    ensures SingleUnits(r.chars)
    ensures forall c :: c in r.chars <==> c in t.chars || (Utf16Length(c) == 1 && c in values)
    ensures forall c | c in r.chars :: r.chars[c] == if c in t.chars then t.chars[c] else [Some(key)]
    ensures forall c :: c in r.dead <==> c in t.dead || (Utf16Length(c) != 1 && c in values)
    ensures forall c | c in r.dead :: r.dead[c] == if c in t.dead then t.dead[c] else key
    decreases |values|
  {
    if |values| == 0 then t
    else
      var front := values[..|values| - 1];
      var u := AddValues(t, key, front);
      var c := values[|values| - 1];
      assert forall x :: x in values <==> x in front || x == c;
      if c in u.chars then u
      else if Utf16Length(c) == 1 then u.(chars := u.chars[c := [Some(key)]])
      else if c in u.dead then u
      else u.(dead := u.dead[c := key])
  }

  /** The first pass of `supportedChars` over the whole key map. */
  function FirstPass(keyMap: KeyMap): (r: Tables)
    ensures SingleUnits(r.chars)
    ensures forall c :: c in r.chars <==> OnAKey(keyMap, c)
    ensures forall c | c in r.chars :: r.chars[c] == [FirstKey(keyMap, c)]
    ensures forall c :: c in r.dead <==> Utf16Length(c) != 1 && FirstKey(keyMap, c).Some?
    ensures forall c | c in r.dead :: Some(r.dead[c]) == FirstKey(keyMap, c)
    decreases |keyMap|
  {
    if |keyMap| == 0 then Tables(map[], map[])
    else
      var front := keyMap[..|keyMap| - 1];
      var (key, values) := keyMap[|keyMap| - 1];
      var r := AddValues(FirstPass(front), key, values);
      assert forall c :: FirstKey(keyMap, c) == if FirstKey(front, c).Some? then FirstKey(front, c)
                                              else if c in values then Some(key) else None;
      r
  }

  /** `deadTable[key]`: the first key carrying dead key `id`, if any. */
  function DeadFirst(keyMap: KeyMap, id: string): (r: Option<string>)
    ensures Utf16Length(id) == 1 ==> r.None?
    ensures r.Some? ==> exists i :: FirstHolder(keyMap, id, i) && keyMap[i].0 == r.value
  {
    var dead := FirstPass(keyMap).dead;
    if id in dead then Some(dead[id]) else None
  }

  /** Every entry of `t` is kept by `u`. */
  predicate Extends(t: CharTable, u: CharTable)
  {
    forall c | c in t :: c in u && u[c] == t[c]
  }

  /** No entry is an empty key list. */
  predicate NonEmpty(t: CharTable)
  {
    forall c | c in t :: |t[c]| >= 1
  }

  /** `c`'s entry is the dead key's key followed by the keys of `orig`:
      what the second pass writes for `orig` to `c`. */
  predicate AddedBy(t: CharTable, first: Option<string>, orig: string, c: string)
  {
    c in t && orig in t && t[c] == [first] + t[orig]
  }

  /** Pair `j` of the dead key's table accounts for `c`'s entry. */
  predicate Justifies(table: DeadTable, j: int, r: CharTable, first: Option<string>, c: string)
  {
    0 <= j < |table| && table[j].1 == c && AddedBy(r, first, table[j].0, c)
  }

  /** Some pair of the dead key's table accounts for `c`'s entry. */
  predicate InTable(table: DeadTable, r: CharTable, first: Option<string>, c: string)
  {
    exists j | 0 <= j < |table| :: Justifies(table, j, r, first, c)
  }

  /** Each new entry of `r` comes from one pair of the dead key's table. */
  predicate FromTable(t: CharTable, r: CharTable, first: Option<string>, table: DeadTable)
  {
    forall c {:trigger InTable(table, r, first, c)} | c in r && c !in t :: InTable(table, r, first, c)
  }

  /** An entry made for one table stays valid as the table only grows. */
  lemma AddedByExtends(t: CharTable, u: CharTable, first: Option<string>, orig: string, c: string)
    requires AddedBy(t, first, orig, c) && Extends(t, u)
    ensures AddedBy(u, first, orig, c)
  {
  }

  /** Every pair of `table` whose base is in `t` has its character in `r`. */
  predicate Covers(t: CharTable, r: CharTable, table: DeadTable)
  {
    forall j | 0 <= j < |table| && table[j].0 in t :: table[j].1 in r
  }

  /** One turn of the inner loop of the second pass, for the pair
      `(orig, c)`: a character not yet typeable is added when its base is. */
  function Put(u: CharTable, first: Option<string>, pair: (string, string)): CharTable
  {
    var (orig, c) := pair;
    if c !in u && orig in u then u[c := [first] + u[orig]] else u
  }

  /** One dead key's table through the second pass: a character neither
      typeable yet nor reached before is added when its base is typeable. */
  function AddDeadTable(t: CharTable, first: Option<string>, table: DeadTable): (r: CharTable)
    requires NonEmpty(t)
    ensures NonEmpty(r)
    ensures Extends(t, r)
    ensures FromTable(t, r, first, table)
    ensures Covers(t, r, table)
    decreases |table|
  {
    if |table| == 0 then t
    else
      var u := AddDeadTable(t, first, table[..|table| - 1]);
      DeadTableStep(t, u, first, table);
      Put(u, first, table[|table| - 1])
  }

  /** The step of `AddDeadTable`. */
  lemma DeadTableStep(t: CharTable, u: CharTable, first: Option<string>, table: DeadTable)
    requires |table| > 0
    requires NonEmpty(u) && Extends(t, u)
    requires FromTable(t, u, first, table[..|table| - 1]) && Covers(t, u, table[..|table| - 1])
    ensures var r := Put(u, first, table[|table| - 1]);
      NonEmpty(r) && Extends(t, r) && Extends(u, r) && FromTable(t, r, first, table) && Covers(t, r, table)
  {
    var n := |table| - 1;
    var (orig, c) := table[n];
    var r := Put(u, first, table[n]);
    CoversGrow(t, u, r, table);
    if c !in u && orig in u {
      assert AddedBy(r, first, orig, c);
      PutFrom(t, u, r, first, table);
    } else {
      FromTableGrow(t, u, first, table);
    }
  }

  /** A table's pairs cover what a prefix of them covers. */
  lemma FromTableGrow(t: CharTable, r: CharTable, first: Option<string>, table: DeadTable)
    requires |table| > 0 && FromTable(t, r, first, table[..|table| - 1])
    ensures FromTable(t, r, first, table)
  {
    var front := table[..|table| - 1];
    forall c | c in r && c !in t ensures InTable(table, r, first, c)
    {
      assert InTable(front, r, first, c);
      var j :| 0 <= j < |front| && Justifies(front, j, r, first, c);
      assert table[j] == front[j];
      assert Justifies(table, j, r, first, c);
    }
  }

  /** The entries before the one `Put` adds stay justified by their pairs. */
  lemma PutFrom(t: CharTable, u: CharTable, r: CharTable, first: Option<string>, table: DeadTable)
    requires |table| > 0 && Extends(t, u) && Extends(u, r)
    requires FromTable(t, u, first, table[..|table| - 1])
    requires forall c | c in r && c !in u :: c == table[|table| - 1].1 && AddedBy(r, first, table[|table| - 1].0, c)
    ensures FromTable(t, r, first, table)
  {
    var front := table[..|table| - 1];
    forall c | c in r && c !in t ensures InTable(table, r, first, c)
    {
      if c in u {
        assert InTable(front, u, first, c);
        var j :| 0 <= j < |front| && Justifies(front, j, u, first, c);
        AddedByExtends(u, r, first, front[j].0, c);
        assert table[j] == front[j];
        assert Justifies(table, j, r, first, c);
      } else {
        assert Justifies(table, |table| - 1, r, first, c);
      }
    }
  }

  /** The turn for the last pair covers it, and the earlier pairs stay
      covered. */
  lemma CoversGrow(t: CharTable, u: CharTable, r: CharTable, table: DeadTable)
    requires |table| > 0 && Extends(t, u) && Covers(t, u, table[..|table| - 1])
    requires Extends(u, r)
    requires table[|table| - 1].0 in u ==> table[|table| - 1].1 in r
    ensures Covers(t, r, table)
  {
    var front := table[..|table| - 1];
    forall j | 0 <= j < |table| && table[j].0 in t ensures table[j].1 in r
    {
      if j < |front| { assert table[j] == front[j]; }
    }
  }

  /** Some pair of some dead key's table accounts for `c`'s entry: the
      entry is that dead key's first key followed by the base's keys. */
  predicate InDeadKeys(keyMap: KeyMap, deadKeys: DeadKeys, r: CharTable, c: string)
  {
    exists i | 0 <= i < |deadKeys| :: InTable(deadKeys[i].1, r, DeadFirst(keyMap, deadKeys[i].0), c)
  }

  /** Each new entry of `r` comes from one pair of one dead key's table. */
  predicate FromDeadKeys(keyMap: KeyMap, t: CharTable, r: CharTable, deadKeys: DeadKeys)
  {
    forall c {:trigger InDeadKeys(keyMap, deadKeys, r, c)} | c in r && c !in t :: InDeadKeys(keyMap, deadKeys, r, c)
  }

  /** Every pair whose base is in `t` has its character in `r`. */
  predicate Reached(t: CharTable, r: CharTable, deadKeys: DeadKeys)
  {
    forall i, j | 0 <= i < |deadKeys| && 0 <= j < |deadKeys[i].1| && deadKeys[i].1[j].0 in t :: deadKeys[i].1[j].1 in r
  }

  /** The second pass of `supportedChars`: every dead key's table, in order. */
  function SecondPass(keyMap: KeyMap, t: CharTable, deadKeys: DeadKeys): (r: CharTable)
    requires NonEmpty(t)
    ensures NonEmpty(r)
    ensures Extends(t, r)
    ensures FromDeadKeys(keyMap, t, r, deadKeys)
    ensures Reached(t, r, deadKeys)
    decreases |deadKeys|
  {
    if |deadKeys| == 0 then t
    else
      var front := deadKeys[..|deadKeys| - 1];
      var u := SecondPass(keyMap, t, front);
      var (id, table) := deadKeys[|deadKeys| - 1];
      var r := AddDeadTable(u, DeadFirst(keyMap, id), table);
      SecondPassStep(keyMap, t, u, r, deadKeys);
      r
  }

  lemma SecondPassStep(keyMap: KeyMap, t: CharTable, u: CharTable, r: CharTable, deadKeys: DeadKeys)
    requires |deadKeys| > 0
    requires Extends(t, u) && Extends(u, r)
    requires FromDeadKeys(keyMap, t, u, deadKeys[..|deadKeys| - 1])
    requires Reached(t, u, deadKeys[..|deadKeys| - 1])
    requires FromTable(u, r, DeadFirst(keyMap, deadKeys[|deadKeys| - 1].0), deadKeys[|deadKeys| - 1].1)
    requires Covers(u, r, deadKeys[|deadKeys| - 1].1)
    ensures Extends(t, r)
    ensures FromDeadKeys(keyMap, t, r, deadKeys)
    ensures Reached(t, r, deadKeys)
  {
    var n := |deadKeys| - 1;
    var front := deadKeys[..n];
    forall c | c in r && c !in t ensures InDeadKeys(keyMap, deadKeys, r, c)
    {
      if c in u {
        assert InDeadKeys(keyMap, front, u, c);
        var i :| 0 <= i < |front| && InTable(front[i].1, u, DeadFirst(keyMap, front[i].0), c);
        var j :| 0 <= j < |front[i].1| && Justifies(front[i].1, j, u, DeadFirst(keyMap, front[i].0), c);
        AddedByExtends(u, r, DeadFirst(keyMap, front[i].0), front[i].1[j].0, c);
        assert deadKeys[i] == front[i];
        assert Justifies(deadKeys[i].1, j, r, DeadFirst(keyMap, deadKeys[i].0), c);
      } else {
        assert InTable(deadKeys[n].1, r, DeadFirst(keyMap, deadKeys[n].0), c);
      }
    }
    forall i, j | 0 <= i < |deadKeys| && 0 <= j < |deadKeys[i].1| && deadKeys[i].1[j].0 in t
      ensures deadKeys[i].1[j].1 in r
    {
      if i < n { assert deadKeys[i] == front[i]; }
    }
  }

  /** `supportedChars(keymap, deadkeys)`. A character some key types
      directly maps to that key alone, the first one in the key map's order;
      longer values (the dead keys) never become entries of their own
      through the keys. Every other entry is a dead key's key followed by
      the keys of a base character the dead key turns into it, and every
      directly typed base character brings in what its dead keys make of
      it. */
  function SupportedChars(keyMap: KeyMap, deadKeys: DeadKeys): (r: CharTable)
    ensures forall c | OnAKey(keyMap, c) :: c in r && r[c] == [FirstKey(keyMap, c)]
    ensures forall c {:trigger InDeadKeys(keyMap, deadKeys, r, c)} | c in r && !OnAKey(keyMap, c) ::
              InDeadKeys(keyMap, deadKeys, r, c)
    ensures forall i, j | 0 <= i < |deadKeys| && 0 <= j < |deadKeys[i].1| && OnAKey(keyMap, deadKeys[i].1[j].0) ::
              deadKeys[i].1[j].1 in r
    ensures forall c | c in r :: |r[c]| == 1 <==> OnAKey(keyMap, c)
  {
    var t := FirstPass(keyMap).chars;
    var r := SecondPass(keyMap, t, deadKeys);
    forall c | c in r && !OnAKey(keyMap, c) ensures InDeadKeys(keyMap, deadKeys, r, c) && |r[c]| >= 2
    {
      assert InDeadKeys(keyMap, deadKeys, r, c);
      var i :| 0 <= i < |deadKeys| && InTable(deadKeys[i].1, r, DeadFirst(keyMap, deadKeys[i].0), c);
      var j :| 0 <= j < |deadKeys[i].1| && Justifies(deadKeys[i].1, j, r, DeadFirst(keyMap, deadKeys[i].0), c);
    }
    r
  }

  // ------------------------------------------------- the URL hash state

  // The page state is the values of the `<select>` elements listed in
  // `IDs` (`layout`, `geometry`, `corpus`), kept as a sequence in that
  // order; the functions below hold for any number of them.

  /** The `reduce` of `updateHashState`: a slash before each value. */
  function Slashed(values: seq<string>): string
    decreases |values|
  {
    if |values| == 0 then "" else Slashed(values[..|values| - 1]) + "/" + values[|values| - 1]
  }

  predicate IsSlash(c: char)
  {
    c == '/'
  }

  /** The hash `updateHashState` sets: the slashed values with the
      trailing slashes removed, behind a `#` unless nothing is left. */
  function HashOf(values: seq<string>): string
  {
    var encoded := RStrip(IsSlash, Slashed(values));
    if encoded == "" then "" else "#" + encoded
  }

  /** `updateHashState(key, value)` for the `i`-th identifier: the state
      with the new value, and the hash written for it. */
  function UpdateHashState(state: seq<string>, i: nat, value: string): (r: (seq<string>, string))
    requires i < |state|
    ensures r.0 == state[i := value]
    ensures r.1 == HashOf(r.0)
  {
    var s := state[i := value];
    (s, HashOf(s))
  }

  /** `applyHashState()`: the hash cut at every `/`, the piece before the
      first slash dropped, and a missing or empty piece read as `''`. */
  function ApplyHashState(hash: string, n: nat): (r: seq<string>)
    ensures |r| == n
    ensures forall i | 0 <= i < n :: r[i] == (if i + 1 < |Split(hash, '/')| then Split(hash, '/')[i + 1] else "")
    ensures forall i | 0 <= i < n :: '/' !in r[i]
  {
    var pieces := Split(hash, '/')[1..];
    seq(n, i requires 0 <= i < n => if i < |pieces| then pieces[i] else "")
  }

  /** The values once empty ones at the end are dropped. */
  function Trimmed(values: seq<string>): (r: seq<string>)
    ensures |r| <= |values| && r == values[..|r|]
    ensures |r| == 0 || r[|r| - 1] != ""
    ensures forall i | |r| <= i < |values| :: values[i] == ""
    decreases |values|
  {
    if |values| > 0 && values[|values| - 1] == "" then Trimmed(values[..|values| - 1]) else values
  }

  /** Stripping the trailing slashes drops exactly the empty values at the
      end. */
  lemma {:induction false} StripTrimmed(values: seq<string>)
    requires forall i | 0 <= i < |values| :: '/' !in values[i]
    ensures RStrip(IsSlash, Slashed(values)) == Slashed(Trimmed(values))
    decreases |values|
  {
    if |values| > 0 {
      var front := values[..|values| - 1];
      var last := values[|values| - 1];
      if last == "" {
        var s := Slashed(values);
        assert s == Slashed(front) + "/";
        assert s[..|s| - 1] == Slashed(front);
        StripTrimmed(front);
      } else {
        var s := Slashed(values);
        assert s == (Slashed(front) + "/") + last;
        assert s[|s| - 1] == last[|last| - 1];
        assert last[|last| - 1] in last;
      }
    }
  }

  /** A slash-free prefix and slash-free values cut back apart. */
  lemma {:induction false} SplitSlashed(p: string, values: seq<string>)
    requires '/' !in p
    requires forall i | 0 <= i < |values| :: '/' !in values[i]
    ensures Split(p + Slashed(values), '/') == [p] + values
    decreases |values|
  {
    if |values| == 0 {
      assert p + Slashed(values) == p;
      SplitNoSep(p, '/');
    } else {
      var front := values[..|values| - 1];
      var last := values[|values| - 1];
      SplitSlashed(p, front);
      assert p + Slashed(values) == (p + Slashed(front)) + ['/'] + last;
      SplitAppend(p + Slashed(front), last, '/');
      SplitNoSep(last, '/');
      assert front + [last] == values;
    }
  }

  /** The hash written for a state reads back as that state, as long as no
      value holds a slash. */
  lemma HashRoundTrip(values: seq<string>)
    requires forall i | 0 <= i < |values| :: '/' !in values[i]
    ensures ApplyHashState(HashOf(values), |values|) == values
  {
    var kept := Trimmed(values);
    StripTrimmed(values);
    var p := if |kept| == 0 then "" else "#";
    assert forall i | 0 <= i < |kept| :: kept[i] == values[i];
    assert HashOf(values) == p + Slashed(kept);
    SplitSlashed(p, kept);
  }

  /** Changing one `<select>` and reloading the page from its hash brings
      back the same state. */
  lemma UpdateThenApply(state: seq<string>, i: nat, value: string)
    requires i < |state|
    requires forall k | 0 <= k < |state| :: '/' !in state[k]
    requires '/' !in value
    ensures ApplyHashState(UpdateHashState(state, i, value).1, |state|) == state[i := value]
  {
    HashRoundTrip(state[i := value]);
  }
}

=== FILE: keyboard.dfy ===
/** The keyboard emulator of js/x-keyboard.js: which keys type a character
    (the hints), the modifier levels, and the key-down / key-up state
    machine with its pending dead key.

    JavaScript objects are modelled as sequences of entries in insertion
    order, which is the order `Object.entries` walks them; a property
    lookup finds the entry with that name. */
module Keyboard {
  import opened Results
  import opened Text
  import opened Entries

  /** `keyMap`: key code to the values of its levels (base, shift, AltGr,
      shift AltGr). */
  type KeyMap = seq<(string, seq<string>)>

  /** One dead key's table: base character to the character it gives. */
  type DeadTable = seq<(string, string)>

  /** `deadKeys`: dead-key identifier to its table. */
  type DeadKeys = seq<(string, DeadTable)>

  // ------------------------------------------------------------- isDeadKey

  /** `isDeadKey(value)`: a dead-key identifier is a `*` followed by one
      UTF-16 code unit (a missing value is not one). */
  predicate IsDeadKey(value: Option<string>)
  {
    value.Some? && Utf16Length(value.value) == 2 && value.value[0] == '*'
  }

  /** A single character is never a dead-key identifier: a character that
      takes two code units is not `*`. */
  lemma CharNotDeadKey(c: char)
    ensures !IsDeadKey(Some([c]))
  {
    assert [c][1..] == [];
  }

  // ------------------------------------------------------------ getKeyList

  /** What the hints point at: a key and the level that types the
      character; `{}` for a character no key types, and `undefined` where
      the source takes the first element of an empty list. */
  datatype Hint = Hint(id: string, level: nat) | Unavailable | Undefined

  /** `values.indexOf(c)`: the first position holding `c`, or -1. */
  function IndexOf(values: seq<string>, c: string): (r: int)
    ensures -1 <= r < |values|
    ensures r == -1 <==> c !in values
    ensures r >= 0 ==> values[r] == c && forall k | 0 <= k < r :: values[k] != c
    decreases |values|
  {
    if |values| == 0 then -1
    else if values[0] == c then 0
    else
      var r := IndexOf(values[1..], c);
      assert forall k | 1 <= k < |values| :: values[k] == values[1..][k - 1];
      if r == -1 then -1 else r + 1
  }

  /** `h` is the hint for some key whose values hold `c`: that key, at
      the level of the first occurrence. */
  predicate HitOf(keyMap: KeyMap, c: string, h: Hint)
  {
    h.Hint? && exists i | 0 <= i < |keyMap| :: keyMap[i].0 == h.id && h.level == IndexOf(keyMap[i].1, c)
  }

  /** Every key whose values hold `c` has its hint in `hints`. */
  predicate AllHit(keyMap: KeyMap, c: string, hints: seq<Hint>)
  {
    forall i | 0 <= i < |keyMap| && c in keyMap[i].1 :: Hint(keyMap[i].0, IndexOf(keyMap[i].1, c)) in hints
  }

  /** No key has two hints. */
  predicate OncePerKey(hints: seq<Hint>)
  {
    forall a, b | 0 <= a < b < |hints| && hints[a].Hint? && hints[b].Hint? :: hints[a].id != hints[b].id
  }

  /** `getKeyList(keyMap, c)`: one hint per key whose values hold `c`, at
      the level of its first occurrence. The source then sorts the list
      with a comparator that returns a boolean, whose result the language
      leaves unspecified; the list is kept in key order here and nothing
      below depends on that order. */
  function GetKeyList(keyMap: KeyMap, c: string): (r: seq<Hint>)
    ensures forall j | 0 <= j < |r| :: HitOf(keyMap, c, r[j])
    ensures AllHit(keyMap, c, r)
    ensures UniqueNames(keyMap) ==> OncePerKey(r)
    decreases |keyMap|
  {
    if |keyMap| == 0 then []
    else
      var front := keyMap[..|keyMap| - 1];
      var (id, values) := keyMap[|keyMap| - 1];
      var rest := GetKeyList(front, c);
      var r := if c in values then rest + [Hint(id, IndexOf(values, c) as nat)] else rest;
      KeyListStep(keyMap, c, rest, r);
      r
  }

  lemma KeyListStep(keyMap: KeyMap, c: string, rest: seq<Hint>, r: seq<Hint>)
    requires |keyMap| > 0
    requires forall j | 0 <= j < |rest| :: HitOf(keyMap[..|keyMap| - 1], c, rest[j])
    requires AllHit(keyMap[..|keyMap| - 1], c, rest)
    requires UniqueNames(keyMap[..|keyMap| - 1]) ==> OncePerKey(rest)
    requires var (id, values) := keyMap[|keyMap| - 1];
      r == if c in values then rest + [Hint(id, IndexOf(values, c) as nat)] else rest
    ensures forall j | 0 <= j < |r| :: HitOf(keyMap, c, r[j])
    ensures AllHit(keyMap, c, r)
    ensures UniqueNames(keyMap) ==> OncePerKey(r)
  {
    KeyListHits(keyMap, c, rest, r);
    KeyListAll(keyMap, c, rest, r);
    if UniqueNames(keyMap) {
      KeyListOnce(keyMap, c, rest, r);
    }
  }

  lemma KeyListHits(keyMap: KeyMap, c: string, rest: seq<Hint>, r: seq<Hint>)
    requires |keyMap| > 0
    requires forall j | 0 <= j < |rest| :: HitOf(keyMap[..|keyMap| - 1], c, rest[j])
    requires var (id, values) := keyMap[|keyMap| - 1];
      r == if c in values then rest + [Hint(id, IndexOf(values, c) as nat)] else rest
    ensures forall j | 0 <= j < |r| :: HitOf(keyMap, c, r[j])
  {
    var n := |keyMap| - 1;
    forall j | 0 <= j < |r| ensures HitOf(keyMap, c, r[j]) {
      if j < |rest| {
        assert r[j] == rest[j];
        HitGrows(keyMap, c, rest[j]);
      } else {
        assert keyMap[n].0 == r[j].id;
      }
    }
  }

  lemma KeyListAll(keyMap: KeyMap, c: string, rest: seq<Hint>, r: seq<Hint>)
    requires |keyMap| > 0
    requires AllHit(keyMap[..|keyMap| - 1], c, rest)
    requires var (id, values) := keyMap[|keyMap| - 1];
      r == if c in values then rest + [Hint(id, IndexOf(values, c) as nat)] else rest
    ensures AllHit(keyMap, c, r)
  {
    var n := |keyMap| - 1;
    var front := keyMap[..n];
    forall i | 0 <= i < |keyMap| && c in keyMap[i].1 ensures Hint(keyMap[i].0, IndexOf(keyMap[i].1, c)) in r {
      if i < n {
        assert front[i] == keyMap[i];
      }
    }
  }

  /** A hint for a key of the front is a hint for the whole map. */
  lemma HitGrows(keyMap: KeyMap, c: string, h: Hint)
    requires |keyMap| > 0 && HitOf(keyMap[..|keyMap| - 1], c, h)
    ensures HitOf(keyMap, c, h)
  {
    var front := keyMap[..|keyMap| - 1];
    var i :| 0 <= i < |front| && front[i].0 == h.id && h.level == IndexOf(front[i].1, c);
    assert keyMap[i] == front[i];
  }

  lemma KeyListOnce(keyMap: KeyMap, c: string, rest: seq<Hint>, r: seq<Hint>)
    requires |keyMap| > 0 && UniqueNames(keyMap)
    requires forall j | 0 <= j < |rest| :: HitOf(keyMap[..|keyMap| - 1], c, rest[j])
    requires UniqueNames(keyMap[..|keyMap| - 1]) ==> OncePerKey(rest)
    requires var (id, values) := keyMap[|keyMap| - 1];
      r == if c in values then rest + [Hint(id, IndexOf(values, c) as nat)] else rest
    ensures OncePerKey(r)
  {
    var n := |keyMap| - 1;
    var front := keyMap[..n];
    assert UniqueNames(front) by {
      forall a, b | 0 <= a < b < |front| ensures front[a].0 != front[b].0 {
        assert front[a] == keyMap[a] && front[b] == keyMap[b];
      }
    }
    forall j | 0 <= j < |rest| ensures rest[j].id != keyMap[n].0 {
      var i :| 0 <= i < |front| && front[i].0 == rest[j].id && rest[j].level == IndexOf(front[i].1, c);
      assert front[i] == keyMap[i];
    }
  }

  /** In an object, the key a hint names holds the character at the
      hinted level. */
  lemma HitValue(keyMap: KeyMap, c: string, id: string, level: nat)
    requires UniqueNames(keyMap) && Hint(id, level) in GetKeyList(keyMap, c)
    ensures Lookup(keyMap, id).Some? && level < |Lookup(keyMap, id).value|
    ensures Lookup(keyMap, id).value[level] == c
  {
    var hints := GetKeyList(keyMap, c);
    var j :| 0 <= j < |hints| && hints[j] == Hint(id, level);
    assert HitOf(keyMap, c, hints[j]);
    var i :| 0 <= i < |keyMap| && keyMap[i].0 == id && level == IndexOf(keyMap[i].1, c);
    LookupUnique(keyMap, i);
  }

  /** `list[0]`, `undefined` for an empty list. */
  function First(hints: seq<Hint>): Hint
  {
    if |hints| > 0 then hints[0] else Undefined
  }

  // ------------------------------------------------------- getDeadKeyDict

  /** `{ id, base }`: a dead key and the base that gives a character. */
  datatype DkRef = DkRef(id: string, base: string)

  type DeadKeyDict = map<string, seq<DkRef>>

  /** `dict[alt]`, or no entries. */
  function Get(dict: DeadKeyDict, alt: string): seq<DkRef>
  {
    if alt in dict then dict[alt] else []
  }

  /** Every list of the dictionary has a first element. */
  ghost predicate Filled(dict: DeadKeyDict)
  {
    forall alt | alt in dict :: |dict[alt]| > 0
  }

  /** `x` is listed under `alt` in `dict`, or `alt` maps to `x.base` in
      the table of `x.id`. */
  predicate ListedOrIn(dict: DeadKeyDict, id: string, table: DeadTable, alt: string, x: DkRef)
  {
    x in Get(dict, alt) || (x.id == id && (x.base, alt) in table)
  }

  /** The inner loop of `getDeadKeyDict` over one dead key's table: the
      earlier lists keep their order and gain the table's entries. */
  function AddTable(dict: DeadKeyDict, id: string, table: DeadTable): (r: DeadKeyDict)
    ensures forall alt :: Get(dict, alt) <= Get(r, alt)
    ensures forall alt, x :: x in Get(r, alt) <==> ListedOrIn(dict, id, table, alt, x)
    ensures Filled(dict) ==> Filled(r)
    decreases |table|
  {
    if |table| == 0 then dict
    else
      var front := table[..|table| - 1];
      var d := AddTable(dict, id, front);
      var (base, alt) := table[|table| - 1];
      var r := d[alt := Get(d, alt) + [DkRef(id, base)]];
      AddTableStep(dict, id, table, d, r);
      r
  }

  lemma AddTableStep(dict: DeadKeyDict, id: string, table: DeadTable, d: DeadKeyDict, r: DeadKeyDict)
    requires |table| > 0
    requires forall alt :: Get(dict, alt) <= Get(d, alt)
    requires forall alt, x :: x in Get(d, alt) <==> ListedOrIn(dict, id, table[..|table| - 1], alt, x)
    requires Filled(dict) ==> Filled(d)
    requires r == d[table[|table| - 1].1 := Get(d, table[|table| - 1].1) + [DkRef(id, table[|table| - 1].0)]]
    ensures forall alt :: Get(dict, alt) <= Get(r, alt)
    ensures forall alt, x :: x in Get(r, alt) <==> ListedOrIn(dict, id, table, alt, x)
    ensures Filled(dict) ==> Filled(r)
  {
    var front := table[..|table| - 1];
    var (base, alt0) := table[|table| - 1];
    forall alt ensures Get(r, alt) == if alt == alt0 then Get(d, alt) + [DkRef(id, base)] else Get(d, alt) {
    }
    forall alt, x ensures x in Get(r, alt) <==> ListedOrIn(dict, id, table, alt, x) {
      assert (x.base, alt) in table <==> (x.base, alt) in front || (x.base, alt) == (base, alt0);
    }
  }

  /** `getDeadKeyDict(deadKeys)`: for every character a dead key gives,
      the dead keys and bases that give it, in the order the tables list
      them; `{ id, base }` is listed under `alt` exactly when the table of
      `id` maps `base` to `alt`. */
  function GetDeadKeyDict(deadKeys: DeadKeys): (r: DeadKeyDict)
    ensures forall alt, x :: x in Get(r, alt) <==> InSomeTable(deadKeys, alt, x)
    ensures Filled(r)
    decreases |deadKeys|
  {
    if |deadKeys| == 0 then map[]
    else
      var front := deadKeys[..|deadKeys| - 1];
      var d := GetDeadKeyDict(front);
      var r := AddTable(d, deadKeys[|deadKeys| - 1].0, deadKeys[|deadKeys| - 1].1);
      forall alt, x ensures x in Get(r, alt) <==> InSomeTable(deadKeys, alt, x) {
        assert InSomeTable(deadKeys, alt, x) <==>
          InSomeTable(front, alt, x) || ListedOrIn(map[], deadKeys[|deadKeys| - 1].0, deadKeys[|deadKeys| - 1].1, alt, x) by {
          assert forall i | 0 <= i < |front| :: front[i] == deadKeys[i];
        }
      }
      r
  }

  /** The table of dead key `x.id` maps `x.base` to `alt`. */
  predicate InSomeTable(deadKeys: DeadKeys, alt: string, x: DkRef)
  {
    exists i | 0 <= i < |deadKeys| :: deadKeys[i].0 == x.id && (x.base, alt) in deadKeys[i].1
  }

  /** In an object of objects, a listed `{ id, base }` is found by looking
      up the dead key and then the base. */
  lemma DictEntry(deadKeys: DeadKeys, alt: string, x: DkRef)
    requires UniqueNames(deadKeys) && forall i | 0 <= i < |deadKeys| :: UniqueNames(deadKeys[i].1)
    requires x in Get(GetDeadKeyDict(deadKeys), alt)
    ensures Lookup(deadKeys, x.id).Some?
    ensures Lookup(Lookup(deadKeys, x.id).value, x.base) == Some(alt)
  {
    var i :| 0 <= i < |deadKeys| && deadKeys[i].0 == x.id && (x.base, alt) in deadKeys[i].1;
    LookupUnique(deadKeys, i);
    var table := deadKeys[i].1;
    var j :| 0 <= j < |table| && table[j] == (x.base, alt);
    LookupUnique(table, j);
  }

  // ------------------------------------------------------- getKeySequence

  /** Whether some key types `c` directly (possibly with Shift or AltGr). */
  predicate Direct(keyMap: KeyMap, c: char)
  {
    exists i | 0 <= i < |keyMap| :: [c] in keyMap[i].1
  }

  /** Whether `c` can only be typed through a dead key. */
  predicate ThroughDeadKey(keyMap: KeyMap, dict: DeadKeyDict, c: char)
  {
    !Direct(keyMap, c) && [c] in dict
  }

  /** Whether no key types `c`, not even through a dead key. */
  predicate Untypable(keyMap: KeyMap, dict: DeadKeyDict, c: char)
  {
    !Direct(keyMap, c) && [c] !in dict
  }

  /** The key list of a character is empty exactly when no key types it. */
  lemma KeyListDirect(keyMap: KeyMap, c: char)
    ensures |GetKeyList(keyMap, [c])| > 0 <==> Direct(keyMap, c)
  {
    var hints := GetKeyList(keyMap, [c]);
    if |hints| > 0 {
      assert HitOf(keyMap, [c], hints[0]);
      var i :| 0 <= i < |keyMap| && keyMap[i].0 == hints[0].id && hints[0].level == IndexOf(keyMap[i].1, [c]);
      assert [c] in keyMap[i].1;
    }
    if Direct(keyMap, c) {
      var i :| 0 <= i < |keyMap| && [c] in keyMap[i].1;
      assert Hint(keyMap[i].0, IndexOf(keyMap[i].1, [c])) in hints;
    }
  }

  /** The hints for one character: the first key that types it; else the
      first dead key and base that give it; else `{}`. */
  function CharHints(keyMap: KeyMap, dict: DeadKeyDict, c: char): (r: seq<Hint>)
    requires Filled(dict)
    ensures |r| == (if ThroughDeadKey(keyMap, dict, c) then 2 else 1)
    ensures Direct(keyMap, c) ==> |GetKeyList(keyMap, [c])| > 0 && r == [GetKeyList(keyMap, [c])[0]]
    ensures ThroughDeadKey(keyMap, dict, c) ==>
      (|Get(dict, [c])| > 0 &&
       var x := Get(dict, [c])[0];
       r == [First(GetKeyList(keyMap, x.id)), First(GetKeyList(keyMap, x.base))])
    ensures Untypable(keyMap, dict, c) ==> r == [Unavailable]
    ensures Unavailable in r <==> Untypable(keyMap, dict, c)
  {
    var keys := GetKeyList(keyMap, [c]);
    KeyListDirect(keyMap, c);
    if |keys| > 0 then
      assert HitOf(keyMap, [c], keys[0]);
      [keys[0]]
    else if [c] in dict then
      var dk := dict[[c]][0];
      assert dk in Get(dict, [c]);
      var r := [First(GetKeyList(keyMap, dk.id)), First(GetKeyList(keyMap, dk.base))];
      assert First(GetKeyList(keyMap, dk.id)) != Unavailable by {
        var l := GetKeyList(keyMap, dk.id);
        if |l| > 0 { assert HitOf(keyMap, dk.id, l[0]); }
      }
      assert First(GetKeyList(keyMap, dk.base)) != Unavailable by {
        var l := GetKeyList(keyMap, dk.base);
        if |l| > 0 { assert HitOf(keyMap, dk.base, l[0]); }
      }
      r
    else [Unavailable]
  }

  predicate NoneThrough(keyMap: KeyMap, dict: DeadKeyDict, str: string)
  {
    forall i | 0 <= i < |str| :: !ThroughDeadKey(keyMap, dict, str[i])
  }

  predicate AllThrough(keyMap: KeyMap, dict: DeadKeyDict, str: string)
  {
    forall i | 0 <= i < |str| :: ThroughDeadKey(keyMap, dict, str[i])
  }

  predicate SomeUntypable(keyMap: KeyMap, dict: DeadKeyDict, str: string)
  {
    exists i | 0 <= i < |str| :: Untypable(keyMap, dict, str[i])
  }

  /** `getKeySequence(keyMap, dkDict, str)`, one character (code point)
      at a time: one hint per character, two for a character that needs a
      dead key, so the sequence is between one and two times as long as
      the text, as long as it exactly when no character needs a dead key,
      twice as long exactly when every one does, and holding a `{}`
      exactly when some character cannot be typed. */
  function GetKeySequence(keyMap: KeyMap, dict: DeadKeyDict, str: string): (r: seq<Hint>)
    requires Filled(dict)
    ensures |str| <= |r| <= 2 * |str|
    ensures |r| == |str| <==> NoneThrough(keyMap, dict, str)
    ensures |r| == 2 * |str| <==> AllThrough(keyMap, dict, str)
    ensures Unavailable in r <==> SomeUntypable(keyMap, dict, str)
    decreases |str|
  {
    if |str| == 0 then []
    else
      var front := str[..|str| - 1];
      var last := CharHints(keyMap, dict, str[|str| - 1]);
      var r := GetKeySequence(keyMap, dict, front) + last;
      SequenceStep(keyMap, dict, str);
      r
  }

  /** The hints of a text followed by one more character are the text's
      hints followed by that character's. */
  lemma SequenceSnoc(keyMap: KeyMap, dict: DeadKeyDict, str: string, c: char)
    requires Filled(dict)
    ensures GetKeySequence(keyMap, dict, str + [c]) == GetKeySequence(keyMap, dict, str) + CharHints(keyMap, dict, c)
  {
    assert (str + [c])[..|str|] == str;
  }

  /** The hints of a text read front to back, as the `forEach` walks it:
      the first character's hints, then those of the rest. */
  function HintsOf(keyMap: KeyMap, dict: DeadKeyDict, str: string): seq<Hint>
    requires Filled(dict)
    decreases |str|
  {
    if |str| == 0 then [] else CharHints(keyMap, dict, str[0]) + HintsOf(keyMap, dict, str[1..])
  }

  lemma {:induction false} HintsOfAppend(keyMap: KeyMap, dict: DeadKeyDict, s: string, t: string)
    requires Filled(dict)
    ensures HintsOf(keyMap, dict, s + t) == HintsOf(keyMap, dict, s) + HintsOf(keyMap, dict, t)
    decreases |s|
  {
    if |s| == 0 {
      assert s + t == t;
    } else {
      assert (s + t)[0] == s[0] && (s + t)[1..] == s[1..] + t;
      HintsOfAppend(keyMap, dict, s[1..], t);
    }
  }

  lemma HintsOfLast(keyMap: KeyMap, dict: DeadKeyDict, str: string)
    requires Filled(dict) && |str| > 0
    ensures HintsOf(keyMap, dict, str)
      == HintsOf(keyMap, dict, str[..|str| - 1]) + CharHints(keyMap, dict, str[|str| - 1])
  {
    var c := str[|str| - 1];
    assert str == str[..|str| - 1] + [c];
    HintsOfAppend(keyMap, dict, str[..|str| - 1], [c]);
    assert [c][1..] == [];
  }

  /** `getKeySequence` is the hints of each character of the text, in the
      order of the text. */
  lemma {:induction false} SequenceInOrder(keyMap: KeyMap, dict: DeadKeyDict, str: string)
    requires Filled(dict)
    ensures GetKeySequence(keyMap, dict, str) == HintsOf(keyMap, dict, str)
    decreases |str|
  {
    if |str| > 0 {
      var front := str[..|str| - 1];
      SequenceInOrder(keyMap, dict, front);
      HintsOfLast(keyMap, dict, str);
    }
  }

  /** The hints of a concatenation are the hints of its parts, in order. */
  lemma SequenceAppend(keyMap: KeyMap, dict: DeadKeyDict, s: string, t: string)
    requires Filled(dict)
    ensures GetKeySequence(keyMap, dict, s + t) == GetKeySequence(keyMap, dict, s) + GetKeySequence(keyMap, dict, t)
  {
    SequenceInOrder(keyMap, dict, s + t);
    SequenceInOrder(keyMap, dict, s);
    SequenceInOrder(keyMap, dict, t);
    HintsOfAppend(keyMap, dict, s, t);
  }

  lemma SequenceStep(keyMap: KeyMap, dict: DeadKeyDict, str: string)
    requires |str| > 0
    ensures var front := str[..|str| - 1]; var c := str[|str| - 1];
      && (NoneThrough(keyMap, dict, str) <==> NoneThrough(keyMap, dict, front) && !ThroughDeadKey(keyMap, dict, c))
      && (AllThrough(keyMap, dict, str) <==> AllThrough(keyMap, dict, front) && ThroughDeadKey(keyMap, dict, c))
      && (SomeUntypable(keyMap, dict, str) <==> SomeUntypable(keyMap, dict, front) || Untypable(keyMap, dict, c))
  {
    var front := str[..|str| - 1];
    assert forall i | 0 <= i < |front| :: front[i] == str[i];
  }

  // -------------------------------------------------------------- modifiers

  /** `MODIFIERS`: the eight modifier codes, all released. */
  const Released: map<string, bool> := map[
    "ShiftLeft" := false, "ShiftRight" := false,
    "ControlLeft" := false, "ControlRight" := false,
    "AltLeft" := false, "AltRight" := false,
    "OSLeft" := false, "OSRight" := false
  ]

  /** The flag of a modifier code, false for a code never set. */
  function Held(m: map<string, bool>, code: string): bool
  {
    code in m && m[code]
  }

  /** `getShiftState`: either Shift key. */
  predicate ShiftState(m: map<string, bool>)
  {
    Held(m, "ShiftRight") || Held(m, "ShiftLeft")
  }

  /** `getAltGrState`: the right Alt key; on Windows also left Control with
      left Alt, on macOS also the left Alt key. */
  predicate AltGrState(m: map<string, bool>, platform: string)
  {
    if platform == "win" then Held(m, "AltRight") || (Held(m, "ControlLeft") && Held(m, "AltLeft"))
    else if platform == "mac" then Held(m, "AltRight") || Held(m, "AltLeft")
    else Held(m, "AltRight")
  }

  /** `getModifierLevel`: the level a key press reads, one of 0 to 3, odd
      exactly when Shift is held and 2 or more exactly when AltGr is. */
  function ModifierLevel(m: map<string, bool>, platform: string): (r: nat)
    ensures r < 4
    ensures r % 2 == 1 <==> ShiftState(m)
    ensures r >= 2 <==> AltGrState(m, platform)
  {
    (if ShiftState(m) then 1 else 0) + (if AltGrState(m, platform) then 2 else 0)
  }

  // ------------------------------------------------------------- emulation

  /** The state `newKeyboardLayout` closes over. */
  datatype Emulator = Emulator(keyMap: KeyMap, deadKeys: DeadKeys, modifiers: map<string, bool>,
                               pending: Option<DeadTable>, platform: string)

  /** `newKeyboardLayout(keyMap, deadKeys)`: every modifier released,
      nothing pending, no platform. */
  function NewKeyboardLayout(keyMap: KeyMap, deadKeys: DeadKeys): (e: Emulator)
    ensures e.modifiers.Keys == Released.Keys && forall code | code in e.modifiers :: !e.modifiers[code]
    ensures e.pending.None? && e.keyMap == keyMap && e.deadKeys == deadKeys
  {
    Emulator(keyMap, deadKeys, Released, None, "")
  }

  /** `keyUp(keyCode)`: releases a modifier; nothing else changes. */
  function KeyUp(e: Emulator, code: string): (r: Emulator)
    ensures r.modifiers.Keys == e.modifiers.Keys
    ensures forall c | c in r.modifiers :: r.modifiers[c] == (c != code && e.modifiers[c])
    ensures r == e.(modifiers := r.modifiers)
  {
    if code in e.modifiers then e.(modifiers := e.modifiers[code := false]) else e
  }

  /** The text a key press produces and the state after it. */
  datatype Typed = Typed(output: string, state: Emulator)

  /** The name a property lookup uses for a value: `undefined` when the
      key has no value at that level. */
  function PropertyName(value: Option<string>): string
  {
    if value.Some? then value.value else "undefined"
  }

  /** `x || ''` on a value that is a string or undefined. */
  function OrEmpty(value: Option<string>): (r: string)
    ensures value.Some? ==> r == value.value
    ensures value.None? ==> r == ""
  {
    if value.Some? then value.value else ""
  }

  /** `keyDown(keyCode)`. A modifier code sets its flag. A code with no
      entry in the key map types nothing and leaves the pending dead key
      alone. Otherwise the value at the current level is read: with a dead
      key pending, the pending table's entry for it is typed (or nothing)
      and the dead key is spent, even if the value is itself a dead key;
      with none pending, a dead-key value arms its table and types nothing,
      and any other value types itself. */
  function KeyDown(e: Emulator, code: string): (r: Typed)
    ensures r.state.keyMap == e.keyMap && r.state.deadKeys == e.deadKeys && r.state.platform == e.platform
    ensures r.state.modifiers.Keys == e.modifiers.Keys
    ensures forall c | c in r.state.modifiers :: r.state.modifiers[c] == (c == code || e.modifiers[c])
    ensures Lookup(e.keyMap, code).None? ==> r.output == "" && r.state.pending == e.pending
    ensures Lookup(e.keyMap, code).Some? ==>
      var v := KeyValue(r.state.modifiers, e.platform, Lookup(e.keyMap, code).value);
      && (e.pending.Some? ==>
            r.output == OrEmpty(Lookup(e.pending.value, PropertyName(v))) && r.state.pending.None?)
      && (e.pending.None? && IsDeadKey(v) ==>
            r.output == "" && r.state.pending == Lookup(e.deadKeys, v.value))
      && (e.pending.None? && !IsDeadKey(v) ==>
            r.output == OrEmpty(v) && r.state.pending.None?)
    ensures e.pending.None? && r.state.pending.Some? ==>
      (r.output == "" && exists id :: IsDeadKey(Some(id)) && Lookup(e.deadKeys, id) == r.state.pending)
  {
    var m := if code in e.modifiers then e.modifiers[code := true] else e.modifiers;
    match Lookup(e.keyMap, code)
    case None => Typed("", e.(modifiers := m))
    case Some(key) =>
      var value := KeyValue(m, e.platform, key);
      if e.pending.Some? then Typed(OrEmpty(Lookup(e.pending.value, PropertyName(value))), e.(modifiers := m, pending := None))
      else if IsDeadKey(value) then Typed("", e.(modifiers := m, pending := Lookup(e.deadKeys, value.value)))
      else Typed(OrEmpty(value), e.(modifiers := m))
  }

  /** `key[getModifierLevel(modifiers, platform)]`, `undefined` past the
      end of the key's values. */
  function KeyValue(m: map<string, bool>, platform: string, key: seq<string>): (r: Option<string>)
    ensures ModifierLevel(m, platform) < |key| ==> r == Some(key[ModifierLevel(m, platform)])
    ensures ModifierLevel(m, platform) >= |key| ==> r.None?
  {
    var level := ModifierLevel(m, platform);
    if level < |key| then Some(key[level]) else None
  }

  /** Pressing and releasing a modifier that was up leaves the modifiers
      as they were. */
  lemma PressRelease(e: Emulator, code: string)
    requires code in e.modifiers && !e.modifiers[code]
    ensures KeyUp(KeyDown(e, code).state, code).modifiers == e.modifiers
  {
    var m := KeyUp(KeyDown(e, code).state, code).modifiers;
    assert forall c | c in m :: m[c] == e.modifiers[c];
  }

  // ---------------------------------------------------- hints and typing

  /** The shape of the emulator's tables that JavaScript objects give. */
  ghost predicate WellFormed(e: Emulator)
  {
    && UniqueNames(e.keyMap)
    && UniqueNames(e.deadKeys)
    && (forall i | 0 <= i < |e.deadKeys| :: UniqueNames(e.deadKeys[i].1))
  }

  /** Pressing a key the hints give for `c`, at the hinted level, types
      `c` when no dead key is pending. */
  lemma HintTypes(e: Emulator, c: char, id: string, level: nat)
    requires WellFormed(e) && e.pending.None?
    requires Hint(id, level) in GetKeyList(e.keyMap, [c])
    requires id !in e.modifiers && ModifierLevel(e.modifiers, e.platform) == level
    ensures KeyDown(e, id).output == [c]
  {
    HitValue(e.keyMap, [c], id, level);
    CharNotDeadKey(c);
  }

  /** Typing through a dead key: pressing the key that types the dead key
      arms its table and types nothing; pressing next, at its own level,
      the key that types the base then types `c`. */
  lemma DeadHintTypes(e: Emulator, c: char, x: DkRef, id1: string, level1: nat,
                      id2: string, level2: nat, m2: map<string, bool>)
    requires WellFormed(e) && e.pending.None?
    requires x in Get(GetDeadKeyDict(e.deadKeys), [c]) && IsDeadKey(Some(x.id))
    requires Hint(id1, level1) in GetKeyList(e.keyMap, x.id)
    requires Hint(id2, level2) in GetKeyList(e.keyMap, x.base)
    requires id1 !in e.modifiers && ModifierLevel(e.modifiers, e.platform) == level1
    requires id2 !in m2 && ModifierLevel(m2, e.platform) == level2
    ensures KeyDown(e, id1).output == ""
    ensures KeyDown(e, id1).state.pending == Lookup(e.deadKeys, x.id)
    ensures KeyDown(KeyDown(e, id1).state.(modifiers := m2), id2).output == [c]
  {
    HitValue(e.keyMap, x.id, id1, level1);
    DictEntry(e.deadKeys, [c], x);
    var armed := KeyDown(e, id1).state;
    assert armed == e.(pending := Lookup(e.deadKeys, x.id));
    HitValue(e.keyMap, x.base, id2, level2);
    var e2 := armed.(modifiers := m2);
    assert KeyValue(m2, e.platform, Lookup(e.keyMap, id2).value) == Some(x.base);
  }

  // ----------------------------------------------------------- altUpperChar

  /** `altUpperChar(base, shift)`: on the AltGr and dead-key levels the
      shifted character is shown only when it is not simply the upper case
      of the base one. */
  function AltUpperChar(toLower: string -> string, base: string, shift: string): (r: string)
    ensures r == "" || r == shift
    ensures r != "" <==> shift != "" && base != toLower(shift)
  {
    if shift != "" && base != toLower(shift) then shift else ""
  }

  /** Hiding is stable: a shown label stays shown, a hidden one hidden. */
  lemma AltUpperCharStable(toLower: string -> string, base: string, shift: string)
    ensures AltUpperChar(toLower, base, AltUpperChar(toLower, base, shift)) == AltUpperChar(toLower, base, shift)
  {
  }
}

=== FILE: keysyms.dfy ===
/** The keysym names build/make.py writes for Latin-1 characters: the
    `supportedSymbols` literal of its `export_xkb`, entry by entry as
    written, and the dict Python builds from it. */
module BuildKeysyms {

  /** The dict a Python dict display builds from its entries: they are
      stored in order, so a key written twice keeps its later value. */
  function DictOf(entries: seq<(char, string)>): (r: map<char, string>)
    ensures |entries| > 0 ==> var last := entries[|entries| - 1]; last.0 in r && r[last.0] == last.1
    decreases |entries|
  {
    if |entries| == 0 then map[]
    else
      var last := entries[|entries| - 1];
      DictOf(entries[..|entries| - 1])[last.0 := last.1]
  }

  /** An entry that no later entry overrides gives its key's value. */
  lemma {:induction false} LastWins(entries: seq<(char, string)>, i: int)
    requires 0 <= i < |entries|
    requires forall j | i < j < |entries| :: entries[j].0 != entries[i].0
    ensures entries[i].0 in DictOf(entries) && DictOf(entries)[entries[i].0] == entries[i].1
    decreases |entries|
  {
    var front := entries[..|entries| - 1];
    if i < |front| {
      assert forall j | i < j < |front| :: front[j] == entries[j];
      LastWins(front, i);
      assert front[i] == entries[i];
    }
  }

  /** Every key of `s` is at least `lo`. */
  predicate KeysFrom(s: seq<(char, string)>, lo: char)
  {
    forall j | 0 <= j < |s| :: lo <= s[j].0
  }

  /** The dict of `x + y` is that of `x` overridden by that of `y`. */
  lemma {:induction false} DictOfAppend(x: seq<(char, string)>, y: seq<(char, string)>)
    ensures DictOf(x + y) == DictOf(x) + DictOf(y)
    decreases |y|
  {
    if |y| == 0 {
      assert x + y == x;
    } else {
      var y' := y[..|y| - 1];
      var last := y[|y| - 1];
      assert (x + y)[..|x + y| - 1] == x + y' && (x + y)[|x + y| - 1] == last;
      DictOfAppend(x, y');
    }
  }

  /** A key of the later entries keeps their value. */
  lemma SuffixLookup(x: seq<(char, string)>, y: seq<(char, string)>, c: char)
    requires c in DictOf(y)
    ensures c in DictOf(x + y) && DictOf(x + y)[c] == DictOf(y)[c]
  {
    DictOfAppend(x, y);
  }

  /** A key the later entries lack keeps the earlier entries' value. */
  lemma PrefixLookup(x: seq<(char, string)>, y: seq<(char, string)>, c: char)
    requires c in DictOf(x) && c !in DictOf(y)
    ensures c in DictOf(x + y) && DictOf(x + y)[c] == DictOf(x)[c]
  {
    DictOfAppend(x, y);
  }

  /** A key below every key of `s` is not in its dict. */
  lemma {:induction false} Below(s: seq<(char, string)>, lo: char, c: char)
    requires KeysFrom(s, lo) && c < lo
    ensures c !in DictOf(s)
    decreases |s|
  {
    if |s| > 0 {
      var front := s[..|s| - 1];
      assert forall j | 0 <= j < |front| :: front[j] == s[j];
      Below(front, lo, c);
    }
  }

  /** Bounds carry over to a concatenation, lowered to the smaller one. */
  lemma KeysFromAppend(s: seq<(char, string)>, lo: char, t: seq<(char, string)>, lo': char)
    requires KeysFrom(s, lo) && KeysFrom(t, lo') && lo <= lo'
    ensures KeysFrom(s + t, lo)
  {
    forall j | 0 <= j < |s + t| ensures lo <= (s + t)[j].0 {
      if j >= |s| { assert (s + t)[j] == t[j - |s|]; }
    }
  }

  /** The first forty entries of `supportedSymbols`, `space` to `F`. */
  const FirstSymbols: seq<(char, string)> := [
    ('\U{0020}', "space"),
    ('\U{0021}', "exclam"),
    ('\U{0022}', "quotedbl"),
    ('\U{0023}', "numbersign"),
    ('\U{0024}', "dollar"),
    ('\U{0025}', "percent"),
    ('\U{0026}', "ampersand"),
    ('\U{0027}', "apostrophe"),
    ('\U{0027}', "quoteright"),
    ('\U{0028}', "parenleft"),
    ('\U{0029}', "parenright"),
    ('\U{002a}', "asterisk"),
    ('\U{002b}', "plus"),
    ('\U{002c}', "comma"),
    ('\U{002d}', "minus"),
    ('\U{002e}', "period"),
    ('\U{002f}', "slash"),
    ('\U{0030}', "0"),
    ('\U{0031}', "1"),
    ('\U{0032}', "2"),
    ('\U{0033}', "3"),
    ('\U{0034}', "4"),
    ('\U{0035}', "5"),
    ('\U{0036}', "6"),
    ('\U{0037}', "7"),
    ('\U{0038}', "8"),
    ('\U{0039}', "9"),
    ('\U{003a}', "colon"),
    ('\U{003b}', "semicolon"),
    ('\U{003c}', "less"),
    ('\U{003d}', "equal"),
    ('\U{003e}', "greater"),
    ('\U{003f}', "question"),
    ('\U{0040}', "at"),
    ('\U{0041}', "A"),
    ('\U{0042}', "B"),
    ('\U{0043}', "C"),
    ('\U{0044}', "D"),
    ('\U{0045}', "E"),
    ('\U{0046}', "F")
  ]

  /** The second forty entries of `supportedSymbols`, `G` to `m`. */
  const SecondSymbols: seq<(char, string)> := [
    ('\U{0047}', "G"),
    ('\U{0048}', "H"),
    ('\U{0049}', "I"),
    ('\U{004a}', "J"),
    ('\U{004b}', "K"),
    ('\U{004c}', "L"),
    ('\U{004d}', "M"),
    ('\U{004e}', "N"),
    ('\U{004f}', "O"),
    ('\U{0050}', "P"),
    ('\U{0051}', "Q"),
    ('\U{0052}', "R"),
    ('\U{0053}', "S"),
    ('\U{0054}', "T"),
    ('\U{0055}', "U"),
    ('\U{0056}', "V"),
    ('\U{0057}', "W"),
    ('\U{0058}', "X"),
    ('\U{0059}', "Y"),
    ('\U{005a}', "Z"),
    ('\U{005b}', "bracketleft"),
    ('\U{005c}', "backslash"),
    ('\U{005d}', "bracketright"),
    ('\U{005e}', "asciicircum"),
    ('\U{005f}', "underscore"),
    ('\U{0060}', "grave"),
    ('\U{0060}', "quoteleft"),
    ('\U{0061}', "a"),
    ('\U{0062}', "b"),
    ('\U{0063}', "c"),
    ('\U{0064}', "d"),
    ('\U{0065}', "e"),
    ('\U{0066}', "f"),
    ('\U{0067}', "g"),
    ('\U{0068}', "h"),
    ('\U{0069}', "i"),
    ('\U{006a}', "j"),
    ('\U{006b}', "k"),
    ('\U{006c}', "l"),
    ('\U{006d}', "m")
  ]

  /** The third forty entries of `supportedSymbols`, `n` to `paragraph`. */
  const ThirdSymbols: seq<(char, string)> := [
    ('\U{006e}', "n"),
    ('\U{006f}', "o"),
    ('\U{0070}', "p"),
    ('\U{0071}', "q"),
    ('\U{0072}', "r"),
    ('\U{0073}', "s"),
    ('\U{0074}', "t"),
    ('\U{0075}', "u"),
    ('\U{0076}', "v"),
    ('\U{0077}', "w"),
    ('\U{0078}', "x"),
    ('\U{0079}', "y"),
    ('\U{007a}', "z"),
    ('\U{007b}', "braceleft"),
    ('\U{007c}', "bar"),
    ('\U{007d}', "braceright"),
    ('\U{007e}', "asciitilde"),
    ('\U{00a0}', "nobreakspace"),
    ('\U{00a1}', "exclamdown"),
    ('\U{00a2}', "cent"),
    ('\U{00a3}', "sterling"),
    ('\U{00a4}', "currency"),
    ('\U{00a5}', "yen"),
    ('\U{00a6}', "brokenbar"),
    ('\U{00a7}', "section"),
    ('\U{00a8}', "diaeresis"),
    ('\U{00a9}', "copyright"),
    ('\U{00aa}', "ordfeminine"),
    ('\U{00ab}', "guillemotleft"),
    ('\U{00ac}', "notsign"),
    ('\U{00ad}', "hyphen"),
    ('\U{00ae}', "registered"),
    ('\U{00af}', "macron"),
    ('\U{00b0}', "degree"),
    ('\U{00b1}', "plusminus"),
    ('\U{00b2}', "twosuperior"),
    ('\U{00b3}', "threesuperior"),
    ('\U{00b4}', "acute"),
    ('\U{00b5}', "mu"),
    ('\U{00b6}', "paragraph")
  ]

  /** The fourth forty entries of `supportedSymbols`, `periodcentered` to `Udiaeresis`. */
  const FourthSymbols: seq<(char, string)> := [
    ('\U{00b7}', "periodcentered"),
    ('\U{00b8}', "cedilla"),
    ('\U{00b9}', "onesuperior"),
    ('\U{00ba}', "masculine"),
    ('\U{00bb}', "guillemotright"),
    ('\U{00bc}', "onequarter"),
    ('\U{00bd}', "onehalf"),
    ('\U{00be}', "threequarters"),
    ('\U{00bf}', "questiondown"),
    ('\U{00c0}', "Agrave"),
    ('\U{00c1}', "Aacute"),
    ('\U{00c2}', "Acircumflex"),
    ('\U{00c3}', "Atilde"),
    ('\U{00c4}', "Adiaeresis"),
    ('\U{00c5}', "Aring"),
    ('\U{00c6}', "AE"),
    ('\U{00c7}', "Ccedilla"),
    ('\U{00c8}', "Egrave"),
    ('\U{00c9}', "Eacute"),
    ('\U{00ca}', "Ecircumflex"),
    ('\U{00cb}', "Ediaeresis"),
    ('\U{00cc}', "Igrave"),
    ('\U{00cd}', "Iacute"),
    ('\U{00ce}', "Icircumflex"),
    ('\U{00cf}', "Idiaeresis"),
    ('\U{00d0}', "ETH"),
    ('\U{00d0}', "Eth"),
    ('\U{00d1}', "Ntilde"),
    ('\U{00d2}', "Ograve"),
    ('\U{00d3}', "Oacute"),
    ('\U{00d4}', "Ocircumflex"),
    ('\U{00d5}', "Otilde"),
    ('\U{00d6}', "Odiaeresis"),
    ('\U{00d7}', "multiply"),
    ('\U{00d8}', "Oslash"),
    ('\U{00d8}', "Ooblique"),
    ('\U{00d9}', "Ugrave"),
    ('\U{00da}', "Uacute"),
    ('\U{00db}', "Ucircumflex"),
    ('\U{00dc}', "Udiaeresis")
  ]

  /** The fifth forty entries of `supportedSymbols` (the last thirty-seven), `Yacute` to `ydiaeresis`. */
  const FifthSymbols: seq<(char, string)> := [
    ('\U{00dd}', "Yacute"),
    ('\U{00de}', "THORN"),
    ('\U{00de}', "Thorn"),
    ('\U{00df}', "ssharp"),
    ('\U{00e0}', "agrave"),
    ('\U{00e1}', "aacute"),
    ('\U{00e2}', "acircumflex"),
    ('\U{00e3}', "atilde"),
    ('\U{00e4}', "adiaeresis"),
    ('\U{00e5}', "aring"),
    ('\U{00e6}', "ae"),
    ('\U{00e7}', "ccedilla"),
    ('\U{00e8}', "egrave"),
    ('\U{00e9}', "eacute"),
    ('\U{00ea}', "ecircumflex"),
    ('\U{00eb}', "ediaeresis"),
    ('\U{00ec}', "igrave"),
    ('\U{00ed}', "iacute"),
    ('\U{00ee}', "icircumflex"),
    ('\U{00ef}', "idiaeresis"),
    ('\U{00f0}', "eth"),
    ('\U{00f1}', "ntilde"),
    ('\U{00f2}', "ograve"),
    ('\U{00f3}', "oacute"),
    ('\U{00f4}', "ocircumflex"),
    ('\U{00f5}', "otilde"),
    ('\U{00f6}', "odiaeresis"),
    ('\U{00f7}', "division"),
    ('\U{00f8}', "oslash"),
    ('\U{00f8}', "ooblique"),
    ('\U{00f9}', "ugrave"),
    ('\U{00fa}', "uacute"),
    ('\U{00fb}', "ucircumflex"),
    ('\U{00fc}', "udiaeresis"),
    ('\U{00fd}', "yacute"),
    ('\U{00fe}', "thorn"),
    ('\U{00ff}', "ydiaeresis")
  ]

  /** The entries of `supportedSymbols`, in the order written (the parts
      grouped from the right); six characters are written twice. */
  const SupportedSymbols: seq<(char, string)> :=
    FirstSymbols + (SecondSymbols + (ThirdSymbols + (FourthSymbols + FifthSymbols)))

  /** The dict `supportedSymbols`. */
  function SupportedSymbolsDict(): map<char, string>
  {
    DictOf(SupportedSymbols)
  }

  lemma SecondSymbolsFrom()
    ensures KeysFrom(SecondSymbols, '\U{0047}')
  {
  }

  lemma ThirdSymbolsFrom()
    ensures KeysFrom(ThirdSymbols, '\U{006e}')
  {
  }

  lemma FourthSymbolsFrom()
    ensures KeysFrom(FourthSymbols, '\U{00b7}')
  {
  }

  lemma FifthSymbolsFrom()
    ensures KeysFrom(FifthSymbols, '\U{00dd}')
  {
  }

  /** The entries are sorted: each group of later parts starts above the
      parts before it. */
  lemma LaterParts()
    ensures KeysFrom(FifthSymbols, '\U{00dd}')
    ensures KeysFrom(FourthSymbols + FifthSymbols, '\U{00b7}')
    ensures KeysFrom(ThirdSymbols + (FourthSymbols + FifthSymbols), '\U{006e}')
    ensures KeysFrom(SecondSymbols + (ThirdSymbols + (FourthSymbols + FifthSymbols)), '\U{0047}')
  {
    SecondSymbolsFrom();
    ThirdSymbolsFrom();
    FourthSymbolsFrom();
    FifthSymbolsFrom();
    KeysFromAppend(FourthSymbols, '\U{00b7}', FifthSymbols, '\U{00dd}');
    KeysFromAppend(ThirdSymbols, '\U{006e}', FourthSymbols + FifthSymbols, '\U{00b7}');
    KeysFromAppend(SecondSymbols, '\U{0047}', ThirdSymbols + (FourthSymbols + FifthSymbols), '\U{006e}');
  }
  /** Where a key of the table finds its value: in the last part that
      has it, the parts after holding only larger keys. */
  lemma InParts(p1: seq<(char, string)>, p2: seq<(char, string)>, p3: seq<(char, string)>,
                p4: seq<(char, string)>, p5: seq<(char, string)>, k: nat, c: char, v: string)
    requires 1 <= k <= 5
    requires k == 1 ==> c in DictOf(p1) && DictOf(p1)[c] == v && c !in DictOf(p2 + (p3 + (p4 + p5)))
    requires k == 2 ==> c in DictOf(p2) && DictOf(p2)[c] == v && c !in DictOf(p3 + (p4 + p5))
    requires k == 3 ==> c in DictOf(p3) && DictOf(p3)[c] == v && c !in DictOf(p4 + p5)
    requires k == 4 ==> c in DictOf(p4) && DictOf(p4)[c] == v && c !in DictOf(p5)
    requires k == 5 ==> c in DictOf(p5) && DictOf(p5)[c] == v
    ensures c in DictOf(p1 + (p2 + (p3 + (p4 + p5)))) && DictOf(p1 + (p2 + (p3 + (p4 + p5))))[c] == v
  {
    DictOfAppend(p4, p5);
    DictOfAppend(p3, p4 + p5);
    DictOfAppend(p2, p3 + (p4 + p5));
    DictOfAppend(p1, p2 + (p3 + (p4 + p5)));
  }

  /** '\U{0027}' is written as `apostrophe`, then as `quoteright`. */
  lemma ApostropheInPart()
    ensures FirstSymbols[7] == ('\U{0027}', "apostrophe") && FirstSymbols[8] == ('\U{0027}', "quoteright")
    ensures '\U{0027}' in DictOf(FirstSymbols) && DictOf(FirstSymbols)['\U{0027}'] == "quoteright"
  {
    LastWins(FirstSymbols, 8);
  }

  lemma ApostropheRepeated()
    ensures '\U{0027}' in SupportedSymbolsDict() && SupportedSymbolsDict()['\U{0027}'] == "quoteright"
  {
    ApostropheInPart();
    LaterParts();
    Below(SecondSymbols + (ThirdSymbols + (FourthSymbols + FifthSymbols)), '\U{0047}', '\U{0027}');
    InParts(FirstSymbols, SecondSymbols, ThirdSymbols, FourthSymbols, FifthSymbols, 1, '\U{0027}', "quoteright");
  }

  /** '\U{0060}' is written as `grave`, then as `quoteleft`. */
  lemma GraveInPart()
    ensures SecondSymbols[25] == ('\U{0060}', "grave") && SecondSymbols[26] == ('\U{0060}', "quoteleft")
    ensures '\U{0060}' in DictOf(SecondSymbols) && DictOf(SecondSymbols)['\U{0060}'] == "quoteleft"
  {
    LastWins(SecondSymbols, 26);
  }

  lemma GraveRepeated()
    ensures '\U{0060}' in SupportedSymbolsDict() && SupportedSymbolsDict()['\U{0060}'] == "quoteleft"
  {
    GraveInPart();
    LaterParts();
    Below(ThirdSymbols + (FourthSymbols + FifthSymbols), '\U{006e}', '\U{0060}');
    InParts(FirstSymbols, SecondSymbols, ThirdSymbols, FourthSymbols, FifthSymbols, 2, '\U{0060}', "quoteleft");
  }

  /** '\U{00d0}' is written as `ETH`, then as `Eth`. */
  lemma EthCapitalInPart()
    ensures FourthSymbols[25] == ('\U{00d0}', "ETH") && FourthSymbols[26] == ('\U{00d0}', "Eth")
    ensures '\U{00d0}' in DictOf(FourthSymbols) && DictOf(FourthSymbols)['\U{00d0}'] == "Eth"
  {
    LastWins(FourthSymbols, 26);
  }

  lemma EthCapitalRepeated()
    ensures '\U{00d0}' in SupportedSymbolsDict() && SupportedSymbolsDict()['\U{00d0}'] == "Eth"
  {
    EthCapitalInPart();
    LaterParts();
    Below(FifthSymbols, '\U{00dd}', '\U{00d0}');
    InParts(FirstSymbols, SecondSymbols, ThirdSymbols, FourthSymbols, FifthSymbols, 4, '\U{00d0}', "Eth");
  }

  /** '\U{00d8}' is written as `Oslash`, then as `Ooblique`. */
  lemma OslashCapitalInPart()
    ensures FourthSymbols[34] == ('\U{00d8}', "Oslash") && FourthSymbols[35] == ('\U{00d8}', "Ooblique")
    ensures '\U{00d8}' in DictOf(FourthSymbols) && DictOf(FourthSymbols)['\U{00d8}'] == "Ooblique"
  {
    LastWins(FourthSymbols, 35);
  }

  lemma OslashCapitalRepeated()
    ensures '\U{00d8}' in SupportedSymbolsDict() && SupportedSymbolsDict()['\U{00d8}'] == "Ooblique"
  {
    OslashCapitalInPart();
    LaterParts();
    Below(FifthSymbols, '\U{00dd}', '\U{00d8}');
    InParts(FirstSymbols, SecondSymbols, ThirdSymbols, FourthSymbols, FifthSymbols, 4, '\U{00d8}', "Ooblique");
  }

  /** '\U{00de}' is written as `THORN`, then as `Thorn`. */
  lemma ThornCapitalInPart()
    ensures FifthSymbols[1] == ('\U{00de}', "THORN") && FifthSymbols[2] == ('\U{00de}', "Thorn")
    ensures '\U{00de}' in DictOf(FifthSymbols) && DictOf(FifthSymbols)['\U{00de}'] == "Thorn"
  {
    LastWins(FifthSymbols, 2);
  }

  lemma ThornCapitalRepeated()
    ensures '\U{00de}' in SupportedSymbolsDict() && SupportedSymbolsDict()['\U{00de}'] == "Thorn"
  {
    ThornCapitalInPart();
    InParts(FirstSymbols, SecondSymbols, ThirdSymbols, FourthSymbols, FifthSymbols, 5, '\U{00de}', "Thorn");
  }

  /** '\U{00f8}' is written as `oslash`, then as `ooblique`. */
  lemma OslashSmallInPart()
    ensures FifthSymbols[28] == ('\U{00f8}', "oslash") && FifthSymbols[29] == ('\U{00f8}', "ooblique")
    ensures '\U{00f8}' in DictOf(FifthSymbols) && DictOf(FifthSymbols)['\U{00f8}'] == "ooblique"
  {
    LastWins(FifthSymbols, 29);
  }

  lemma OslashSmallRepeated()
    ensures '\U{00f8}' in SupportedSymbolsDict() && SupportedSymbolsDict()['\U{00f8}'] == "ooblique"
  {
    OslashSmallInPart();
    InParts(FirstSymbols, SecondSymbols, ThirdSymbols, FourthSymbols, FifthSymbols, 5, '\U{00f8}', "ooblique");
  }

  /** The six characters `supportedSymbols` writes twice each keep the
      name written second. */
  lemma RepeatedKeysLastWins()
    ensures '\U{0027}' in SupportedSymbolsDict() && SupportedSymbolsDict()['\U{0027}'] == "quoteright"
    ensures '\U{0060}' in SupportedSymbolsDict() && SupportedSymbolsDict()['\U{0060}'] == "quoteleft"
    ensures '\U{00d0}' in SupportedSymbolsDict() && SupportedSymbolsDict()['\U{00d0}'] == "Eth"
    ensures '\U{00d8}' in SupportedSymbolsDict() && SupportedSymbolsDict()['\U{00d8}'] == "Ooblique"
    ensures '\U{00de}' in SupportedSymbolsDict() && SupportedSymbolsDict()['\U{00de}'] == "Thorn"
    ensures '\U{00f8}' in SupportedSymbolsDict() && SupportedSymbolsDict()['\U{00f8}'] == "ooblique"
  {
    ApostropheRepeated();
    GraveRepeated();
    EthCapitalRepeated();
    OslashCapitalRepeated();
    ThornCapitalRepeated();
    OslashSmallRepeated();
  }

  /** A dict keyed by characters as the table of strings the exporters
      look a layer value up in: the one-character strings of its keys. */
  function StringKeys(d: map<char, string>): (r: map<string, string>)
    ensures forall c :: c in d <==> [c] in r
    ensures forall c | c in d :: r[[c]] == d[c]
    ensures forall v | v in r :: |v| == 1
  {
    map c | c in d :: [c] := d[c]
  }

  /** `supportedSymbols` as build/make.py's exporter consults it. */
  function SupportedKeysyms(): map<string, string>
  {
    StringKeys(SupportedSymbolsDict())
  }

  /** The six repeated characters, looked up as strings. */
  lemma RepeatedKeysyms()
    ensures "'" in SupportedKeysyms() && SupportedKeysyms()["'"] == "quoteright"
    ensures "`" in SupportedKeysyms() && SupportedKeysyms()["`"] == "quoteleft"
    ensures "\U{00d0}" in SupportedKeysyms() && SupportedKeysyms()["\U{00d0}"] == "Eth"
    ensures "\U{00d8}" in SupportedKeysyms() && SupportedKeysyms()["\U{00d8}"] == "Ooblique"
    ensures "\U{00de}" in SupportedKeysyms() && SupportedKeysyms()["\U{00de}"] == "Thorn"
    ensures "\U{00f8}" in SupportedKeysyms() && SupportedKeysyms()["\U{00f8}"] == "ooblique"
  {
    RepeatedKeysLastWins();
    var d := SupportedSymbolsDict();
    assert "'" == ['\U{0027}'] && "`" == ['\U{0060}'];
  }
}

=== FILE: layout.dfy ===
/** The `Layout` class of script/make.py: the six layers read from a
    layout's base and AltGr templates (base/shift, dead-key/shift,
    AltGr/shift), the dead keys those layers use, and the base/alt table of
    the layout's own dead key. */
module Layouts {
  import opened Results
  import opened Unicode
  import opened Text
  import opened Combining
  import opened Geometry
  import opened Template

  /** An entry of the dead-key registry: its name, the character standing
      for it in the layers, the characters it modifies (`base`) and their
      results (`alt`), and what it gives before a space and before itself. */
  datatype DeadKey = DeadKey(name: string, glyph: string, base: string, alt: string,
                             altSpace: string, altSelf: string)

  /** The character of the layout's own dead key (`1dk`). */
  const LafayetteKey: string := "\U{20e1}"

  /** The six layers, the used dead keys by character, and those
      characters in registry order. */
  datatype Layout = Layout(layers: seq<Layer>, deadKeys: map<string, DeadKey>, dkIndex: seq<string>)

  /** A layout as the class builds it: exactly six layers. */
  predicate Valid(layout: Layout)
  {
    |layout.layers| == 6
  }

  // ------------------------------------------------------- registration

  /** Index of the last registry entry for character `c`, or -1 when the
      registry has none. */
  function LastIndex(registry: seq<DeadKey>, c: string): (i: int)
    ensures -1 <= i < |registry|
    ensures i >= 0 ==> registry[i].glyph == c
    ensures forall j | i < j < |registry| :: registry[j].glyph != c
    decreases |registry|
  {
    if |registry| == 0 then -1
    else if registry[|registry| - 1].glyph == c then |registry| - 1
    else LastIndex(registry[..|registry| - 1], c)
  }

  predicate IsDeadKeyChar(registry: seq<DeadKey>, c: string)
  {
    LastIndex(registry, c) >= 0
  }

  lemma DeadKeyCharIn(registry: seq<DeadKey>, c: string)
    ensures IsDeadKeyChar(registry, c) <==> exists i | 0 <= i < |registry| :: registry[i].glyph == c
  {
    if exists i | 0 <= i < |registry| :: registry[i].glyph == c {
      var i :| 0 <= i < |registry| && registry[i].glyph == c;
      assert LastIndex(registry, c) >= i;
    }
  }

  /** The inner `for dk in DEAD_KEYS` loop for one derived value: every
      registry entry for that character is stored in turn, so the last one
      stays. */
  function RegisterValue(registry: seq<DeadKey>, acc: map<string, DeadKey>, v: string): (r: map<string, DeadKey>)
    ensures IsDeadKeyChar(registry, v) ==> r == acc[v := registry[LastIndex(registry, v)]]
    ensures !IsDeadKeyChar(registry, v) ==> r == acc
    decreases |registry|
  {
    if |registry| == 0 then acc
    else
      var r := RegisterValue(registry[..|registry| - 1], acc, v);
      if registry[|registry| - 1].glyph == v then r[v := registry[|registry| - 1]] else r
  }

  /** The registration done while reading the templates, over every derived
      value in reading order. */
  function RegisterAll(registry: seq<DeadKey>, seen: seq<string>): (r: map<string, DeadKey>)
    ensures forall c :: c in r <==> c in seen && IsDeadKeyChar(registry, c)
    ensures forall c | c in r :: IsDeadKeyChar(registry, c) && r[c] == registry[LastIndex(registry, c)]
    decreases |seen|
  {
    if |seen| == 0 then map[]
    else RegisterValue(registry, RegisterAll(registry, seen[..|seen| - 1]), seen[|seen| - 1])
  }

  /** The `dk_index` loop: the characters of the registry entries that were
      used, in registry order. */
  function DkIndex(registry: seq<DeadKey>, deadKeys: map<string, DeadKey>): (r: seq<string>)
    ensures |r| <= |registry|
    ensures forall c :: c in r <==> c in deadKeys && IsDeadKeyChar(registry, c)
    decreases |registry|
  {
    if |registry| == 0 then []
    else
      var init := registry[..|registry| - 1];
      var last := registry[|registry| - 1];
      var r := DkIndex(init, deadKeys) + (if last.glyph in deadKeys then [last.glyph] else []);
      assert forall c | IsDeadKeyChar(init, c) :: IsDeadKeyChar(registry, c);
      assert forall c | c != last.glyph && IsDeadKeyChar(registry, c) :: IsDeadKeyChar(init, c);
      r
  }

  /** No two registry entries share a character. */
  predicate DistinctChars(registry: seq<DeadKey>)
  {
    forall i, j | 0 <= i < j < |registry| :: registry[i].glyph != registry[j].glyph
  }

  /** With distinct registry characters, every used dead key is listed
      exactly once. */
  lemma {:induction false} DkIndexDistinct(registry: seq<DeadKey>, deadKeys: map<string, DeadKey>)
    requires DistinctChars(registry)
    ensures forall i, j | 0 <= i < j < |DkIndex(registry, deadKeys)| ::
              DkIndex(registry, deadKeys)[i] != DkIndex(registry, deadKeys)[j]
    decreases |registry|
  {
    if |registry| > 0 {
      var init := registry[..|registry| - 1];
      var last := registry[|registry| - 1];
      DkIndexDistinct(init, deadKeys);
    }
  }

  /** With distinct registry characters the list follows registry order:
      of any two listed characters, the first has the earlier entry. */
  lemma {:induction false} DkIndexOrder(registry: seq<DeadKey>, deadKeys: map<string, DeadKey>)
    requires DistinctChars(registry)
    ensures forall i, j | 0 <= i < j < |DkIndex(registry, deadKeys)| ::
              LastIndex(registry, DkIndex(registry, deadKeys)[i]) < LastIndex(registry, DkIndex(registry, deadKeys)[j])
    decreases |registry|
  {
    if |registry| > 0 {
      var init := registry[..|registry| - 1];
      var last := registry[|registry| - 1];
      var r0 := DkIndex(init, deadKeys);
      var r := DkIndex(registry, deadKeys);
      DkIndexOrder(init, deadKeys);
      assert r == r0 + (if last.glyph in deadKeys then [last.glyph] else []);
      forall c | c in r0 ensures LastIndex(registry, c) == LastIndex(init, c) < |registry| - 1 {
        assert c != last.glyph;
      }
      assert LastIndex(registry, last.glyph) == |registry| - 1;
      forall i, j | 0 <= i < j < |r| ensures LastIndex(registry, r[i]) < LastIndex(registry, r[j]) {
        assert r[i] == r0[i] && r[i] in r0;
        if j < |r0| {
          assert r[j] == r0[j] && r[j] in r0;
        }
      }
    }
  }

  // ----------------------------------------------------- the 1dk table

  /** The entries of `keys` that are keys (not separators) with an entry in
      `ext`, in order. */
  function ExtKeys(keys: seq<string>, ext: Layer): (r: seq<string>)
    ensures |r| <= |keys|
    ensures forall k :: k in r <==> k in keys && !IsSeparator(k) && k in ext
    decreases |keys|
  {
    if |keys| == 0 then []
    else
      var k := keys[|keys| - 1];
      var r := ExtKeys(keys[..|keys| - 1], ext) + (if !IsSeparator(k) && k in ext then [k] else []);
      assert keys == keys[..|keys| - 1] + [k];
      r
  }

  /** Every key with an entry in `ext` has one in `base`. */
  predicate Covered(keys: seq<string>, base: Layer, ext: Layer)
  {
    forall i | 0 <= i < |keys| && !IsSeparator(keys[i]) && keys[i] in ext :: keys[i] in base
  }

  /** One half of `_parse_lafayette_keys`: for every key with an entry in
      the dead-key layer `ext`, its base character and its dead-key
      character, index-aligned. A key missing from `base` is the KeyError
      of `self.layers[i][keyName]`. */
  function LafayettePairs(keys: seq<string>, base: Layer, ext: Layer): (r: Result<(seq<string>, seq<string>)>)
    ensures r.Ok? <==> Covered(keys, base, ext)
    ensures r.Fail? ==> r.error == KeyError
    ensures r.Ok? ==> |r.value.0| == |r.value.1| == |ExtKeys(keys, ext)|
    ensures r.Ok? ==> forall t | 0 <= t < |ExtKeys(keys, ext)| ::
              ExtKeys(keys, ext)[t] in base && r.value.0[t] == base[ExtKeys(keys, ext)[t]]
              && r.value.1[t] == ext[ExtKeys(keys, ext)[t]]
    decreases |keys|
  {
    if |keys| == 0 then Ok(([], []))
    else
      var init := keys[..|keys| - 1];
      var k := keys[|keys| - 1];
      assert Covered(keys, base, ext) ==> Covered(init, base, ext) by {
        forall i | 0 <= i < |init| ensures init[i] == keys[i] { }
      }
      match LafayettePairs(init, base, ext)
      case Fail(e) => Fail(e)
      case Ok(acc) =>
        assert Covered(init, base, ext);
        if IsSeparator(k) || k !in ext then
          assert Covered(keys, base, ext) by {
            forall i | 0 <= i < |keys| && !IsSeparator(keys[i]) && keys[i] in ext ensures keys[i] in base {
              if i < |init| { assert init[i] == keys[i]; }
            }
          }
          Ok(acc)
        else if k !in base then
          Fail(KeyError)
        else
          assert Covered(keys, base, ext) by {
            forall i | 0 <= i < |keys| && !IsSeparator(keys[i]) && keys[i] in ext ensures keys[i] in base {
              if i < |init| { assert init[i] == keys[i]; }
            }
          }
          Ok((acc.0 + [base[k]], acc.1 + [ext[k]]))
  }

  /** The 1dk's `base` and `alt` strings as `_parse_lafayette_keys` joins
      them, over the key order `keys` (`LAYER_KEYS`): the pairs of layer 2
      over layer 0, then those of layer 3 over layer 1. */
  function LafayetteTable(keys: seq<string>, l0: Layer, l1: Layer, l2: Layer, l3: Layer)
    : (r: Result<(string, string)>)
    ensures r.Ok? <==> Covered(keys, l0, l2) && Covered(keys, l1, l3)
    ensures r.Fail? ==> r.error == KeyError
  {
    match LafayettePairs(keys, l0, l2)
    case Fail(e) => Fail(e)
    case Ok(p0) =>
      match LafayettePairs(keys, l1, l3)
      case Fail(e) => Fail(e)
      case Ok(p1) => Ok((Concat(p0.0) + Concat(p1.0), Concat(p0.1) + Concat(p1.1)))
  }

  /** `_parse_lafayette_keys`: when the layout uses its own dead key, that
      entry's `base` and `alt` become the table above. Nothing else
      changes, and nothing at all when the key is unused. */
  function WithLafayette(keys: seq<string>, layers: seq<Layer>, deadKeys: map<string, DeadKey>)
    : (r: Result<map<string, DeadKey>>)
    requires |layers| == 6
    ensures LafayetteKey !in deadKeys ==> r == Ok(deadKeys)
    ensures r.Fail? ==> r.error == KeyError
    ensures LafayetteKey in deadKeys ==>
              (r.Ok? <==> Covered(keys, layers[0], layers[2]) && Covered(keys, layers[1], layers[3]))
    ensures r.Ok? ==> r.value.Keys == deadKeys.Keys
    ensures r.Ok? ==> forall c | c in deadKeys && c != LafayetteKey :: r.value[c] == deadKeys[c]
    ensures r.Ok? && LafayetteKey in deadKeys ==>
              var table := LafayetteTable(keys, layers[0], layers[1], layers[2], layers[3]).value;
              r.value[LafayetteKey] == deadKeys[LafayetteKey].(base := table.0, alt := table.1)
  {
    if LafayetteKey !in deadKeys then Ok(deadKeys)
    else
      match LafayetteTable(keys, layers[0], layers[1], layers[2], layers[3])
      case Fail(e) => Fail(e)
      case Ok(table) => Ok(deadKeys[LafayetteKey := deadKeys[LafayetteKey].(base := table.0, alt := table.1)])
  }

  /** Every value of a layer is one character. */
  ghost predicate OneCharValues(layer: Layer)
  {
    forall k | k in layer :: |layer[k]| == 1
  }

  /** Strings `b` and `a` line up with keys `e`: position `t` holds the
      one-character values of key `e[t]` in layers `lb` and `la`. */
  ghost predicate Aligned(b: string, a: string, e: seq<string>, lb: Layer, la: Layer)
  {
    && |b| == |a| == |e|
    && (forall t | 0 <= t < |e| :: e[t] in lb && e[t] in la && lb[e[t]] == [b[t]] && la[e[t]] == [a[t]])
  }

  /** With one-character layers, the characters of one half of the 1dk
      table line up with the keys that have a dead-key entry. */
  lemma PairsAligned(keys: seq<string>, base: Layer, ext: Layer)
    requires OneCharValues(base) && OneCharValues(ext)
    requires LafayettePairs(keys, base, ext).Ok?
    ensures Aligned(Concat(LafayettePairs(keys, base, ext).value.0), Concat(LafayettePairs(keys, base, ext).value.1),
                    ExtKeys(keys, ext), base, ext)
  {
    var v := LafayettePairs(keys, base, ext).value;
    var e := ExtKeys(keys, ext);
    forall t | 0 <= t < |e| ensures |v.0[t]| == 1 && |v.1[t]| == 1 {
      assert e[t] in base && e[t] in ext;
    }
    ConcatSingles(v.0);
    ConcatSingles(v.1);
  }

  /** With one-character layers, the 1dk's `base` and `alt` have equal
      length and are aligned: their first part pairs the base and dead-key
      characters of the keys of layer 2, their second part those of the
      keys of layer 3. */
  lemma LafayetteAligned(keys: seq<string>, l0: Layer, l1: Layer, l2: Layer, l3: Layer)
    requires OneCharValues(l0) && OneCharValues(l1) && OneCharValues(l2) && OneCharValues(l3)
    requires LafayetteTable(keys, l0, l1, l2, l3).Ok?
    ensures var base := LafayetteTable(keys, l0, l1, l2, l3).value.0;
            var alt := LafayetteTable(keys, l0, l1, l2, l3).value.1;
            var n := |ExtKeys(keys, l2)|;
            && |base| == |alt| == n + |ExtKeys(keys, l3)|
            && Aligned(base[..n], alt[..n], ExtKeys(keys, l2), l0, l2)
            && Aligned(base[n..], alt[n..], ExtKeys(keys, l3), l1, l3)
  {
    var v0 := LafayettePairs(keys, l0, l2).value;
    var v1 := LafayettePairs(keys, l1, l3).value;
    PairsAligned(keys, l0, l2);
    PairsAligned(keys, l1, l3);
    var table := LafayetteTable(keys, l0, l1, l2, l3).value;
    assert table == (Concat(v0.0) + Concat(v1.0), Concat(v0.1) + Concat(v1.1));
    assert table.0[..|Concat(v0.0)|] == Concat(v0.0) && table.0[|Concat(v0.0)|..] == Concat(v1.0);
    assert table.1[..|Concat(v0.1)|] == Concat(v0.1) && table.1[|Concat(v0.1)|..] == Concat(v1.1);
  }


  // ------------------------------------------------------------- __init__

  /** The six layers read from the two templates, and every value derived
      on the way. */
  datatype Reading = Reading(layers: seq<Layer>, seen: seq<string>)

  /** What reading guarantees: six layers, each pair keyed by its own
      geometry cells, no blank value, every value seen. */
  ghost predicate ReadWell(rd: Reading, rows: seq<Row>)
  {
    && |rd.layers| == 6
    && rd.layers[0].Keys + rd.layers[1].Keys <= KeysOf(Cells(rows, 0))
    && rd.layers[2].Keys + rd.layers[3].Keys <= KeysOf(Cells(rows, 2))
    && rd.layers[4].Keys + rd.layers[5].Keys <= KeysOf(Cells(rows, 4))
    && (forall i, k | 0 <= i < 6 && k in rd.layers[i] :: rd.layers[i][k] != " " && rd.layers[i][k] in rd.seen)
  }

  /** The six layers are the pairs read from the base template at layers
      0 and 2 and from the AltGr template at layer 4. */
  ghost predicate ReadFrom(db: CharDb, rows: seq<Row>, base: seq<string>, altgr: seq<string>, layers: seq<Layer>)
  {
    && |layers| == 6
    && Parse(db, base, rows, 0).Ok? && Parse(db, base, rows, 2).Ok? && Parse(db, altgr, rows, 4).Ok?
    && Pair(layers[0], layers[1]) == Parse(db, base, rows, 0).value.pair
    && Pair(layers[2], layers[3]) == Parse(db, base, rows, 2).value.pair
    && Pair(layers[4], layers[5]) == Parse(db, altgr, rows, 4).value.pair
  }

  /** The 1dk entry, when there is one, holds the table `_parse_lafayette_keys`
      builds from layers 0 to 3. */
  ghost predicate LafayetteBuilt(layout: Layout)
  {
    |layout.layers| == 6 &&
    (LafayetteKey in layout.deadKeys ==>
      var table := LafayetteTable(LayerKeys, layout.layers[0], layout.layers[1], layout.layers[2], layout.layers[3]);
      table.Ok? && layout.deadKeys[LafayetteKey].base == table.value.0 && layout.deadKeys[LafayetteKey].alt == table.value.1)
  }

  /** The three `_parse_template` calls of `__init__`: the base template
      for layers 0-1 and 2-3, the AltGr template for layers 4-5. */
  function ReadLayers(db: CharDb, rows: seq<Row>, base: seq<string>, altgr: seq<string>): (r: Result<Reading>)
    ensures r.Ok? <==> && LinesPresent(base, rows) && LinesPresent(altgr, rows)
                       && AllInBounds(base, Cells(rows, 0)) && AllInBounds(base, Cells(rows, 2))
                       && AllInBounds(altgr, Cells(rows, 4))
    ensures r.Fail? ==> r.error == IndexError
    ensures r.Ok? ==> ReadWell(r.value, rows)
    ensures r.Ok? ==> ReadFrom(db, rows, base, altgr, r.value.layers)
  {
    match Parse(db, base, rows, 0)
    case Fail(e) => Fail(e)
    case Ok(p0) =>
      match Parse(db, base, rows, 2)
      case Fail(e) => Fail(e)
      case Ok(p2) =>
        match Parse(db, altgr, rows, 4)
        case Fail(e) => Fail(e)
        case Ok(p4) =>
          var rd := Reading([p0.pair.base, p0.pair.shift, p2.pair.base, p2.pair.shift, p4.pair.base, p4.pair.shift],
                            p0.seen + p2.seen + p4.seen);
          ParsedFacts(db, base, rows, 0, p0);
          ParsedFacts(db, base, rows, 2, p2);
          ParsedFacts(db, altgr, rows, 4, p4);
          NewLayoutFacts(p0, p2, p4, KeysOf(Cells(rows, 0)), KeysOf(Cells(rows, 2)), KeysOf(Cells(rows, 4)),
                         rd.layers, rd.seen);
          Ok(rd)
  }

  /** What the registration leaves: every registered character is a
      registry character mapped to its last entry (the 1dk keeping only its
      name and character, its table being rebuilt), and `dk_index` lists
      exactly the registered characters. */
  ghost predicate Registered(registry: seq<DeadKey>, layout: Layout)
  {
    && (forall c | c in layout.deadKeys ::
          && IsDeadKeyChar(registry, c)
          && layout.deadKeys[c].glyph == c
          && layout.deadKeys[c].name == registry[LastIndex(registry, c)].name
          && (c != LafayetteKey ==> layout.deadKeys[c] == registry[LastIndex(registry, c)]))
    && (forall c :: c in layout.dkIndex <==> c in layout.deadKeys)
  }

  /** The end of `__init__`: dead-key registration, the 1dk table and the
      `dk_index` list. */
  function Finish(registry: seq<DeadKey>, rd: Reading): (r: Result<Layout>)
    requires |rd.layers| == 6
    ensures r.Fail? ==> r.error == KeyError
    ensures r.Ok? ==> r.value.layers == rd.layers
    ensures r.Ok? ==> forall c | c in rd.seen && IsDeadKeyChar(registry, c) :: c in r.value.deadKeys
    ensures r.Ok? ==> Registered(registry, r.value)
    ensures r.Ok? ==> LafayetteBuilt(r.value)
    ensures r.Fail? <==> LafayetteKey in rd.seen && IsDeadKeyChar(registry, LafayetteKey)
                         && !(Covered(LayerKeys, rd.layers[0], rd.layers[2]) && Covered(LayerKeys, rd.layers[1], rd.layers[3]))
  {
    var registered := RegisterAll(registry, rd.seen);
    match WithLafayette(LayerKeys, rd.layers, registered)
    case Fail(e) => Fail(e)
    case Ok(deadKeys) => Ok(Layout(rd.layers, deadKeys, DkIndex(registry, deadKeys)))
  }

  /** `Layout.__init__`: the base template gives layers 0-3 (base pair and
      dead-key pair), the AltGr template layers 4-5; then the dead keys
      seen while reading are registered, the 1dk table is derived, and the
      used dead keys are listed. A combining mark opening a template is the
      IndexError of its space removal; a missing line or a key column past
      the end of a line is the IndexError of the parse; a dead-key layer key
      missing from its base layer is the KeyError of the 1dk table. */
  function NewLayout(db: CharDb, registry: seq<DeadKey>, rows: seq<Row>, baseText: string, altgrText: string)
    : (r: Result<Layout>)
    ensures (|baseText| > 0 && db.combining(baseText[0])) || (|altgrText| > 0 && db.combining(altgrText[0]))
            ==> r == Fail(IndexError)
    ensures r.Fail? ==> r.error == IndexError || r.error == KeyError
    ensures r.Ok? ==> Valid(r.value)
    ensures r.Ok? ==> r.value.layers[0].Keys + r.value.layers[1].Keys <= KeysOf(Cells(rows, 0))
    ensures r.Ok? ==> r.value.layers[2].Keys + r.value.layers[3].Keys <= KeysOf(Cells(rows, 2))
    ensures r.Ok? ==> r.value.layers[4].Keys + r.value.layers[5].Keys <= KeysOf(Cells(rows, 4))
    ensures r.Ok? ==> forall i, k | 0 <= i < 6 && k in r.value.layers[i] ::
                        && r.value.layers[i][k] != " "
                        && (IsDeadKeyChar(registry, r.value.layers[i][k]) ==> r.value.layers[i][k] in r.value.deadKeys)
    ensures r.Ok? ==> Registered(registry, r.value)
    ensures r.Ok? ==> LafayetteBuilt(r.value)
    ensures r.Ok? ==> RemoveSpaces(db, baseText).Some? && RemoveSpaces(db, altgrText).Some?
                      && ReadFrom(db, rows, Split(RemoveSpaces(db, baseText).value, '\n'),
                                  Split(RemoveSpaces(db, altgrText).value, '\n'), r.value.layers)
  {
    match RemoveSpaces(db, baseText)
    case None => Fail(IndexError)
    case Some(baseClean) =>
      match RemoveSpaces(db, altgrText)
      case None => Fail(IndexError)
      case Some(altgrClean) =>
        match ReadLayers(db, rows, Split(baseClean, '\n'), Split(altgrClean, '\n'))
        case Fail(e) => Fail(e)
        case Ok(rd) => Finish(registry, rd)
  }

  lemma NewLayoutFacts(p0: Parsed, p2: Parsed, p4: Parsed, k0: set<string>, k2: set<string>, k4: set<string>,
                       layers: seq<Layer>, seen: seq<string>)
    requires WellRead(p0, k0) && WellRead(p2, k2) && WellRead(p4, k4)
    requires layers == [p0.pair.base, p0.pair.shift, p2.pair.base, p2.pair.shift, p4.pair.base, p4.pair.shift]
    requires seen == p0.seen + p2.seen + p4.seen
    ensures layers[0].Keys + layers[1].Keys <= k0
    ensures layers[2].Keys + layers[3].Keys <= k2
    ensures layers[4].Keys + layers[5].Keys <= k4
    ensures forall i, k | 0 <= i < 6 && k in layers[i] :: layers[i][k] != " " && layers[i][k] in seen
  {
    forall i, k | 0 <= i < 6 && k in layers[i] ensures layers[i][k] != " " && layers[i][k] in seen {
      if i < 2 {
        assert layers[i][k] in p0.seen;
      } else if i < 4 {
        assert layers[i][k] in p2.seen;
      } else {
        assert layers[i][k] in p4.seen;
      }
    }
  }

  /** What reading a template guarantees of the pair it gives. */
  ghost predicate WellRead(p: Parsed, keys: set<string>)
  {
    && p.pair.base.Keys + p.pair.shift.Keys <= keys
    && (forall k | k in p.pair.base :: p.pair.base[k] != " " && p.pair.base[k] in p.seen)
    && (forall k | k in p.pair.shift :: p.pair.shift[k] != " " && p.pair.shift[k] in p.seen)
  }

  /** Every value read is unblank and was derived, hence seen by the
      registration. */
  lemma ParsedFacts(db: CharDb, template: seq<string>, rows: seq<Row>, n: nat, p: Parsed)
    requires Parse(db, template, rows, n) == Ok(p)
    ensures WellRead(p, KeysOf(Cells(rows, n)))
  {
    ParseCellsSeen(db, template, Cells(rows, n), n);
  }

  lemma {:induction false} ParseCellsSeen(db: CharDb, template: seq<string>, cs: seq<Cell>, n: nat)
    requires ParseCells(db, template, cs, n).Ok?
    ensures var p := ParseCells(db, template, cs, n).value;
            (forall k | k in p.pair.base :: p.pair.base[k] in p.seen)
            && (forall k | k in p.pair.shift :: p.pair.shift[k] in p.seen)
    decreases |cs|
  {
    if |cs| > 0 {
      ParseCellsSeen(db, template, cs[..|cs| - 1], n);
    }
  }

  // -------------------------------------------------------- get_geometry

  /** Some row of the geometry has a key, so that filling it reads the
      layers at all. */
  predicate AnyKey(rows: seq<Row>)
  {
    exists j | 0 <= j < |rows| :: |rows[j].keys| > 0
  }

  /** The view has the template's length and holds the template's lines
      outside the `m` rows. */
  predicate OtherLinesKept(view: seq<string>, template: seq<string>, m: nat)
  {
    |view| == |template| && forall l | 0 <= l < |template| && !IsRowLine(l, m) :: view[l] == template[l]
  }

  /** Some requested pair number has no sixth layer behind it. */
  predicate SomeWithoutLayers(pairs: seq<nat>)
  {
    exists i | 0 <= i < |pairs| :: pairs[i] + 1 >= 6
  }

  /** No requested pair number has its two layers. */
  predicate AllWithoutLayers(pairs: seq<nat>)
  {
    forall i | 0 <= i < |pairs| :: pairs[i] + 1 >= 6
  }

  /** One turn of the loop of `get_geometry`: `_fill_template` for pair
      `n`. The layers of a pair are read only for a key
      (`self.layers[layerNumber]` and `[layerNumber + 1]` inside the key
      loop), after the row's two lines: a pair number without a sixth layer
      behind it is an IndexError when some row has a key or a row line is
      missing, and otherwise rewrites every row line as it was. */
  function FillPair(db: CharDb, layout: Layout, n: nat, t: seq<string>, rows: seq<Row>): (r: Result<seq<string>>)
    requires Valid(layout)
    ensures n + 1 >= 6 ==> (r.Fail? <==> !LinesPresent(t, rows) || AnyKey(rows)) && (r.Ok? ==> r.value == t)
    ensures !LinesPresent(t, rows) ==> r.Fail?
    ensures r.Fail? ==> r.error == IndexError
    ensures r.Ok? ==> OtherLinesKept(r.value, t, |rows|)
  {
    if n + 1 >= 6 then
      if !LinesPresent(t, rows) || AnyKey(rows) then Fail(IndexError) else Ok(t)
    else
      Fill(UpperKeyOf(db), Pair(layout.layers[n], layout.layers[n + 1]), n, t, rows)
  }

  /** `get_geometry(layers, name)`: the geometry's template filled with each
      requested pair in turn. */
  function GetGeometry(db: CharDb, layout: Layout, pairs: seq<nat>, template: seq<string>, rows: seq<Row>)
    : (r: Result<seq<string>>)
    requires Valid(layout)
    ensures SomeWithoutLayers(pairs) && AnyKey(rows) ==> r.Fail?
    ensures |pairs| > 0 && !LinesPresent(template, rows) ==> r.Fail?
    ensures AllWithoutLayers(pairs) && !AnyKey(rows) && LinesPresent(template, rows) ==> r == Ok(template)
    ensures r.Fail? ==> r.error == IndexError
    ensures r.Ok? ==> OtherLinesKept(r.value, template, |rows|)
    decreases |pairs|
  {
    if |pairs| == 0 then Ok(template)
    else
      match GetGeometry(db, layout, pairs[..|pairs| - 1], template, rows)
      case Fail(e) => Fail(e)
      case Ok(t) =>
        assert forall i | 0 <= i < |pairs| - 1 :: pairs[..|pairs| - 1][i] == pairs[i];
        assert LinesPresent(t, rows) <==> LinesPresent(template, rows);
        FillPair(db, layout, pairs[|pairs| - 1], t, rows)
  }

  /** The view of one pair read back: a blank geometry filled with layers
      `n` and `n + 1` reads back as those layers, up to what the fill
      leaves implied. */
  lemma GeometryReadsBack(db: CharDb, layout: Layout, n: nat, template: seq<string>, rows: seq<Row>)
    requires Valid(layout) && n + 1 < 6
    requires LinesPresent(template, rows) && AllBlank(template, Cells(rows, n)) && DistinctKeys(Cells(rows, n))
    requires SingleChars(Pair(layout.layers[n], layout.layers[n + 1]))
    ensures GetGeometry(db, layout, [n], template, rows).Ok?
    ensures var view := GetGeometry(db, layout, [n], template, rows).value;
      Parse(db, view, rows, n).Ok?
      && Parse(db, view, rows, n).value.pair
         == Expected(db, Pair(layout.layers[n], layout.layers[n + 1]), n, KeysOf(Cells(rows, n)))
  {
    GeometryOnePair(db, layout, n, template, rows);
    FillThenParse(db, Pair(layout.layers[n], layout.layers[n + 1]), n, template, rows);
  }

  lemma GeometryOnePair(db: CharDb, layout: Layout, n: nat, template: seq<string>, rows: seq<Row>)
    requires Valid(layout) && n + 1 < 6
    ensures GetGeometry(db, layout, [n], template, rows)
            == Fill(UpperKeyOf(db), Pair(layout.layers[n], layout.layers[n + 1]), n, template, rows)
  {
    var pairs := [n];
    assert |pairs| == 1 && pairs[|pairs| - 1] == n && pairs[..|pairs| - 1] == [];
    assert GetGeometry(db, layout, pairs[..|pairs| - 1], template, rows) == Ok(template);
    assert GetGeometry(db, layout, pairs, template, rows) == FillPair(db, layout, n, template, rows);
  }
}

=== FILE: lines.dfy ===
/** A text file read line by line, as Python's `for line in file` reads
    it: every line keeps its `\n`, and only the last may have none. The
    text is taken after Python's universal-newline translation, so it
    holds no `\r`. */
module FileLines {
  import opened Text

  /** The length of the first line of `s`: up to and including the first
      `\n`, or all of `s`. */
  function LineEnd(s: string): (k: nat)
    ensures k <= |s|
    ensures |s| > 0 ==> k > 0
    ensures forall i | 0 <= i < k - 1 :: s[i] != '\n'
    ensures k < |s| ==> s[k - 1] == '\n'
    decreases |s|
  {
    if |s| == 0 then 0
    else if s[0] == '\n' then 1
    else
      var k := LineEnd(s[1..]);
      assert forall i | 1 <= i < k :: s[i] == s[1..][i - 1];
      1 + k
  }

  /** A line as read: not empty, and `\n` only as its last character. */
  predicate IsLine(l: string)
  {
    |l| > 0 && forall i | 0 <= i < |l| - 1 :: l[i] != '\n'
  }

  /** The line ends with its `\n`. */
  predicate Ended(l: string)
  {
    |l| > 0 && l[|l| - 1] == '\n'
  }

  /** What a sequence of lines read from a file looks like: only the last
      line may lack its `\n`. */
  predicate WellLined(ls: seq<string>)
  {
    (forall i | 0 <= i < |ls| :: IsLine(ls[i])) && (forall i | 0 <= i < |ls| - 1 :: Ended(ls[i]))
  }

  /** The lines of a text; glued back together they give the text. */
  function Lines(s: string): (r: seq<string>)
    ensures Concat(r) == s
    ensures WellLined(r)
    decreases |s|
  {
    if |s| == 0 then []
    else
      var k := LineEnd(s);
      var rest := Lines(s[k..]);
      ConcatCons(s[..k], rest);
      assert s[..k] + s[k..] == s;
      assert IsLine(s[..k]);
      ConsLine(s[..k], rest);
      [s[..k]] + rest
  }

  lemma ConsLine(l: string, rest: seq<string>)
    requires IsLine(l) && WellLined(rest)
    requires |rest| > 0 ==> Ended(l)
    ensures WellLined([l] + rest)
  {
    assert forall i | 1 <= i < |[l] + rest| :: ([l] + rest)[i] == rest[i - 1];
  }

  /** A single line reads as itself. */
  lemma LineOf(l: string)
    requires IsLine(l)
    ensures Lines(l) == [l]
  {
    var k := LineEnd(l);
    assert k == |l|;
    assert l[..k] == l;
    assert l[k..] == "";
    assert Lines(l) == [l[..k]] + Lines(l[k..]);
  }

  /** An ended line in front of a text reads as that line, then the
      text's lines. */
  lemma LinesCons(l: string, rest: string)
    requires IsLine(l) && Ended(l)
    ensures Lines(l + rest) == [l] + Lines(rest)
  {
    LinesAppend(l, rest);
    LineOf(l);
  }

  /** A text whose last line is ended reads on into the next text line by
      line. */
  lemma {:induction false} LinesAppend(a: string, b: string)
    requires |a| == 0 || a[|a| - 1] == '\n'
    ensures Lines(a + b) == Lines(a) + Lines(b)
    decreases |a|
  {
    if |a| == 0 {
      assert a + b == b;
    } else {
      var k := LineEnd(a);
      var rest := a[k..];
      LineEndAppend(a, b);
      SliceAppend(a, b, k);
      LinesUnfold(a + b);
      LinesUnfold(a);
      LinesAppend(rest, b);
      calc {
        Lines(a + b);
        [a[..k]] + Lines(rest + b);
        [a[..k]] + (Lines(rest) + Lines(b));
        { SeqAssoc([a[..k]], Lines(rest), Lines(b)); }
        ([a[..k]] + Lines(rest)) + Lines(b);
        Lines(a) + Lines(b);
      }
    }
  }

  lemma SeqAssoc<T>(x: seq<T>, y: seq<T>, z: seq<T>)
    ensures x + (y + z) == (x + y) + z
  {
  }

  /** One step of `Lines`. */
  lemma LinesUnfold(s: string)
    requires |s| > 0
    ensures Lines(s) == [s[..LineEnd(s)]] + Lines(s[LineEnd(s)..])
  {
  }

  lemma SliceAppend(a: string, b: string, k: nat)
    requires 0 < k <= |a| && a[|a| - 1] == '\n'
    ensures (a + b)[..k] == a[..k] && (a + b)[k..] == a[k..] + b
    ensures |a[k..]| == 0 || a[k..][|a[k..]| - 1] == '\n'
  {
  }

  lemma {:induction false} LineEndAppend(a: string, b: string)
    requires |a| > 0 && a[|a| - 1] == '\n'
    ensures LineEnd(a + b) == LineEnd(a)
    decreases |a|
  {
    if a[0] != '\n' {
      assert (a + b)[1..] == a[1..] + b;
      LineEndAppend(a[1..], b);
    }
  }

  /** Lines as a file holds them read back as the same lines. */
  lemma {:induction false} LinesConcat(ls: seq<string>)
    requires WellLined(ls)
    ensures Lines(Concat(ls)) == ls
    decreases |ls|
  {
    if |ls| > 0 {
      var front := ls[..|ls| - 1];
      var last := ls[|ls| - 1];
      assert WellLined(front);
      LinesConcat(front);
      if |front| > 0 {
        assert Concat(front) == Concat(front[..|front| - 1]) + front[|front| - 1];
        assert Ended(front[|front| - 1]);
      }
      LinesAppend(Concat(front), last);
      LineOf(last);
      assert front + [last] == ls;
    }
  }
}

=== FILE: listing.dfy ===
/** The section walk every exporter shares: the key list is traversed in
    order, a `-` entry becomes a header line (preceded by a blank line once
    anything has been written) and a key entry contributes its own lines. */
module Listing {
  import opened Results
  import opened Text
  import opened Geometry

  /** The lines each entry contributes, computed key by key in list order:
      nothing for a separator, the key's lines otherwise. The first key
      whose lines cannot be produced stops the export with its error, as the
      exception raised inside the source's loop does. */
  function Bodies(entries: seq<string>, lines: string -> Result<seq<string>>): (r: Result<seq<seq<string>>>)
    ensures r.Ok? <==> forall i | 0 <= i < |entries| && !IsSeparator(entries[i]) :: lines(entries[i]).Ok?
    ensures r.Ok? ==> |r.value| == |entries|
    ensures r.Ok? ==> forall i | 0 <= i < |entries| ::
      r.value[i] == if IsSeparator(entries[i]) then [] else lines(entries[i]).value
    ensures r.Fail? ==> exists i | 0 <= i < |entries| ::
      && !IsSeparator(entries[i])
      && lines(entries[i]) == Fail(r.error)
      && forall j | 0 <= j < i && !IsSeparator(entries[j]) :: lines(entries[j]).Ok?
    decreases |entries|
  {
    MapAll(entries, (e: string) => BodyOf(lines, e))
  }

  function BodyOf(lines: string -> Result<seq<string>>, entry: string): Result<seq<string>>
  {
    if IsSeparator(entry) then Ok([]) else lines(entry)
  }

  /** The header line written for a separator entry. */
  function Header(entry: string, open: string, close: string): string
  {
    if |entry| == 0 then open + close else open + entry[1..] + close
  }

  /** One turn of the source's loop over the key list. */
  function Step(out: seq<string>, entry: string, body: seq<string>, open: string, close: string): seq<string>
  {
    if IsSeparator(entry) then out + (if |out| > 0 then [""] else []) + [Header(entry, open, close)]
    else out + body
  }

  /** The whole loop, continuing the lines already in `out`. */
  function Walk(out: seq<string>, entries: seq<string>, bodies: seq<seq<string>>, open: string, close: string): (r: seq<string>)
    requires |bodies| == |entries|
    ensures out <= r
    decreases |entries|
  {
    if |entries| == 0 then out
    else Walk(Step(out, entries[0], bodies[0], open, close), entries[1..], bodies[1..], open, close)
  }

  /** The lines entry `i` contributes, once it is known whether anything was
      written before it. */
  function Chunk(entry: string, body: seq<string>, blank: bool, open: string, close: string): seq<string>
  {
    if IsSeparator(entry) then (if blank then [""] else []) + [Header(entry, open, close)] else body
  }

  /** All the chunks, when only the very first entry can find the output empty. */
  function Chunks(entries: seq<string>, bodies: seq<seq<string>>, started: bool, open: string, close: string)
    : (r: seq<seq<string>>)
    requires |bodies| == |entries|
    ensures |r| == |entries|
    ensures forall i | 0 <= i < |entries| :: r[i] == Chunk(entries[i], bodies[i], started || i > 0, open, close)
  {
    seq(|entries|, i requires 0 <= i < |entries| => Chunk(entries[i], bodies[i], started || i > 0, open, close))
  }

  /** Closed form of the walk: each separator's header is preceded by a blank
      line except when it is the very first line written, and each key's
      lines follow in list order. This holds whenever the walk starts after
      some output or at a separator, as every key list of the exporters does. */
  lemma {:induction false} WalkChunks(out: seq<string>, entries: seq<string>, bodies: seq<seq<string>>,
                                      open: string, close: string)
    requires |bodies| == |entries|
    requires |out| > 0 || |entries| == 0 || IsSeparator(entries[0])
    ensures Walk(out, entries, bodies, open, close) == out + Concat(Chunks(entries, bodies, |out| > 0, open, close))
    decreases |entries|
  {
    if |entries| > 0 {
      var out1 := Step(out, entries[0], bodies[0], open, close);
      var head := Chunks(entries, bodies, |out| > 0, open, close)[0];
      var rest := Chunks(entries[1..], bodies[1..], true, open, close);
      StepChunk(out, entries, bodies, open, close);
      WalkChunks(out1, entries[1..], bodies[1..], open, close);
      ChunksCons(entries, bodies, |out| > 0, open, close);
      ConcatCons(head, rest);
      AppendAssoc(out, head, Concat(rest));
    }
  }

  lemma AppendAssoc<T>(a: seq<T>, b: seq<T>, c: seq<T>)
    ensures (a + b) + c == a + (b + c)
  {
  }

  /** The first turn of the loop writes the first chunk. */
  lemma StepChunk(out: seq<string>, entries: seq<string>, bodies: seq<seq<string>>, open: string, close: string)
    requires |bodies| == |entries| > 0
    requires |out| > 0 || IsSeparator(entries[0])
    ensures Step(out, entries[0], bodies[0], open, close)
         == out + Chunks(entries, bodies, |out| > 0, open, close)[0]
    ensures |Step(out, entries[0], bodies[0], open, close)| > 0
  {
  }

  lemma ChunksCons(entries: seq<string>, bodies: seq<seq<string>>, started: bool, open: string, close: string)
    requires |bodies| == |entries| > 0
    ensures Chunks(entries, bodies, started, open, close)
         == [Chunk(entries[0], bodies[0], started, open, close)] + Chunks(entries[1..], bodies[1..], true, open, close)
  {
    var cs := Chunks(entries, bodies, started, open, close);
    var rest := Chunks(entries[1..], bodies[1..], true, open, close);
    forall i | 1 <= i < |entries| ensures cs[i] == rest[i - 1] {
      assert entries[1..][i - 1] == entries[i] && bodies[1..][i - 1] == bodies[i];
    }
  }

  /** The lines of every entry, once they are all known to exist. */
  function KeyLines(entries: seq<string>, lines: string -> Result<seq<string>>): (r: seq<seq<string>>)
    ensures |r| == |entries|
    ensures forall i | 0 <= i < |entries| :: r[i] == ValueOr(BodyOf(lines, entries[i]), [])
  {
    seq(|entries|, i requires 0 <= i < |entries| => ValueOr(BodyOf(lines, entries[i]), []))
  }

  /** An exporter's loop over `entries`, continuing `out`: it fails with the
      error of the first key whose lines cannot be produced; otherwise every
      header is preceded by a blank line unless it is the very first line,
      and every key contributes its own lines, in list order. */
  function Export(out: seq<string>, entries: seq<string>, lines: string -> Result<seq<string>>,
                  open: string, close: string): (r: Result<seq<string>>)
    ensures r.Ok? <==> forall i | 0 <= i < |entries| && !IsSeparator(entries[i]) :: lines(entries[i]).Ok?
    ensures r.Fail? ==> exists i | 0 <= i < |entries| ::
      && !IsSeparator(entries[i])
      && lines(entries[i]) == Fail(r.error)
      && forall j | 0 <= j < i && !IsSeparator(entries[j]) :: lines(entries[j]).Ok?
    ensures r.Ok? && (|out| > 0 || |entries| == 0 || IsSeparator(entries[0])) ==>
      r.value == out + Concat(Chunks(entries, KeyLines(entries, lines), |out| > 0, open, close))
    ensures r.Ok? && |entries| > 0 && IsSeparator(entries[0]) ==> |r.value| > 0
  {
    match Bodies(entries, lines)
    case Fail(e) => Fail(e)
    case Ok(bodies) =>
      assert bodies == KeyLines(entries, lines);
      WalkFacts(out, entries, bodies, open, close);
      Ok(Walk(out, entries, bodies, open, close))
  }

  lemma WalkFacts(out: seq<string>, entries: seq<string>, bodies: seq<seq<string>>, open: string, close: string)
    requires |bodies| == |entries|
    ensures (|out| > 0 || |entries| == 0 || IsSeparator(entries[0])) ==>
      Walk(out, entries, bodies, open, close) == out + Concat(Chunks(entries, bodies, |out| > 0, open, close))
    ensures |entries| > 0 && IsSeparator(entries[0]) ==> |Walk(out, entries, bodies, open, close)| > 0
  {
    if |out| > 0 || |entries| == 0 || IsSeparator(entries[0]) {
      WalkChunks(out, entries, bodies, open, close);
    }
    if |entries| > 0 && IsSeparator(entries[0]) {
      assert |Step(out, entries[0], bodies[0], open, close)| > 0;
    }
  }
}

=== FILE: results.dfy ===
/** Failure-carrying values used throughout the model.

    The original programs signal failure with Python exceptions or with
    JavaScript `undefined`; the model returns them as values instead. */
module Results {

  /** A value that may be missing (JavaScript `undefined`, a failed lookup). */
  datatype Option<+T> = None | Some(value: T)

  /** The Python exceptions the modelled code can raise. */
  datatype PyError =
    | IndexError   // list or string index out of range, `out[-1]` on an empty list
    | KeyError     // missing dictionary key
    | TypeError    // `ord()` of a string that is not exactly one character
    | ValueError   // tuple unpacking of a `split` with the wrong number of parts
    | SystemExit   // the installer's own `exit(message)` helper

  /** Either a value or the exception the source would raise. */
  datatype Result<+T> = Ok(value: T) | Fail(error: PyError)

  /** The value of a success, or `d` for a failure. */
  function ValueOr<T>(r: Result<T>, d: T): T
  {
    if r.Ok? then r.value else d
  }

  /** Applies `f` to each element in order, stopping at the first failure
      with its error, as a Python loop stops at the first exception. */
  function MapAll<A, B>(xs: seq<A>, f: A -> Result<B>): (r: Result<seq<B>>)
    ensures r.Ok? <==> forall i | 0 <= i < |xs| :: f(xs[i]).Ok?
    ensures r.Ok? ==> |r.value| == |xs| && forall i | 0 <= i < |xs| :: r.value[i] == f(xs[i]).value
    ensures r.Fail? ==> exists i | 0 <= i < |xs| ::
      f(xs[i]) == Fail(r.error) && forall j | 0 <= j < i :: f(xs[j]).Ok?
    decreases |xs|
  {
    if |xs| == 0 then Ok([])
    else
      match f(xs[0])
      case Fail(e) => Fail(e)
      case Ok(h) =>
        assert forall i | 1 <= i < |xs| :: xs[1..][i - 1] == xs[i];
        match MapAll(xs[1..], f)
        case Fail(e) =>
          var i :| 0 <= i < |xs[1..]| && f(xs[1..][i]) == Fail(e) && forall j | 0 <= j < i :: f(xs[1..][j]).Ok?;
          assert f(xs[i + 1]) == Fail(e);
          assert forall j | 0 <= j < i + 1 :: f(xs[j]).Ok? by {
            forall j | 0 <= j < i + 1 ensures f(xs[j]).Ok? {
              if j > 0 { assert xs[j] == xs[1..][j - 1]; }
            }
          }
          Fail(e)
        case Ok(t) => Ok([h] + t)
  }
}

=== FILE: script_export.dfy ===
/** The target views of the `Layout` class of script/make.py: `xkb`, `klc`,
    `klc_deadkeys`, `klc_dkIndex`, `klc_dkLafayette`, `get_osx_keyMap` and
    `osx_terminators`. The tables loaded from YAML files (keysym names, KLC
    scan codes, macOS key codes) are parameters. */
module ScriptExport {
  import opened Results
  import opened Unicode
  import opened Text
  import opened Geometry
  import opened Template
  import opened Layouts
  import opened Listing
  import opened Escapes
  import opened Formats

  // ---------------------------------------------------------------- xkb

  /** Whether the keysym table names `v` within the column width. */
  predicate NamedSymbol(keysyms: map<string, string>, v: string)
  {
    v in keysyms && |keysyms[v]| <= Width
  }

  /** One slot of an `xkb` key line: `VoidSymbol` for an absent key, the
      level-3 latch for the layout's own dead key, `dead_<name>` for another
      dead key, the keysym name when the table has one that fits the column,
      else the `U`+hex name of the code point (which `ord` only gives for a
      single character). */
  function XkbSlot(layout: Layout, keysyms: map<string, string>, layer: Layer, key: string): (r: Result<Slot>)
    ensures key !in layer ==> r == Ok(Slot("VoidSymbol", " "))
    ensures key in layer && layer[key] in layout.deadKeys ==>
      var dk := layout.deadKeys[layer[key]];
      r == Ok(if dk.glyph == LafayetteKey then Slot("ISO_Level3_Latch", dk.altSpace)
              else Slot("dead_" + dk.name, dk.altSelf))
    ensures key in layer && layer[key] !in layout.deadKeys && NamedSymbol(keysyms, layer[key]) ==>
      r == Ok(Slot(keysyms[layer[key]], layer[key]))
    ensures key in layer && layer[key] !in layout.deadKeys && !NamedSymbol(keysyms, layer[key]) ==>
      && (r.Ok? <==> |layer[key]| == 1)
      && (r.Ok? ==> CodePointName(r.value.symbol, layer[key][0]) && r.value.desc == layer[key])
    ensures r.Fail? ==> r.error == TypeError
    ensures r.Ok? && (key !in layer || layer[key] !in layout.deadKeys) ==> |r.value.symbol| <= Width
  {
    if key !in layer then Ok(Slot("VoidSymbol", " "))
    else
      var v := layer[key];
      if v in layout.deadKeys then
        var dk := layout.deadKeys[v];
        if dk.glyph == LafayetteKey then Ok(Slot("ISO_Level3_Latch", dk.altSpace))
        else Ok(Slot("dead_" + dk.name, dk.altSelf))
      else if NamedSymbol(keysyms, v) then Ok(Slot(keysyms[v], v))
      else if |v| == 1 then
        var h := HexOrdUpper(v[0]);
        HexOrdWidth(v[0]);
        assert ("U" + h)[1..] == h;
        Ok(Slot("U" + h, v))
      else Fail(TypeError)
  }

  /** The slots of `key` in layers 0-5, the first failing one stopping the
      line. */
  function XkbSlots(layout: Layout, keysyms: map<string, string>, key: string): (r: Result<seq<Slot>>)
    requires Valid(layout)
    ensures r.Ok? <==> forall i | 0 <= i < 6 :: XkbSlot(layout, keysyms, layout.layers[i], key).Ok?
    ensures r.Fail? ==> r.error == TypeError
    ensures r.Ok? ==> |r.value| == 6 && forall i | 0 <= i < 6 :: r.value[i] == XkbSlot(layout, keysyms, layout.layers[i], key).value
  {
    MapAll(layout.layers, (l: Layer) => XkbSlot(layout, keysyms, l, key))
  }

  /** The text before a key line's columns. */
  function XkbPrefix(db: CharDb, key: string): string
  {
    "key <" + db.upper(key) + "> "
  }

  /** The `key <…>` line of one key: after the name, the six slots in
      16-character columns, each readable back from its fixed column, then
      the comment. */
  function XkbKey(db: CharDb, layout: Layout, keysyms: map<string, string>, key: string): (r: Result<seq<string>>)
    requires Valid(layout)
    ensures r.Ok? <==> forall i | 0 <= i < 6 :: XkbSlot(layout, keysyms, layout.layers[i], key).Ok?
    ensures r.Fail? ==> r.error == TypeError
    ensures r.Ok? ==> |r.value| == 1 && StartsWith(r.value[0], XkbPrefix(db, key))
    ensures r.Ok? && (forall i | 0 <= i < 6 :: Fits(XkbSlot(layout, keysyms, layout.layers[i], key).value.symbol)) ==>
      forall i | 0 <= i < 6 ::
        XkbColumn(r.value[0][|XkbPrefix(db, key)|..], i) == XkbSlot(layout, keysyms, layout.layers[i], key).value.symbol
  {
    match XkbSlots(layout, keysyms, key)
    case Fail(e) => Fail(e)
    case Ok(slots) =>
      var symbols := Symbols(slots);
      var p := XkbPrefix(db, key);
      var tail := "]};" + RStrip(db.isSpace, Describe(" //", slots));
      XkbKeyColumns(p, symbols, tail);
      Ok([p + XkbColumns(symbols) + tail])
  }

  /** The line each key contributes to `xkb`. */
  function XkbLines(db: CharDb, layout: Layout, keysyms: map<string, string>): (f: string -> Result<seq<string>>)
    requires Valid(layout)
    ensures forall k :: f(k) == XkbKey(db, layout, keysyms, k)
  {
    k => XkbKey(db, layout, keysyms, k)
  }

  /** `xkb`: a `//` header per section and one key line per key of
      `LAYER_KEYS`, in order; the first key with a slot that cannot be
      named stops it. */
  function Xkb(db: CharDb, layout: Layout, keysyms: map<string, string>): (r: Result<seq<string>>)
    requires Valid(layout)
    ensures r.Fail? ==> r.error == TypeError
    ensures r.Ok? <==> forall j | 0 <= j < |LayerKeys| && !IsSeparator(LayerKeys[j]) ::
                         XkbKey(db, layout, keysyms, LayerKeys[j]).Ok?
    ensures r.Ok? ==> r.value == Concat(Chunks(LayerKeys, KeyLines(LayerKeys, XkbLines(db, layout, keysyms)), false, "//", ""))
  {
    LayerKeysOpen();
    Export([], LayerKeys, XkbLines(db, layout, keysyms), "//", "")
  }

  // ---------------------------------------------------------------- klc

  /** The characters `klc` writes literally. */
  const KlcLiterals: string := "1234567890" + LowerLetters + UpperLetters

  const LowerLetters: string := "abcdefghijklmnopqrstuvwxyz"
  const UpperLetters: string := "ABCDEFGHIJKLMNOPQRSTUVWXYZ"

  /** One slot of a `klc` key line: `-1` for an absent key, the code point of
      a dead key's `alt_space` marked with `@`, a letter or digit as itself
      (the test is a substring test on the list of literals) and any other
      character as its code point. No slot holds a tab. */
  function KlcSlot(layout: Layout, layer: Layer, key: string): (r: Result<Slot>)
    ensures key !in layer ==> r == Ok(Slot("-1", " "))
    ensures key in layer && layer[key] in layout.deadKeys ==>
      var space := layout.deadKeys[layer[key]].altSpace;
      && (r.Ok? <==> |space| == 1)
      && (r.Ok? ==> && r.value.desc == space && EndsWith(r.value.symbol, "@")
                    && HexValue(r.value.symbol[..|r.value.symbol| - 1]) == space[0] as int)
    ensures key in layer && layer[key] !in layout.deadKeys && Contains(KlcLiterals, layer[key]) ==>
      r == Ok(Slot(layer[key], layer[key]))
    ensures key in layer && layer[key] !in layout.deadKeys && !Contains(KlcLiterals, layer[key]) ==>
      && (r.Ok? <==> |layer[key]| == 1)
      && (r.Ok? ==> HexValue(r.value.symbol) == layer[key][0] as int && r.value.desc == layer[key])
    ensures r.Fail? ==> r.error == TypeError
    ensures r.Ok? ==> '\t' !in r.value.symbol
  {
    if key !in layer then Ok(Slot("-1", " "))
    else
      var v := layer[key];
      if v in layout.deadKeys then
        var space := layout.deadKeys[v].altSpace;
        match HexOrdOf(space)
        case Fail(e) => Fail(e)
        case Ok(h) =>
          HexTabFree(h);
          assert (h + "@")[..|h|] == h;
          Ok(Slot(h + "@", space))
      else if !Contains(KlcLiterals, v) then
        match HexOrdOf(v)
        case Fail(e) => Fail(e)
        case Ok(h) => HexTabFree(h); Ok(Slot(h, v))
      else
        LiteralTabFree(v);
        Ok(Slot(v, v))
  }

  lemma LiteralTabFree(v: string)
    requires Contains(KlcLiterals, v)
    ensures '\t' !in v
  {
    ContainedFree(KlcLiterals, v, '\t');
  }

  lemma {:induction false} ContainedFree(s: string, p: string, c: char)
    requires Contains(s, p) && c !in s
    ensures c !in p
    decreases |s|
  {
    if StartsWith(s, p) {
      assert forall i | 0 <= i < |p| :: p[i] == s[i];
    } else {
      ContainedFree(s[1..], p, c);
    }
  }

  /** Whether CapsLock acts on the key: its base character is not a dead
      key and changes under `upper()`. */
  predicate CapsAffected(db: CharDb, layout: Layout, key: string)
    requires Valid(layout)
  {
    key in layout.layers[0] && layout.layers[0][key] !in layout.deadKeys
    && db.upper(layout.layers[0][key]) != layout.layers[0][key]
  }

  /** The slots of `key` in the layers `klc` writes, the first failing one
      stopping the line. */
  function KlcSlots(layout: Layout, key: string): (r: Result<seq<Slot>>)
    requires Valid(layout)
    ensures r.Ok? <==> forall j | 0 <= j < 4 :: KlcSlot(layout, layout.layers[KlcLayers[j]], key).Ok?
    ensures r.Fail? ==> r.error == TypeError
    ensures r.Ok? ==> |r.value| == 4 && forall j | 0 <= j < 4 :: r.value[j] == KlcSlot(layout, layout.layers[KlcLayers[j]], key).value
  {
    MapAll(KlcLayers, (i: nat) => if i < 6 then KlcSlot(layout, layout.layers[i], key) else Fail(IndexError))
  }

  /** The fields of a `klc` line after the scan code: the CapsLock flag,
      the base and shift slots, the unused `-1` column and the AltGr slots. */
  function KlcFields(caps: bool, slots: seq<Slot>): seq<string>
    requires |slots| == 4
  {
    [if caps then "1" else "0", slots[0].symbol, slots[1].symbol, "-1", slots[2].symbol, slots[3].symbol]
  }

  /** The `klc` line of one key. Split at its tabs it gives the pieces of
      the key's scan-code entry, then the CapsLock flag (`1` exactly when
      CapsLock acts on the key), the base and shift slots, the constant
      `-1` and the AltGr slots, then the pieces of the comment. A slot that
      cannot be encoded fails first, then a key missing from the scan-code
      table. */
  function KlcKey(db: CharDb, layout: Layout, codes: map<string, string>, key: string): (r: Result<seq<string>>)
    requires Valid(layout)
    ensures r.Ok? <==> KlcSlots(layout, key).Ok? && key in codes
    ensures r.Fail? ==> (r.error == TypeError && KlcSlots(layout, key).Fail?) || (r.error == KeyError && key !in codes)
    ensures r.Ok? ==> |r.value| == 1
    ensures r.Ok? ==>
      var f := Split(r.value[0], '\t');
      var c := Split(codes[key], '\t');
      && |f| > |c| + 6 && f[..|c|] == c
      && f[|c|..|c| + 6] == KlcFields(CapsAffected(db, layout, key), KlcSlots(layout, key).value)
  {
    match KlcSlots(layout, key)
    case Fail(e) => Fail(e)
    case Ok(slots) =>
      if key !in codes then Fail(KeyError)
      else
        var desc := Strip(db.isSpace, Describe("//", slots));
        var fields := KlcFields(CapsAffected(db, layout, key), slots) + [desc];
        KlcFieldsTabFree(CapsAffected(db, layout, key), slots, fields);
        TabFieldsAfter(codes[key], fields);
        Pieces(Split(codes[key], '\t'), fields[..6], Split(desc, '\t'));
        Ok([codes[key] + "\t" + TabJoin(fields)])
  }

  lemma KlcFieldsTabFree(caps: bool, slots: seq<Slot>, fields: seq<string>)
    requires |slots| == 4 && forall j | 0 <= j < 4 :: '\t' !in slots[j].symbol
    requires |fields| == 7 && fields[..6] == KlcFields(caps, slots)
    ensures TabFree(fields[..|fields| - 1])
  {
  }

  /** The line each key contributes to `klc`. */
  function KlcLines(db: CharDb, layout: Layout, codes: map<string, string>): (f: string -> Result<seq<string>>)
    requires Valid(layout)
    ensures forall k :: f(k) == KlcKey(db, layout, codes, k)
  {
    k => KlcKey(db, layout, codes, k)
  }

  /** `klc`: a `//` header per section and one line per key of `LAYER_KEYS`;
      the first key that cannot be written stops it. */
  function Klc(db: CharDb, layout: Layout, codes: map<string, string>): (r: Result<seq<string>>)
    requires Valid(layout)
    ensures r.Fail? ==> r.error == TypeError || r.error == KeyError
    ensures r.Ok? <==> forall j | 0 <= j < |LayerKeys| && !IsSeparator(LayerKeys[j]) ::
                         KlcKey(db, layout, codes, LayerKeys[j]).Ok?
    ensures r.Ok? ==> r.value == Concat(Chunks(LayerKeys, KeyLines(LayerKeys, KlcLines(db, layout, codes)), false, "//", ""))
  {
    LayerKeysOpen();
    Export([], LayerKeys, KlcLines(db, layout, codes), "//", "")
  }

  // ---------------------------------------------------- klc dead keys

  /** A character as a KLC dead-key table shows it: a dead key by its
      `alt_space`. */
  function Shown(layout: Layout, v: string): string
  {
    if v in layout.deadKeys then layout.deadKeys[v].altSpace else v
  }

  /** One key of `klc_dkLafayette`'s pass over the layer pair `i` (0: base,
      1: shift): nothing when the dead-key layer lacks the key, a KeyError
      when the base layer lacks it, else the pair line of its base and
      dead-key characters, marked `@` when the latter is a dead key. */
  function LafayetteLine(layout: Layout, i: nat, key: string): (r: Result<seq<string>>)
    requires Valid(layout) && i < 2
    ensures key !in layout.layers[i + 2] ==> r == Ok([])
    ensures key in layout.layers[i + 2] && key !in layout.layers[i] ==> r == Fail(KeyError)
    ensures r.Fail? ==> r.error == KeyError || r.error == TypeError
    ensures key in layout.layers[i + 2] && key in layout.layers[i] ==>
      var base := Shown(layout, layout.layers[i][key]);
      var ext := layout.layers[i + 2][key];
      r == (match DeadKeyLine(base, Shown(layout, ext), ext in layout.deadKeys)
            case Fail(e) => Fail(e)
            case Ok(line) => Ok([line]))
  {
    var ext := layout.layers[i + 2];
    if key !in ext then Ok([])
    else if key !in layout.layers[i] then Fail(KeyError)
    else
      match DeadKeyLine(Shown(layout, layout.layers[i][key]), Shown(layout, ext[key]), ext[key] in layout.deadKeys)
      case Fail(e) => Fail(e)
      case Ok(line) => Ok([line])
  }

  /** The line each key contributes to pass `i` of `klc_dkLafayette`. */
  function LafayetteLines(layout: Layout, i: nat): (f: string -> Result<seq<string>>)
    requires Valid(layout) && i < 2
    ensures forall k :: f(k) == LafayetteLine(layout, i, k)
  {
    k => LafayetteLine(layout, i, k)
  }

  /** Whether every key of pass `i` of `klc_dkLafayette` gives its line. */
  predicate PassWritable(layout: Layout, i: nat)
    requires Valid(layout) && i < 2
  {
    forall j | 0 <= j < |LayerKeys| && !IsSeparator(LayerKeys[j]) :: LafayetteLine(layout, i, LayerKeys[j]).Ok?
  }

  /** One pass of `klc_dkLafayette` over the key list, continuing `out`. */
  function LafayettePass(layout: Layout, out: seq<string>, i: nat): (r: Result<seq<string>>)
    requires Valid(layout) && i < 2
    ensures r.Ok? <==> PassWritable(layout, i)
    ensures r.Fail? ==> r.error == KeyError || r.error == TypeError
    ensures r.Ok? ==> |r.value| > 0
    ensures r.Ok? ==> r.value == out + Concat(Chunks(LayerKeys, KeyLines(LayerKeys, LafayetteLines(layout, i)), |out| > 0, "//", ""))
  {
    LayerKeysOpen();
    Export(out, LayerKeys, LafayetteLines(layout, i), "//", "")
  }

  /** `klc_dkLafayette`: the 1dk's table, read from the layers themselves:
      the pass over layers 0 and 2, then the pass over layers 1 and 3. It is
      written exactly when every key of both passes gives its line. */
  function KlcDkLafayette(layout: Layout): (r: Result<seq<string>>)
    requires Valid(layout)
    ensures r.Ok? <==> PassWritable(layout, 0) && PassWritable(layout, 1)
    ensures r.Fail? ==> r.error == KeyError || r.error == TypeError
  {
    match LafayettePass(layout, [], 0)
    case Fail(e) => Fail(e)
    case Ok(first) => LafayettePass(layout, first, 1)
  }

  /** The second pass continues the output of the first, so its first
      header follows a blank line. */
  lemma KlcDkLafayetteShape(layout: Layout)
    requires Valid(layout) && KlcDkLafayette(layout).Ok?
    ensures
      var first := Concat(Chunks(LayerKeys, KeyLines(LayerKeys, LafayetteLines(layout, 0)), false, "//", ""));
      && |first| > 0
      && KlcDkLafayette(layout).value
         == first + Concat(Chunks(LayerKeys, KeyLines(LayerKeys, LafayetteLines(layout, 1)), true, "//", ""))
  {
    var first := LafayettePass(layout, [], 0).value;
    assert first == Concat(Chunks(LayerKeys, KeyLines(LayerKeys, LafayetteLines(layout, 0)), false, "//", ""));
  }

  /** The pair lines of a dead key's `base` and `alt`, index by index; `alt`
      shorter than `base` is the IndexError of `dk['alt'][i]`. */
  function PairLines(base: string, alt: string): (r: Result<seq<string>>)
    ensures r.Ok? <==> |alt| >= |base|
    ensures r.Fail? ==> r.error == IndexError
    ensures r.Ok? ==> |r.value| == |base|
    ensures r.Ok? ==> forall t | 0 <= t < |base| :: PairLine(base[t], alt[t], r.value[t])
    decreases |base|
  {
    if |base| == 0 then Ok([])
    else
      match PairLines(base[..|base| - 1], alt)
      case Fail(e) => Fail(e)
      case Ok(init) =>
        var t := |base| - 1;
        if t >= |alt| then Fail(IndexError)
        else
          var line := DeadKeyLine([base[t]], [alt[t]], false).value;
          PairsSnoc(base, alt, init, line);
          Ok(init + [line])
  }

  lemma PairsSnoc(base: string, alt: string, init: seq<string>, line: string)
    requires 0 < |base| <= |alt| && |init| == |base| - 1
    requires forall t | 0 <= t < |base| - 1 :: PairLine(base[..|base| - 1][t], alt[t], init[t])
    requires line == DeadKeyLine([base[|base| - 1]], [alt[|base| - 1]], false).value
    ensures forall t | 0 <= t < |base| :: PairLine(base[t], alt[t], (init + [line])[t])
  {
    var n := |base|;
    forall t | 0 <= t < n ensures PairLine(base[t], alt[t], (init + [line])[t]) {
      if t < n - 1 {
        assert base[..n - 1][t] == base[t];
        assert (init + [line])[t] == init[t];
      }
    }
  }

  /** Whether `line` is the pair line of characters `b` and `a`. */
  predicate PairLine(b: char, a: char, line: string)
  {
    DeadKeyLine([b], [a], false) == Ok(line)
  }

  /** The opening of a dead key's block: a fold-marked comment naming it,
      the `DEADKEY` line with the code point of its `alt_space`, a blank. */
  function BlockHead(db: CharDb, dk: DeadKey): (r: Result<seq<string>>)
    ensures r.Ok? <==> |dk.altSpace| == 1
    ensures r.Fail? ==> r.error == TypeError
    ensures r.Ok? ==>
      && |r.value| == 3 && r.value[0] == "// DEADKEY: " + db.upper(dk.name) + " //{{{" && r.value[2] == ""
      && var f := Split(r.value[1], '\t'); |f| == 2 && f[0] == "DEADKEY" && HexValue(f[1]) == dk.altSpace[0] as int
  {
    match HexOrdOf(dk.altSpace)
    case Fail(e) => Fail(e)
    case Ok(h) =>
      HexTabFree(h);
      SplitPair("DEADKEY", h);
      Ok(["// DEADKEY: " + db.upper(dk.name) + " //{{{", "DEADKEY" + ['\t'] + h, ""])
  }

  /** Two tab-free fields joined by a tab split back into the two. */
  lemma SplitPair(a: string, b: string)
    requires '\t' !in a && '\t' !in b
    ensures Split(a + ['\t'] + b, '\t') == [a, b]
  {
    SplitAppend(a, b, '\t');
    SplitNoSep(a, '\t');
    SplitNoSep(b, '\t');
  }

  /** The closing of a dead key's block: a blank, the no-break space and the
      space each giving `alt_space`, the closing fold mark and a blank. */
  function BlockTail(altSpace: string): (r: Result<seq<string>>)
    ensures r.Ok? <==> |altSpace| == 1
    ensures r.Fail? ==> r.error == TypeError
    ensures r.Ok? ==>
      && |r.value| == 5 && r.value[0] == "" && r.value[3..] == ["//}}}", ""]
      && DeadKeyLine("\U{00a0}", altSpace, false) == Ok(r.value[1])
      && DeadKeyLine(" ", altSpace, false) == Ok(r.value[2])
  {
    match DeadKeyLine("\U{00a0}", altSpace, false)
    case Fail(e) => Fail(e)
    case Ok(nbsp) =>
      var space := DeadKeyLine(" ", altSpace, false);
      assert space.Ok?;
      Ok(["", nbsp, space.value, "//}}}", ""])
  }

  /** The pairs of a dead key's block: for the 1dk the table read from the
      layers, for any other its `base` and `alt` strings side by side. */
  function DeadKeyPairs(layout: Layout, k: string): Result<seq<string>>
    requires Valid(layout) && k in layout.deadKeys
  {
    if k == LafayetteKey then KlcDkLafayette(layout) else PairLines(layout.deadKeys[k].base, layout.deadKeys[k].alt)
  }

  /** The block of `klc_deadkeys` for the dead key `k`: its head, its pairs
      (for the 1dk, the table of `klc_dkLafayette`) and its tail. A key
      missing from the dead keys is a KeyError; an `alt_space` that is not a
      single character fails before the pairs are looked at. */
  function DeadKeyBlock(db: CharDb, layout: Layout, k: string): (r: Result<seq<string>>)
    requires Valid(layout)
    ensures k !in layout.deadKeys ==> r == Fail(KeyError)
    ensures k in layout.deadKeys ==>
      var dk := layout.deadKeys[k];
      && (r.Ok? <==> |dk.altSpace| == 1 && DeadKeyPairs(layout, k).Ok?)
      && (r.Ok? ==> r.value == BlockHead(db, dk).value + DeadKeyPairs(layout, k).value + BlockTail(dk.altSpace).value)
      && (r.Fail? && |dk.altSpace| == 1 ==> DeadKeyPairs(layout, k) == Fail(r.error))
    ensures r.Ok? ==> |r.value| > 0 && r.value[|r.value| - 1] == ""
  {
    if k !in layout.deadKeys then Fail(KeyError)
    else
      var dk := layout.deadKeys[k];
      match BlockHead(db, dk)
      case Fail(e) => Fail(e)
      case Ok(head) =>
        match DeadKeyPairs(layout, k)
        case Fail(e) => Fail(e)
        case Ok(pairs) => Ok(head + pairs + BlockTail(dk.altSpace).value)
  }

  /** The block of each dead key. */
  function Blocks(db: CharDb, layout: Layout): (f: string -> Result<seq<string>>)
    requires Valid(layout)
    ensures forall k :: f(k) == DeadKeyBlock(db, layout, k)
  {
    k => DeadKeyBlock(db, layout, k)
  }

  /** `klc_deadkeys`: the blocks of the used dead keys in `dk_index` order,
      without the final blank line; written exactly when every block is. */
  function KlcDeadKeys(db: CharDb, layout: Layout): (r: Result<seq<string>>)
    requires Valid(layout)
    ensures r.Ok? <==> forall i | 0 <= i < |layout.dkIndex| :: DeadKeyBlock(db, layout, layout.dkIndex[i]).Ok?
    ensures r.Ok? ==> r.value == DropLast(Concat(AllBlocks(db, layout)))
  {
    match MapAll(layout.dkIndex, Blocks(db, layout))
    case Fail(e) => Fail(e)
    case Ok(blocks) =>
      assert blocks == AllBlocks(db, layout);
      Ok(DropLast(Concat(blocks)))
  }

  /** `lines[:-1]`: everything but the last line, nothing for no lines. */
  function DropLast(lines: seq<string>): (r: seq<string>)
    ensures |lines| == 0 ==> r == []
    ensures |lines| > 0 ==> r + [lines[|lines| - 1]] == lines
  {
    if |lines| == 0 then [] else lines[..|lines| - 1]
  }

  /** The blocks of the used dead keys, once they are all known to exist. */
  function AllBlocks(db: CharDb, layout: Layout): (r: seq<seq<string>>)
    requires Valid(layout)
    ensures |r| == |layout.dkIndex|
    ensures forall i | 0 <= i < |r| :: r[i] == ValueOr(DeadKeyBlock(db, layout, layout.dkIndex[i]), [])
  {
    seq(|layout.dkIndex|, i requires 0 <= i < |layout.dkIndex| => ValueOr(DeadKeyBlock(db, layout, layout.dkIndex[i]), []))
  }

  /** Putting back the blank line `klc_deadkeys` drops gives the blocks one
      after the other: every block ends with a blank line. */
  lemma KlcDeadKeysShape(db: CharDb, layout: Layout)
    requires Valid(layout) && KlcDeadKeys(db, layout).Ok? && |layout.dkIndex| > 0
    ensures KlcDeadKeys(db, layout).value + [""] == Concat(AllBlocks(db, layout))
  {
    var n := |layout.dkIndex|;
    assert DeadKeyBlock(db, layout, layout.dkIndex[n - 1]).Ok?;
    LastBlockEndsBlank(db, layout);
  }

  /** The blocks end with a blank line when the last one exists. */
  lemma LastBlockEndsBlank(db: CharDb, layout: Layout)
    requires Valid(layout) && |layout.dkIndex| > 0
    requires DeadKeyBlock(db, layout, layout.dkIndex[|layout.dkIndex| - 1]).Ok?
    ensures var all := Concat(AllBlocks(db, layout)); |all| > 0 && all[|all| - 1] == ""
  {
    var blocks := AllBlocks(db, layout);
    assert blocks[|blocks| - 1] == DeadKeyBlock(db, layout, layout.dkIndex[|blocks| - 1]).value;
    ConcatEndsBlank(blocks);
  }

  lemma ConcatEndsBlank(blocks: seq<seq<string>>)
    requires |blocks| > 0
    requires var last := blocks[|blocks| - 1]; |last| > 0 && last[|last| - 1] == ""
    ensures |Concat(blocks)| > 0 && Concat(blocks)[|Concat(blocks)| - 1] == ""
  {
    var last := blocks[|blocks| - 1];
    assert blocks == blocks[..|blocks| - 1] + [last];
    ConcatAppend(blocks[..|blocks| - 1], [last]);
    ConcatCons(last, []);
    assert Concat([last]) == last;
  }

  /** One line of `klc_dkIndex`: the code point of a dead key's `alt_space`
      and its upper-cased name in quotes. */
  function DkIndexLine(db: CharDb, layout: Layout, k: string): (r: Result<string>)
    ensures r.Ok? <==> k in layout.deadKeys && |layout.deadKeys[k].altSpace| == 1
    ensures r.Fail? ==> (r.error == KeyError <==> k !in layout.deadKeys)
    ensures r.Ok? ==> HexValue(Split(r.value, '\t')[0]) == layout.deadKeys[k].altSpace[0] as int
    ensures r.Ok? ==> Split(r.value, '\t')[1..] == Split("\"" + db.upper(layout.deadKeys[k].name) + "\"", '\t')
  {
    if k !in layout.deadKeys then Fail(KeyError)
    else
      var dk := layout.deadKeys[k];
      match HexOrdOf(dk.altSpace)
      case Fail(e) => Fail(e)
      case Ok(h) =>
        var rest := "\"" + db.upper(dk.name) + "\"";
        HexTabFree(h);
        SplitAppend(h, rest, '\t');
        SplitNoSep(h, '\t');
        Ok(h + "\t" + rest)
  }

  /** `klc_dkIndex`: one line per used dead key, in `dk_index` order. */
  function KlcDkIndex(db: CharDb, layout: Layout): (r: Result<seq<string>>)
    ensures r.Ok? <==> forall i | 0 <= i < |layout.dkIndex| :: DkIndexLine(db, layout, layout.dkIndex[i]).Ok?
    ensures r.Ok? ==> |r.value| == |layout.dkIndex|
    ensures r.Ok? ==> forall i | 0 <= i < |layout.dkIndex| ::
      HexValue(Split(r.value[i], '\t')[0]) == layout.deadKeys[layout.dkIndex[i]].altSpace[0] as int
    ensures r.Ok? ==> forall i | 0 <= i < |layout.dkIndex| ::
      Split(r.value[i], '\t')[1..] == Split("\"" + db.upper(layout.deadKeys[layout.dkIndex[i]].name) + "\"", '\t')
    ensures r.Ok? ==> forall i | 0 <= i < |layout.dkIndex| :: r.value[i] == DkIndexLine(db, layout, layout.dkIndex[i]).value
  {
    MapAll(layout.dkIndex, k => DkIndexLine(db, layout, k))
  }

  // --------------------------------------------------------------- macOS

  /** The layer each `get_osx_keyMap` index reads: index 2 is the CapsLock
      map of the base layer. */
  const OsxLayerOf: seq<nat> := [0, 1, 0, 4, 5]

  /** `has_dead_keys(letter)`: some used dead key lists `letter` in its
      `base` (a substring test). */
  predicate HasDeadKeys(layout: Layout, letter: string)
  {
    exists c | c in layout.deadKeys :: Contains(layout.deadKeys[c].base, letter)
  }

  /** What a key's element holds: whether it is an `action` (rather than an
      `output`), and the symbol. */
  datatype KeyOutput = KeyOutput(isAction: bool, symbol: string)

  /** A key of a macOS key map: `&#x0010;` for an absent key, `dead_<name>`
      for a dead key, otherwise the XML-escaped character (upper-cased for
      the CapsLock map); an action exactly when the character is a dead key
      or some dead key modifies it. A single character reads back from its
      escaped form. */
  function OsxOutput(db: CharDb, layout: Layout, layer: Layer, caps: bool, key: string): (r: Result<KeyOutput>)
    ensures key !in layer ==> r == Ok(KeyOutput(false, "&#x0010;"))
    ensures key in layer && r.Ok? ==>
      (r.value.isAction <==> layer[key] in layout.deadKeys || HasDeadKeys(layout, layer[key]))
    ensures key in layer && layer[key] in layout.deadKeys ==>
      r.Ok? && r.value.symbol == "dead_" + layout.deadKeys[layer[key]].name
    ensures key in layer && layer[key] !in layout.deadKeys ==>
      var shown := if caps then db.upper(layer[key]) else layer[key];
      && (r.Ok? <==> XmlProof(shown).Ok?)
      && (|shown| == 1 ==> r.Ok? && XmlUnescape(r.value.symbol) == shown)
    ensures r.Fail? ==> r.error == TypeError
  {
    if key !in layer then Ok(KeyOutput(false, "&#x0010;"))
    else
      var v := layer[key];
      if v in layout.deadKeys then Ok(KeyOutput(true, "dead_" + layout.deadKeys[v].name))
      else
        var shown := if caps then db.upper(v) else v;
        match XmlProof(shown)
        case Fail(e) => Fail(e)
        case Ok(x) =>
          EscapeReadsBack(shown);
          Ok(KeyOutput(HasDeadKeys(layout, v), x))
  }

  lemma EscapeReadsBack(s: string)
    ensures |s| == 1 ==> XmlUnescape(XmlProof(s).value) == s
  {
    if |s| == 1 {
      XmlRoundTrip(s);
    }
  }

  /** Whether `pad` is nothing but spaces. */
  predicate Blank(pad: string)
  {
    forall i | 0 <= i < |pad| :: pad[i] == ' '
  }

  lemma LJustSplit(s: string, width: nat)
    ensures LJust(s, width) == s + LJust(s, width)[|s|..] && Blank(LJust(s, width)[|s|..])
  {
    var p := LJust(s, width);
    assert p == p[..|s|] + p[|s|..];
    forall i | 0 <= i < |p[|s|..]| ensures p[|s|..][i] == ' ' {
      assert p[|s|..][i] == p[|s| + i];
    }
  }

  /** The name of the attribute a key element carries. */
  function Attribute(o: KeyOutput): string
  {
    if o.isAction then "action" else "output"
  }

  /** The `<key>` element of one key: its macOS key code, padded, then an
      `action` or `output` attribute holding the key's symbol. A key
      missing from the code table is a KeyError, raised after the symbol is
      worked out. */
  function OsxKeyLine(db: CharDb, layout: Layout, codes: map<string, string>, layer: Layer, caps: bool, key: string)
    : (r: Result<seq<string>>)
    ensures r.Ok? <==> OsxOutput(db, layout, layer, caps, key).Ok? && key in codes
    ensures r.Fail? ==> (r.error == KeyError && key !in codes) || r.error == TypeError
    ensures r.Ok? ==>
      var o := OsxOutput(db, layout, layer, caps, key).value;
      var code := "code=\"" + codes[key] + "\"";
      && |r.value| == 1
      && exists pad | Blank(pad) && |code + pad| == (if |code| >= 10 then |code| else 10) ::
           r.value[0] == "<key " + (code + pad) + " " + Attribute(o) + "=\"" + o.symbol + "\" />"
  {
    match OsxOutput(db, layout, layer, caps, key)
    case Fail(e) => Fail(e)
    case Ok(o) =>
      if key !in codes then Fail(KeyError)
      else
        var code := "code=\"" + codes[key] + "\"";
        LJustSplit(code, 10);
        var pad := LJust(code, 10)[|code|..];
        var line := "<key " + LJust(code, 10) + " " + Attribute(o) + "=\"" + o.symbol + "\" />";
        assert line == "<key " + (code + pad) + " " + Attribute(o) + "=\"" + o.symbol + "\" />";
        Ok([line])
  }

  /** The element each key contributes to a key map. */
  function OsxLines(db: CharDb, layout: Layout, codes: map<string, string>, layer: Layer, caps: bool)
    : (f: string -> Result<seq<string>>)
    ensures forall k :: f(k) == OsxKeyLine(db, layout, codes, layer, caps, k)
  {
    k => OsxKeyLine(db, layout, codes, layer, caps, k)
  }

  /** The key map of one layer, with `<!-- … -->` section headers; the
      first key that cannot be written stops it. */
  function OsxLayerMap(db: CharDb, layout: Layout, codes: map<string, string>, layer: Layer, caps: bool)
    : (r: Result<seq<string>>)
    ensures r.Ok? <==> forall j | 0 <= j < |LayerKeys| && !IsSeparator(LayerKeys[j]) ::
                         OsxKeyLine(db, layout, codes, layer, caps, LayerKeys[j]).Ok?
    ensures r.Ok? ==> r.value == Concat(Chunks(LayerKeys, KeyLines(LayerKeys, OsxLines(db, layout, codes, layer, caps)),
                                               false, "<!--", " -->"))
    ensures r.Fail? ==> r.error == KeyError || r.error == TypeError
  {
    LayerKeysOpen();
    Export([], LayerKeys, OsxLines(db, layout, codes, layer, caps), "<!--", " -->")
  }

  /** The layer and CapsLock flag of `get_osx_keyMap(index)`: indices 0-4
      pick entries 0, 1, 0, 4 and 5 of the layer list, index 2 upper-casing
      for CapsLock; negative indices count from the end of that list, so -3
      reads the base layer without upper-casing; any other index is out of
      range. */
  function OsxState(index: int): (r: Option<(nat, bool)>)
    ensures r.Some? <==> -5 <= index < 5
    ensures r.Some? ==> (r.value.1 <==> index == 2)
    ensures r.Some? ==>
      r.value.0 == (if index == 1 || index == -4 then 1
                    else if index == 3 || index == -2 then 4
                    else if index == 4 || index == -1 then 5
                    else 0)
  {
    if !(-5 <= index < 5) then None
    else Some((OsxLayerOf[if index < 0 then index + 5 else index], index == 2))
  }

  /** `get_osx_keyMap(index)`: the key map of one modifier state, or the
      IndexError of an index outside the five. */
  function OsxKeyMap(db: CharDb, layout: Layout, codes: map<string, string>, index: int): (r: Result<seq<string>>)
    requires Valid(layout)
    ensures OsxState(index).None? ==> r == Fail(IndexError)
    ensures OsxState(index).Some? ==>
      var (layer, caps) := OsxState(index).value;
      layer < 6 && r == OsxLayerMap(db, layout, codes, layout.layers[layer], caps)
  {
    match OsxState(index)
    case None => Fail(IndexError)
    case Some((layer, caps)) => OsxLayerMap(db, layout, codes, layout.layers[layer], caps)
  }

  /** One dead-key terminator: the state named after the dead key, padded,
      and its escaped `alt_self`. */
  function TerminatorLine(layout: Layout, k: string): (r: Result<string>)
    ensures r.Ok? <==> k in layout.deadKeys && XmlProof(layout.deadKeys[k].altSelf).Ok?
    ensures r.Fail? ==> (r.error == KeyError <==> k !in layout.deadKeys)
    ensures r.Ok? ==>
      var state := "state=\"" + layout.deadKeys[k].name + "\"";
      exists pad | Blank(pad) && |state + pad| == (if |state| >= 18 then |state| else 18) ::
      r.value == " <when " + (state + pad) + " output=\""
                 + XmlProof(layout.deadKeys[k].altSelf).value + "\" />"
  {
    if k !in layout.deadKeys then Fail(KeyError)
    else
      var dk := layout.deadKeys[k];
      match XmlProof(dk.altSelf)
      case Fail(e) => Fail(e)
      case Ok(x) =>
        var state := "state=\"" + dk.name + "\"";
        LJustSplit(state, 18);
        var pad := LJust(state, 18)[|state|..];
        var line := " <when " + LJust(state, 18) + " output=\"" + x + "\" />";
        assert line == " <when " + (state + pad) + " output=\"" + x + "\" />";
        Ok(line)
  }

  /** `osx_terminators`: one terminator per used dead key, in `dk_index`
      order; a single-character `alt_self` reads back from its escape. */
  function OsxTerminators(layout: Layout): (r: Result<seq<string>>)
    ensures r.Ok? <==> forall i | 0 <= i < |layout.dkIndex| :: TerminatorLine(layout, layout.dkIndex[i]).Ok?
    ensures r.Ok? ==> |r.value| == |layout.dkIndex|
    ensures r.Ok? ==> forall i | 0 <= i < |layout.dkIndex| :: TerminatorLine(layout, layout.dkIndex[i]) == Ok(r.value[i])
  {
    MapAll(layout.dkIndex, k => TerminatorLine(layout, k))
  }
}

=== FILE: template.dfy ===
/** Reading a layer pair out of an ASCII-art template and writing one back
    (`_parse_template` and `_fill_template` of script/make.py; make.py has
    the same two loops as `parse_template` and `fill_template`). */
module Template {
  import opened Results
  import opened Unicode
  import opened Text
  import opened Casing
  import opened Geometry

  /** One layer: key name to the string the key produces. */
  type Layer = map<string, string>

  /** A layer and its shifted partner (layers n and n + 1). */
  datatype Pair = Pair(base: Layer, shift: Layer)

  /** A key cell of a template: the `index`-th key of geometry row `row`,
      read at column `col`. */
  datatype Cell = Cell(key: string, row: nat, index: nat, col: nat)

  predicate CellOf(rows: seq<Row>, n: nat, c: Cell)
  {
    && c.row < |rows|
    && c.index < |rows[c.row].keys|
    && c.key == rows[c.row].keys[c.index]
    && c.col == Column(rows[c.row], n, c.index)
  }

  function RowCells(row: Row, j: nat, n: nat): seq<Cell>
  {
    seq(|row.keys|, k requires 0 <= k < |row.keys| => Cell(row.keys[k], j, k, Column(row, n, k)))
  }

  /** The key cells of a geometry in the order the template loops visit
      them: row by row, left to right. */
  function Cells(rows: seq<Row>, n: nat): (cs: seq<Cell>)
    ensures forall i | 0 <= i < |cs| :: CellOf(rows, n, cs[i])
    ensures forall j, k | 0 <= j < |rows| && 0 <= k < |rows[j].keys| ::
              Cell(rows[j].keys[k], j, k, Column(rows[j], n, k)) in cs
    decreases |rows|
  {
    if |rows| == 0 then []
    else
      var init := rows[..|rows| - 1];
      var last := RowCells(rows[|rows| - 1], |rows| - 1, n);
      CellsStep(rows, init, n, Cells(init, n), last);
      Cells(init, n) + last
  }

  lemma CellsStep(rows: seq<Row>, init: seq<Row>, n: nat, front: seq<Cell>, last: seq<Cell>)
    requires |rows| > 0 && init == rows[..|rows| - 1]
    requires forall i | 0 <= i < |front| :: CellOf(init, n, front[i])
    requires forall j, k | 0 <= j < |init| && 0 <= k < |init[j].keys| ::
               Cell(init[j].keys[k], j, k, Column(init[j], n, k)) in front
    requires last == RowCells(rows[|rows| - 1], |rows| - 1, n)
    ensures forall i | 0 <= i < |front + last| :: CellOf(rows, n, (front + last)[i])
    ensures forall j, k | 0 <= j < |rows| && 0 <= k < |rows[j].keys| ::
              Cell(rows[j].keys[k], j, k, Column(rows[j], n, k)) in front + last
  {
    forall i | 0 <= i < |front + last| ensures CellOf(rows, n, (front + last)[i]) {
      if i < |front| {
        assert CellOf(init, n, front[i]);
        assert init[front[i].row] == rows[front[i].row];
      }
    }
    forall j, k | 0 <= j < |rows| && 0 <= k < |rows[j].keys|
      ensures Cell(rows[j].keys[k], j, k, Column(rows[j], n, k)) in front + last
    {
      if j < |rows| - 1 {
        assert init[j] == rows[j];
      } else {
        assert last[k] == Cell(rows[j].keys[k], j, k, Column(rows[j], n, k));
      }
    }
  }

  function KeysOf(cs: seq<Cell>): set<string>
  {
    set i | 0 <= i < |cs| :: cs[i].key
  }

  predicate DistinctKeys(cs: seq<Cell>)
  {
    forall i, j | 0 <= i < j < |cs| :: cs[i].key != cs[j].key
  }

  /** Both template lines of every row exist. */
  predicate LinesPresent(template: seq<string>, rows: seq<Row>)
  {
    |rows| == 0 || BaseLine(|rows| - 1) < |template|
  }

  /** The cell lies inside both of its row's lines. */
  predicate InBounds(template: seq<string>, c: Cell)
  {
    && BaseLine(c.row) < |template|
    && c.col < |template[BaseLine(c.row)]|
    && c.col < |template[ShiftLine(c.row)]|
  }

  predicate AllInBounds(template: seq<string>, cs: seq<Cell>)
  {
    forall i | 0 <= i < |cs| :: InBounds(template, cs[i])
  }

  /** The cell is in bounds and blank on both lines: a fresh geometry
      template. */
  predicate BlankCell(template: seq<string>, c: Cell)
  {
    && InBounds(template, c)
    && template[BaseLine(c.row)][c.col] == ' '
    && template[ShiftLine(c.row)][c.col] == ' '
  }

  /** No layer holds the blank `" "`. */
  ghost predicate Unblank(p: Pair)
  {
    && (forall k | k in p.base :: p.base[k] != " ")
    && (forall k | k in p.shift :: p.shift[k] != " ")
  }

  /** Every value of the pair is one character, as a template cell holds. */
  ghost predicate SingleChars(p: Pair)
  {
    && (forall k | k in p.base :: |p.base[k]| == 1)
    && (forall k | k in p.shift :: |p.shift[k]| == 1)
  }

  // ---------------------------------------------------------------- parse

  /** The values `_parse_template` derives for a cell holding `b` on the
      unshifted line and `s` on the shifted line: on the base layer an empty
      unshifted cell takes the lower case of the shifted one; on the other
      layers an empty shifted cell takes `upper_key` of the unshifted one. */
  function Derive(db: CharDb, n: nat, b: char, s: char): (r: (string, string))
    ensures n == 0 ==> r.1 == [s] && (b != ' ' ==> r.0 == [b])
    ensures n != 0 ==> r.0 == [b] && (s != ' ' ==> r.1 == [s])
    ensures n == 0 && b == ' ' ==> r.0 == db.lower([s])
    ensures n != 0 && s == ' ' ==> r.1 == UpperKey(db, [b])
  {
    var baseKey := if n == 0 && b == ' ' then db.lower([s]) else [b];
    var shiftKey := if n != 0 && s == ' ' then UpperKey(db, baseKey) else [s];
    (baseKey, shiftKey)
  }

  function CellValues(db: CharDb, template: seq<string>, c: Cell, n: nat): (string, string)
    requires InBounds(template, c)
  {
    Derive(db, n, template[BaseLine(c.row)][c.col], template[ShiftLine(c.row)][c.col])
  }

  /** A derived value is stored unless it is the blank `" "`. */
  function Store(layer: Layer, key: string, value: string): Layer
  {
    if value != " " then layer[key := value] else layer
  }

  /** The layer pair read from a template, and every value derived on the
      way (unshifted then shifted, cell by cell), which is what the dead-key
      registration looks at. */
  datatype Parsed = Parsed(pair: Pair, seen: seq<string>)

  function ParseCells(db: CharDb, template: seq<string>, cs: seq<Cell>, n: nat): (r: Result<Parsed>)
    ensures r.Ok? <==> AllInBounds(template, cs)
    ensures r.Fail? ==> r.error == IndexError
    ensures r.Ok? ==> r.value.pair.base.Keys <= KeysOf(cs) && r.value.pair.shift.Keys <= KeysOf(cs)
    ensures r.Ok? ==> Unblank(r.value.pair)
    ensures r.Ok? ==> |r.value.seen| == 2 * |cs|
    ensures r.Ok? ==> forall i | 0 <= i < |cs| ::
              r.value.seen[2 * i] == CellValues(db, template, cs[i], n).0
              && r.value.seen[2 * i + 1] == CellValues(db, template, cs[i], n).1
    decreases |cs|
  {
    if |cs| == 0 then Ok(Parsed(Pair(map[], map[]), []))
    else
      var init := cs[..|cs| - 1];
      match ParseCells(db, template, init, n)
      case Fail(e) => Fail(e)
      case Ok(acc) =>
        var c := cs[|cs| - 1];
        if !InBounds(template, c) then Fail(IndexError)
        else
          var v := CellValues(db, template, c, n);
          var next := Parsed(Pair(Store(acc.pair.base, c.key, v.0), Store(acc.pair.shift, c.key, v.1)),
                             acc.seen + [v.0, v.1]);
          ParseCellsStep(db, template, cs, n, acc, next);
          Ok(next)
  }

  lemma ParseCellsStep(db: CharDb, template: seq<string>, cs: seq<Cell>, n: nat, acc: Parsed, next: Parsed)
    requires |cs| > 0
    requires AllInBounds(template, cs)
    requires acc.pair.base.Keys <= KeysOf(cs[..|cs| - 1]) && acc.pair.shift.Keys <= KeysOf(cs[..|cs| - 1])
    requires Unblank(acc.pair)
    requires |acc.seen| == 2 * (|cs| - 1)
    requires forall i | 0 <= i < |cs| - 1 ::
               acc.seen[2 * i] == CellValues(db, template, cs[i], n).0
               && acc.seen[2 * i + 1] == CellValues(db, template, cs[i], n).1
    requires var c := cs[|cs| - 1]; var v := CellValues(db, template, c, n);
             next == Parsed(Pair(Store(acc.pair.base, c.key, v.0), Store(acc.pair.shift, c.key, v.1)),
                            acc.seen + [v.0, v.1])
    ensures next.pair.base.Keys <= KeysOf(cs) && next.pair.shift.Keys <= KeysOf(cs)
    ensures Unblank(next.pair)
    ensures |next.seen| == 2 * |cs|
    ensures forall i | 0 <= i < |cs| ::
              next.seen[2 * i] == CellValues(db, template, cs[i], n).0
              && next.seen[2 * i + 1] == CellValues(db, template, cs[i], n).1
  {
    var c := cs[|cs| - 1];
    var v := CellValues(db, template, c, n);
    StoreKeys(acc.pair, next.pair, c.key, v, KeysOf(cs[..|cs| - 1]), KeysOf(cs));
    KeysOfSnoc(cs);
    SeenSnoc(acc.seen, v, |cs| - 1, seq(|cs|, i requires 0 <= i < |cs| => CellValues(db, template, cs[i], n)));
  }

  lemma StoreKeys(acc: Pair, next: Pair, key: string, v: (string, string), before: set<string>, after: set<string>)
    requires acc.base.Keys <= before && acc.shift.Keys <= before
    requires Unblank(acc)
    requires next == Pair(Store(acc.base, key, v.0), Store(acc.shift, key, v.1))
    requires before + {key} <= after
    ensures next.base.Keys <= after && next.shift.Keys <= after
    ensures Unblank(next)
  {
  }

  lemma KeysOfSnoc(cs: seq<Cell>)
    requires |cs| > 0
    ensures KeysOf(cs) == KeysOf(cs[..|cs| - 1]) + {cs[|cs| - 1].key}
  {
    var init := cs[..|cs| - 1];
    forall i | 0 <= i < |init| ensures init[i].key in KeysOf(cs) {
      assert init[i] == cs[i];
    }
    forall k | k in KeysOf(cs) ensures k in KeysOf(init) + {cs[|cs| - 1].key} {
      var i :| 0 <= i < |cs| && cs[i].key == k;
      if i < |init| {
        assert init[i] == cs[i];
      }
    }
  }

  lemma SeenSnoc(seen: seq<string>, v: (string, string), m: nat, vs: seq<(string, string)>)
    requires |seen| == 2 * m && |vs| == m + 1 && vs[m] == v
    requires forall i | 0 <= i < m :: seen[2 * i] == vs[i].0 && seen[2 * i + 1] == vs[i].1
    ensures |seen + [v.0, v.1]| == 2 * (m + 1)
    ensures forall i | 0 <= i < m + 1 :: (seen + [v.0, v.1])[2 * i] == vs[i].0 && (seen + [v.0, v.1])[2 * i + 1] == vs[i].1
  {
  }

  /** `_parse_template(template, rows, n)`: the pair (layers n, n + 1) read
      from the template. A missing template line or a key column past the
      end of a line is the IndexError of the list indexing. */
  function Parse(db: CharDb, template: seq<string>, rows: seq<Row>, n: nat): (r: Result<Parsed>)
    ensures r.Ok? <==> LinesPresent(template, rows) && AllInBounds(template, Cells(rows, n))
    ensures r.Fail? ==> r.error == IndexError
    ensures r.Ok? ==> r.value.pair.base.Keys <= KeysOf(Cells(rows, n))
                      && r.value.pair.shift.Keys <= KeysOf(Cells(rows, n))
    ensures r.Ok? ==> Unblank(r.value.pair)
  {
    if !LinesPresent(template, rows) then Fail(IndexError)
    else ParseCells(db, template, Cells(rows, n), n)
  }

  /** What the layers hold for a key after reading its cell. */
  ghost predicate Stored(p: Pair, key: string, v: (string, string))
  {
    && (key in p.base <==> v.0 != " ")
    && (key in p.base ==> p.base[key] == v.0)
    && (key in p.shift <==> v.1 != " ")
    && (key in p.shift ==> p.shift[key] == v.1)
  }

  /** With distinct keys, every key's entry is the value derived from its
      own cell: no cell overwrites another. */
  lemma {:induction false} ParseCellsValues(db: CharDb, template: seq<string>, cs: seq<Cell>, n: nat)
    requires DistinctKeys(cs)
    requires forall i | 0 <= i < |cs| :: InBounds(template, cs[i])
    ensures forall i | 0 <= i < |cs| ::
              Stored(ParseCells(db, template, cs, n).value.pair, cs[i].key, CellValues(db, template, cs[i], n))
    decreases |cs|
  {
    if |cs| > 0 {
      var init := cs[..|cs| - 1];
      ParseCellsValues(db, template, init, n);
      var acc := ParseCells(db, template, init, n).value;
      var r := ParseCells(db, template, cs, n).value;
      var c := cs[|cs| - 1];
      forall i | 0 <= i < |cs|
        ensures Stored(r.pair, cs[i].key, CellValues(db, template, cs[i], n))
      {
        if i < |cs| - 1 {
          assert init[i] == cs[i];
          assert cs[i].key != c.key;
          assert Stored(acc.pair, init[i].key, CellValues(db, template, init[i], n));
        } else {
          assert c.key !in acc.pair.base.Keys + acc.pair.shift.Keys ==> true;
        }
      }
    }
  }

  /** `_parse_template` on a template whose cells are all readable and
      whose keys are distinct: each key holds exactly what its cell
      derives, and the values seen are those of the cells in order. */
  lemma ParseValues(db: CharDb, template: seq<string>, rows: seq<Row>, n: nat)
    requires LinesPresent(template, rows)
    requires forall i | 0 <= i < |Cells(rows, n)| :: InBounds(template, Cells(rows, n)[i])
    requires DistinctKeys(Cells(rows, n))
    ensures Parse(db, template, rows, n).Ok?
    ensures forall i | 0 <= i < |Cells(rows, n)| ::
              Stored(Parse(db, template, rows, n).value.pair, Cells(rows, n)[i].key,
                     CellValues(db, template, Cells(rows, n)[i], n))
  {
    ParseCellsValues(db, template, Cells(rows, n), n);
  }

  // ----------------------------------------------------------------- fill

  /** `list(line)`: a line as a list of one-character strings. */
  function Explode(line: string): (r: seq<string>)
    ensures |r| == |line|
    ensures forall i | 0 <= i < |line| :: r[i] == [line[i]]
  {
    seq(|line|, i requires 0 <= i < |line| => [line[i]])
  }

  /** The value written for a key: its entry, or a blank `" "`. */
  function BaseOr(p: Pair, key: string): string
  {
    if key in p.base then p.base[key] else " "
  }

  function ShiftOr(p: Pair, key: string): string
  {
    if key in p.shift then p.shift[key] else " "
  }

  /** How filling decides that a shifted character is implied by the
      unshifted one: `upper_key` in script/make.py and make.py, plain
      `str.upper` in build/make.py. */
  datatype Partner = UpperKeyOf(db: CharDb) | UpperOf(db: CharDb)

  function PartnerOf(pt: Partner, s: string): string
  {
    match pt
    case UpperKeyOf(db) => UpperKey(db, s)
    case UpperOf(db) => db.upper(s)
  }

  /** On the base layer the shifted character is always written and the
      unshifted one only when `upper_key` would not give back the shifted
      one; on the other layers the other way round. */
  predicate WritesBase(pt: Partner, p: Pair, key: string, n: nat)
  {
    n != 0 || PartnerOf(pt, BaseOr(p, key)) != ShiftOr(p, key)
  }

  predicate WritesShift(pt: Partner, p: Pair, key: string, n: nat)
  {
    n == 0 || PartnerOf(pt, BaseOr(p, key)) != ShiftOr(p, key)
  }

  /** Filling one key; a write past the end of a line is an IndexError. */
  function FillKey(pt: Partner, p: Pair, n: nat, key: string, col: nat, lines: (seq<string>, seq<string>))
    : Result<(seq<string>, seq<string>)>
  {
    var (bl, sl) := lines;
    if (WritesBase(pt, p, key, n) && col >= |bl|) || (WritesShift(pt, p, key, n) && col >= |sl|) then
      Fail(IndexError)
    else
      Ok((if WritesBase(pt, p, key, n) then bl[col := BaseOr(p, key)] else bl,
          if WritesShift(pt, p, key, n) then sl[col := ShiftOr(p, key)] else sl))
  }

  /** The writes of the `k`-th key of a row fit in lines of these lengths. */
  predicate WriteFits(pt: Partner, p: Pair, n: nat, row: Row, k: nat, baseLen: nat, shiftLen: nat)
    requires k < |row.keys|
  {
    && (WritesBase(pt, p, row.keys[k], n) ==> Column(row, n, k) < baseLen)
    && (WritesShift(pt, p, row.keys[k], n) ==> Column(row, n, k) < shiftLen)
  }

  /** Element `q` of the unshifted line after the first `m` keys are
      filled: the written value at a written key column, else unchanged. */
  function BaseAfter(pt: Partner, p: Pair, n: nat, row: Row, m: nat, bl: seq<string>, q: nat): string
    requires m <= |row.keys| && q < |bl|
  {
    if IsKeyColumn(row, n, m, q) && WritesBase(pt, p, row.keys[KeyIndex(row, n, q)], n)
    then BaseOr(p, row.keys[KeyIndex(row, n, q)])
    else bl[q]
  }

  function ShiftAfter(pt: Partner, p: Pair, n: nat, row: Row, m: nat, sl: seq<string>, q: nat): string
    requires m <= |row.keys| && q < |sl|
  {
    if IsKeyColumn(row, n, m, q) && WritesShift(pt, p, row.keys[KeyIndex(row, n, q)], n)
    then ShiftOr(p, row.keys[KeyIndex(row, n, q)])
    else sl[q]
  }

  /** The inner loop of `_fill_template` over the first `m` keys of a row,
      on the exploded unshifted and shifted lines. It fails exactly when
      some write falls past the end of its line, and otherwise changes
      exactly the written key columns. */
  function FillKeys(pt: Partner, p: Pair, n: nat, row: Row, m: nat, bl: seq<string>, sl: seq<string>)
    : (r: Result<(seq<string>, seq<string>)>)
    requires m <= |row.keys|
    ensures r.Ok? <==> forall k | 0 <= k < m :: WriteFits(pt, p, n, row, k, |bl|, |sl|)
    ensures r.Fail? ==> r.error == IndexError
    ensures r.Ok? ==> |r.value.0| == |bl| && |r.value.1| == |sl|
    ensures r.Ok? ==> forall q | 0 <= q < |bl| :: r.value.0[q] == BaseAfter(pt, p, n, row, m, bl, q)
    ensures r.Ok? ==> forall q | 0 <= q < |sl| :: r.value.1[q] == ShiftAfter(pt, p, n, row, m, sl, q)
    decreases m
  {
    if m == 0 then Ok((bl, sl))
    else
      match FillKeys(pt, p, n, row, m - 1, bl, sl)
      case Fail(e) => Fail(e)
      case Ok(acc) =>
        FillKeysStep(pt, p, n, row, m, bl, sl, acc);
        FillKey(pt, p, n, row.keys[m - 1], Column(row, n, m - 1), acc)
  }

  lemma FillKeysStep(pt: Partner, p: Pair, n: nat, row: Row, m: nat, bl: seq<string>, sl: seq<string>,
                     acc: (seq<string>, seq<string>))
    requires 0 < m <= |row.keys|
    requires |acc.0| == |bl| && |acc.1| == |sl|
    requires forall q | 0 <= q < |bl| :: acc.0[q] == BaseAfter(pt, p, n, row, m - 1, bl, q)
    requires forall q | 0 <= q < |sl| :: acc.1[q] == ShiftAfter(pt, p, n, row, m - 1, sl, q)
    ensures FillKey(pt, p, n, row.keys[m - 1], Column(row, n, m - 1), acc).Ok?
            <==> WriteFits(pt, p, n, row, m - 1, |bl|, |sl|)
    ensures FillKey(pt, p, n, row.keys[m - 1], Column(row, n, m - 1), acc).Fail? ==>
              FillKey(pt, p, n, row.keys[m - 1], Column(row, n, m - 1), acc).error == IndexError
    ensures var r := FillKey(pt, p, n, row.keys[m - 1], Column(row, n, m - 1), acc);
            r.Ok? ==>
              && |r.value.0| == |bl| && |r.value.1| == |sl|
              && (forall q | 0 <= q < |bl| :: r.value.0[q] == BaseAfter(pt, p, n, row, m, bl, q))
              && (forall q | 0 <= q < |sl| :: r.value.1[q] == ShiftAfter(pt, p, n, row, m, sl, q))
  {
    var r := FillKey(pt, p, n, row.keys[m - 1], Column(row, n, m - 1), acc);
    var col := Column(row, n, m - 1);
    ColumnIsKeyColumn(row, n, m - 1, m - 1);
    ColumnIsKeyColumn(row, n, m, m - 1);
    if r.Ok? {
      forall q | 0 <= q < |bl| ensures r.value.0[q] == BaseAfter(pt, p, n, row, m, bl, q) {
        ColumnArith(row, n, m, q);
      }
      forall q | 0 <= q < |sl| ensures r.value.1[q] == ShiftAfter(pt, p, n, row, m, sl, q) {
        ColumnArith(row, n, m, q);
      }
    }
  }

  lemma ColumnArith(row: Row, n: nat, m: nat, q: nat)
    requires 0 < m
    ensures IsKeyColumn(row, n, m, q) <==> IsKeyColumn(row, n, m - 1, q) || q == Column(row, n, m - 1)
  {
    var first := row.offset + ColOffset(n);
    if q >= first && (q - first) % 6 == 0 {
      var d := q - first;
      assert d == 6 * (d / 6);
    }
  }

  /** The two lines of row `j` after filling it, from the template's own
      lines. */
  function RowFill(pt: Partner, p: Pair, n: nat, template: seq<string>, rows: seq<Row>, j: nat)
    : Result<(seq<string>, seq<string>)>
    requires j < |rows| && LinesPresent(template, rows)
  {
    FillKeys(pt, p, n, rows[j], |rows[j].keys|, Explode(template[BaseLine(j)]), Explode(template[ShiftLine(j)]))
  }

  /** The outer loop of `_fill_template` over the first `m` rows: each row
      rewrites its own two lines and no other line changes. */
  function FillRows(pt: Partner, p: Pair, n: nat, template: seq<string>, rows: seq<Row>, m: nat)
    : (r: Result<seq<string>>)
    requires LinesPresent(template, rows) && m <= |rows|
    ensures r.Ok? <==> RowsFit(pt, p, n, template, rows, m)
    ensures r.Fail? ==> r.error == IndexError
    ensures r.Ok? ==> |r.value| == |template|
    ensures r.Ok? ==> RowsWritten(pt, p, n, template, rows, m, r.value)
    ensures r.Ok? ==> forall l | 0 <= l < |template| && !IsRowLine(l, m) :: r.value[l] == template[l]
    decreases m
  {
    if m == 0 then Ok(template)
    else
      match FillRows(pt, p, n, template, rows, m - 1)
      case Fail(e) => Fail(e)
      case Ok(t) =>
        var j := m - 1;
        RowLines(j, j);
        var filled := FillKeys(pt, p, n, rows[j], |rows[j].keys|, Explode(t[BaseLine(j)]), Explode(t[ShiftLine(j)]));
        UntouchedRow(pt, p, n, template, rows, m, t, filled);
        if filled.Fail? then Fail(filled.error)
        else
          var t' := t[BaseLine(j) := Concat(filled.value.0)][ShiftLine(j) := Concat(filled.value.1)];
          FillRowsStep(pt, p, n, template, rows, m, t, filled.value, t');
          Ok(t')
  }

  /** Row `m - 1` reads its lines unchanged from the template, so it fills
      as it would on its own. */
  lemma UntouchedRow(pt: Partner, p: Pair, n: nat, template: seq<string>, rows: seq<Row>, m: nat,
                     t: seq<string>, filled: Result<(seq<string>, seq<string>)>)
    requires LinesPresent(template, rows) && 0 < m <= |rows| && |t| == |template|
    requires RowsFit(pt, p, n, template, rows, m - 1)
    requires t[BaseLine(m - 1)] == template[BaseLine(m - 1)] && t[ShiftLine(m - 1)] == template[ShiftLine(m - 1)]
    requires filled == FillKeys(pt, p, n, rows[m - 1], |rows[m - 1].keys|,
                                Explode(t[BaseLine(m - 1)]), Explode(t[ShiftLine(m - 1)]))
    ensures filled == RowFill(pt, p, n, template, rows, m - 1)
    ensures filled.Fail? ==> filled.error == IndexError && !RowsFit(pt, p, n, template, rows, m)
  {
  }

  /** Every one of the first `m` rows can be filled. */
  predicate RowsFit(pt: Partner, p: Pair, n: nat, template: seq<string>, rows: seq<Row>, m: nat)
    requires LinesPresent(template, rows) && m <= |rows|
  {
    forall j | 0 <= j < m :: RowFill(pt, p, n, template, rows, j).Ok?
  }

  /** The first `m` rows' lines of `t` are their filled lines. */
  predicate RowsWritten(pt: Partner, p: Pair, n: nat, template: seq<string>, rows: seq<Row>, m: nat, t: seq<string>)
    requires LinesPresent(template, rows) && m <= |rows| && |t| == |template|
  {
    && RowsFit(pt, p, n, template, rows, m)
    && forall j | 0 <= j < m ::
         && t[BaseLine(j)] == Concat(RowFill(pt, p, n, template, rows, j).value.0)
         && t[ShiftLine(j)] == Concat(RowFill(pt, p, n, template, rows, j).value.1)
  }

  lemma FillRowsStep(pt: Partner, p: Pair, n: nat, template: seq<string>, rows: seq<Row>, m: nat,
                     t: seq<string>, lines: (seq<string>, seq<string>), t': seq<string>)
    requires LinesPresent(template, rows) && 0 < m <= |rows|
    requires |t| == |template|
    requires RowsWritten(pt, p, n, template, rows, m - 1, t)
    requires forall l | 0 <= l < |template| && !IsRowLine(l, m - 1) :: t[l] == template[l]
    requires RowFill(pt, p, n, template, rows, m - 1) == Ok(lines)
    requires t' == t[BaseLine(m - 1) := Concat(lines.0)][ShiftLine(m - 1) := Concat(lines.1)]
    ensures |t'| == |template|
    ensures RowsFit(pt, p, n, template, rows, m)
    ensures RowsWritten(pt, p, n, template, rows, m, t')
    ensures forall l | 0 <= l < |template| && !IsRowLine(l, m) :: t'[l] == template[l]
  {
    var vals := seq(m, j requires 0 <= j < m && RowFill(pt, p, n, template, rows, j).Ok? =>
                         (Concat(RowFill(pt, p, n, template, rows, j).value.0),
                          Concat(RowFill(pt, p, n, template, rows, j).value.1)));
    LinesUpdate(template, m, vals, t, t');
  }

  /** Rewriting the two lines of row `m - 1` keeps the lines already
      rewritten and every line outside the first `m` rows. */
  lemma LinesUpdate(template: seq<string>, m: nat, vals: seq<(string, string)>, t: seq<string>, t': seq<string>)
    requires 0 < m && |vals| == m && BaseLine(m - 1) < |template|
    requires |t| == |template|
    requires forall j | 0 <= j < m - 1 :: t[BaseLine(j)] == vals[j].0 && t[ShiftLine(j)] == vals[j].1
    requires forall l | 0 <= l < |template| && !IsRowLine(l, m - 1) :: t[l] == template[l]
    requires t' == t[BaseLine(m - 1) := vals[m - 1].0][ShiftLine(m - 1) := vals[m - 1].1]
    ensures |t'| == |template|
    ensures forall j | 0 <= j < m :: t'[BaseLine(j)] == vals[j].0 && t'[ShiftLine(j)] == vals[j].1
    ensures forall l | 0 <= l < |template| && !IsRowLine(l, m) :: t'[l] == template[l]
  {
    FillRowsFrame(m, m - 1);
  }

  lemma FillRowsFrame(m: nat, j: nat)
    requires j + 1 == m
    ensures forall i: nat | i < j :: BaseLine(i) != BaseLine(j) && BaseLine(i) != ShiftLine(j)
                                    && ShiftLine(i) != BaseLine(j) && ShiftLine(i) != ShiftLine(j)
    ensures forall l: nat | !IsRowLine(l, m) :: !IsRowLine(l, j) && l != BaseLine(j) && l != ShiftLine(j)
    ensures BaseLine(j) != ShiftLine(j)
  {
  }

  /** `_fill_template(template, rows, n)`: writes the pair (layers n, n + 1)
      into the template. It fails (IndexError) on a missing line or a write
      past the end of one, and touches no line other than the rows'. */
  function Fill(pt: Partner, p: Pair, n: nat, template: seq<string>, rows: seq<Row>): (r: Result<seq<string>>)
    ensures !LinesPresent(template, rows) ==> r == Fail(IndexError)
    ensures r.Fail? ==> r.error == IndexError
    ensures r.Ok? ==> |r.value| == |template|
    ensures r.Ok? ==> forall l | 0 <= l < |template| && !IsRowLine(l, |rows|) :: r.value[l] == template[l]
  {
    if !LinesPresent(template, rows) then Fail(IndexError)
    else FillRows(pt, p, n, template, rows, |rows|)
  }

  // ----------------------------------------------------------- round trip

  /** Character in the unshifted line of a key's cell after filling a blank
      template. */
  function FilledBase(pt: Partner, p: Pair, n: nat, key: string): char
  {
    if WritesBase(pt, p, key, n) && |BaseOr(p, key)| > 0 then BaseOr(p, key)[0] else ' '
  }

  function FilledShift(pt: Partner, p: Pair, n: nat, key: string): char
  {
    if WritesShift(pt, p, key, n) && |ShiftOr(p, key)| > 0 then ShiftOr(p, key)[0] else ' '
  }

  /** What reading back a filled key gives for the unshifted layer: on the
      base layer a base that `upper_key` of the shift would not recover is
      kept, any other is re-derived as the lower case of the shift. */
  function ExpBase(db: CharDb, p: Pair, n: nat, key: string): string
  {
    if n != 0 then BaseOr(p, key)
    else if BaseOr(p, key) != " " && UpperKey(db, BaseOr(p, key)) != ShiftOr(p, key) then BaseOr(p, key)
    else db.lower(ShiftOr(p, key))
  }

  /** And for the shifted layer: off the base layer a missing shift is
      re-derived as `upper_key` of the base. */
  function ExpShift(db: CharDb, p: Pair, n: nat, key: string): string
  {
    if n == 0 then ShiftOr(p, key)
    else if ShiftOr(p, key) != " " then ShiftOr(p, key)
    else UpperKey(db, BaseOr(p, key))
  }

  /** The pair that filling `p` into a blank template and parsing it back
      yields, over the template's keys. */
  ghost function Expected(db: CharDb, p: Pair, n: nat, keys: set<string>): Pair
  {
    Pair(map k | k in keys && ExpBase(db, p, n, k) != " " :: ExpBase(db, p, n, k),
         map k | k in keys && ExpShift(db, p, n, k) != " " :: ExpShift(db, p, n, k))
  }

  /** Reading a filled cell derives exactly the expected values. */
  lemma DeriveFilled(db: CharDb, p: Pair, n: nat, key: string)
    requires SingleChars(p)
    ensures Derive(db, n, FilledBase(UpperKeyOf(db), p, n, key), FilledShift(UpperKeyOf(db), p, n, key))
            == (ExpBase(db, p, n, key), ExpShift(db, p, n, key))
  {
    var b := BaseOr(p, key);
    var s := ShiftOr(p, key);
    assert |b| == 1 && |s| == 1;
    assert [b[0]] == b && [s[0]] == s;
  }

  /** Filling a template whose key cells are readable cannot fail. */
  lemma FillFits(pt: Partner, p: Pair, n: nat, template: seq<string>, rows: seq<Row>)
    requires LinesPresent(template, rows) && AllInBounds(template, Cells(rows, n))
    ensures Fill(pt, p, n, template, rows).Ok?
  {
    var cs := Cells(rows, n);
    forall j | 0 <= j < |rows| ensures RowFill(pt, p, n, template, rows, j).Ok? {
      var row := rows[j];
      forall k | 0 <= k < |row.keys|
        ensures WriteFits(pt, p, n, row, k, |template[BaseLine(j)]|, |template[ShiftLine(j)]|)
      {
        var c := Cell(row.keys[k], j, k, Column(row, n, k));
        assert c in cs;
        var i :| 0 <= i < |cs| && cs[i] == c;
        assert InBounds(template, cs[i]);
      }
    }
    assert RowsFit(pt, p, n, template, rows, |rows|);
  }

  /** The characters a filled blank template holds at a key's cell. */
  lemma FilledCell(pt: Partner, p: Pair, n: nat, template: seq<string>, rows: seq<Row>, c: Cell)
    requires LinesPresent(template, rows) && CellOf(rows, n, c)
    requires SingleChars(p)
    requires BlankCell(template, c)
    requires Fill(pt, p, n, template, rows).Ok?
    ensures InBounds(Fill(pt, p, n, template, rows).value, c)
    ensures Fill(pt, p, n, template, rows).value[BaseLine(c.row)][c.col] == FilledBase(pt, p, n, c.key)
    ensures Fill(pt, p, n, template, rows).value[ShiftLine(c.row)][c.col] == FilledShift(pt, p, n, c.key)
  {
    var t := Fill(pt, p, n, template, rows).value;
    var j := c.row;
    var row := rows[j];
    assert RowsWritten(pt, p, n, template, rows, |rows|, t);
    var lines := RowFill(pt, p, n, template, rows, j).value;
    var bl := Explode(template[BaseLine(j)]);
    var sl := Explode(template[ShiftLine(j)]);
    ColumnIsKeyColumn(row, n, |row.keys|, c.index);
    RowFillSingles(pt, p, n, template, rows, j);
    ConcatSingles(lines.0);
    ConcatSingles(lines.1);
    assert lines.0[c.col] == BaseAfter(pt, p, n, row, |row.keys|, bl, c.col);
    assert lines.1[c.col] == ShiftAfter(pt, p, n, row, |row.keys|, sl, c.col);
  }

  /** With one-character values, a filled row still holds one character
      per cell. */
  lemma RowFillSingles(pt: Partner, p: Pair, n: nat, template: seq<string>, rows: seq<Row>, j: nat)
    requires j < |rows| && LinesPresent(template, rows)
    requires SingleChars(p)
    requires RowFill(pt, p, n, template, rows, j).Ok?
    ensures forall q | 0 <= q < |RowFill(pt, p, n, template, rows, j).value.0| ::
              |RowFill(pt, p, n, template, rows, j).value.0[q]| == 1
    ensures forall q | 0 <= q < |RowFill(pt, p, n, template, rows, j).value.1| ::
              |RowFill(pt, p, n, template, rows, j).value.1[q]| == 1
  {
    var lines := RowFill(pt, p, n, template, rows, j).value;
    var row := rows[j];
    var bl := Explode(template[BaseLine(j)]);
    var sl := Explode(template[ShiftLine(j)]);
    forall q | 0 <= q < |lines.0| ensures |lines.0[q]| == 1 {
      assert lines.0[q] == BaseAfter(pt, p, n, row, |row.keys|, bl, q);
    }
    forall q | 0 <= q < |lines.1| ensures |lines.1[q]| == 1 {
      assert lines.1[q] == ShiftAfter(pt, p, n, row, |row.keys|, sl, q);
    }
  }

  /** Every key cell of the geometry is blank: a fresh template. */
  predicate AllBlank(template: seq<string>, cs: seq<Cell>)
  {
    forall i | 0 <= i < |cs| :: BlankCell(template, cs[i])
  }

  /** Filling a pair of one-character layers into a fresh template and
      parsing it back gives the pair, except for what filling leaves out on
      purpose: on the base layer a base that `upper_key` of the shift gives
      back is re-read as the lower case of the shift, and off the base layer
      a missing shift is re-read as `upper_key` of the base. */
  lemma FillThenParse(db: CharDb, p: Pair, n: nat, template: seq<string>, rows: seq<Row>)
    requires LinesPresent(template, rows)
    requires AllBlank(template, Cells(rows, n))
    requires DistinctKeys(Cells(rows, n))
    requires SingleChars(p)
    ensures Fill(UpperKeyOf(db), p, n, template, rows).Ok?
    ensures Parse(db, Fill(UpperKeyOf(db), p, n, template, rows).value, rows, n).Ok?
    ensures Parse(db, Fill(UpperKeyOf(db), p, n, template, rows).value, rows, n).value.pair
            == Expected(db, p, n, KeysOf(Cells(rows, n)))
  {
    FilledValues(db, p, n, template, rows);
    var t := Fill(UpperKeyOf(db), p, n, template, rows).value;
    ParseValues(db, t, rows, n);
    ReadBack(db, p, n, t, Cells(rows, n), Parse(db, t, rows, n).value.pair);
  }

  lemma FilledValues(db: CharDb, p: Pair, n: nat, template: seq<string>, rows: seq<Row>)
    requires LinesPresent(template, rows)
    requires AllBlank(template, Cells(rows, n))
    requires SingleChars(p)
    ensures Fill(UpperKeyOf(db), p, n, template, rows).Ok?
    ensures LinesPresent(Fill(UpperKeyOf(db), p, n, template, rows).value, rows)
    ensures AllInBounds(Fill(UpperKeyOf(db), p, n, template, rows).value, Cells(rows, n))
    ensures forall i | 0 <= i < |Cells(rows, n)| ::
              CellValues(db, Fill(UpperKeyOf(db), p, n, template, rows).value, Cells(rows, n)[i], n)
              == (ExpBase(db, p, n, Cells(rows, n)[i].key), ExpShift(db, p, n, Cells(rows, n)[i].key))
  {
    var cs := Cells(rows, n);
    FillFits(UpperKeyOf(db), p, n, template, rows);
    var t := Fill(UpperKeyOf(db), p, n, template, rows).value;
    forall i | 0 <= i < |cs|
      ensures InBounds(t, cs[i])
      ensures CellValues(db, t, cs[i], n) == (ExpBase(db, p, n, cs[i].key), ExpShift(db, p, n, cs[i].key))
    {
      FilledCell(UpperKeyOf(db), p, n, template, rows, cs[i]);
      DeriveFilled(db, p, n, cs[i].key);
    }
  }

  lemma ReadBack(db: CharDb, p: Pair, n: nat, t: seq<string>, cs: seq<Cell>, r: Pair)
    requires AllInBounds(t, cs)
    requires forall i | 0 <= i < |cs| ::
               CellValues(db, t, cs[i], n) == (ExpBase(db, p, n, cs[i].key), ExpShift(db, p, n, cs[i].key))
    requires forall i | 0 <= i < |cs| :: Stored(r, cs[i].key, CellValues(db, t, cs[i], n))
    requires r.base.Keys <= KeysOf(cs) && r.shift.Keys <= KeysOf(cs)
    ensures r == Expected(db, p, n, KeysOf(cs))
  {
    var e := Expected(db, p, n, KeysOf(cs));
    forall k ensures (k in r.base <==> k in e.base) && (k in r.base ==> r.base[k] == e.base[k])
                 && (k in r.shift <==> k in e.shift) && (k in r.shift ==> r.shift[k] == e.shift[k])
    {
      if k in KeysOf(cs) {
        var i :| 0 <= i < |cs| && cs[i].key == k;
        assert Stored(r, cs[i].key, CellValues(db, t, cs[i], n));
      }
    }
    assert r.base == e.base;
    assert r.shift == e.shift;
  }

  /** Off the base layer (dead-key and AltGr pairs), a pair whose missing
      shifts are exactly the ones `upper_key` derives nothing for comes back
      unchanged from a fill and a parse. */
  lemma FillThenParseAltLayer(db: CharDb, p: Pair, n: nat, template: seq<string>, rows: seq<Row>)
    requires n != 0 && SpaceIsPlain(db)
    requires LinesPresent(template, rows)
    requires AllBlank(template, Cells(rows, n))
    requires DistinctKeys(Cells(rows, n))
    requires SingleChars(p) && Unblank(p)
    requires p.base.Keys <= KeysOf(Cells(rows, n)) && p.shift.Keys <= KeysOf(Cells(rows, n))
    requires forall k | k in p.base && k !in p.shift :: UpperKey(db, p.base[k]) == " "
    ensures Fill(UpperKeyOf(db), p, n, template, rows).Ok?
    ensures Parse(db, Fill(UpperKeyOf(db), p, n, template, rows).value, rows, n).Ok?
    ensures Parse(db, Fill(UpperKeyOf(db), p, n, template, rows).value, rows, n).value.pair == p
  {
    FillThenParse(db, p, n, template, rows);
    ExpectedAltLayer(db, p, n, KeysOf(Cells(rows, n)));
  }

  lemma ExpectedAltLayer(db: CharDb, p: Pair, n: nat, keys: set<string>)
    requires n != 0 && SpaceIsPlain(db)
    requires Unblank(p)
    requires p.base.Keys <= keys && p.shift.Keys <= keys
    requires forall k | k in p.base && k !in p.shift :: UpperKey(db, p.base[k]) == " "
    ensures Expected(db, p, n, keys) == p
  {
    UpperKeyOfBlank(db);
    var e := Expected(db, p, n, keys);
    assert e.base == p.base;
    assert e.shift == p.shift;
  }

  /** On the base layer, a pair in which every key with a shifted value has
      a base, and every base that `upper_key` of the shift would give back
      is the lower case of that shift, comes back unchanged. */
  lemma FillThenParseBaseLayer(db: CharDb, p: Pair, template: seq<string>, rows: seq<Row>)
    requires SpaceIsPlain(db)
    requires LinesPresent(template, rows)
    requires AllBlank(template, Cells(rows, 0))
    requires DistinctKeys(Cells(rows, 0))
    requires SingleChars(p) && Unblank(p)
    requires p.base.Keys <= KeysOf(Cells(rows, 0)) && p.shift.Keys <= p.base.Keys
    requires forall k | k in p.base && UpperKey(db, p.base[k]) == ShiftOr(p, k) :: db.lower(ShiftOr(p, k)) == p.base[k]
    ensures Fill(UpperKeyOf(db), p, 0, template, rows).Ok?
    ensures Parse(db, Fill(UpperKeyOf(db), p, 0, template, rows).value, rows, 0).Ok?
    ensures Parse(db, Fill(UpperKeyOf(db), p, 0, template, rows).value, rows, 0).value.pair == p
  {
    FillThenParse(db, p, 0, template, rows);
    ExpectedBaseLayer(db, p, KeysOf(Cells(rows, 0)));
  }

  lemma ExpectedBaseLayer(db: CharDb, p: Pair, keys: set<string>)
    requires SpaceIsPlain(db)
    requires Unblank(p)
    requires p.base.Keys <= keys && p.shift.Keys <= p.base.Keys
    requires forall k | k in p.base && UpperKey(db, p.base[k]) == ShiftOr(p, k) :: db.lower(ShiftOr(p, k)) == p.base[k]
    ensures Expected(db, p, 0, keys) == p
  {
    var e := Expected(db, p, 0, keys);
    assert e.base == p.base;
    assert e.shift == p.shift;
  }
}

=== FILE: text.dfy ===
/** String primitives of Python and JavaScript, written out over `seq<char>`. */
module Text {

  /** `''.join(parts)` and list concatenation, built left to right like the
      source's `+=` and `extend` loops. */
  function Concat<T>(parts: seq<seq<T>>): seq<T>
    decreases |parts|
  {
    if |parts| == 0 then [] else Concat(parts[..|parts| - 1]) + parts[|parts| - 1]
  }

  lemma {:induction false} ConcatAppend<T>(a: seq<seq<T>>, b: seq<seq<T>>)
    ensures Concat(a + b) == Concat(a) + Concat(b)
    decreases |b|
  {
    if |b| == 0 {
      assert a + b == a;
    } else {
      assert (a + b)[..|a + b| - 1] == a + b[..|b| - 1];
      ConcatAppend(a, b[..|b| - 1]);
    }
  }

  lemma ConcatCons<T>(head: seq<T>, rest: seq<seq<T>>)
    ensures Concat([head] + rest) == head + Concat(rest)
  {
    ConcatAppend([head], rest);
    assert [head][..0] == [];
  }

  /** Concatenating one-character pieces lines their characters up. */
  lemma {:induction false} ConcatSingles<T>(parts: seq<seq<T>>)
    requires forall i | 0 <= i < |parts| :: |parts[i]| == 1
    ensures |Concat(parts)| == |parts|
    ensures forall i | 0 <= i < |parts| :: Concat(parts)[i] == parts[i][0]
    decreases |parts|
  {
    if |parts| > 0 {
      ConcatSingles(parts[..|parts| - 1]);
    }
  }

  /** `sep.join(parts)`. */
  function Join(parts: seq<string>, sep: string): string
    decreases |parts|
  {
    if |parts| == 0 then ""
    else if |parts| == 1 then parts[0]
    else parts[0] + sep + Join(parts[1..], sep)
  }

  /** `s.split(sep)` (Python) and `s.split(sep)` (JavaScript) for a
      one-character separator: always at least one piece. */
  function Split(s: string, sep: char): (r: seq<string>)
    ensures |r| >= 1
    ensures forall i | 0 <= i < |r| :: sep !in r[i]
    decreases |s|
  {
    if |s| == 0 then [""]
    else
      var rest := Split(s[1..], sep);
      if s[0] == sep then [""] + rest else [[s[0]] + rest[0]] + rest[1..]
  }

  /** Splitting and joining again on the same separator gives the text back. */
  lemma {:induction false} JoinSplit(s: string, sep: char)
    ensures Join(Split(s, sep), [sep]) == s
    decreases |s|
  {
    if |s| > 0 {
      JoinSplit(s[1..], sep);
      var rest := Split(s[1..], sep);
      if s[0] != sep {
        if |rest| > 1 {
          assert ([[s[0]] + rest[0]] + rest[1..])[1..] == rest[1..];
          assert Join(rest, [sep]) == rest[0] + [sep] + Join(rest[1..], [sep]);
        }
      } else {
        assert ([""] + rest)[1..] == rest;
      }
    }
  }

  /** Joining pieces free of the separator and splitting again gives the pieces back. */
  lemma {:induction false} SplitJoin(parts: seq<string>, sep: char)
    requires |parts| >= 1
    requires forall i | 0 <= i < |parts| :: sep !in parts[i]
    ensures Split(Join(parts, [sep]), sep) == parts
    decreases |parts|, |parts[0]|
  {
    if |parts| == 1 {
      SplitNoSep(parts[0], sep);
    } else if |parts[0]| == 0 {
      SplitJoin(parts[1..], sep);
      var j := Join(parts, [sep]);
      assert j == [sep] + Join(parts[1..], [sep]);
      assert j[1..] == Join(parts[1..], [sep]);
      assert [""] + parts[1..] == parts;
    } else {
      var p0 := parts[0];
      var tail := [p0[1..]] + parts[1..];
      assert sep !in p0[1..] by {
        forall k | 0 <= k < |p0[1..]| ensures p0[1..][k] != sep { assert p0[1..][k] == p0[k + 1]; }
      }
      assert forall i | 0 <= i < |tail| :: sep !in tail[i] by {
        forall i | 0 <= i < |tail| ensures sep !in tail[i] {
          if i > 0 { assert tail[i] == parts[i]; }
        }
      }
      SplitJoin(tail, sep);
      var j := Join(parts, [sep]);
      assert j == p0 + [sep] + Join(parts[1..], [sep]);
      assert Join(tail, [sep]) == p0[1..] + [sep] + Join(parts[1..], [sep]);
      assert j[1..] == Join(tail, [sep]);
      assert j[0] == p0[0];
      assert p0[0] != sep;
      var rest := Split(j[1..], sep);
      assert rest == tail;
      assert [p0[0]] + p0[1..] == p0;
      assert tail[1..] == parts[1..];
      assert [p0] + parts[1..] == parts;
    }
  }

  /** A separator splits the text into the pieces of either side. */
  lemma {:induction false} SplitAppend(a: string, b: string, sep: char)
    ensures Split(a + [sep] + b, sep) == Split(a, sep) + Split(b, sep)
    decreases |a|
  {
    var s := a + [sep] + b;
    if |a| == 0 {
      assert s[1..] == b;
    } else {
      assert s[1..] == a[1..] + [sep] + b;
      SplitAppend(a[1..], b, sep);
    }
  }

  lemma {:induction false} SplitNoSep(s: string, sep: char)
    requires sep !in s
    ensures Split(s, sep) == [s]
    decreases |s|
  {
    if |s| > 0 {
      assert sep !in s[1..] by {
        forall k | 0 <= k < |s[1..]| ensures s[1..][k] != sep { assert s[1..][k] == s[k + 1]; }
      }
      SplitNoSep(s[1..], sep);
      assert [s[0]] + s[1..] == s;
    }
  }

  predicate StartsWith(s: string, prefix: string)
  {
    |prefix| <= |s| && s[..|prefix|] == prefix
  }

  predicate EndsWith(s: string, suffix: string)
  {
    |suffix| <= |s| && s[|s| - |suffix|..] == suffix
  }

  /** Python's `p in s` on two strings: a substring test. */
  predicate Contains(s: string, p: string)
    decreases |s|
  {
    StartsWith(s, p) || (|s| > 0 && Contains(s[1..], p))
  }

  /** For a one-character `p`, the substring test is plain membership. */
  lemma {:induction false} ContainsChar(s: string, c: char)
    ensures Contains(s, [c]) <==> c in s
    decreases |s|
  {
    if |s| > 0 {
      ContainsChar(s[1..], c);
      assert s == [s[0]] + s[1..];
    }
  }

  /** The empty string is a substring of every string. */
  lemma ContainsEmpty(s: string)
    ensures Contains(s, "")
  {
    assert StartsWith(s, "");
  }

  function Spaces(n: nat): (r: string)
    ensures |r| == n && forall i | 0 <= i < n :: r[i] == ' '
  {
    seq(n, _ => ' ')
  }

  /** `s.ljust(width)`: pads with spaces on the right, never truncates. */
  function LJust(s: string, width: nat): (r: string)
    ensures |r| == if |s| >= width then |s| else width
    ensures r[..|s|] == s
    ensures forall i | |s| <= i < |r| :: r[i] == ' '
  {
    if |s| >= width then s else s + Spaces(width - |s|)
  }

  /** `s.rstrip()`: the longest prefix that does not end in white space. */
  function RStrip(isSpace: char -> bool, s: string): (r: string)
    ensures r <= s
    ensures |r| == 0 || !isSpace(r[|r| - 1])
    ensures forall i | |r| <= i < |s| :: isSpace(s[i])
    decreases |s|
  {
    if |s| == 0 || !isSpace(s[|s| - 1]) then s else RStrip(isSpace, s[..|s| - 1])
  }

  /** `s.lstrip()`: the longest suffix that does not start with white space. */
  function LStrip(isSpace: char -> bool, s: string): (r: string)
    ensures |r| <= |s| && r == s[|s| - |r|..]
    ensures |r| == 0 || !isSpace(r[0])
    ensures forall i | 0 <= i < |s| - |r| :: isSpace(s[i])
    decreases |s|
  {
    if |s| == 0 || !isSpace(s[0]) then s else LStrip(isSpace, s[1..])
  }

  /** `s.strip()`. */
  function Strip(isSpace: char -> bool, s: string): string
  {
    LStrip(isSpace, RStrip(isSpace, s))
  }

  /** Only the white-space tail is removed: appending non-space text after a
      stripped prefix is the same as stripping nothing. */
  lemma RStripNoTrailingSpace(isSpace: char -> bool, s: string)
    requires |s| > 0 && !isSpace(s[|s| - 1])
    ensures RStrip(isSpace, s) == s
  {
  }

  const HexDigits: string := "0123456789abcdef"

  /** `hex(n)[2:]`: lower-case hexadecimal digits, no leading zeros. */
  function Hex(n: nat): (r: string)
    ensures |r| >= 1
    ensures forall i | 0 <= i < |r| :: r[i] in HexDigits
    decreases n
  {
    if n < 16 then [HexDigits[n]] else Hex(n / 16) + [HexDigits[n % 16]]
  }

  /** A number of two or more digits does not start with `0`. */
  lemma {:induction false} HexNoLeadingZero(n: nat)
    ensures |Hex(n)| > 1 ==> Hex(n)[0] != '0'
    decreases n
  {
    if n >= 16 {
      assert Hex(n)[0] == Hex(n / 16)[0];
      HexNoLeadingZero(n / 16);
    }
  }

  function DigitValue(c: char): nat
  {
    if '0' <= c <= '9' then (c as int - '0' as int)
    else if 'a' <= c <= 'f' then (c as int - 'a' as int + 10)
    else if 'A' <= c <= 'F' then (c as int - 'A' as int + 10)
    else 0
  }

  /** The number a string of hexadecimal digits denotes (either case). */
  function HexValue(s: string): nat
    decreases |s|
  {
    if |s| == 0 then 0 else 16 * HexValue(s[..|s| - 1]) + DigitValue(s[|s| - 1])
  }

  lemma {:induction false} HexRoundTrip(n: nat)
    ensures HexValue(Hex(n)) == n
    decreases n
  {
    if n >= 16 {
      HexRoundTrip(n / 16);
      var h := Hex(n / 16) + [HexDigits[n % 16]];
      assert h[..|h| - 1] == Hex(n / 16);
      DigitOf(n % 16);
    } else {
      DigitOf(n);
      assert Hex(n)[..0] == [];
    }
  }

  lemma DigitOf(d: nat)
    requires d < 16
    ensures DigitValue(HexDigits[d]) == d
  {
  }

  /** `s.zfill(width)` for a string without sign. */
  function ZFill(s: string, width: nat): (r: string)
    ensures |r| == if |s| >= width then |s| else width
    ensures r[|r| - |s|..] == s
    ensures forall i | 0 <= i < |r| - |s| :: r[i] == '0'
  {
    if |s| >= width then s else seq(width - |s|, _ => '0') + s
  }

  lemma {:induction false} HexValueLeadingZeros(k: nat, s: string)
    ensures HexValue(seq(k, _ => '0') + s) == HexValue(s)
    decreases |s|
  {
    var z := seq(k, _ => '0');
    if |s| == 0 {
      HexValueZeros(k);
      assert z + s == z;
    } else {
      var t := z + s;
      assert t[..|t| - 1] == z + s[..|s| - 1];
      HexValueLeadingZeros(k, s[..|s| - 1]);
    }
  }

  lemma {:induction false} HexValueZeros(k: nat)
    ensures HexValue(seq(k, _ => '0')) == 0
    decreases k
  {
    if k > 0 {
      var z := seq(k, _ => '0');
      assert z[..k - 1] == seq(k - 1, _ => '0');
      HexValueZeros(k - 1);
    }
  }

  /** Zero padding goes no further than four digits: a longer string of
      digits does not start with `0`. */
  predicate PaddedOnlyToFour(h: string)
  {
    |h| > 4 ==> h[0] != '0'
  }

  /** `hex_ord(c)`: the code point of `c` in lower-case hexadecimal,
      zero-padded to four digits when shorter (see `HexOrdPadding` and
      `Escapes.HexOrdExact`). */
  function HexOrd(c: char): (r: string)
    ensures |r| >= 4
    ensures forall i | 0 <= i < |r| :: r[i] in HexDigits
    ensures HexValue(r) == c as int
  {
    ZFillHexValue(Hex(c as int));
    HexRoundTrip(c as int);
    ZFill(Hex(c as int), 4)
  }

  /** `zfill(4)` pads up to four digits and never beyond: a longer result
      is the bare number, which has no leading zero. */
  lemma HexOrdPadding(c: char)
    ensures PaddedOnlyToFour(HexOrd(c))
  {
    HexNoLeadingZero(c as int);
  }

  lemma ZFillHexValue(h: string)
    ensures HexValue(ZFill(h, 4)) == HexValue(h)
  {
    if |h| < 4 { HexValueLeadingZeros(4 - |h|, h); }
  }

  function AsciiUpper(c: char): char
  {
    if 'a' <= c <= 'z' then (c as int - 32) as char else c
  }

  const HexDigitsUpper: string := "0123456789ABCDEF"

  lemma UpperDigit(c: char)
    requires c in HexDigits
    ensures AsciiUpper(c) in HexDigitsUpper
    ensures DigitValue(AsciiUpper(c)) == DigitValue(c)
  {
    var k :| 0 <= k < 16 && HexDigits[k] == c;
    assert AsciiUpper(c) == HexDigitsUpper[k];
  }

  /** `h.upper()` on a string of hexadecimal digits. */
  function UpperDigits(h: string): (r: string)
    requires forall i | 0 <= i < |h| :: h[i] in HexDigits
    ensures |r| == |h|
    ensures forall i | 0 <= i < |r| :: r[i] in HexDigitsUpper
    ensures HexValue(r) == HexValue(h)
    decreases |h|
  {
    if |h| == 0 then ""
    else
      var last := h[|h| - 1];
      UpperDigit(last);
      var r := UpperDigits(h[..|h| - 1]) + [AsciiUpper(last)];
      assert r[..|r| - 1] == UpperDigits(h[..|h| - 1]);
      r
  }

  /** `hex_ord(c).upper()`: the same digits with `a`-`f` in upper case. */
  function HexOrdUpper(c: char): (r: string)
    ensures |r| >= 4
    ensures forall i | 0 <= i < |r| :: r[i] in HexDigitsUpper
    ensures HexValue(r) == c as int
  {
    UpperDigits(HexOrd(c))
  }

  /** JavaScript's `s.length`: UTF-16 code units, two for a character
      outside the Basic Multilingual Plane. */
  function Utf16Length(s: string): (n: nat)
    ensures |s| <= n <= 2 * |s|
    ensures |s| == 1 ==> n == (if s[0] as int >= 0x10000 then 2 else 1)
    decreases |s|
  {
    if |s| == 0 then 0
    else (if s[0] as int >= 0x10000 then 2 else 1) + Utf16Length(s[1..])
  }

  /** The code units of a concatenation are those of its parts. */
  lemma {:induction false} Utf16LengthAppend(a: string, b: string)
    ensures Utf16Length(a + b) == Utf16Length(a) + Utf16Length(b)
    decreases |a|
  {
    if |a| > 0 {
      assert (a + b)[1..] == a[1..] + b;
      Utf16LengthAppend(a[1..], b);
    } else {
      assert a + b == b;
    }
  }
}

=== FILE: unicode.dfy ===
/** The parts of the Unicode character database the modelled code consults.

    Python's `str.upper`, `str.lower`, `str.isspace` and
    `unicodedata.combining`, and JavaScript's `toLowerCase`, are data the
    model does not reproduce: they are passed in as a `CharDb` value.  Case
    mappings are string to string because they may change the length
    (`'ß'.upper() == 'SS'`, `'İ'.lower()` is two code points). */
module Unicode {

  datatype CharDb = CharDb(
    upper: string -> string,   // str.upper()
    lower: string -> string,   // str.lower() / String.prototype.toLowerCase()
    combining: char -> bool,   // unicodedata.combining(c) != 0
    isSpace: char -> bool      // the characters str.strip() and str.rstrip() remove
  )

  /** Facts about the space character that hold in the real database:
      it is not a combining mark, it is its own upper and lower case, and it
      is white space. Lemmas that need them say so explicitly. */
  predicate SpaceIsPlain(db: CharDb)
  {
    && !db.combining(' ')
    && db.upper(" ") == " "
    && db.lower(" ") == " "
    && db.isSpace(' ')
  }
}

=== FILE: uninstall.dfy ===
/** The symbols part of bin/xkb_uninstall.py: in each XKB symbols file,
    the lines from a `LAFAYETTE::BEGIN` marker to the next
    `LAFAYETTE::END` marker are dropped with both markers, and the file is
    rewritten only if a begin marker was seen. */
module Uninstall {
  import opened Text
  import opened FileLines

  const MarkBegin: string := "LAFAYETTE::BEGIN\n"
  const MarkEnd: string := "LAFAYETTE::END\n"

  predicate IsBegin(line: string)
  {
    EndsWith(line, MarkBegin)
  }

  predicate IsEnd(line: string)
  {
    EndsWith(line, MarkEnd)
  }

  /** No line ends with both markers. */
  lemma MarksExclusive(line: string)
    ensures !(IsBegin(line) && IsEnd(line))
  {
    if |line| >= 4 {
      var c := line[|line| - 4];
      assert IsBegin(line) ==> c == MarkBegin[|MarkBegin| - 4] == 'G';
      assert IsEnd(line) ==> c == MarkEnd[|MarkEnd| - 4] == 'E';
    }
  }

  /** The filter's state: the lines kept, whether it is between markers,
      and whether any begin marker was seen. */
  datatype Scan = Scan(kept: seq<string>, between: bool, modified: bool)

  /** One turn of the filter loop. */
  function Step(st: Scan, line: string): Scan
  {
    if IsBegin(line) then st.(between := true, modified := true)
    else if IsEnd(line) then st.(between := false)
    else if !st.between then st.(kept := st.kept + [line])
    else st
  }

  /** The filter loop over the remaining lines. */
  function Filter(st: Scan, lines: seq<string>): Scan
    decreases |lines|
  {
    if |lines| == 0 then st else Filter(Step(st, lines[0]), lines[1..])
  }

  /** The filter only ever appends lines, never a marker; it keeps its
      lines' shape; and it records a rewrite exactly when some line is a
      begin marker. */
  lemma {:induction false} FilterFacts(st: Scan, lines: seq<string>)
    ensures var r := Filter(st, lines);
      && |st.kept| <= |r.kept| <= |st.kept| + |lines| && r.kept[..|st.kept|] == st.kept
      && (NoMarker(st.kept) ==> NoMarker(r.kept))
      && (r.modified <==> st.modified || !NoBegin(lines))
      && (WellLined(st.kept + lines) ==> WellLined(r.kept))
    decreases |lines|
  {
    if |lines| == 0 {
      assert st.kept + lines == st.kept;
    } else {
      FilterFacts(Step(st, lines[0]), lines[1..]);
      FilterStep(st, lines);
      assert forall i | 1 <= i < |lines| :: lines[i] == lines[1..][i - 1];
    }
  }

  /** No line is a marker. */
  predicate NoMarker(lines: seq<string>)
  {
    forall i | 0 <= i < |lines| :: !IsBegin(lines[i]) && !IsEnd(lines[i])
  }

  /** The facts `Filter` passes from one turn to the next. */
  lemma FilterStep(st: Scan, lines: seq<string>)
    requires |lines| > 0
    ensures var next := Step(st, lines[0]);
      && |st.kept| <= |next.kept| <= |st.kept| + 1 && next.kept[..|st.kept|] == st.kept
      && (next.kept == st.kept || next.kept == st.kept + [lines[0]])
      && (next.kept != st.kept ==> !IsBegin(lines[0]) && !IsEnd(lines[0]))
      && (WellLined(st.kept + lines) ==> WellLined(next.kept + lines[1..]))
  {
    var next := Step(st, lines[0]);
    if WellLined(st.kept + lines) {
      if next.kept == st.kept + [lines[0]] {
        assert next.kept + lines[1..] == st.kept + lines;
      } else {
        assert st.kept + lines == st.kept + [lines[0]] + lines[1..];
        DropLine(st.kept, lines[0], lines[1..]);
      }
    }
  }

  /** Dropping a line that has more lines behind it keeps the shape. */
  lemma DropLine(a: seq<string>, l: string, b: seq<string>)
    requires WellLined(a + [l] + b)
    ensures WellLined(a + b)
  {
    var s := a + [l] + b;
    forall i | 0 <= i < |a + b| ensures IsLine((a + b)[i]) && (i < |a + b| - 1 ==> Ended((a + b)[i]))
    {
      if i < |a| { assert (a + b)[i] == s[i]; } else { assert (a + b)[i] == s[i + 1]; }
    }
  }

  /** The lines run over one after the other. */
  lemma {:induction false} FilterAppend(st: Scan, a: seq<string>, b: seq<string>)
    ensures Filter(st, a + b) == Filter(Filter(st, a), b)
    decreases |a|
  {
    if |a| > 0 {
      assert (a + b)[0] == a[0];
      assert (a + b)[1..] == a[1..] + b;
      assert Filter(st, a + b) == Filter(Step(st, a[0]), a[1..] + b);
      FilterAppend(Step(st, a[0]), a[1..], b);
    } else {
      assert a + b == b;
    }
  }

  /** No line is a begin marker. */
  predicate NoBegin(lines: seq<string>)
  {
    forall i | 0 <= i < |lines| :: !IsBegin(lines[i])
  }

  /** The filter from the start of a file. */
  function Start(lines: seq<string>): Scan
  {
    Filter(Scan([], false, false), lines)
  }

  // ----------------------------------------------- the reference reading

  /** Line `i` lies inside a block: some earlier line is a begin marker
      and no end marker follows it before `i`. */
  predicate Open(lines: seq<string>, i: int)
    requires 0 <= i <= |lines|
  {
    exists j | 0 <= j < i :: IsBegin(lines[j]) && forall k | j < k < i :: !IsEnd(lines[k])
  }

  /** The lines a reader would keep: every line that is no marker and
      lies outside all blocks, in order. */
  function Outside(lines: seq<string>): seq<string>
    decreases |lines|
  {
    if |lines| == 0 then []
    else
      var n := |lines| - 1;
      Outside(lines[..n]) + (if IsBegin(lines[n]) || IsEnd(lines[n]) || Open(lines, n) then [] else [lines[n]])
  }

  /** Being inside a block after one more line. */
  lemma OpenStep(lines: seq<string>, n: nat)
    requires n < |lines|
    ensures Open(lines, n + 1) <==> IsBegin(lines[n]) || (!IsEnd(lines[n]) && Open(lines, n))
  {
    if IsBegin(lines[n]) {
      assert 0 <= n < n + 1 && IsBegin(lines[n]);
    } else if Open(lines, n + 1) {
      var j :| 0 <= j < n + 1 && IsBegin(lines[j]) && forall k | j < k < n + 1 :: !IsEnd(lines[k]);
      assert j < n;
    } else if !IsEnd(lines[n]) && Open(lines, n) {
      var j :| 0 <= j < n && IsBegin(lines[j]) && forall k | j < k < n :: !IsEnd(lines[k]);
      assert forall k | j < k < n + 1 :: !IsEnd(lines[k]);
    }
  }

  /** Open only looks backwards. */
  lemma OpenPrefix(lines: seq<string>, n: nat)
    requires n < |lines|
    ensures Open(lines[..n + 1], n) == Open(lines, n)
  {
    var p := lines[..n + 1];
    assert forall k | 0 <= k < n :: p[k] == lines[k];
  }

  /** The filter keeps exactly the lines outside the blocks, and it is
      between markers exactly when the lines read so far leave a block
      open. */
  lemma {:induction false} FilterOutside(lines: seq<string>)
    ensures Start(lines).kept == Outside(lines)
    ensures Start(lines).between == Open(lines, |lines|)
    decreases |lines|
  {
    if |lines| > 0 {
      var n := |lines| - 1;
      var front := lines[..n];
      FilterOutside(front);
      FilterAppend(Scan([], false, false), front, [lines[n]]);
      assert front + [lines[n]] == lines;
      OpenStep(lines, n);
      OpenPrefix(lines, n);
      assert lines[..n + 1][..n] == front;
      MarksExclusive(lines[n]);
    }
  }

  // ------------------------------------------------------ the whole file

  /** The file after the loop: rewritten as the kept lines if a begin
      marker was seen, untouched otherwise. */
  function Reset(text: string): (r: string)
    ensures NoBegin(Lines(text)) ==> r == text
    ensures !NoBegin(Lines(text)) ==> r == Concat(Outside(Lines(text)))
  {
    var st := Start(Lines(text));
    FilterOutside(Lines(text));
    FilterFacts(Scan([], false, false), Lines(text));
    if st.modified then Concat(st.kept) else text
  }

  /** Nothing is left to remove after a reset: running the uninstaller a
      second time rewrites nothing. */
  lemma ResetIdempotent(text: string)
    ensures Reset(Reset(text)) == Reset(text)
    ensures NoBegin(Lines(Reset(text)))
  {
    var lines := Lines(text);
    var st := Start(lines);
    assert [] + lines == lines;
    FilterFacts(Scan([], false, false), lines);
    if st.modified {
      LinesConcat(st.kept);
    }
  }

  /** A begin marker that no end marker follows drops the rest of the
      file. */
  lemma UnclosedDropsRest(lines: seq<string>, i: nat)
    requires i < |lines| && IsBegin(lines[i])
    requires forall k | i < k < |lines| :: !IsEnd(lines[k])
    ensures Start(lines).kept == Start(lines[..i]).kept
    ensures Start(lines).modified
  {
    FilterAppend(Scan([], false, false), lines[..i], lines[i..]);
    assert lines[..i] + lines[i..] == lines;
    var st := Start(lines[..i]);
    Skipping(Step(st, lines[i]), lines[i + 1..]);
    FilterAppend(st, [lines[i]], lines[i + 1..]);
    assert lines[i..] == [lines[i]] + lines[i + 1..];
  }

  /** Between markers, lines without an end marker are all dropped. */
  lemma {:induction false} Skipping(st: Scan, lines: seq<string>)
    requires st.between
    requires forall k | 0 <= k < |lines| :: !IsEnd(lines[k])
    ensures Filter(st, lines).kept == st.kept
    ensures st.modified ==> Filter(st, lines).modified
    decreases |lines|
  {
    if |lines| > 0 {
      Skipping(Step(st, lines[0]), lines[1..]);
    }
  }
}

=== FILE: xkb_manager.dfy ===
/** The XKB part of the Linux installer, releases/lafayette_linux_v0.8.py:
    the index of layouts to install or remove, the marker blocks that
    delimit installed layouts in an XKB symbols file, the line filter that
    drops the blocks being replaced, the loop that appends the new ones,
    and the mask of `list_rules`. */
module XkbManager {
  import opened Results
  import opened Unicode
  import opened Text
  import opened Entries
  import opened FileLines

  // --------------------------------------------------------- the index

  /** The parts of a layout the installer reads. */
  datatype Layout = Layout(locale: string, variant: string, description: string, xkbPatch: string)

  /** `_index`: locale to variant to the layout to install, or None for a
      variant to remove, both in insertion order. */
  type Index = seq<(string, seq<(string, Option<Layout>)>)>

  /** The variants of a locale, empty for a locale not in the index. */
  function Variants(index: Index, locale: string): seq<(string, Option<Layout>)>
  {
    match Lookup(index, locale)
    case None => []
    case Some(v) => v
  }

  /** `add(layout)`. */
  function Add(index: Index, layout: Layout): Index
  {
    Put(index, layout.locale, Put(Variants(index, layout.locale), layout.variant, Some(layout)))
  }

  /** `remove(layout_id)`: the identifier must split at `/` into exactly a
      locale and a variant, else the unpacking is a ValueError. */
  function Remove(index: Index, layoutId: string): (r: Result<Index>)
    ensures r.Fail? <==> |Split(layoutId, '/')| != 2
    ensures r.Fail? ==> r.error == ValueError
  {
    var parts := Split(layoutId, '/');
    if |parts| != 2 then Fail(ValueError)
    else Ok(Put(index, parts[0], Put(Variants(index, parts[0]), parts[1], None)))
  }

  /** Setting one variant of one locale changes what that pair finds and
      nothing else. */
  lemma SetVariant(index: Index, locale: string, variant: string, v: Option<Layout>, l: string, w: string)
    ensures var r := Put(index, locale, Put(Variants(index, locale), variant, v));
      Lookup(Variants(r, l), w) == if l == locale && w == variant then Some(v) else Lookup(Variants(index, l), w)
  {
    PutLookup(index, locale, Put(Variants(index, locale), variant, v), l);
    PutLookup(Variants(index, locale), variant, v, w);
  }

  /** After `add(layout)` the layout is what its locale and variant find;
      every other pair finds what it found before. */
  lemma AddLookup(index: Index, layout: Layout, l: string, w: string)
    ensures Lookup(Variants(Add(index, layout), l), w)
            == if l == layout.locale && w == layout.variant then Some(Some(layout)) else Lookup(Variants(index, l), w)
  {
    SetVariant(index, layout.locale, layout.variant, Some(layout), l, w);
  }

  /** After `remove('locale/variant')` the pair is marked for removal;
      every other pair finds what it found before. */
  lemma RemoveLookup(index: Index, locale: string, variant: string, l: string, w: string)
    requires '/' !in locale && '/' !in variant
    ensures Remove(index, locale + "/" + variant).Ok?
    ensures Lookup(Variants(Remove(index, locale + "/" + variant).value, l), w)
            == if l == locale && w == variant then Some(None) else Lookup(Variants(index, l), w)
  {
    SplitJoin([locale, variant], '/');
    assert Join([locale, variant], "/") == locale + "/" + variant;
    SetVariant(index, locale, variant, None, l, w);
  }

  /** The last call wins: removing a layout just added leaves it marked
      for removal. */
  lemma RemoveAfterAdd(index: Index, layout: Layout)
    requires '/' !in layout.locale && '/' !in layout.variant
    ensures Remove(Add(index, layout), layout.locale + "/" + layout.variant).Ok?
    ensures Lookup(Variants(Remove(Add(index, layout), layout.locale + "/" + layout.variant).value, layout.locale), layout.variant)
            == Some(None)
  {
    RemoveLookup(Add(index, layout), layout.locale, layout.variant, layout.locale, layout.variant);
  }

  // ------------------------------------------------------ marker blocks

  const KalaminePrefix: string := "// KALAMINE::"
  const LegacyPrefix: string := "// LAFAYETTE::"

  /** The markers of the first Lafayette installer. */
  const LegacyBegin: string := "// LAFAYETTE::BEGIN\n"
  const LegacyEnd: string := "// LAFAYETTE::END\n"

  datatype Mark = Mark(begin: string, end: string)

  /** `get_symbol_mark(name)`: the two marker lines around a layout. */
  function SymbolMark(db: CharDb, name: string): Mark
  {
    Mark(KalaminePrefix + db.upper(name) + "::BEGIN\n", KalaminePrefix + db.upper(name) + "::END\n")
  }

  /** `line[a:-b]`. */
  function Slice(s: string, a: nat, b: nat): string
  {
    if |s| >= a + b then s[a..|s| - b] else ""
  }

  /** The name `is_marked_for_deletion` reads from a begin line: what lies
      between `// KALAMINE::` and `::BEGIN\n`, `LAFAYETTE` for a legacy
      line, and None for any other line, which is never deleted. */
  function MarkedName(line: string): (r: Option<string>)
    ensures r.None? <==> !StartsWith(line, KalaminePrefix) && !StartsWith(line, LegacyPrefix)
    ensures StartsWith(line, LegacyPrefix) ==> r == Some("LAFAYETTE")
  {
    if StartsWith(line, KalaminePrefix) then
      assert line[3] == 'K';
      Some(Slice(line, 13, 8))
    else if StartsWith(line, LegacyPrefix) then Some("LAFAYETTE")
    else None
  }

  /** `is_marked_for_deletion(line)`: the name read is one of `NAMES`. */
  predicate IsMarked(names: seq<string>, line: string)
  {
    MarkedName(line).Some? && MarkedName(line).value in names
  }

  /** The end marker the filter waits for after begin line `line`. */
  function Closing(line: string): string
    requires |line| >= 6
  {
    line[..|line| - 6] + "END\n"
  }

  /** A begin marker names its layout in upper case, and the end marker
      the filter waits for after it is the layout's own end marker; the
      same holds of the legacy markers. */
  lemma MarkRoundTrip(db: CharDb, name: string)
    ensures MarkedName(SymbolMark(db, name).begin) == Some(db.upper(name))
    ensures Closing(SymbolMark(db, name).begin) == SymbolMark(db, name).end
    ensures MarkedName(LegacyBegin) == Some("LAFAYETTE") && Closing(LegacyBegin) == LegacyEnd
  {
    var m := SymbolMark(db, name);
    assert StartsWith(m.begin, KalaminePrefix);
    assert m.begin[13..|m.begin| - 8] == db.upper(name);
    assert StartsWith(LegacyBegin, LegacyPrefix);
  }

  /** `NAMES`: the upper-case names of the locale's layouts. */
  function Names(db: CharDb, named: seq<(string, Option<Layout>)>): (r: seq<string>)
    ensures |r| == |named| && forall i | 0 <= i < |named| :: r[i] == db.upper(named[i].0)
  {
    seq(|named|, i requires 0 <= i < |named| => db.upper(named[i].0))
  }

  // ---------------------------------------------------------- the filter

  predicate IsBeginLine(line: string)
  {
    EndsWith(line, "::BEGIN\n")
  }

  predicate IsEndLine(line: string)
  {
    EndsWith(line, "::END\n")
  }

  /** The filter's state: the text kept, whether it is inside a block
      being deleted and the end marker that closes it, and whether any
      block was deleted. */
  datatype Scan = Scan(text: string, between: bool, closing: string, modified: bool)

  const Initial: Scan := Scan("", false, "", false)

  /** One turn of the filter loop of `update_symbols_locale`. */
  function Step(db: CharDb, names: seq<string>, st: Scan, line: string): Scan
  {
    if IsBeginLine(line) then
      if IsMarked(names, line) then Scan(RStrip(db.isSpace, st.text), true, Closing(line), true)
      else st.(text := st.text + line)
    else if IsEndLine(line) then
      if st.between && StartsWith(line, st.closing) then st.(between := false, closing := "")
      else st.(text := st.text + line)
    else if !st.between then st.(text := st.text + line)
    else st
  }

  /** The filter loop over the remaining lines. */
  function Filter(db: CharDb, names: seq<string>, st: Scan, lines: seq<string>): Scan
    decreases |lines|
  {
    if |lines| == 0 then st else Filter(db, names, Step(db, names, st, lines[0]), lines[1..])
  }

  lemma {:induction false} FilterAppend(db: CharDb, names: seq<string>, st: Scan, a: seq<string>, b: seq<string>)
    ensures Filter(db, names, st, a + b) == Filter(db, names, Filter(db, names, st, a), b)
    decreases |a|
  {
    if |a| > 0 {
      assert (a + b)[0] == a[0];
      assert (a + b)[1..] == a[1..] + b;
      assert Filter(db, names, st, a + b) == Filter(db, names, Step(db, names, st, a[0]), a[1..] + b);
      FilterAppend(db, names, Step(db, names, st, a[0]), a[1..], b);
    } else {
      assert a + b == b;
    }
  }

  /** A begin line of a layout being replaced. */
  predicate MarkedBegin(names: seq<string>, line: string)
  {
    IsBeginLine(line) && IsMarked(names, line)
  }

  predicate NoMarkedBegin(names: seq<string>, lines: seq<string>)
  {
    forall i | 0 <= i < |lines| :: !MarkedBegin(names, lines[i])
  }

  /** A block is deleted exactly when some begin line is marked, and
      outside blocks every line is kept, in order: markers of other
      layouts and stray end markers included. */
  lemma {:induction false} FilterFacts(db: CharDb, names: seq<string>, st: Scan, lines: seq<string>)
    ensures Filter(db, names, st, lines).modified <==> st.modified || !NoMarkedBegin(names, lines)
    ensures !st.between && NoMarkedBegin(names, lines) ==>
              Filter(db, names, st, lines) == st.(text := st.text + Concat(lines))
    decreases |lines|
  {
    if |lines| > 0 {
      var next := Step(db, names, st, lines[0]);
      FilterFacts(db, names, next, lines[1..]);
      assert forall i | 1 <= i < |lines| :: lines[i] == lines[1..][i - 1];
      if !st.between && NoMarkedBegin(names, lines) {
        ConcatCons(lines[0], lines[1..]);
        assert [lines[0]] + lines[1..] == lines;
      }
    } else {
      assert Concat(lines) == "";
    }
  }

  /** Neither a begin nor an end line. */
  predicate Plain(lines: seq<string>)
  {
    forall i | 0 <= i < |lines| :: !IsBeginLine(lines[i]) && !IsEndLine(lines[i])
  }

  /** The filter reads one line, then the rest. */
  lemma FilterCons(db: CharDb, names: seq<string>, st: Scan, line: string, rest: seq<string>)
    ensures Filter(db, names, st, [line] + rest) == Filter(db, names, Step(db, names, st, line), rest)
  {
    assert ([line] + rest)[0] == line && ([line] + rest)[1..] == rest;
  }

  /** A block deleted anywhere in the file: the text kept before it is
      right-stripped when its begin line is met, and the text after its
      end line is kept as it is. Nothing separates the two, so the last
      line kept before the block runs into the first line after it unless
      that line is blank. */
  lemma FilterBlock(db: CharDb, names: seq<string>, st: Scan, pre: seq<string>, begin: string,
                    body: seq<string>, end: string, post: seq<string>)
    requires !st.between && NoMarkedBegin(names, pre) && NoMarkedBegin(names, post)
    requires MarkedBegin(names, begin) && Plain(body)
    requires IsEndLine(end) && !IsBeginLine(end) && StartsWith(end, Closing(begin))
    ensures Filter(db, names, st, pre + ([begin] + (body + ([end] + post))))
            == Scan(RStrip(db.isSpace, st.text + Concat(pre)) + Concat(post), false, "", true)
  {
    var s1 := st.(text := st.text + Concat(pre));
    FilterFacts(db, names, st, pre);
    FilterAppend(db, names, st, pre, [begin] + (body + ([end] + post)));
    var s2 := Scan(RStrip(db.isSpace, s1.text), true, Closing(begin), true);
    assert Step(db, names, s1, begin) == s2;
    FilterCons(db, names, s1, begin, body + ([end] + post));
    FilterAppend(db, names, s2, body, [end] + post);
    FilterSkips(db, names, s2, body);
    var s3 := Scan(s2.text, false, "", true);
    assert Step(db, names, s2, end) == s3;
    FilterCons(db, names, s2, end, post);
    FilterFacts(db, names, s3, post);
  }

  lemma MarksOfX()
    ensures MarkedBegin(["X"], "// KALAMINE::X::BEGIN\n")
    ensures Closing("// KALAMINE::X::BEGIN\n") == "// KALAMINE::X::END\n"
    ensures IsEndLine("// KALAMINE::X::END\n") && !IsBeginLine("// KALAMINE::X::END\n")
    ensures StartsWith("// KALAMINE::X::END\n", "// KALAMINE::X::END\n")
  {
    var begin, end := "// KALAMINE::X::BEGIN\n", "// KALAMINE::X::END\n";
    assert |begin| == 22 && begin[..13] == KalaminePrefix && begin[22 - 8..] == "::BEGIN\n";
    assert Slice(begin, 13, 8) == begin[13..14] == "X";
    assert begin[..16] + "END\n" == end;
    assert |end| == 20 && end[20 - 6..] == "::END\n";
    EndNotBegin(end);
  }

  /** An instance of the join: `a`, a block of layout X, then `b` give
      `ab` on one line. */
  lemma FilterJoinsLines(db: CharDb)
    requires db.isSpace('\n') && !db.isSpace('a')
    ensures Filter(db, ["X"], Initial, ["a\n", "// KALAMINE::X::BEGIN\n", "k\n", "// KALAMINE::X::END\n", "b\n"]).text
            == "ab\n"
  {
    var begin, end := "// KALAMINE::X::BEGIN\n", "// KALAMINE::X::END\n";
    MarksOfX();
    ExampleLines();
    assert ["a\n", begin, "k\n", end, "b\n"] == ["a\n"] + ([begin] + (["k\n"] + ([end] + ["b\n"])));
    FilterBlock(db, ["X"], Initial, ["a\n"], begin, ["k\n"], end, ["b\n"]);
    ExampleJoin(db);
  }

  lemma ExampleLines()
    ensures NoMarkedBegin(["X"], ["a\n"]) && NoMarkedBegin(["X"], ["b\n"]) && Plain(["k\n"])
  {
    assert !IsBeginLine("a\n") && !IsBeginLine("b\n") && !IsBeginLine("k\n") && !IsEndLine("k\n");
  }

  lemma ExampleJoin(db: CharDb)
    requires db.isSpace('\n') && !db.isSpace('a')
    ensures RStrip(db.isSpace, Initial.text + Concat(["a\n"])) + Concat(["b\n"]) == "ab\n"
  {
    assert Initial.text + Concat(["a\n"]) == "a\n" && Concat(["b\n"]) == "b\n";
    assert "a\n"[..1] == "a";
  }

  /** Inside a block, ordinary lines are dropped. */
  lemma {:induction false} FilterSkips(db: CharDb, names: seq<string>, st: Scan, lines: seq<string>)
    requires st.between && Plain(lines)
    ensures Filter(db, names, st, lines) == st
    decreases |lines|
  {
    if |lines| > 0 {
      FilterSkips(db, names, st, lines[1..]);
    }
  }

  /** Inside a block, a begin line of a layout kept and an end line that
      does not close the block are both kept. */
  lemma KeptInsideBlock(db: CharDb, names: seq<string>, st: Scan, line: string)
    requires st.between
    requires (IsBeginLine(line) && !IsMarked(names, line))
             || (!IsBeginLine(line) && IsEndLine(line) && !StartsWith(line, st.closing))
    ensures Filter(db, names, st, [line]) == st.(text := st.text + line)
  {
    assert Filter(db, names, st, [line]) == Filter(db, names, Step(db, names, st, line), []);
  }

  // ---------------------------------------------------- the whole file

  /** One layout as the append loop writes it. */
  function Block(db: CharDb, name: string, patch: string): string
  {
    "\n" + SymbolMark(db, name).begin + RStrip(db.isSpace, patch) + "\n" + SymbolMark(db, name).end
  }

  /** The append loop: a block for every layout to install, in order,
      nothing for a layout to remove. */
  function Appended(db: CharDb, named: seq<(string, Option<Layout>)>): string
    decreases |named|
  {
    if |named| == 0 then ""
    else
      var (name, layout) := named[|named| - 1];
      Appended(db, named[..|named| - 1]) + (if layout.Some? then Block(db, name, layout.value.xkbPatch) else "")
  }

  /** `update_symbols_locale(path, named_layouts)` on the file's text: the
      file is rewritten, right-stripped, only if a block was deleted, and
      the new blocks are written after it. */
  function UpdateLocale(db: CharDb, text: string, named: seq<(string, Option<Layout>)>): (r: string)
    ensures NoMarkedBegin(Names(db, named), Lines(text)) ==> r == text + Appended(db, named)
    ensures !NoMarkedBegin(Names(db, named), Lines(text)) ==>
              r == RStrip(db.isSpace, Filter(db, Names(db, named), Initial, Lines(text)).text) + "\n" + Appended(db, named)
  {
    var st := Filter(db, Names(db, named), Initial, Lines(text));
    FilterFacts(db, Names(db, named), Initial, Lines(text));
    (if st.modified then RStrip(db.isSpace, st.text) + "\n" else text) + Appended(db, named)
  }

  /** A file as the installer leaves it after installing layout `name`:
      the rest of the file right-stripped, then the layout's block. */
  function Installed(db: CharDb, rest: string, name: string, patch: string): string
  {
    RStrip(db.isSpace, rest) + "\n" + Block(db, name, patch)
  }

  /** Reinstalling a layout replaces its block: the old block is deleted,
      the rest of the file is kept, and the new block, if any, is written
      at the end. Removing a layout leaves the rest of the file. */
  lemma Reinstall(db: CharDb, rest: string, name: string, patch: string, layout: Option<Layout>)
    requires db.isSpace('\n') && '\n' !in db.upper(name)
    requires NoMarkedBegin([db.upper(name)], Lines(RStrip(db.isSpace, rest) + "\n"))
    requires Plain(Lines(RStrip(db.isSpace, patch) + "\n"))
    ensures UpdateLocale(db, Installed(db, rest, name, patch), [(name, layout)])
            == RStrip(db.isSpace, rest) + "\n" + Appended(db, [(name, layout)])
  {
    var names := Names(db, [(name, layout)]);
    assert names == [db.upper(name)];
    var m := SymbolMark(db, name);
    var a := RStrip(db.isSpace, rest) + "\n";
    var p := RStrip(db.isSpace, patch) + "\n";
    var file := Installed(db, rest, name, patch);
    InstalledShape(db, rest, name, patch);
    MarkIsLine(db, name);
    MarkRoundTrip(db, name);
    FilterInstalled(db, names, a, m.begin, p, m.end);
    FilterFacts(db, names, Initial, Lines(file));
    SpacesStripped(db, rest);
    RStripIdempotent(db.isSpace, RStrip(db.isSpace, rest));
  }

  lemma InstalledShape(db: CharDb, rest: string, name: string, patch: string)
    ensures var m := SymbolMark(db, name);
      Installed(db, rest, name, patch)
      == (RStrip(db.isSpace, rest) + "\n") + ("\n" + (m.begin + ((RStrip(db.isSpace, patch) + "\n") + m.end)))
  {
    var m := SymbolMark(db, name);
    Assoc(RStrip(db.isSpace, rest) + "\n", "\n", m.begin, RStrip(db.isSpace, patch), "\n", m.end);
  }

  lemma Assoc(a: string, b: string, c: string, d: string, e: string, f: string)
    ensures a + (b + c + d + e + f) == a + (b + (c + ((d + e) + f)))
  {
  }

  /** The filter over an installed file deletes the block and keeps the
      text before it, right-stripped. */
  lemma FilterInstalled(db: CharDb, names: seq<string>, a: string, begin: string, p: string, end: string)
    requires Ended(a) && NoMarkedBegin(names, Lines(a))
    requires IsLine(begin) && Ended(begin) && MarkedBegin(names, begin) && Closing(begin) == end
    requires IsLine(end) && IsEndLine(end) && !IsBeginLine(end)
    requires Ended(p) && Plain(Lines(p))
    ensures Filter(db, names, Initial, Lines(a + ("\n" + (begin + (p + end)))))
            == Scan(RStrip(db.isSpace, a + "\n"), false, "", true)
  {
    var t3 := p + end;
    var t2 := begin + t3;
    var t1 := "\n" + t2;
    FilterFacts(db, names, Initial, Lines(a));
    assert "" + Concat(Lines(a)) == a;
    var s1 := Scan(a, false, "", false);
    FilterText(db, names, Initial, a, t1);
    FilterLine(db, names, s1, "\n", t2);
    var s2 := Scan(RStrip(db.isSpace, a + "\n"), true, end, true);
    FilterLine(db, names, Step(db, names, s1, "\n"), begin, t3);
    assert Step(db, names, Step(db, names, s1, "\n"), begin) == s2;
    FilterText(db, names, s2, p, end);
    FilterSkips(db, names, s2, Lines(p));
    LineOf(end);
    assert StartsWith(end, end);
    assert Filter(db, names, s2, [end]) == Filter(db, names, Step(db, names, s2, end), []);
  }

  /** The filter reads a text whose last line is ended, then the next
      text. */
  lemma FilterText(db: CharDb, names: seq<string>, st: Scan, a: string, b: string)
    requires |a| == 0 || Ended(a)
    ensures Filter(db, names, st, Lines(a + b)) == Filter(db, names, Filter(db, names, st, Lines(a)), Lines(b))
  {
    LinesAppend(a, b);
    FilterAppend(db, names, st, Lines(a), Lines(b));
  }

  /** The filter reads one ended line, then the rest of the text. */
  lemma FilterLine(db: CharDb, names: seq<string>, st: Scan, l: string, b: string)
    requires IsLine(l) && Ended(l)
    ensures Filter(db, names, st, Lines(l + b)) == Filter(db, names, Step(db, names, st, l), Lines(b))
  {
    LinesCons(l, b);
    assert ([l] + Lines(b))[1..] == Lines(b);
  }

  /** Both markers of a layout whose name has no newline are single
      lines. */
  lemma MarkIsLine(db: CharDb, name: string)
    requires '\n' !in db.upper(name)
    ensures var m := SymbolMark(db, name);
      && IsLine(m.begin) && Ended(m.begin) && IsBeginLine(m.begin)
      && IsLine(m.end) && Ended(m.end) && IsEndLine(m.end) && !IsBeginLine(m.end)
  {
    var m := SymbolMark(db, name);
    MarkLine(db.upper(name), "::BEGIN\n");
    MarkLine(db.upper(name), "::END\n");
    MarkTail(KalaminePrefix + db.upper(name), "::BEGIN\n");
    MarkTail(KalaminePrefix + db.upper(name), "::END\n");
    EndNotBegin(m.end);
  }

  lemma MarkTail(head: string, tail: string)
    ensures EndsWith(head + tail, tail)
  {
    assert (head + tail)[|head + tail| - |tail|..] == tail;
  }

  /** No line ends with both markers. */
  lemma EndNotBegin(line: string)
    ensures !(IsBeginLine(line) && IsEndLine(line))
  {
    if |line| >= 2 {
      var c := line[|line| - 2];
      assert IsBeginLine(line) ==> c == "::BEGIN\n"[6] == 'N';
      assert IsEndLine(line) ==> c == "::END\n"[4] == 'D';
    }
  }

  /** A marker line is one line. */
  lemma MarkLine(n: string, tail: string)
    requires '\n' !in n && |tail| > 0 && tail[|tail| - 1] == '\n'
    requires forall i | 0 <= i < |tail| - 1 :: tail[i] != '\n'
    ensures IsLine(KalaminePrefix + n + tail)
  {
    var l := KalaminePrefix + n + tail;
    forall i | 0 <= i < |l| - 1 ensures l[i] != '\n' {
      if i < 13 { assert l[i] == KalaminePrefix[i]; }
      else if i < 13 + |n| { assert l[i] == n[i - 13]; }
      else { assert l[i] == tail[i - 13 - |n|]; }
    }
  }

  /** The two newlines before a begin marker are stripped with the rest of
      the trailing white space. */
  lemma SpacesStripped(db: CharDb, rest: string)
    requires db.isSpace('\n')
    ensures RStrip(db.isSpace, RStrip(db.isSpace, rest) + "\n" + "\n") == RStrip(db.isSpace, rest)
  {
    var s := RStrip(db.isSpace, rest);
    var t := s + "\n" + "\n";
    assert t[..|t| - 1] == s + "\n";
    assert (s + "\n")[..|s|] == s;
    RStripIdempotent(db.isSpace, s);
  }

  lemma RStripIdempotent(isSpace: char -> bool, s: string)
    ensures RStrip(isSpace, RStrip(isSpace, s)) == RStrip(isSpace, s)
  {
    var r := RStrip(isSpace, s);
    if |r| > 0 {
      RStripNoTrailingSpace(isSpace, r);
    }
  }

  // ------------------------------------------------------------- update

  /** Every locale up to and including the `i`-th has a symbols file. */
  predicate Reached(index: Index, files: map<string, string>, i: int)
  {
    forall k | 0 <= k <= i && k < |index| :: index[k].0 in files
  }

  /** `update_symbols(xkb_root, kbindex)`: the symbols files rewritten
      locale by locale in index order, and the exit taken at the first
      locale without a symbols file. The files of the locales before it
      stay rewritten; the later ones are not touched. */
  function UpdateSymbols(db: CharDb, index: Index, files: map<string, string>): (r: (map<string, string>, Option<PyError>))
    ensures r.0.Keys == files.Keys
    ensures r.1.Some? <==> exists i | 0 <= i < |index| :: index[i].0 !in files
    ensures r.1.Some? ==> r.1.value == SystemExit
    ensures forall loc | loc in files && Lookup(index, loc).None? :: r.0[loc] == files[loc]
    ensures UniqueNames(index) ==> forall i | 0 <= i < |index| && Reached(index, files, i) ::
              r.0[index[i].0] == UpdateLocale(db, files[index[i].0], index[i].1)
    ensures UniqueNames(index) ==> forall i | 0 <= i < |index| && index[i].0 in files && !Reached(index, files, i) ::
              r.0[index[i].0] == files[index[i].0]
    decreases |index|
  {
    if |index| == 0 then (files, None)
    else if index[0].0 !in files then
      UnreachedAll(index, files);
      (files, Some(SystemExit))
    else
      var f := files[index[0].0 := UpdateLocale(db, files[index[0].0], index[0].1)];
      var rest := UpdateSymbols(db, index[1..], f);
      UpdateFrame(index, files, UpdateLocale(db, files[index[0].0], index[0].1), f, rest);
      ReachedShift(index, files, f);
      UpdateUnique(db, index, files, rest);
      rest
  }

  /** Past a locale without a file, no locale is reached, and the files
      are left as they are. */
  lemma UnreachedAll(index: Index, files: map<string, string>)
    requires |index| > 0 && index[0].0 !in files
    ensures forall i | 0 <= i < |index| :: !Reached(index, files, i)
  {
    forall i | 0 <= i < |index| ensures !Reached(index, files, i) {
      assert !(index[0].0 in files);
    }
  }

  /** The turn for the first locale: the later locales' results carry
      over to the whole index, as the first locale has a file. */
  lemma UpdateFrame(index: Index, files: map<string, string>, v: string, f: map<string, string>,
                    rest: (map<string, string>, Option<PyError>))
    requires |index| > 0 && index[0].0 in files && f == files[index[0].0 := v]
    requires rest.0.Keys == f.Keys
    requires rest.1.Some? <==> exists i | 0 <= i < |index[1..]| :: index[1..][i].0 !in f
    requires forall loc | loc in f && Lookup(index[1..], loc).None? :: rest.0[loc] == f[loc]
    ensures rest.0.Keys == files.Keys
    ensures rest.1.Some? <==> exists i | 0 <= i < |index| :: index[i].0 !in files
    ensures forall loc | loc in files && Lookup(index, loc).None? :: rest.0[loc] == files[loc]
  {
    var tail := index[1..];
    assert forall i | 1 <= i < |index| :: index[i] == tail[i - 1];
    if exists i | 0 <= i < |index| :: index[i].0 !in files {
      var i :| 0 <= i < |index| && index[i].0 !in files;
      assert tail[i - 1].0 !in f;
    }
  }

  /** Reaching the `i`-th locale of the rest is reaching the `i + 1`-th
      of the whole index. */
  lemma ReachedShift(index: Index, files: map<string, string>, f: map<string, string>)
    requires |index| > 0 && index[0].0 in files && f.Keys == files.Keys
    ensures forall i | 0 <= i < |index| - 1 :: Reached(index[1..], f, i) <==> Reached(index, files, i + 1)
  {
    var tail := index[1..];
    forall i | 0 <= i < |index| - 1 ensures Reached(tail, f, i) <==> Reached(index, files, i + 1) {
      if Reached(tail, f, i) {
        forall k | 0 <= k <= i + 1 && k < |index| ensures index[k].0 in files {
          if k > 0 { assert tail[k - 1].0 in f; }
        }
      }
      if Reached(index, files, i + 1) {
        forall k | 0 <= k <= i && k < |tail| ensures tail[k].0 in f {
          assert index[k + 1].0 in files;
        }
      }
    }
  }

  lemma UpdateUnique(db: CharDb, index: Index, files: map<string, string>, rest: (map<string, string>, Option<PyError>))
    requires |index| > 0 && index[0].0 in files
    requires var f := files[index[0].0 := UpdateLocale(db, files[index[0].0], index[0].1)];
      && rest.0.Keys == f.Keys
      && (forall i | 1 <= i < |index| :: index[i] == index[1..][i - 1])
      && (forall i | 0 <= i < |index| - 1 :: Reached(index[1..], f, i) <==> Reached(index, files, i + 1))
      && (forall loc | loc in f && Lookup(index[1..], loc).None? :: rest.0[loc] == f[loc])
      && (UniqueNames(index[1..]) ==> forall i | 0 <= i < |index[1..]| && Reached(index[1..], f, i) ::
            rest.0[index[1..][i].0] == UpdateLocale(db, f[index[1..][i].0], index[1..][i].1))
      && (UniqueNames(index[1..]) ==> forall i | 0 <= i < |index[1..]| && index[1..][i].0 in f && !Reached(index[1..], f, i) ::
            rest.0[index[1..][i].0] == f[index[1..][i].0])
    ensures UniqueNames(index) ==> forall i | 0 <= i < |index| && Reached(index, files, i) ::
              rest.0[index[i].0] == UpdateLocale(db, files[index[i].0], index[i].1)
    ensures UniqueNames(index) ==> forall i | 0 <= i < |index| && index[i].0 in files && !Reached(index, files, i) ::
              rest.0[index[i].0] == files[index[i].0]
  {
    if !UniqueNames(index) { return; }
    var f := files[index[0].0 := UpdateLocale(db, files[index[0].0], index[0].1)];
    var tail := index[1..];
    assert UniqueNames(tail);
    assert Lookup(tail, index[0].0).None?;
    forall i | 0 <= i < |index| && Reached(index, files, i)
      ensures rest.0[index[i].0] == UpdateLocale(db, files[index[i].0], index[i].1)
    {
      if i > 0 {
        assert index[i].0 != index[0].0;
        assert Reached(tail, f, i - 1);
      }
    }
    forall i | 0 <= i < |index| && index[i].0 in files && !Reached(index, files, i)
      ensures rest.0[index[i].0] == files[index[i].0]
    {
      assert i > 0;
      assert index[i].0 != index[0].0;
      assert !Reached(tail, f, i - 1);
    }
  }

  // ---------------------------------------------------------- list_rules

  /** One `<variant>` of the rules files, with whether it has a `type`
      attribute. */
  datatype Variant = Variant(locale: string, name: string, description: string, typed: bool)

  /** `matches(string, mask)`. */
  predicate Matches(s: string, mask: string)
  {
    mask == "*" || mask == s
  }

  /** The mask of `list_rules`: `''` and `'*'` match everything; any other
      mask must be exactly `locale/variant`, else the installer exits. */
  function ParseMask(mask: string): (r: Result<(string, string)>)
    ensures mask == "" || mask == "*" ==> r == Ok(("*", "*"))
    ensures mask != "" && mask != "*" ==> (r.Ok? <==> |Split(mask, '/')| == 2)
    ensures r.Fail? ==> r.error == SystemExit
    ensures r.Ok? && mask != "" && mask != "*" ==> mask == r.value.0 + "/" + r.value.1
  {
    if mask == "" || mask == "*" then Ok(("*", "*"))
    else
      var m := Split(mask, '/');
      if |m| != 2 then Fail(SystemExit)
      else
        JoinSplit(mask, '/');
        assert Join(m, "/") == m[0] + "/" + m[1];
        Ok((m[0], m[1]))
  }

  /** The identifier `locale/name` under which `list_rules` lists a variant. */
  function IdOf(v: Variant): string
  {
    v.locale + "/" + v.name
  }

  /** The variants `list_rules` reports: typed ones unless all are asked
      for, whose locale and name match the mask. */
  predicate Selected(v: Variant, masks: (string, string), includeAll: bool)
  {
    (includeAll || v.typed) && Matches(v.locale, masks.0) && Matches(v.name, masks.1)
  }

  /** Some variant selected by the masks has identifier `id`. */
  predicate SomeSelected(variants: seq<Variant>, masks: (string, string), includeAll: bool, id: string)
  {
    exists i | 0 <= i < |variants| :: Selected(variants[i], masks, includeAll) && IdOf(variants[i]) == id
  }

  /** `variants[i]` is selected and no earlier selected variant has its
      identifier: the variant whose description `list_rules` keeps. */
  predicate FirstSelected(variants: seq<Variant>, masks: (string, string), includeAll: bool, i: int)
    requires 0 <= i < |variants|
  {
    && Selected(variants[i], masks, includeAll)
    && forall j | 0 <= j < i :: !(Selected(variants[j], masks, includeAll)
                                  && IdOf(variants[j]) == IdOf(variants[i]))
  }

  /** The description of the first selected variant with identifier `id`,
      if there is one. */
  function FirstDescription(variants: seq<Variant>, masks: (string, string), includeAll: bool, id: string): Option<string>
    decreases |variants|
  {
    if |variants| == 0 then None
    else
      var earlier := FirstDescription(variants[..|variants| - 1], masks, includeAll, id);
      var v := variants[|variants| - 1];
      if earlier.Some? then earlier
      else if Selected(v, masks, includeAll) && IdOf(v) == id then Some(v.description)
      else None
  }

  /** The layouts loop of `list_rules` over the variants of both rules
      files in order: `locale/name` to its description, the first variant
      with an identifier winning. */
  function Collect(variants: seq<Variant>, masks: (string, string), includeAll: bool): (r: seq<(string, string)>)
    ensures UniqueNames(r)
    ensures forall id :: Lookup(r, id) == FirstDescription(variants, masks, includeAll, id)
    ensures forall id :: Lookup(r, id).Some? <==> SomeSelected(variants, masks, includeAll, id)
    ensures forall i | 0 <= i < |variants| && FirstSelected(variants, masks, includeAll, i) ::
      Lookup(r, IdOf(variants[i])) == Some(variants[i].description)
    ensures forall id | Lookup(r, id).Some? :: exists i | 0 <= i < |variants| ::
      && FirstSelected(variants, masks, includeAll, i)
      && IdOf(variants[i]) == id
      && variants[i].description == Lookup(r, id).value
    decreases |variants|
  {
    if |variants| == 0 then []
    else
      var front := variants[..|variants| - 1];
      var v := variants[|variants| - 1];
      var layouts := Collect(front, masks, includeAll);
      var id := IdOf(v);
      var r := if Lookup(layouts, id).None? && Selected(v, masks, includeAll) then Put(layouts, id, v.description)
               else layouts;
      CollectStep(variants, masks, includeAll, layouts, r);
      CollectMeaning(variants, masks, includeAll, r);
      r
  }

  /** One more variant: its identifier is added with its description when
      it is selected and not yet listed. */
  lemma CollectStep(variants: seq<Variant>, masks: (string, string), includeAll: bool,
                    layouts: seq<(string, string)>, r: seq<(string, string)>)
    requires |variants| > 0 && UniqueNames(layouts)
    requires forall id :: Lookup(layouts, id) == FirstDescription(variants[..|variants| - 1], masks, includeAll, id)
    requires var v := variants[|variants| - 1]; var id := IdOf(v);
      r == if Lookup(layouts, id).None? && Selected(v, masks, includeAll) then Put(layouts, id, v.description)
           else layouts
    ensures UniqueNames(r)
    ensures forall id :: Lookup(r, id) == FirstDescription(variants, masks, includeAll, id)
  {
    var v := variants[|variants| - 1];
    var id := IdOf(v);
    if Lookup(layouts, id).None? && Selected(v, masks, includeAll) {
      forall other ensures Lookup(r, other) == FirstDescription(variants, masks, includeAll, other) {
        PutLookup(layouts, id, v.description, other);
      }
      PutUnique(layouts, id, v.description);
    }
  }

  /** What a table that agrees with `FirstDescription` holds: exactly the
      selected identifiers, each with its first selected variant's
      description. */
  lemma CollectMeaning(variants: seq<Variant>, masks: (string, string), includeAll: bool, r: seq<(string, string)>)
    requires forall id :: Lookup(r, id) == FirstDescription(variants, masks, includeAll, id)
    ensures forall id :: Lookup(r, id).Some? <==> SomeSelected(variants, masks, includeAll, id)
    ensures forall i | 0 <= i < |variants| && FirstSelected(variants, masks, includeAll, i) ::
      Lookup(r, IdOf(variants[i])) == Some(variants[i].description)
    ensures forall id | Lookup(r, id).Some? :: exists i | 0 <= i < |variants| ::
      && FirstSelected(variants, masks, includeAll, i)
      && IdOf(variants[i]) == id
      && variants[i].description == Lookup(r, id).value
  {
    forall id ensures Lookup(r, id).Some? <==> SomeSelected(variants, masks, includeAll, id) {
      FirstDescriptionFound(variants, masks, includeAll, id);
    }
    forall i | 0 <= i < |variants| && FirstSelected(variants, masks, includeAll, i)
      ensures Lookup(r, IdOf(variants[i])) == Some(variants[i].description)
    {
      FirstDescriptionOf(variants, masks, includeAll, i);
    }
    forall id | Lookup(r, id).Some? ensures exists i | 0 <= i < |variants| ::
      && FirstSelected(variants, masks, includeAll, i)
      && IdOf(variants[i]) == id
      && variants[i].description == Lookup(r, id).value
    {
      FirstDescriptionFrom(variants, masks, includeAll, id);
    }
  }

  /** Below the last variant, being first selected does not depend on it. */
  lemma FirstSelectedFront(variants: seq<Variant>, masks: (string, string), includeAll: bool, i: int)
    requires 0 <= i < |variants| - 1
    ensures FirstSelected(variants, masks, includeAll, i) <==> FirstSelected(variants[..|variants| - 1], masks, includeAll, i)
  {
    var front := variants[..|variants| - 1];
    assert forall j | 0 <= j <= i :: front[j] == variants[j];
  }

  /** An identifier has a description exactly when some selected variant
      carries it. */
  lemma {:induction false} FirstDescriptionFound(variants: seq<Variant>, masks: (string, string), includeAll: bool, id: string)
    ensures FirstDescription(variants, masks, includeAll, id).Some? <==> SomeSelected(variants, masks, includeAll, id)
    decreases |variants|
  {
    if |variants| > 0 {
      var front := variants[..|variants| - 1];
      FirstDescriptionFound(front, masks, includeAll, id);
      if SomeSelected(variants, masks, includeAll, id) {
        var i :| 0 <= i < |variants| && Selected(variants[i], masks, includeAll) && IdOf(variants[i]) == id;
        if i < |front| {
          assert front[i] == variants[i];
        }
      }
      if SomeSelected(front, masks, includeAll, id) {
        var i :| 0 <= i < |front| && Selected(front[i], masks, includeAll) && IdOf(front[i]) == id;
        assert front[i] == variants[i];
      }
    }
  }

  /** The first selected variant's description is the one kept. */
  lemma {:induction false} FirstDescriptionOf(variants: seq<Variant>, masks: (string, string), includeAll: bool, i: int)
    requires 0 <= i < |variants| && FirstSelected(variants, masks, includeAll, i)
    ensures FirstDescription(variants, masks, includeAll, IdOf(variants[i])) == Some(variants[i].description)
    decreases |variants|
  {
    var front := variants[..|variants| - 1];
    var id := IdOf(variants[i]);
    if i < |front| {
      FirstSelectedFront(variants, masks, includeAll, i);
      FirstDescriptionOf(front, masks, includeAll, i);
      assert front[i] == variants[i];
    } else {
      FirstDescriptionFound(front, masks, includeAll, id);
      assert !SomeSelected(front, masks, includeAll, id) by {
        forall k | 0 <= k < |front| ensures !(Selected(front[k], masks, includeAll) && IdOf(front[k]) == id) {
          assert front[k] == variants[k];
        }
      }
    }
  }

  /** A description kept for `id` is that of the first selected variant
      carrying `id`. */
  lemma {:induction false} FirstDescriptionFrom(variants: seq<Variant>, masks: (string, string), includeAll: bool, id: string)
    requires FirstDescription(variants, masks, includeAll, id).Some?
    ensures exists i | 0 <= i < |variants| ::
      && FirstSelected(variants, masks, includeAll, i)
      && IdOf(variants[i]) == id
      && variants[i].description == FirstDescription(variants, masks, includeAll, id).value
    decreases |variants|
  {
    var front := variants[..|variants| - 1];
    var last := |variants| - 1;
    if FirstDescription(front, masks, includeAll, id).Some? {
      FirstDescriptionFrom(front, masks, includeAll, id);
      var i :| 0 <= i < |front| && FirstSelected(front, masks, includeAll, i) && IdOf(front[i]) == id
               && front[i].description == FirstDescription(front, masks, includeAll, id).value;
      FirstSelectedFront(variants, masks, includeAll, i);
      assert front[i] == variants[i];
    } else {
      FirstDescriptionFound(front, masks, includeAll, id);
      forall j | 0 <= j < last ensures !(Selected(variants[j], masks, includeAll) && IdOf(variants[j]) == id) {
        assert front[j] == variants[j];
      }
      assert FirstSelected(variants, masks, includeAll, last);
    }
  }

  /** `list_rules(xkb_root, mask, include_non_kalamine_variants)` on the
      variants the two rules files hold. */
  function ListRules(variants: seq<Variant>, mask: string, includeAll: bool): (r: Result<seq<(string, string)>>)
    ensures r.Fail? <==> ParseMask(mask).Fail?
    ensures r.Ok? ==> r.value == Collect(variants, ParseMask(mask).value, includeAll)
  {
    match ParseMask(mask)
    case Fail(e) => Fail(e)
    case Ok(masks) => Ok(Collect(variants, masks, includeAll))
  }

  /** The empty mask lists every typed variant. */
  lemma EmptyMaskListsAll(variants: seq<Variant>, i: nat)
    requires i < |variants| && variants[i].typed
    ensures ListRules(variants, "", false).Ok?
    ensures Lookup(ListRules(variants, "", false).value, IdOf(variants[i])).Some?
  {
    assert Selected(variants[i], ("*", "*"), false);
  }
}
